=== FILE: README.md ===
# Schreibmaschine: a Dafny model of the writing-group room

Schreibmaschine is a server for writing workshops. Participants join a workshop group, see who is online, and play writing activities together. The best known is the rhyming chain, a "folded paper" game: every player starts a paper, and the papers travel round the group one line at a time. This project models the state logic behind a group's room and proves properties of it:

- **The rhyming game** (`RhymingGame`) and the activity layer that gates it (`Activities`, `Membership`). Each paper is an append-only turn log. The holder is the player at position `(max_turn - 1) mod N` of the turn order. Submitting and skipping re-check the holder and append one row. A paper is complete once it has at least `N` rows.
- **Presence and sessions.** `Sessions` covers the `online_sessions` table: login, heartbeat, logout, the online list and the expiry sweep. `SessionMiddleware` covers the per-request authentication chain and the login and logout guards. `AdminSessions` covers the admin token map with its 24-hour expiry.
- **The two event fan-out registries.** `SseManager` models the group-to-connections map of `src/routes/sse.ts`. `SseService` models the one in `src/services/sse.service.ts`, together with its event-stream serialiser. The serialiser is checked against a reader that follows section 9.2.5 ("Parsing an event stream") of the WHATWG HTML Living Standard: lines end at CRLF, LF or CR, and a blank line dispatches an event only when data was read. The round trip holds for events without carriage returns; a carriage return in the data cuts it short.
- **Pure utilities.**
  - `Slugify`: slug generation, validation and uniquing.
  - `UrlRouting`: URL classification and generation.
  - `Crypto`: short-id, UUID and token formats. The UUID layout is the 8-4-4-4-12 hex layout of section 3 of RFC 4122.
  - `Documents`: HTML escaping, optimistic versioning and access rules for documents.
  - `Pagination`, `Workshops` and `Participants`: the CRUD services' pagination and unique-slug rules.
  - `Env`: log-level ordering and the defaults of the real-time settings.
  - `TemplateFilters`: the template filters.
  - `ClientUtils`: the browser helpers of `public/js/common.js`.
  - `Text`, `Tables` and `Wrappers`: shared helpers for strings, tables and results.

How the model stands in for the running system:

- Database tables are immutable sequences of rows in insertion order.
- Queries are modelled by the rows they select and the aggregates they compute.
- Operations are pure functions from the old tables to the new ones, with the answer the service returns.
- Every error path returns a `Result` or `Option`. Where the source throws, the error carries the source's message.
- Time is an integer `now` in milliseconds, passed to each operation that reads the clock.
- Random bytes and fresh identifiers (UUIDs, short ids, tokens) are parameters.
- Whether a write to an event stream fails is decided by an oracle set of failing connections.

## Model

| member | source | states |
|---|---|---|
| RhymingGame.Ids | src/services/rhyming-game.service.ts:111 | the turn order is the list of participant ids, one per player, in join order |
| RhymingGame.IndexOf | src/services/rhyming-game.service.ts:111-115 | `indexOf` gives the first position of the id, and -1 exactly when it is absent |
| RhymingGame.IndexOfDistinct | src/services/rhyming-game.service.ts:111 | with distinct ids, every player's `indexOf` is their own position |
| RhymingGame.Rows | src/services/rhyming-game.service.ts:118-134 | the rows of one paper are exactly the log rows with its id; a paper with no rows has no group |
| RhymingGame.RowsAppend | src/services/rhyming-game.service.ts:118-134 | grouping by paper distributes over appending to the turn log |
| RhymingGame.Papers | src/services/rhyming-game.service.ts:118-134 | `GROUP BY paper_id` lists each paper once, and exactly the papers that have rows |
| RhymingGame.PapersSnoc | src/services/rhyming-game.service.ts:118-134 | a new row adds its paper to the list only when the paper is new |
| RhymingGame.MaxTurn | src/services/rhyming-game.service.ts:120 | `MAX(turn_number)` is an upper bound of the paper's turn numbers and is attained |
| RhymingGame.JsRem | src/services/rhyming-game.service.ts:142 | JavaScript `%` truncates: it agrees with the mathematical remainder on non-negative operands |
| RhymingGame.Holder | src/services/rhyming-game.service.ts:141-145 | the holder of a paper whose highest turn is m is `turnOrder[(m - 1) % n]`, always one of the players |
| RhymingGame.SkipFirst | src/services/rhyming-game.service.ts:146-165 | a paper the caller does not hold is passed over by the scan |
| RhymingGame.FirstHeldUnique | src/services/rhyming-game.service.ts:146-165 | the loop `break`s at the first held paper, so the offered paper is unique |
| RhymingGame.FirstAmongUnique | src/services/rhyming-game.service.ts:146-165 | among any list of papers the first one the caller holds is unique |
| RhymingGame.LastWritten | src/services/rhyming-game.service.ts:148-162 | the previous line is looked up at the highest turn and skipped rows are ignored; none exactly when no non-skip row has that turn |
| RhymingGame.NameOf | src/services/rhyming-game.service.ts:166-172 | `participants.find(...)?.display_name` names some player, and is undefined exactly when the id is missing or unknown |
| RhymingGame.HeldIndex | src/services/rhyming-game.service.ts:139-165 | the position where the loop breaks: the first paper the caller holds, or the end when they hold none |
| RhymingGame.WaitingShift | src/services/rhyming-game.service.ts:166-172 | recording the first paper's holder and reading the rest agrees with reading all papers backwards for the last named holder |
| RhymingGame.WaitingForLastHolder | src/services/rhyming-game.service.ts:141-172 | when the paper before the break has been written, `waitingFor` is the display name of the first player whose id is at `(max_turn - 1) % n`, never null |
| RhymingGame.Scan | src/services/rhyming-game.service.ts:139-173 | the scan offers the first paper the caller holds, numbered `max + 1` with its previous line, and nothing exactly when the caller holds none; `waitingFor` is the name of the holder of the last named paper before the break, or its start value |
| RhymingGame.MyPapers | src/services/rhyming-game.service.ts:176-202 | "my papers" lists every paper the caller started, once each when the papers are distinct, with its row count and complete exactly when the count reaches the player count |
| RhymingGame.MyPapersDistinct | src/services/rhyming-game.service.ts:176-190 | `GROUP BY at.paper_id` over distinct papers gives each paper at most one entry |
| RhymingGame.MyPapersStep | src/services/rhyming-game.service.ts:176-202 | one paper of the `HAVING` query keeps every listed entry correct and every started paper listed |
| RhymingGame.ListsCons | src/services/rhyming-game.service.ts:176-202 | a paper is listed in a longer list iff it heads it or is listed in the tail |
| RhymingGame.GetGameState | src/services/rhyming-game.service.ts:82-214 | an unknown caller is refused with the source's message; otherwise it is the caller's turn iff they hold some paper, the current paper is the first held one numbered `max + 1`, "my papers" lists exactly the papers the caller started, each once and with its row count, and `waitingFor` names the holder of the last named paper before the one offered, null when there is none |
| RhymingGame.NextIndex | src/services/rhyming-game.service.ts:259-262 | the next index wraps from the last player back to the first |
| RhymingGame.Play | src/services/rhyming-game.service.ts:219-321 | a turn is accepted iff the caller is a player and the paper is the one offered to them; it appends exactly one row numbered `max + 1` and names the next player in turn order |
| RhymingGame.OfferedIsFirstHeld | src/services/rhyming-game.service.ts:226-230 | the check in `submitLine` accepts precisely the paper `getGameState` offers |
| RhymingGame.SubmitLine | src/services/rhyming-game.service.ts:219-268 | submitting writes the content as a non-skip row on the offered paper, refusing every other call with one of the two messages |
| RhymingGame.SkipTurn | src/services/rhyming-game.service.ts:273-321 | skipping writes `SKIP` as a skip row on the offered paper, refusing every other call with one of the two messages |
| RhymingGame.StartRows | src/services/rhyming-game.service.ts:46-71 | one starting row is written per player |
| RhymingGame.InitializeGame | src/services/rhyming-game.service.ts:21-77 | no players is an error with the source's message; otherwise each player starts one paper with an empty turn-1 placeholder row, the old log is kept, and the turn order is the join order |
| RhymingGame.RowsOfDistinct | src/services/rhyming-game.service.ts:46-71 | a fresh paper's only row is its placeholder |
| RhymingGame.InitHoldsAtFirst | src/services/rhyming-game.service.ts:62-70 | after initialisation every new paper has highest turn 1 and is held by the first player |
| RhymingGame.FirstPlayerStarts | src/services/rhyming-game.service.ts:141-145 | in a fresh game it is a player's turn iff they are first in the turn order |
| RhymingGame.StartRowsHolder | src/services/rhyming-game.service.ts:62-70 | every paper of a fresh game is held by the first player |
| RhymingGame.ContiguousMax | src/services/rhyming-game.service.ts:163 | when turns are numbered 1, 2, … the highest turn is the row count |
| RhymingGame.InitKeepsContiguous | src/services/rhyming-game.service.ts:62-70 | initialisation keeps every paper's turns numbered 1, 2, … |
| RhymingGame.PlayKeepsContiguous | src/services/rhyming-game.service.ts:163 | an accepted turn keeps every paper's turns numbered 1, 2, … |
| RhymingGame.SnocKeepsContiguous | src/services/rhyming-game.service.ts:163 | a row numbered one past its paper's row count keeps numbering contiguous |
| RhymingGame.ModUnique | src/services/rhyming-game.service.ts:142 | the remainder is determined by quotient and bounds |
| RhymingGame.ModNext | src/services/rhyming-game.service.ts:142 | stepping the turn by one steps the holder index with wrap-around |
| RhymingGame.PlayPassesPaper | src/services/rhyming-game.service.ts:251-262 | after an accepted turn the paper has one more row, is held by the announced next player, and no other paper changes |
| RhymingGame.HolderAdvances | src/services/rhyming-game.service.ts:141-145 | the holder at turn m + 1 is the player after the holder at turn m |
| RhymingGame.CompletedAmong | src/services/rhyming-game.service.ts:399-412 | the `HAVING` query returns at most the papers it is given |
| RhymingGame.CompletedAmongAll | src/services/rhyming-game.service.ts:399-421 | all papers pass the `HAVING` filter iff each has at least n rows |
| RhymingGame.IsGameComplete | src/services/rhyming-game.service.ts:392-422 | the game is complete iff every paper has at least as many rows as there are players, and a game with no papers counts as complete |
| RhymingGame.CompletePaperStillOpen | src/services/rhyming-game.service.ts:226-230 | a paper that is already complete still accepts lines from its holder |
| RhymingGame.InsertByTurn | src/services/rhyming-game.service.ts:353-364 | inserting a row keeps the same rows plus the new one |
| RhymingGame.InsertKeepsSorted | src/services/rhyming-game.service.ts:353-364 | inserting into rows sorted by turn keeps them sorted |
| RhymingGame.SortByTurn | src/services/rhyming-game.service.ts:353-364 | `ORDER BY turn_number` is a permutation of the paper's rows in ascending turn order |
| RhymingGame.SortedIsFixed | src/services/rhyming-game.service.ts:353-364 | rows already in turn order come back unchanged |
| RhymingGame.Lines | src/services/rhyming-game.service.ts:373-381 | one line per row, carrying its turn number |
| RhymingGame.GetCompletedPapers | src/services/rhyming-game.service.ts:326-387 | one entry per paper whose lines are exactly that paper's rows (the same multiset), in ascending turn order |
| RhymingGame.LinesOfSorted | src/services/rhyming-game.service.ts:350-364 | ordering a paper's rows by turn number neither adds nor drops a line |
| RhymingGame.CompletedPapersInWritingOrder | src/services/rhyming-game.service.ts:326-387 | with contiguous numbering a completed paper reads in writing order 1, 2, … |
| Activities.PlayersOf | src/services/rhyming-game.service.ts:97-110 | the turn order holds only enrolled participants, and every enrolled participant with a `participants` row is in it |
| Activities.InOrderIsEnrolled | src/services/rhyming-game.service.ts:97-110 | whoever is in the turn order is enrolled in the activity |
| Activities.EnrolmentCount | src/services/activity.service.ts:44-50 | `COUNT(ap.participant_id)` is zero exactly when the activity has no enrolment rows |
| Activities.GetActivityById | src/services/activity.service.ts:43-54 | an unknown id gives null; otherwise the stored activity is returned |
| Activities.OrNull | src/services/activity.service.ts:336-338 | `x \|\| null` keeps a non-empty string and turns a missing or empty one into null |
| Activities.RhymingChainState | src/services/activity.service.ts:328-351 | a failing game query leaves the base state untouched; otherwise turn, current paper, papers and current player are copied from the game state, the previous line is the offered paper's previous line or null, the turn number is the offered paper's turn number unless it is 0 (`0 || null`), and the identity fields are kept |
| Activities.GetActivityState | src/services/activity.service.ts:60-100 | an unknown activity is refused; `isParticipant` is enrolment, `canParticipate` is enrolment of an active activity, only a rhyming chain can report a turn or papers, and for one whose game state is computed the turn, current paper, my papers, current player, previous line and turn number are those of the game state |
| Activities.TurnNeedsEnrolment | src/services/activity.service.ts:60-100 | a participant whose turn it is is always enrolled |
| Activities.GroupEnrolments | src/services/activity.service.ts:371-385 | the rows added for a new activity enrol exactly the members of its group |
| Activities.EnrolledAppend | src/services/activity.service.ts:371-385 | enrolment in a longer table is enrolment in either part |
| Activities.CreateActivity | src/services/activity.service.ts:106-139 | the id is the generated short id; the insert fails with SQLite's primary-key error exactly when that id is taken; otherwise a new activity starts in `setup` with the given group and type, its enrolments gain exactly the group's members, and no other activity changes |
| Activities.CreatedActivityEnrolsGroup | src/services/activity.service.ts:371-385 | when every row refers to a stored activity, a new activity enrols exactly its group's members and the rows keep referring to stored activities |
| Activities.CollidingShortIdFails | src/services/activity.service.ts:107-125 | a new activity whose generated short id is already taken is not created: the insert fails with the primary-key error |
| Activities.Patch | src/services/activity.service.ts:144-167 | an update changes the status only when one is given and never the id, group or type |
| Activities.UpdateActivity | src/services/activity.service.ts:144-203 | an empty update is refused with the source's message; otherwise the stored activity is patched, and setting a rhyming chain with players to `active` deals one fresh paper per player while every other update leaves the turns alone |
| Activities.ActivationDealsPapers | src/services/activity.service.ts:182-190 | each activation adds as many papers as there are players, even when a game already exists |
| Activities.PapersAfterFresh | src/services/rhyming-game.service.ts:46-71 | fresh distinct paper ids appear after the existing papers, in dealing order |
| Activities.OfferedPaper | src/services/activity.service.ts:391-403 | a refusal is "Not your turn" or "No paper assigned to this participant"; an offered paper id is non-empty |
| Activities.OfferedPaperIsPlayable | src/services/activity.service.ts:391-410 | the paper the activity layer extracts is the one the game accepts from that participant |
| Activities.PlayOn | src/services/activity.service.ts:405-429 | playing the offered paper appends one row to the activity's log and reports the next player in turn order |
| Activities.SubmitRhyme | src/services/activity.service.ts:387-434 | a rhyme is accepted iff a paper is offered, and then exactly one non-skip row is appended to that paper |
| Activities.SubmitToActivity | src/services/activity.service.ts:209-239 | missing, inactive and non-enrolled cases fail in that order with the source's messages; an individual pad is acknowledged without change; a rhyming chain accepts iff a paper is offered |
| Activities.SkipTurn | src/services/activity.service.ts:244-291 | only rhyming chains can skip; a skip is accepted iff a paper is offered and appends one `SKIP` row to it |
| Activities.SkipIgnoresStatus | src/services/activity.service.ts:244-264 | skipping does not check the activity's status, so a paused or completed chain still accepts a skip |
| Membership.TeamerIsMember | src/services/session.service.ts:272-282 | a teamer of a group is a member of it |
| Membership.RoleOf | src/services/session.service.ts:272-282 | the role is null exactly when the participant is not in the group, and otherwise is the role of one of their rows |
| Sessions.LoginToGroup | src/services/session.service.ts:14-54 | login always appends exactly one session, seen and created `now`, carrying a fresh token; it is multi-device iff the pair already had any session, however old |
| Sessions.Heartbeat | src/services/session.service.ts:59-69 | the heartbeat reports true iff the token exists and changes only `last_seen` of the sessions with that token |
| Sessions.Logout | src/services/session.service.ts:74-80 | logout reports true iff a session was removed, and removes exactly the sessions with that token |
| Sessions.SecondLogoutFails | src/services/session.service.ts:74-80 | logging out twice with the same token reports false the second time |
| Sessions.HeartbeatRevives | src/services/session.service.ts:59-69 | after a heartbeat the session stays live for the whole timeout |
| Sessions.CleanupExpired | src/services/session.service.ts:242-250 | the sweep deletes exactly the sessions seen before the cutoff and returns how many it deleted |
| Sessions.SweepKeepsLive | src/services/session.service.ts:102 | the sweep never deletes a live session, and a session seen exactly at the cutoff is neither online nor swept |
| Sessions.GetSessionInfo | src/services/session.service.ts:129-183 | null exactly when no live session with the token joins a participant and a group; otherwise the answer comes from such a session |
| Sessions.IsParticipantAuthorized | src/services/session.service.ts:255-267 | authorised iff the participant has a row in the group |
| Sessions.GetParticipantRole | src/services/session.service.ts:272-282 | null exactly for a participant who is not in the group, and otherwise the role of one of their rows |
| Sessions.LoginIsRecognised | src/services/session.service.ts:14-54 | a fresh login of a known participant into a known group is recognised by the session lookup at once |
| Sessions.LiveIn | src/services/session.service.ts:100-102 | the online list reads exactly the group's sessions seen after the cutoff |
| Sessions.OwnerIds | src/services/session.service.ts:103 | `GROUP BY p.id` yields each owner of a live session once |
| Sessions.LatestSeen | src/services/session.service.ts:97 | `MAX(os.last_seen)` bounds every live session of the participant and is attained by one |
| Sessions.Grouped | src/services/session.service.ts:92-123 | one entry per participant with a `participants` row, aggregating exactly their live sessions |
| Sessions.Insert | src/services/session.service.ts:104 | inserting an entry keeps the same entries plus the new one |
| Sessions.InsertKeepsOrder | src/services/session.service.ts:104 | inserting into a list ordered by `last_seen` descending keeps it ordered and free of duplicate participants |
| Sessions.SortByLastSeen | src/services/session.service.ts:104 | `ORDER BY last_seen DESC` is a permutation of the entries |
| Sessions.SortIsOrdered | src/services/session.service.ts:104 | the sorted list is ordered by `last_seen` descending and keeps participants distinct |
| Sessions.GetOnlineParticipants | src/services/session.service.ts:85-124 | the online list is ordered by latest sighting, names each participant once, and each entry aggregates only the group's live sessions |
| Sessions.OnlineListCoversLiveSessions | src/services/session.service.ts:92-104 | every live session of a known participant in the group puts them on the online list |
| Sessions.OnlineCountsLiveDevices | src/services/session.service.ts:97-102 | every listed participant has at least one device, seen after the cutoff |
| SessionMiddleware.Derive | src/middleware/session.ts:21-61 | no cookie token gives the anonymous context without touching the store; a request is authenticated iff the token is present, the heartbeat found its session, and the session lookup then succeeds; an authenticated context carries participant, group and token |
| SessionMiddleware.AuthenticatedIffSessionRowJoins | src/middleware/session.ts:33-53 | because the heartbeat runs before the lookup, a token authenticates iff some session row with it joins a participant and a group, however stale it was |
| SessionMiddleware.RequireAuth | src/middleware/session.ts:66-76 | the guard answers 401 "Authentication required" exactly when the request is unauthenticated |
| SessionMiddleware.RequireTeamer | src/middleware/session.ts:81-99 | a missing participant or group answers 401; otherwise the guard passes iff the role is `teamer` and answers 403 "Teamer access required" else |
| SessionMiddleware.AnonymousStoppedByBothGuards | src/middleware/session.ts:66-99 | an anonymous request is stopped with 401 by both guards |
| SessionMiddleware.TeamerGuardImpliesAuth | src/middleware/session.ts:81-99 | whoever passes the teamer guard also passes the authentication guard and is a member of the group |
| SessionMiddleware.GetDeviceInfo | src/middleware/session.ts:137-143 | the fingerprint is at most 121 characters, starts with the first 100 characters of the user agent (or `unknown-`), and ends with `-` followed by the first 20 characters of the language, or in `-` alone without a language |
| SessionMiddleware.DeviceInfoKeepsShortHeaders | src/middleware/session.ts:137-143 | short headers are kept whole: agent, `-`, language |
| SessionMiddleware.DeviceInfoCutsLongAgent | src/middleware/session.ts:142 | a long user agent is cut to its first 100 characters before the `-` |
| SessionMiddleware.LoginParticipant | src/middleware/session.ts:148-189 | a non-member is refused with the source's message and no session; login succeeds iff the participant is a member and the store does not fail, and then exactly one session is created and its token set as cookie |
| SessionMiddleware.LoginThenAuthenticated | src/middleware/session.ts:148-189 | the cookie a successful login sets authenticates the next request |
| SessionMiddleware.LogoutParticipant | src/middleware/session.ts:194-206 | a failing store reports false; otherwise logout reports whether a session was removed and the token no longer exists |
| SessionMiddleware.LoginRoute | src/middleware/session.ts:216-246 | a missing id answers 400 and a failed login 401, both without a session or cookie; the success message tells whether another device was detected |
| SessionMiddleware.UnenrolledLoginRefused | src/middleware/session.ts:156-167 | a non-member's login is answered 401 and creates no session |
| SessionMiddleware.LogoutRoute | src/middleware/session.ts:249-262 | without a session token logout answers 400 "No active session"; a successful logout removes the token |
| SessionMiddleware.AnonymousLogoutRejected | src/middleware/session.ts:249-254 | an unauthenticated request cannot log out |
| SessionMiddleware.SessionStatus | src/middleware/session.ts:265-276 | the status reports authenticated iff the context is, and reveals participant and group only then |
| AdminSessions.Authenticate | src/services/admin.service.ts:16-36 | an empty or wrong password is refused with nothing stored; a success returns an `admin_` token of 70 characters stored with created and last activity `now` |
| AdminSessions.Validate | src/services/admin.service.ts:41-62 | a token without the prefix or unknown is invalid; one older than 24 hours is deleted and invalid; a valid one has its last activity set to `now` |
| AdminSessions.SignInLastsOneDay | src/services/admin.service.ts:10 | a new admin token validates for exactly 24 hours after sign-in |
| AdminSessions.ActivityDoesNotExtend | src/services/admin.service.ts:53-57 | validating never extends the absolute expiry |
| AdminSessions.UpdateActivity | src/services/admin.service.ts:67-79 | the heartbeat succeeds iff validation does and then records `now` as last activity, keeping the creation time |
| AdminSessions.Logout | src/services/admin.service.ts:84-90 | logout reports true iff a non-empty token was stored, and removes it |
| AdminSessions.SecondLogoutFails | src/services/admin.service.ts:84-90 | logging out twice with the same token reports false the second time |
| AdminSessions.GetSessionInfo | src/services/admin.service.ts:95-114 | the info is valid iff validation succeeds, and then reports creation time and the refreshed last activity |
| AdminSessions.CleanupExpired | src/services/admin.service.ts:119-131 | the sweep removes exactly the expired sessions, keeps the others unchanged, and returns how many it removed |
| AdminSessions.ActiveSessionCount | src/services/admin.service.ts:136-139 | the count is the number of sessions left after the sweep, none of them expired |
| AdminSessions.CleanupKeepsValidity | src/services/admin.service.ts:119-131 | sweeping does not change which tokens validate |
| SseManager.Lookup | src/routes/sse.ts:54-55 | `activeConnections.get` is undefined exactly for a group without an entry |
| SseManager.Put | src/routes/sse.ts:32-34 | setting a group's entry changes that entry only and keeps one entry per group, as a `Map` does |
| SseManager.Drop | src/routes/sse.ts:66-68 | deleting a group's entry removes that entry only |
| SseManager.AddConnection | src/routes/sse.ts:27-45 | the group's set is created on demand and gains exactly one connection with `lastHeartbeat = now`; other groups are untouched |
| SseManager.FirstWith | src/routes/sse.ts:57-63 | the loop stops at the first connection with the controller, and finds none exactly when no connection has it |
| SseManager.RemoveFirst | src/routes/sse.ts:57-63 | removing by controller removes at most one connection |
| SseManager.RemoveFirstRemovesOne | src/routes/sse.ts:57-63 | exactly the first connection with a matching controller is removed, and nothing when there is none |
| SseManager.Place | src/routes/sse.ts:65-68 | a group whose set became empty loses its entry |
| SseManager.RemoveConnection | src/routes/sse.ts:50-69 | an unknown group is a no-op; otherwise the first matching connection is removed, the entry is dropped once empty, and other groups are untouched |
| SseManager.MaintainsNonEmptyGroups | src/routes/sse.ts:27-69 | adding and removing connections never leave an empty group entry |
| SseManager.EntriesAreLookups | src/routes/sse.ts:13-18 | every entry of the registry is what a lookup of its group returns |
| SseManager.Controllers | src/routes/sse.ts:79-88 | the controllers collected during a loop are those of the connections, in iteration order |
| SseManager.RemoveAll | src/routes/sse.ts:92-94 | removing the collected controllers one by one keeps one entry per group |
| SseManager.RemoveAllSettles | src/routes/sse.ts:92-94 | removing the collected controllers one by one touches only that group and drops it once empty |
| SseManager.RemoveAllOfAbsent | src/routes/sse.ts:54-55 | removals from an unknown group change nothing |
| SseManager.RemoveCollected | src/routes/sse.ts:79-94 | removing the controllers of the connections a test selects leaves exactly the connections the test rejects |
| SseManager.Refresh | src/routes/sse.ts:81-89 | every connection whose send succeeds gets `lastHeartbeat = now`; a failing one keeps its old value |
| SseManager.BroadcastToGroup | src/routes/sse.ts:74-95 | an unknown group gets nothing; otherwise the event is framed once as `data: …` plus a blank line and offered to every connection of the group |
| SseManager.BroadcastKeepsWorking | src/routes/sse.ts:81-94 | after a broadcast the group holds exactly its refreshed working connections, and other groups are untouched |
| SseManager.BroadcastRemovesExactlyFailed | src/routes/sse.ts:81-94 | a connection whose send failed is gone after the broadcast, and one whose send succeeded is still there with `lastHeartbeat = now` |
| SseManager.SurvivorsOfSend | src/routes/sse.ts:81-94 | a failed send removes the connection and a successful one keeps it refreshed |
| SseManager.AllConnections | src/routes/sse.ts:134-144 | iterating the map visits every connection of every group |
| SseManager.SendHeartbeat | src/routes/sse.ts:126-145 | a heartbeat is sent to every connection, once each, and removes nothing even when sending fails |
| SseManager.HeartbeatSends | src/routes/sse.ts:134-144 | one heartbeat send per connection, in iteration order |
| SseManager.CleanupGroups | src/routes/sse.ts:153-165 | sweeping groups one after another keeps one entry per group |
| SseManager.SweepGroup | src/routes/sse.ts:154-164 | sweeping one group keeps one entry per group |
| SseManager.SweepGroupKeepsFresh | src/routes/sse.ts:154-164 | sweeping one group keeps exactly its connections with `lastHeartbeat` at or after the threshold, and no other group changes |
| SseManager.CleanupGroupsSweeps | src/routes/sse.ts:153-165 | each listed group is swept once; unlisted groups keep their connections |
| SseManager.SweepFirst | src/routes/sse.ts:153-165 | sweeping the first group leaves the remaining ones ready to sweep |
| SseManager.IdsAreKeys | src/routes/sse.ts:153 | the loop visits exactly the groups that have an entry |
| SseManager.KeysAreSweepable | src/routes/sse.ts:153-165 | every group of a registry without empty entries can be swept |
| SseManager.CleanupStaleConnections | src/routes/sse.ts:150-166 | the sweep keeps one entry per group |
| SseManager.CleanupRemovesExactlyStale | src/routes/sse.ts:150-166 | the sweep removes exactly the connections with `lastHeartbeat < now - timeout`, drops groups left empty, and adds none |
| SseManager.HeartbeatsDoNotKeepAlive | src/routes/sse.ts:126-156 | heartbeats do not refresh `lastHeartbeat`, so the sweep with the default `ONLINE_STATUS_TIMEOUT` drops a connection last reached by a broadcast longer ago than the timeout, even after heartbeats |
| SseManager.SweepAllKeys | src/routes/sse.ts:150-166 | every group with an entry is swept with the threshold `now - timeout` |
| SseManager.Size | src/routes/sse.ts:178-182 | the running total is the number of connections over all groups |
| SseManager.GetStats | src/routes/sse.ts:171-185 | the total is the number of connections, and there is one count per group equal to its set's size |
| SseManager.StatsCountHeartbeatSends | src/routes/sse.ts:126-185 | the total reported by the stats is the number of heartbeat sends |
| SseManager.OpenStream | src/routes/sse.ts:204-255 | an unauthenticated caller gets 401 and one from another group 403, both without a connection; otherwise exactly one connection is registered for the group |
| SseManager.OtherGroupForbidden | src/routes/sse.ts:210-213 | an authenticated member of another group is refused with 403 |
| SseManager.AdminBroadcast | src/routes/sse.ts:278-302 | without an event type the broadcast is refused with 400 and nothing changes; otherwise the event goes to the group |
| SseManager.AdminBroadcastDelivers | src/routes/sse.ts:278-302 | with a non-empty event type, every connection of the group survives, refreshed to `now`, iff its send works; the other groups are unchanged and the answer is a success |
| SseManager.AdminBroadcastToIdleGroup | src/routes/sse.ts:278-302 | for a group without connections nothing changes, and the answer is a success iff the event type is non-empty |
| SseService.FormatMessage | src/services/sse.service.ts:94-121 | the message starts with an `id:` line iff the id is set, and always ends with a line feed |
| SseService.DataFieldLines | src/services/sse.service.ts:111-114 | one `data: ` line per segment of the data, in order |
| SseService.DataLinesAreLines | src/services/sse.service.ts:111-114 | the data part is the `data: ` lines written one after another |
| SseService.LinesTextAppend | src/services/sse.service.ts:95-118 | appending lines to the message appends their text |
| SseService.LinesTextIsJoin | src/services/sse.service.ts:117-118 | lines each ended by a line feed, plus the final line feed, are the lines followed by two empty ones joined with line feeds |
| SseService.FormatIsLines | src/services/sse.service.ts:94-121 | the message is its optional `id:` line, optional `event:` line and data lines, each ended by a line feed, then one empty line |
| SseService.MessageLines | src/services/sse.service.ts:117-120 | split at line feeds, the message is its non-empty field lines followed by exactly one blank line and the empty rest |
| SseService.MessageParts | src/services/sse.service.ts:97-118 | the split message lists the `id:` line, then the `event:` line, then the data lines, then the blank line |
| SseService.ColonAt | src/services/sse.service.ts:94-121 | the field name of a received line is everything before its first colon, as section 9.2.5 of the WHATWG HTML Living Standard reads it |
| SseService.ReadDataLines | src/services/sse.service.ts:111-114 | a reader collecting `data: ` lines appends their values, in order, to its data buffer |
| SseService.ReadBuffers | src/services/sse.service.ts:94-121 | read at line feeds, the message fills the reader's buffers with the set id, the set type and the data lines, which joined with line feeds give the data string |
| SseService.StreamLinesAtLineFeeds | src/services/sse.service.ts:117-120 | without carriage returns, the lines of section 9.2.5 are the pieces between line feeds |
| SseService.NoCarriageReturnInMessage | src/services/sse.service.ts:94-121 | an event without carriage returns is serialised without any |
| SseService.Dispatch | src/services/sse.service.ts:94-121 | a reader dispatches iff a data line was read, with the received type or `message` when none or an empty one was received |
| SseService.ReadBack | src/services/sse.service.ts:94-121 | for an event without carriage returns, a reader following section 9.2.5 of the WHATWG HTML Living Standard keeps the id iff it was set, dispatches iff there is data, and then dispatches the set type (or `message`) with exactly the original data string |
| SseService.CarriageReturnCutsData | src/services/sse.service.ts:111-114 | data split at line feeds only is cut at a carriage return: a reader dispatches only the text before it |
| SseService.AddConnection | src/services/sse.service.ts:23-28 | the group's set is created on demand and gains the stream; other groups are untouched |
| SseService.Place | src/services/sse.service.ts:156-160 | a group whose set is empty is deleted, otherwise its entry is replaced |
| SseService.RemoveConnection | src/services/sse.service.ts:33-41 | an unknown group is a no-op; otherwise the stream is removed and the group deleted once its set is empty; no empty group is ever created |
| SseService.RemoveUndoesAdd | src/services/sse.service.ts:23-41 | removing a stream just added restores the map |
| SseService.ConnectionCount | src/services/sse.service.ts:80-82 | the count is 0 exactly for an unknown group or an empty set |
| SseService.CountFollowsAddAndRemove | src/services/sse.service.ts:23-41 | adding a new stream raises the count by one and removing it lowers it back |
| SseService.ActiveGroups | src/services/sse.service.ts:87-89 | the active groups are exactly those with at least one stream |
| SseService.BroadcastToGroup | src/services/sse.service.ts:46-66 | an unknown group gets nothing; otherwise the event is formatted once and written to every stream of the group, and exactly the streams whose writer throws are removed |
| SseService.PruneKeepsNonEmpty | src/services/sse.service.ts:33-41 | removing broken streams never leaves an empty group |
| SseService.PartialIsPrune | src/services/sse.service.ts:55-65 | once every stream has been tried, the group has lost exactly its broken streams |
| SseService.SendToParticipant | src/services/sse.service.ts:71-75 | sending to one participant is a broadcast to the whole group |
| SseService.SendHeartbeat | src/services/sse.service.ts:126-135 | the heartbeat is broadcast to every active group, each of which loses its broken streams |
| SseService.Cleanup | src/services/sse.service.ts:140-161 | each group keeps exactly its working streams and is deleted when none work |
| SseService.HeartbeatIsCleanup | src/services/sse.service.ts:126-161 | on a map without empty groups a heartbeat prunes the same streams as `cleanup` |
| SseService.CleanupIdempotent | src/services/sse.service.ts:140-161 | a second cleanup with the same broken streams changes nothing |
| SseService.BroadcastAfterCleanupKeepsAll | src/services/sse.service.ts:46-66 | after a cleanup, a broadcast with the same broken streams removes nothing |
| Slugify.Transliterate | src/utils/slugify.ts:17-62 | lower-casing and the umlaut and accent replacements keep `[a-z0-9_]` unchanged and produce only the character itself or ASCII letters |
| Slugify.CollapseSeparators | src/utils/slugify.ts:64 | every run of characters outside `[a-z0-9]` becomes one `_`: the result uses only `[a-z0-9_]`, never contains `__`, and starts with `_` only where the input starts with a separator |
| Slugify.SubstringKeepsShape | src/utils/slugify.ts:66 | cutting underscores off the ends keeps the alphabet and the absence of `__` |
| Slugify.Slugify | src/utils/slugify.ts:14-68 | the output contains only `[a-z0-9_]`, has no leading or trailing `_`, and never contains `__` |
| Slugify.TrimmedIsSlug | src/utils/slugify.ts:66 | removing leading and trailing underscores from a collapsed string gives a slug-shaped string |
| Slugify.FoldIdentity | src/utils/slugify.ts:17-62 | lower-casing and transliteration leave `[a-z0-9_]` text unchanged |
| Slugify.CollapseIdentity | src/utils/slugify.ts:64 | collapsing leaves text without separators runs unchanged |
| Slugify.SlugifyFixesSlugs | src/utils/slugify.ts:14-68 | a slug-shaped string is its own slug |
| Slugify.SlugifyIdempotent | src/utils/slugify.ts:14-68 | `slugify(slugify(x)) == slugify(x)` |
| Slugify.TailEquivalence | src/utils/slugify.ts:100 | the tail of the slug pattern `(?:_[a-z0-9]+)*` matches exactly the `[a-z0-9_]` strings without `__` that do not end in `_` |
| Slugify.SlugPatternEquivalence | src/utils/slugify.ts:100 | `^[a-z0-9]+(?:_[a-z0-9]+)*$` matches exactly the non-empty slug-shaped strings |
| Slugify.SlugifyIsValid | src/utils/slugify.ts:63-66 | a non-empty slugify output of at most 100 characters passes `isValidSlug` |
| Slugify.Filter | src/utils/slugify.ts:80 | removing special characters keeps only the characters the test admits, and never lengthens the text |
| Slugify.NonEmptyWords | src/utils/slugify.ts:82 | the filter keeps only non-empty words, each one of the split's words |
| Slugify.ShortSlugWords | src/utils/slugify.ts:78-82 | the words of the short slug are non-empty and made of `[a-z0-9]` |
| Slugify.AppendInitials | src/utils/slugify.ts:89-91 | the loop appends the initials of the following words while the slug is shorter than 6, keeping what came before |
| Slugify.ShortSlugOf | src/utils/slugify.ts:86-93 | the short slug is the first two characters of the first word followed by initials of the next words, `min(6, …)` characters in all |
| Slugify.CreateShortSlug | src/utils/slugify.ts:77-94 | no words give `slug`; otherwise the result is the short slug of the words; always 1 to 6 characters of `[a-z0-9]` |
| Slugify.ShortSlugAlphabet | src/utils/slugify.ts:86-93 | a short slug uses only `[a-z0-9]` |
| Slugify.CandidateInjective | src/utils/slugify.ts:116 | different counters give different candidates `base_k` |
| Slugify.FirstFreeSuffix | src/utils/slugify.ts:113-118 | the loop stops at the smallest counter whose candidate is free, and terminates |
| Slugify.MakeUniqueSlug | src/utils/slugify.ts:111-121 | the result is never among the existing slugs; it is the base when the base is free, and otherwise `base_k` for the smallest free k ≥ 1 |
| Slugify.CapitalizeAll | src/utils/slugify.ts:133 | each part has its first character replaced by its upper case (`SS` for a sharp s) and the rest kept |
| Slugify.SlugToText | src/utils/slugify.ts:130-135 | for a slug without spaces (every output of slugify), one space-separated word per `_`-separated part: an empty part stays empty, any other starts with the upper case of its first character followed by the rest of the part |
| Slugify.SlugToTextWords | src/utils/slugify.ts:130-135 | splitting the text at spaces gives back the capitalised parts |
| Crypto.CharRange | src/utils/crypto.ts:19 | the alphabet pieces are runs of consecutive characters |
| Crypto.AlphabetIsAsciiAlnum | src/utils/crypto.ts:19 | the 62-character alphabet holds exactly the ASCII letters and digits |
| Crypto.ShortIdLength | src/utils/crypto.ts:20 | the length is 2 or 3 |
| Crypto.GenerateShortId | src/utils/crypto.ts:18-34 | the id has one character per random byte, each `chars[byte % 62]`, and passes `isValidShortId` |
| Crypto.ShortIdGeneratorIsOnto | src/utils/crypto.ts:18-34 | every valid short id can be generated |
| Crypto.AlphabetIndex | src/utils/crypto.ts:19 | each letter or digit has an index in the alphabet |
| Crypto.HexDigit | src/utils/crypto.ts:42 | a nibble prints as a lower-case hex digit |
| Crypto.HexValue | src/utils/crypto.ts:42 | a lower-case hex digit reads back as its nibble |
| Crypto.ByteToHex | src/utils/crypto.ts:42 | `toString(16).padStart(2, '0')` prints both nibbles of the byte, high first |
| Crypto.HexEncode | src/utils/crypto.ts:42 | the bytes print as twice as many lower-case hex digits |
| Crypto.HexDecode | src/utils/crypto.ts:42 | a decoded string has two digits per byte |
| Crypto.HexDecodeEncode | src/utils/crypto.ts:42 | hex-decoding the printed bytes gives them back |
| Crypto.ByteDigitsRoundTrip | src/utils/crypto.ts:42 | the two digits of a byte read back as the byte |
| Crypto.GenerateToken | src/utils/crypto.ts:39-52 | a session or admin token is 64 lower-case hex digits that decode back to the 32 random bytes |
| Crypto.UuidLayoutEquivalence | src/utils/crypto.ts:71-74 | `isValidUUID` holds iff the string has 36 characters with hyphens at 8, 13, 18 and 23 and hex digits of either case elsewhere |
| Crypto.JoinFive | src/utils/crypto.ts:72 | five groups joined with hyphens are the UUID layout's concatenation |
| Crypto.UuidCharAt | src/utils/crypto.ts:72 | in five joined hex groups of sizes 8-4-4-4-12, the hyphen positions hold `-` and every other position a hex digit |
| Crypto.HexGroups | src/utils/crypto.ts:72 | 32 hex digits cut into five groups |
| Crypto.FormatUuid | src/utils/crypto.ts:10-12 | 16 bytes printed in the 8-4-4-4-12 layout pass `isValidUUID` and carry the bytes' hex digits in order |
| Crypto.GroupsLayout | src/utils/crypto.ts:72 | 32 hex digits joined as five groups have the UUID layout and keep their order |
| Crypto.GenerateId | src/utils/crypto.ts:10-12 | a generated id is a valid UUID with version digit 4 and a variant digit among `8`, `9`, `a`, `b` |
| Crypto.StampVersion | src/utils/crypto.ts:10-12 | the version and variant bits are set and every other bit of the random bytes is kept |
| Crypto.UuidNibbles | src/utils/crypto.ts:10-12 | positions 14 and 19 of a formatted UUID show the high nibbles of bytes 6 and 8 |
| Crypto.HexEncodeAt | src/utils/crypto.ts:42 | byte k prints at positions 2k and 2k + 1 |
| UrlRouting.CleanPath | src/services/url.service.ts:26 | stripping leaves no leading or trailing `/` |
| UrlRouting.Segments | src/services/url.service.ts:26-27 | splitting at `/` always yields at least one segment |
| UrlRouting.ClassifyPath | src/services/url.service.ts:18-46 | the short form is chosen iff the path is one segment `gruppe-X` with a valid short id X; the semantic form takes the first two segments when both are valid slugs, ignoring further ones; every other path resolves to nothing |
| UrlRouting.EffectiveGroupSlug | src/services/url.service.ts:228 | a non-empty `slug_override` wins, otherwise the writing group's slug is used |
| UrlRouting.GenerateUrls | src/services/url.service.ts:223-238 | `full_semantic_url` is `/w/g` with the effective group slug, `short_url` is `/gruppe-` plus the short id, and `lobby_url` is the semantic URL plus `/vorraum` |
| UrlRouting.ShouldRedirectToLobby | src/services/url.service.ts:244-276 | no redirect when authenticated or already in the lobby; otherwise a redirect to `/w/g/vorraum` exactly for paths of two non-empty segments |
| UrlRouting.ValidSlugIsSegmentSafe | src/utils/slugify.ts:99-102 | a valid slug is non-empty and contains no `/` |
| UrlRouting.SegmentsOfJoined | src/services/url.service.ts:26-27 | a path built from non-empty segments without `/` splits back into those segments |
| UrlRouting.JoinFirstLast | src/services/url.service.ts:26 | a path joined from non-empty segments starts and ends with their characters, not with `/` |
| UrlRouting.JoinTwo | src/services/url.service.ts:234 | joining two segments gives the `/w/g` form |
| UrlRouting.JoinThree | src/services/url.service.ts:236 | joining three segments gives the `/w/g/vorraum` form |
| UrlRouting.ClassifySemantic | src/services/url.service.ts:37-43 | a path whose first two segments are valid slugs resolves in the semantic form to those two |
| UrlRouting.SemanticUrlClassifies | src/services/url.service.ts:223-238 | the generated semantic URL resolves back to its workshop and group slugs |
| UrlRouting.LobbyUrlClassifies | src/services/url.service.ts:223-238 | the generated lobby URL also resolves to its workshop and group, the third segment being ignored |
| UrlRouting.ShortUrlClassifies | src/services/url.service.ts:29-35 | the generated short URL of a valid short id resolves in the short form to that id |
| UrlRouting.ShortUrlSegments | src/services/url.service.ts:235 | the short URL is one segment |
| UrlRouting.SemanticUrlRedirectsToLobby | src/services/url.service.ts:234-271 | for slugs without `/`, an unauthenticated request for the semantic URL redirects to the lobby URL, and the lobby URL itself does not redirect |
| UrlRouting.SegmentCleanPath | src/services/url.service.ts:26-27 | the segments joined with `/` are the cleaned path |
| UrlRouting.NoSlashEnding | src/services/url.service.ts:253 | a two-segment path whose group is not `vorraum` does not look like a lobby |
| UrlRouting.LobbyNotRedirected | src/services/url.service.ts:253-255 | the lobby URL of any group is never redirected |
| UrlRouting.AppendEndsWith | src/services/url.service.ts:236 | a string with a suffix appended ends with it |
| UrlRouting.VorraumGroupIsNotRedirected | src/services/url.service.ts:253-255 | a group whose slug is `vorraum` is taken for a lobby, so its semantic URL is never redirected |
| UrlRouting.LeadingSlashClean | src/services/url.service.ts:250 | cleaning `/` plus a body without edge slashes gives the body |
| UrlRouting.GeneratedSlugIsFound | src/services/url.service.ts:164-168 | the group slug of the generated URLs is one the semantic query finds the group by, unless the override is empty |
| UrlRouting.EmptyOverrideIsNotFound | src/services/url.service.ts:164-168 | an empty override counts as unset for the URLs but as set for the query, so such a group's semantic URL finds nothing |
| Documents.FindById | src/services/document.service.ts:296-299 | the lookup is null exactly for an unknown id and otherwise returns a row with that id |
| Documents.FindByIdAt | src/services/document.service.ts:296-299 | with unique ids, looking up a row's id returns that row |
| Documents.ActivityKey | src/services/document.service.ts:26-57 | a falsy activity id counts as none (`IS NULL`, `activityId \|\| null`), a non-empty one as itself |
| Documents.FindIndividual | src/services/document.service.ts:22-31 | the lookup finds the first individual document of the participant, group and activity, and nothing exactly when there is none |
| Documents.SaveIndividualDocument | src/services/document.service.ts:16-66 | an existing individual document for the key gets the new content and nothing else changes; otherwise a new individual document with version 1 and the generated short id is appended, and the insert fails with the primary-key error exactly when that id is already taken |
| Documents.SaveKeepsInvariants | src/services/document.service.ts:16-66 | a save that succeeds keeps ids unique and at most one individual document per participant, group and activity |
| Documents.SecondSaveUpdates | src/services/document.service.ts:33-42 | once a first save succeeds, a second for the same key cannot fail, updates the same document and appends nothing |
| Documents.CollidingShortIdFails | src/services/document.service.ts:43-62 | a new document whose generated short id is already taken is not saved: the insert fails with the primary-key error |
| Documents.HasDocumentAccess | src/services/document.service.ts:99-115 | no access to a missing document; an individual document is readable by its owner, a collaborative one by every group member |
| Documents.IndividualAccessIsOwnerOnly | src/services/document.service.ts:103-106 | only the owner may read an individual document |
| Documents.CanDeleteDocument | src/services/document.service.ts:255-271 | a missing document cannot be deleted; the owner of an individual document or a teamer of the group may delete |
| Documents.DeleterOfSharedDocumentHasAccess | src/services/document.service.ts:255-271 | whoever may delete a collaborative document may also read it |
| Documents.RemoveId | src/services/document.service.ts:282-283 | `DELETE … WHERE id = ?` removes exactly the rows with the id |
| Documents.DeleteDocument | src/services/document.service.ts:276-292 | deleting an unknown id fails with "Document not found"; otherwise exactly that document is removed |
| Documents.ApplyCollaborativeOperations | src/services/document.service.ts:120-175 | a missing document fails; a version mismatch reports failure with the current version and changes nothing; a match stores and returns version + 1, touching no other document |
| Documents.SameBaseVersionConflicts | src/services/document.service.ts:134-141 | a second update from the same base version conflicts and changes nothing |
| Documents.ParseExportFormat | src/services/document.service.ts:200-212 | only `markdown`, `html` and `json` are accepted; every other format fails with "Unsupported export format" |
| Documents.MarkdownSection | src/services/document.service.ts:307-310 | each document's section starts with a `## ` heading and ends with the `---` rule |
| Documents.ExportAsMarkdown | src/services/document.service.ts:301-314 | the export starts with the `# Schreibgruppe Export` header |
| Documents.MarkdownSections | src/services/document.service.ts:301-314 | the export is the header followed by one section per document, in order |
| Documents.SectionsSnoc | src/services/document.service.ts:306-311 | each further document appends exactly its own section |
| Documents.MarkdownEndsWithRule | src/services/document.service.ts:310 | an export with documents ends with the `---` rule |
| Documents.ReplaceAll | src/services/document.service.ts:355-360 | after replacing every occurrence of a character by a text without it, the character is gone |
| Documents.EscapeEach | src/services/document.service.ts:354-361 | escaping character by character leaves no raw `<`, `>`, `"` or `'` |
| Documents.ReplaceAllConcat | src/services/document.service.ts:355-360 | a global replace distributes over concatenation |
| Documents.EscapeHtmlIsPerCharacter | src/services/document.service.ts:354-361 | the five replacements in their order escape each character on its own; `&` goes first, so no entity is escaped twice |
| Documents.EscapeHtmlConcat | src/services/document.service.ts:354-361 | escaping distributes over concatenation |
| Documents.EscapeCharChain | src/services/document.service.ts:354-361 | the chain of replacements turns one character into its entity or leaves it alone |
| Documents.EscapeHtmlRoundTrip | src/services/document.service.ts:354-361 | escaped text contains no raw `<`, `>`, `"` or `'`, and decoding the five entities gives back the input |
| Documents.UnescapeEach | src/services/document.service.ts:354-361 | decoding per-character escaping gives back the input |
| Pagination.TotalPages | src/services/participant.service.ts:56 | `Math.ceil(total / limit)`: none (not a finite number) for a limit of 0; for a positive limit the least count of pages covering every row; for a negative limit the ceiling of the negative quotient, at most 0 |
| Pagination.TotalPagesIsLeast | src/services/workshop.service.ts:58 | no smaller page count covers the rows |
| Pagination.Paginate | src/services/workshop.service.ts:25-61 | offset is `(page - 1) * limit`, there is a next page iff `page * limit < total`, a previous one iff `page > 1`, and the page count is the ceiling |
| Pagination.HasNextIffBeforeLastPage | src/services/workshop.service.ts:58-59 | there is a next page iff the page is before the last one |
| Pagination.PageRows | src/services/participant.service.ts:42 | `LIMIT ? OFFSET ?` under SQLite: no rows when the offset is at or past the end; otherwise the rows from the offset, at most `limit` of them for a limit of 0 or more and all the rest for a negative limit |
| Pagination.Offset | src/services/participant.service.ts:23 | the offset SQLite applies is `(page - 1) * limit`, or 0 when that is negative |
| Pagination.NegativeLimitReturnsAll | src/services/participant.service.ts:23-57 | a negative limit on page 1 returns every row and a page count of 0 or less |
| Pagination.ZeroLimitIsEmpty | src/services/participant.service.ts:23-57 | a limit of 0 returns no rows, has no finite page count, and reports a next page iff there is any row |
| Pagination.PageBeforeFirstReadsFirst | src/services/participant.service.ts:23-42 | with a positive limit, page 0 or a negative page returns the rows of page 1 |
| Pagination.EveryRowHasAPage | src/services/workshop.service.ts:25-58 | every row appears on some page within the page count |
| Pagination.PastLastPageIsEmpty | src/services/workshop.service.ts:25-59 | a page past the last is empty and has no next page |
| Workshops.SlugsExcept | src/services/workshop.service.ts:181-182 | the slugs read are exactly those of the workshops other than the excluded one |
| Workshops.FindById | src/services/workshop.service.ts:68-77 | a string that is not a UUID finds nothing; otherwise the workshop with that id, if any |
| Workshops.FindBySlug | src/services/workshop.service.ts:82-91 | an invalid slug finds nothing; otherwise a workshop with that slug, if any |
| Workshops.FindBySlugFindsOwner | src/services/workshop.service.ts:82-91 | with unique slugs, a valid slug finds the workshop that owns it |
| Workshops.FindAll | src/services/workshop.service.ts:23-63 | a page holds at most `limit` matching workshops, and its pagination counts all matching workshops |
| Workshops.Create | src/services/workshop.service.ts:134-155 | a new workshop in `planning` is appended, with a fresh UUID and the requested or slugified slug made unique, so its slug differs from every existing one |
| Workshops.RequestedSlug | src/services/workshop.service.ts:136 | `data.slug \|\| slugify(data.name)` |
| Workshops.CreateKeepsInvariants | src/services/workshop.service.ts:134-155 | creating keeps ids and slugs unique, and the new workshop is found by its id |
| Workshops.SnocKeepsUnique | src/services/workshop.service.ts:143-147 | appending a workshop with a new id and a new slug keeps both unique |
| Workshops.IdFindsRow | src/services/workshop.service.ts:68-77 | with unique ids, each workshop is found by its own UUID |
| Workshops.AvailableSlugIsKept | src/services/workshop.service.ts:136-140 | an available requested slug is used unchanged |
| Workshops.Update | src/services/workshop.service.ts:160-205 | an unknown id gives null; no fields give the existing row unchanged; otherwise each given field is set, a given slug is made unique against the other workshops, and no other workshop changes |
| Workshops.UpdateKeepsInvariants | src/services/workshop.service.ts:160-205 | updating keeps ids and slugs unique |
| Workshops.ReplaceKeepsUnique | src/services/workshop.service.ts:201-202 | replacing a row by one with the same id and a slug no other row has keeps both unique |
| Workshops.Delete | src/services/workshop.service.ts:210-232 | an unknown id gives false; a workshop with an active or paused group fails with the source's message; otherwise exactly that workshop is removed |
| Workshops.IsSlugAvailable | src/services/workshop.service.ts:276-291 | an invalid slug is never available; a valid one is available iff no workshop other than the excluded one has it |
| Workshops.AvailableIffNotFound | src/services/workshop.service.ts:276-291 | without an exclusion, a valid slug is available iff looking it up finds nothing |
| Participants.FindAll | src/services/participant.service.ts:21-61 | for any integer page and limit the route passes on: a page holds at most `limit` participants when the limit is 0 or more and every match for a negative limit on page 1; each is a matching participant; the pagination counts all matches with the same ceiling and has-next/has-prev rules |
| Participants.FindById | src/services/participant.service.ts:66-75 | a string that is not a UUID finds nothing; otherwise the participant with that id, if any |
| Participants.FindByIdFindsRow | src/services/participant.service.ts:66-75 | with unique ids, each participant with a UUID id is found by it |
| Participants.Update | src/services/participant.service.ts:188-218 | an unknown id gives null; no fields give the existing row unchanged; otherwise the given names are set, the others kept, ids stay unique and no other participant changes |
| Participants.Delete | src/services/participant.service.ts:223-246 | an unknown id gives false; a participant in an active or paused group fails with the source's message; otherwise exactly that participant is removed and the result is true |
| Participants.Errors | src/services/participant.service.ts:338-344 | each reported error carries the index, the thrown message and the input at that index, in increasing index order |
| Participants.CreateMany | src/services/participant.service.ts:331-347 | each input is either created (appended to the table) or reported as an error, never both, in input order |
| Participants.EveryFailureReported | src/services/participant.service.ts:334-345 | every input whose creation throws appears in the error list |
| Participants.EveryInputAccountedFor | src/services/participant.service.ts:334-347 | created and errors together count every input exactly once |
| Participants.DisplayNameExists | src/services/participant.service.ts:353-357 | true iff some participant's display name equals the given one under `LOWER` |
| Participants.DisplayNameExistsIgnoresCase | src/services/participant.service.ts:354 | the answer does not depend on the case of the query, and every stored display name exists |
| Env.IndexOf | src/config/env.ts:74-75 | `indexOf` gives the first position of the value, and -1 exactly when it is absent |
| Env.ShouldLogBySeverity | src/config/env.ts:72-77 | a message is logged iff its level is at least as severe as the configured one, in the order debug < info < warn < error |
| Env.ErrorsAlwaysLogged | src/config/env.ts:72-77 | `error` messages are logged under every configured level |
| Env.DebugLogsEverything | src/config/env.ts:72-77 | under `debug` every message is logged |
| Env.ShouldLogMonotone | src/config/env.ts:72-77 | a less severe configured level logs everything a more severe one does |
| TemplateFilters.Truncate | src/services/template.service.ts:90-93 | empty text or text within the length is returned unchanged; longer text becomes its first `length` characters followed by `...` |
| TemplateFilters.TruncateBound | src/services/template.service.ts:90-93 | the result never exceeds `length + 3` characters and is only longer than the input when it was cut |
| TemplateFilters.Capitalize | src/services/template.service.ts:96-99 | the first character is replaced by its upper case and the rest are kept, so the length is unchanged except that a leading sharp s becomes `SS` |
| TemplateFilters.CapitalizeIdempotent | src/services/template.service.ts:96-99 | capitalising twice is the same as once |
| TemplateFilters.ActivityStatusLabel | src/services/template.service.ts:107-115 | the four statuses get their German labels and any other status is shown as is (inherited object members aside, see Left out) |
| TemplateFilters.ActivityStatusLabelInjective | src/services/template.service.ts:108-113 | distinct known statuses get distinct labels |
| TemplateFilters.ParticipantCount | src/services/template.service.ts:118-121 | the count in decimal followed by ` Teilnehmer`, including for 1 |
| ClientUtils.JsRemainder | public/js/common.js:55 | JavaScript's `%`: the remainder has the sign of the dividend |
| ClientUtils.FormatTimeRemaining | public/js/common.js:53-57 | minutes, a colon and the padded seconds |
| ClientUtils.FormatTimeRoundTrip | public/js/common.js:53-57 | for non-negative seconds the text reads back as `m:ss` to the same number of seconds |
| ClientUtils.FormatNegativeSecond | public/js/common.js:54-56 | a negative input is not guarded: -1 seconds gives `-1:-1` |
| ClientUtils.CountWords | public/js/common.js:62-64 | zero exactly when the trimmed text is empty |
| ClientUtils.CountWordsCountsRuns | public/js/common.js:62-64 | the count is the number of maximal runs of non-whitespace characters |
| ClientUtils.Assign | public/js/common.js:17 | spreading one key over an options object overwrites it in place or appends it, and keeps every other entry and the key order |
| ClientUtils.LookupAssign | public/js/common.js:17 | after assigning a key, looking it up gives the new value and every other key its old one |
| ClientUtils.SpreadOverrides | public/js/common.js:17 | `{ ...defaults, ...options }`: a key given in the options wins over the default |
| ClientUtils.SetCookie | public/js/common.js:11-27 | the cookie string starts with `name=value` |
| ClientUtils.SetCookieDefaults | public/js/common.js:12-24 | without options the cookie carries `path=/` and a seven-day `maxAge`, in that order |
| ClientUtils.RemoveCookie | public/js/common.js:46-48 | removing writes an empty value with `path=/` and `maxAge=0` |
| ClientUtils.MaxAgeOverridden | public/js/common.js:17 | the `maxAge: 0` option replaces the default in place |
| ClientUtils.FindCookie | public/js/common.js:33-40 | `null` iff no piece has the name |
| ClientUtils.GetCookieFromHeader | public/js/common.js:32-41 | reading a header of well-formed cookies gives the value of the first cookie with the name, and `null` when there is none |
| ClientUtils.SessionCookieAuthenticates | public/js/common.js:88-97 | after logging in, the session cookie reads back as the participant id and the user counts as authenticated |

## Left out

- SQL text, joins and ordering: a query is modelled by the rows it selects and what it aggregates. `ORDER BY created_at` is insertion order. An unordered `GROUP BY` lists groups in order of first appearance. The `ORDER BY sort_by` of the `findAll` listings keeps the table's order. The `LIKE` search is a predicate parameter.
- `nextParticipant` in submitLine and skipTurn (src/services/rhyming-game.service.ts:251-262, 304-315) and the player count in isGameComplete (393-397) read `activity_participants` without the join on `participants`. The model uses the joined player list. The two agree whenever every enrolment has a participant row.
- Timers: the `setInterval` sweeps and heartbeats are not modelled as timers. Each is an explicit operation that takes `now`.
- Configuration: the environment is not read. `Env` holds the defaults, and the sweep in SseManager uses the default `ONLINE_STATUS_TIMEOUT`; elsewhere the timeout is a parameter.
- Timestamps and clock reads: ISO timestamps and `Date.now()` are integers.
- Streams: the stream objects are replaced by identities, and the oracle set decides whether an enqueue or write succeeds. `JSON.stringify` of event payloads is not modelled; a payload is an already serialised string.
- The stream cancel handler of src/routes/sse.ts:248-251 passes `this` rather than the controller, so it never matches a connection. It is not modelled as removing one.
- broadcastOnlineStatus (src/routes/sse.ts:100-121) and the refresh endpoint (src/routes/sse.ts:258-270) are left out. Both are presence queries combined with broadcasts that are modelled separately.
- getAllOnlineParticipants (src/services/session.service.ts:188-237) is left out. It is the admin dashboard's cross-group variant of the per-group online list.
- The session cookie attributes set by SessionHelpers.setSessionCookie and clearSessionCookie (src/middleware/session.ts:108-132) are left out. They concern the HTTP response only.
- Identifier generation: UUIDs, paper ids and turn ids are fresh values passed in. Short ids and tokens are built from random bytes passed in. The ids of a new document and of a new activity are short ids built from the random coin and bytes passed in, so they can collide with existing ones. The game's paper and turn ids come from `generateShortId(6)` and `generateShortId(8)`; the function ignores its argument, so they too are 2 or 3 characters long. The model takes them fresh and distinct, which hides two failures: a taken turn id makes the turn's INSERT fail, and a taken paper id merges the new paper's rows with an existing paper's.
- The database schema is not part of this model. `documents.id` and `activities.id` are taken to be primary keys, so an insert with a taken id fails with SQLite's `UNIQUE constraint failed: documents.id` or `UNIQUE constraint failed: activities.id`. Foreign keys from `activity_participants` and `activity_turns` to `activities` are not enforced by the model; CreatedActivityEnrolsGroup states what holds when they are respected.
- Page and limit are integers. The participants route converts its query with `Number`, so a fractional page or limit would reach SQLite; such values are not modelled.
- simpleHash (src/utils/crypto.ts:58-66) is left out. Nothing calls it, and it depends on JavaScript's 32-bit integer and base-36 conversions.
- Case mapping covers ASCII and the Latin-1 letters: each maps to its counterpart, `ÿ` and `µ` upper-case to U+0178 and the Greek U+039C, and the sharp s upper-cases to `SS`. The remaining Unicode case mappings of `toLowerCase` and `toUpperCase` (Greek, Cyrillic, and the rest) are not modelled.
- Strings are sequences of Unicode characters, while JavaScript counts UTF-16 code units. For text outside the Basic Multilingual Plane, the lengths and cut points of `truncate`, `slice(0, 100)`, `slice(0, 20)` and `padStart` differ from the source's by the surrogate pairs.
- TemplateFilters.ActivityStatusLabel: for a status that names a member every JavaScript object inherits (`constructor`, `toString`, `__proto__` and the like), `statusMap[status]` is that member rather than a label, and the filter returns it. The model returns the status itself for every status other than the four known ones.
- Activity operations outside the game's gating are left out: getActivitiesForGroup (src/services/activity.service.ts:24-38), deleteActivity (296 onwards) and isTeamerForGroup (317-326). So are the pad-state getters (353-369), which return the base state unchanged. The game initialisation error that updateActivity catches and discards (182-190) is modelled: the update stands and no papers are created.
- Document reads and exports outside the versioning and access rules are left out: getIndividualDocument, getCollaborativeDocument, getActivityDocuments, HTML export and JSON export (src/services/document.service.ts:71-94, 218-250, 316-352).
- findWithGroups and getStats of the workshop and participant services are left out: they are SQL joins and aggregates for display. So are findByDisplayName, findAvailableForGroup and findInGroup of the participant service, which are plain filtered reads.
- The template engine (VentoJS rendering and the Intl date filters) is left out, as is the `json` filter.
- The Elysia route modules, the app bootstrap, the front-end components and `debounce` in public/js/common.js are left out. They are HTTP, DOM and timer plumbing around the operations modelled here.
- Concurrency: nothing in the system serialises check-then-append, and the model is sequential.
- SseManager.RemoveFirst: its contract states only that at most one connection goes. RemoveFirstRemovesOne states exactly which one.
- SseManager.RemoveAll: its contract states only that the registry keeps one entry per group. RemoveAllSettles and RemoveAllOfAbsent state the effect.
- SseManager.SweepGroup: its contract states only the one-entry-per-group invariant. SweepGroupKeepsFresh states which connections survive.
- SseManager.CleanupGroups: its contract states only the invariant. CleanupGroupsSweeps states the effect.
- SseManager.CleanupStaleConnections: its contract states only the invariant. Its effect follows from CleanupGroupsSweeps and SweepGroupKeepsFresh.
- RhymingGame.CompletedAmong: its contract is a bound. CompletedAmongAll states when every paper is complete.
- SseService.FormatMessage: its contract states the framing only. ReadBack states that a conforming reader recovers the event.
- SseService.ReadBack: the round trip is stated only for events without carriage returns. The serialiser splits the data at line feeds only, so a reader that also ends lines at carriage returns cuts data containing one short. CarriageReturnCutsData gives the case. The reader is given the whole message at once; a CRLF split across two chunks is not modelled.
- ClientUtils.FormatTimeRemaining: its contract states only the colon. FormatTimeRoundTrip states the value for non-negative input.
- ClientUtils.SetCookie: its contract states only the leading `name=value`. SetCookieDefaults and RemoveCookie give the full strings.
- ClientUtils.CountWords: its contract states only when the count is zero. CountWordsCountsRuns states the count.

=== FILE: activities.dfy ===
/** Activities of a workshop group (src/services/activity.service.ts): the
    `activities` rows, who is enrolled in each (`activity_participants`),
    and the gating in front of the rhyming game: status and enrolment
    checks, and the state a participant sees. The tables are values in a
    `World`; activity ids are drawn from random inputs, paper and turn ids
    are parameters. */
module Activities {
  import opened Wrappers
  import Membership
  import RhymingGame
  import Crypto

  datatype Kind = CollaborativePad | IndividualPad | RhymingChain | PaperDrawing | TimedWriting | MashupWriting

  datatype Status = Setup | Active | Paused | Completed

  /** One row of `activities`; `settings` is the stored JSON text. */
  datatype Activity = Activity(
    id: string,
    groupId: string,
    name: string,
    kind: Kind,
    description: Option<string>,
    status: Status,
    settings: string,
    maxParticipants: Option<int>,
    createdBy: string)

  /** One row of `activity_participants`. */
  datatype Enrolment = Enrolment(activityId: string, participantId: string)

  /** The tables the service reads and writes. Enrolments are in creation
      order; `people` stands for the `participants` table and `members` for
      `group_participants`; `turns` holds each activity's `activity_turns`
      rows. */
  datatype World = World(
    activities: map<string, Activity>,
    enrolments: seq<Enrolment>,
    people: seq<RhymingGame.Player>,
    members: seq<Membership.Member>,
    turns: map<string, RhymingGame.Log>)

  /** The turn rows of an activity; none when it has no entry. */
  function Turns(w: World, a: string): RhymingGame.Log {
    if a in w.turns then w.turns[a] else []
  }

  /** `SELECT * FROM activity_participants WHERE activity_id = ? AND
      participant_id = ?` finds a row. */
  predicate Enrolled(es: seq<Enrolment>, a: string, participantId: string) {
    exists i :: 0 <= i < |es| && es[i] == Enrolment(a, participantId)
  }

  /** The activity's enrolled participants that have a `participants` row,
      in enrolment order, with their display names: the turn order the
      rhyming game reads. */
  function PlayersOf(es: seq<Enrolment>, people: seq<RhymingGame.Player>, a: string): (r: seq<RhymingGame.Player>)
    ensures forall k :: 0 <= k < |r| ==> Enrolled(es, a, r[k].id)
    ensures forall id :: Enrolled(es, a, id) && RhymingGame.NameOf(people, Some(id)).Some? ==>
      exists k :: 0 <= k < |r| && r[k].id == id
  {
    if |es| == 0 then []
    else
      var rest := PlayersOf(es[1..], people, a);
      assert forall id :: Enrolled(es, a, id) <==> es[0] == Enrolment(a, id) || Enrolled(es[1..], a, id) by {
        forall id
          ensures Enrolled(es, a, id) <==> es[0] == Enrolment(a, id) || Enrolled(es[1..], a, id)
        {
          EnrolledTail(es, a, id);
        }
      }
      var name := RhymingGame.NameOf(people, Some(es[0].participantId));
      if es[0].activityId == a && name.Some? then
        var r := [RhymingGame.Player(es[0].participantId, name.value)] + rest;
        assert forall k :: 1 <= k < |r| ==> r[k] == rest[k - 1];
        assert forall id :: Enrolled(es, a, id) && RhymingGame.NameOf(people, Some(id)).Some? ==>
          exists k :: 0 <= k < |r| && r[k].id == id by {
          forall id | Enrolled(es, a, id) && RhymingGame.NameOf(people, Some(id)).Some?
            ensures exists k :: 0 <= k < |r| && r[k].id == id
          {
            if id == es[0].participantId {
              assert r[0].id == id;
            } else {
              var k :| 0 <= k < |rest| && rest[k].id == id;
              assert r[k + 1].id == id;
            }
          }
        }
        r
      else
        rest
  }

  /** An enrolment row is the first row or among the others. */
  lemma EnrolledTail(es: seq<Enrolment>, a: string, id: string)
    requires |es| > 0
    ensures Enrolled(es, a, id) <==> es[0] == Enrolment(a, id) || Enrolled(es[1..], a, id)
  {
    if Enrolled(es, a, id) && es[0] != Enrolment(a, id) {
      var i :| 0 <= i < |es| && es[i] == Enrolment(a, id);
      assert es[1..][i - 1] == es[i];
    }
    if Enrolled(es[1..], a, id) {
      var i :| 0 <= i < |es[1..]| && es[1..][i] == Enrolment(a, id);
      assert es[i + 1] == es[1..][i];
    }
  }

  function Players(w: World, a: string): seq<RhymingGame.Player> {
    PlayersOf(w.enrolments, w.people, a)
  }

  /** The number of enrolment rows of an activity: `COUNT(ap.participant_id)`. */
  function EnrolmentCount(es: seq<Enrolment>, a: string): (n: nat)
    ensures n == 0 <==> forall i :: 0 <= i < |es| ==> es[i].activityId != a
  {
    if |es| == 0 then 0
    else
      assert forall i :: 1 <= i < |es| ==> es[i] == es[1..][i - 1];
      (if es[0].activityId == a then 1 else 0) + EnrolmentCount(es[1..], a)
  }

  /** An activity row with its participant count, as `getActivityById`
      answers. */
  datatype ActivityRecord = ActivityRecord(activity: Activity, participantCount: nat)

  /** `getActivityById(activityId)`. */
  function GetActivityById(w: World, a: string): (r: Option<ActivityRecord>)
    ensures r.None? <==> a !in w.activities
    ensures r.Some? ==> r.value.activity == w.activities[a]
  {
    if a in w.activities then Some(ActivityRecord(w.activities[a], EnrolmentCount(w.enrolments, a)))
    else None
  }

  // ---------------------------------------------------------------------
  // getActivityState
  // ---------------------------------------------------------------------

  /** What a participant sees of an activity. The rhyming game adds the
      offered paper and the papers the participant started. */
  datatype ActivityState = ActivityState(
    activityId: string,
    participantId: string,
    isParticipant: bool,
    canParticipate: bool,
    isMyTurn: bool,
    currentPlayer: Option<string>,
    previousLine: Option<string>,
    turnOrder: seq<string>,
    myTurnNumber: Option<int>,
    currentPaper: Option<RhymingGame.CurrentPaper>,
    myPapers: Option<seq<RhymingGame.MyPaper>>)

  /** The base state: membership flags and nothing about turns. */
  function BaseState(a: string, participantId: string, isParticipant: bool, canParticipate: bool): ActivityState {
    ActivityState(a, participantId, isParticipant, canParticipate, false, None, None, [], None, None, None)
  }

  /** JavaScript's `x || null` on an optional string. */
  function OrNull(s: Option<string>): (r: Option<string>)
    ensures r.Some? <==> Truthy(s)
    ensures r.Some? ==> r == s
  {
    if Truthy(s) then s else None
  }

  /** `getRhymingChainState`: the game state folded into the base state;
      when the game state cannot be computed the base state is kept. */
  function RhymingChainState(base: ActivityState, game: Result<RhymingGame.GameState, string>): (r: ActivityState)
    ensures game.Err? ==> r == base
    ensures game.Ok? ==>
      && r.isMyTurn == game.value.isMyTurn
      && r.currentPaper == game.value.currentPaper
      && r.myPapers == Some(game.value.myPapers)
      && r.currentPlayer == OrNull(game.value.waitingFor)
      && (r.previousLine.Some? ==> game.value.currentPaper.Some? && r.previousLine == game.value.currentPaper.value.previousLine)
      && (game.value.currentPaper.Some? ==> r.previousLine == OrNull(game.value.currentPaper.value.previousLine))
      && (r.myTurnNumber.Some? <==> game.value.currentPaper.Some? && game.value.currentPaper.value.turnNumber != 0)
      && (r.myTurnNumber.Some? ==> r.myTurnNumber.value == game.value.currentPaper.value.turnNumber)
    ensures r.activityId == base.activityId && r.participantId == base.participantId
    ensures r.isParticipant == base.isParticipant && r.canParticipate == base.canParticipate
  {
    match game
    case Err(_) => base
    case Ok(g) =>
      var cp := g.currentPaper;
      base.(
        isMyTurn := g.isMyTurn,
        previousLine := if cp.Some? then OrNull(cp.value.previousLine) else None,
        myTurnNumber := if cp.Some? && cp.value.turnNumber != 0 then Some(cp.value.turnNumber) else None,
        currentPlayer := OrNull(g.waitingFor),
        currentPaper := cp,
        myPapers := Some(g.myPapers))
  }

  /** `getActivityState(activityId, participantId)`. */
  function GetActivityState(w: World, a: string, participantId: string): (r: Result<ActivityState, string>)
    ensures r.Err? <==> a !in w.activities
    ensures r.Err? ==> r.error == "Activity not found"
    ensures r.Ok? ==>
      && r.value.isParticipant == Enrolled(w.enrolments, a, participantId)
      && (r.value.canParticipate <==> w.activities[a].status == Active && Enrolled(w.enrolments, a, participantId))
    ensures r.Ok? && w.activities[a].kind == RhymingChain ==>
      var game := RhymingGame.GetGameState(Players(w, a), Turns(w, a), participantId);
      && (game.Ok? ==>
            && r.value.isMyTurn == game.value.isMyTurn && r.value.currentPaper == game.value.currentPaper
            && r.value.myPapers == Some(game.value.myPapers)
            && r.value.currentPlayer == OrNull(game.value.waitingFor)
            && (game.value.currentPaper.None? ==> r.value.previousLine.None? && r.value.myTurnNumber.None?)
            && (game.value.currentPaper.Some? ==>
                  && r.value.previousLine == OrNull(game.value.currentPaper.value.previousLine)
                  && (r.value.myTurnNumber.Some? ==> r.value.myTurnNumber.value == game.value.currentPaper.value.turnNumber)
                  && (game.value.currentPaper.value.turnNumber != 0 ==> r.value.myTurnNumber.Some?)))
      && (game.Err? ==> !r.value.isMyTurn && r.value.currentPaper.None? && r.value.myPapers.None?)
    ensures r.Ok? && w.activities[a].kind != RhymingChain ==>
      !r.value.isMyTurn && r.value.currentPaper.None? && r.value.myPapers.None?
  {
    if a !in w.activities then Err("Activity not found")
    else
      var activity := w.activities[a];
      var isParticipant := Enrolled(w.enrolments, a, participantId);
      var base := BaseState(a, participantId, isParticipant, activity.status == Active && isParticipant);
      if activity.kind == RhymingChain then
        Ok(RhymingChainState(base, RhymingGame.GetGameState(Players(w, a), Turns(w, a), participantId)))
      else Ok(base)
  }

  /** Only an enrolled participant is ever told it is their turn. */
  lemma TurnNeedsEnrolment(w: World, a: string, participantId: string)
    requires GetActivityState(w, a, participantId).Ok?
    requires GetActivityState(w, a, participantId).value.isMyTurn
    ensures GetActivityState(w, a, participantId).value.isParticipant
  {
    var game := RhymingGame.GetGameState(Players(w, a), Turns(w, a), participantId);
    assert game.Ok?;
    InOrderIsEnrolled(w.enrolments, w.people, a, participantId);
  }

  /** Everyone in the turn order is enrolled. */
  lemma InOrderIsEnrolled(es: seq<Enrolment>, people: seq<RhymingGame.Player>, a: string, participantId: string)
    requires participantId in RhymingGame.Ids(PlayersOf(es, people, a))
    ensures Enrolled(es, a, participantId)
  {
    var players := PlayersOf(es, people, a);
    var order := RhymingGame.Ids(players);
    var k :| 0 <= k < |order| && order[k] == participantId;
    assert players[k].id == participantId;
  }

  // ---------------------------------------------------------------------
  // createActivity and updateActivity
  // ---------------------------------------------------------------------

  /** The fields `createActivity` takes; settings are JSON text. */
  datatype NewActivity = NewActivity(
    name: string,
    kind: Kind,
    description: Option<string>,
    settings: Option<string>,
    maxParticipants: Option<int>,
    createdBy: string)

  /** One enrolment per `group_participants` row of the group, in row
      order. */
  function GroupEnrolments(members: seq<Membership.Member>, groupId: string, a: string): (r: seq<Enrolment>)
    ensures forall i :: 0 <= i < |r| ==> r[i].activityId == a
    ensures forall id :: Enrolled(r, a, id) <==> Membership.IsMember(members, groupId, id)
  {
    if |members| == 0 then []
    else
      var rest := GroupEnrolments(members[1..], groupId, a);
      assert forall i :: 1 <= i < |members| ==> members[i] == members[1..][i - 1];
      assert forall id :: Membership.IsMember(members, groupId, id) <==>
        (members[0].groupId == groupId && members[0].participantId == id) || Membership.IsMember(members[1..], groupId, id) by {
        forall id
          ensures Membership.IsMember(members, groupId, id) <==>
            (members[0].groupId == groupId && members[0].participantId == id) || Membership.IsMember(members[1..], groupId, id)
        {
          if Membership.IsMember(members, groupId, id) && !(members[0].groupId == groupId && members[0].participantId == id) {
            var i :| 0 <= i < |members| && members[i].groupId == groupId && members[i].participantId == id;
            assert members[1..][i - 1] == members[i];
          }
        }
      }
      if members[0].groupId == groupId then
        var r := [Enrolment(a, members[0].participantId)] + rest;
        assert forall i :: 1 <= i < |r| ==> r[i] == rest[i - 1];
        assert forall id :: Enrolled(r, a, id) <==> id == members[0].participantId || Enrolled(rest, a, id) by {
          forall id | Enrolled(r, a, id) && id != members[0].participantId
            ensures Enrolled(rest, a, id)
          {
            var i :| 0 <= i < |r| && r[i] == Enrolment(a, id);
            assert rest[i - 1] == r[i];
          }
          assert r[0] == Enrolment(a, members[0].participantId);
          forall id | Enrolled(rest, a, id)
            ensures Enrolled(r, a, id)
          {
            var i :| 0 <= i < |rest| && rest[i] == Enrolment(a, id);
            assert r[i + 1] == rest[i];
          }
        }
        r
      else rest
  }

  /** Every enrolment row and every game belongs to a stored activity, as
      the foreign keys of `activity_participants` and `activity_turns`
      require. */
  predicate RowsReferToActivities(w: World) {
    && (forall i :: 0 <= i < |w.enrolments| ==> w.enrolments[i].activityId in w.activities)
    && (forall b :: b in w.turns ==> b in w.activities)
  }

  /** SQLite's answer to an insert whose activity id is already stored. */
  const DuplicateIdError := "UNIQUE constraint failed: activities.id"

  /** Enrolment in an activity is unaffected by rows appended for another. */
  lemma EnrolledAppend(es: seq<Enrolment>, extra: seq<Enrolment>, a: string, id: string)
    ensures Enrolled(es + extra, a, id) <==> Enrolled(es, a, id) || Enrolled(extra, a, id)
  {
    var l := es + extra;
    if Enrolled(l, a, id) {
      var i :| 0 <= i < |l| && l[i] == Enrolment(a, id);
      if i >= |es| {
        assert extra[i - |es|] == l[i];
      }
    }
    if Enrolled(extra, a, id) {
      var i :| 0 <= i < |extra| && extra[i] == Enrolment(a, id);
      assert l[|es| + i] == extra[i];
    }
    if Enrolled(es, a, id) {
      var i :| 0 <= i < |es| && es[i] == Enrolment(a, id);
      assert l[i] == es[i];
    }
  }

  /** `createActivity(groupId, data)`: a new activity in status 'setup'
      with every member of the group enrolled. The id is the short id drawn
      from `coin` and `bytes`; the insert fails when it is already taken.
      An empty description and a zero participant limit are stored as NULL,
      missing settings as `{}`. */
  function CreateActivity(w: World, groupId: string, data: NewActivity,
                          coin: bool, bytes: seq<Crypto.Byte>): (r: Result<(World, ActivityRecord), string>)
    requires |bytes| == Crypto.ShortIdLength(coin)
    ensures var a := Crypto.GenerateShortId(coin, bytes);
      && (r.Err? <==> a in w.activities)
      && (r.Err? ==> r.error == DuplicateIdError)
    ensures r.Ok? ==>
      var a := Crypto.GenerateShortId(coin, bytes);
      var (w', record) := r.value;
      && record.activity.status == Setup
      && record.activity.id == a && record.activity.groupId == groupId && record.activity.kind == data.kind
      && w'.activities == w.activities[a := record.activity]
      && (forall id :: Enrolled(w'.enrolments, a, id) <==>
            Enrolled(w.enrolments, a, id) || Membership.IsMember(w.members, groupId, id))
      && (forall b, id :: b != a ==> (Enrolled(w'.enrolments, b, id) <==> Enrolled(w.enrolments, b, id)))
      && w'.turns == w.turns && w'.people == w.people && w'.members == w.members
  {
    var a := Crypto.GenerateShortId(coin, bytes);
    if a in w.activities then Err(DuplicateIdError)
    else
      var activity := Activity(a, groupId, data.name, data.kind, OrNull(data.description), Setup,
        if data.settings.Some? then data.settings.value else "{}",
        if data.maxParticipants == Some(0) then None else data.maxParticipants,
        data.createdBy);
      var added := GroupEnrolments(w.members, groupId, a);
      var w' := w.(activities := w.activities[a := activity], enrolments := w.enrolments + added);
      assert forall id :: Enrolled(w'.enrolments, a, id) <==>
          Enrolled(w.enrolments, a, id) || Membership.IsMember(w.members, groupId, id) by {
        forall id
          ensures Enrolled(w'.enrolments, a, id) <==>
            Enrolled(w.enrolments, a, id) || Membership.IsMember(w.members, groupId, id)
        {
          EnrolledAppend(w.enrolments, added, a, id);
        }
      }
      assert forall b, id :: b != a ==> (Enrolled(w'.enrolments, b, id) <==> Enrolled(w.enrolments, b, id)) by {
        forall b, id | b != a
          ensures Enrolled(w'.enrolments, b, id) <==> Enrolled(w.enrolments, b, id)
        {
          EnrolledAppend(w.enrolments, added, b, id);
        }
      }
      Ok((w', ActivityRecord(activity, EnrolmentCount(w'.enrolments, a))))
  }

  /** In a world whose rows refer to stored activities, a created activity
      enrols exactly the members of its group, and the world keeps that
      shape. */
  lemma CreatedActivityEnrolsGroup(w: World, groupId: string, data: NewActivity,
                                   coin: bool, bytes: seq<Crypto.Byte>)
    requires |bytes| == Crypto.ShortIdLength(coin)
    requires RowsReferToActivities(w)
    ensures var r := CreateActivity(w, groupId, data, coin, bytes);
      r.Ok? ==>
        && (forall id :: Enrolled(r.value.0.enrolments, Crypto.GenerateShortId(coin, bytes), id) <==>
              Membership.IsMember(w.members, groupId, id))
        && RowsReferToActivities(r.value.0)
  {
    var r := CreateActivity(w, groupId, data, coin, bytes);
    var a := Crypto.GenerateShortId(coin, bytes);
    if r.Ok? {
      var w' := r.value.0;
      assert forall id :: !Enrolled(w.enrolments, a, id);
      var added := GroupEnrolments(w.members, groupId, a);
      assert w'.enrolments == w.enrolments + added;
      forall i | 0 <= i < |w'.enrolments|
        ensures w'.enrolments[i].activityId in w'.activities
      {
        if i >= |w.enrolments| {
          assert w'.enrolments[i] == added[i - |w.enrolments|];
        } else {
          assert w'.enrolments[i] == w.enrolments[i];
        }
      }
    }
  }

  /** Two-character ids collide: creating an activity whose drawn id is
      already stored fails with the primary-key error and no row. */
  lemma CollidingShortIdFails(w: World, groupId: string, data: NewActivity)
    requires "aa" in w.activities
    ensures CreateActivity(w, groupId, data, true, [0, 0]) == Err(DuplicateIdError)
  {
    assert Crypto.GenerateShortId(true, [0, 0]) == "aa" by {
      assert Crypto.ShortIdAlphabet[0] == 'a';
    }
  }

  /** The fields `updateActivity` may change; absent ones are left alone. */
  datatype Update = Update(
    name: Option<string>,
    description: Option<string>,
    status: Option<Status>,
    settings: Option<string>)

  predicate NoFields(u: Update) {
    u.name.None? && u.description.None? && u.status.None? && u.settings.None?
  }

  function Patch(activity: Activity, u: Update): (r: Activity)
    ensures r.id == activity.id && r.groupId == activity.groupId && r.kind == activity.kind
    ensures u.status.Some? ==> r.status == u.status.value
    ensures u.status.None? ==> r.status == activity.status
  {
    activity.(
      name := if u.name.Some? then u.name.value else activity.name,
      description := if u.description.Some? then u.description else activity.description,
      status := if u.status.Some? then u.status.value else activity.status,
      settings := if u.settings.Some? then u.settings.value else activity.settings)
  }

  /** Setting a rhyming chain to 'active' starts a game. */
  predicate StartsGame(w: World, a: string, u: Update) {
    u.status == Some(Active) && a in w.activities && w.activities[a].kind == RhymingChain
  }

  /** `updateActivity(activityId, data)`: fails with no fields; otherwise
      patches the row when it exists. Whenever a rhyming chain is set to
      'active' (also from 'paused' or 'active'), a game is initialised; a
      failure to initialise (nobody enrolled) is logged and swallowed. */
  function UpdateActivity(w: World, a: string, u: Update, paperIds: seq<string>, turnIds: seq<string>): (r: Result<(World, Option<ActivityRecord>), string>)
    requires |paperIds| == |Players(w, a)| && |turnIds| == |Players(w, a)|
    ensures r.Err? <==> NoFields(u)
    ensures r.Err? ==> r.error == "No fields to update"
    ensures r.Ok? && a !in w.activities ==> r.value == (w, None)
    ensures r.Ok? && a in w.activities ==>
      && r.value.1.Some?
      && r.value.0.activities == w.activities[a := Patch(w.activities[a], u)]
      && r.value.1.value.activity == r.value.0.activities[a]
      && r.value.0.enrolments == w.enrolments
    ensures r.Ok? && StartsGame(w, a, u) && |Players(w, a)| > 0 ==>
      Turns(r.value.0, a) == Turns(w, a) + RhymingGame.StartRows(Players(w, a), paperIds, turnIds)
    ensures r.Ok? && !(StartsGame(w, a, u) && |Players(w, a)| > 0) ==> r.value.0.turns == w.turns
  {
    if NoFields(u) then Err("No fields to update")
    else if a !in w.activities then Ok((w, None))
    else
      var w' := w.(activities := w.activities[a := Patch(w.activities[a], u)]);
      var record := GetActivityById(w', a);
      if StartsGame(w, a, u) then
        match RhymingGame.InitializeGame(Players(w', a), Turns(w', a), paperIds, turnIds)
        case Err(_) => Ok((w', record))
        case Ok(init) => Ok((w'.(turns := w'.turns[a := init.log]), record))
      else Ok((w', record))
  }

  /** Every activation of a rhyming chain deals a further paper to each
      player, even when a game is already running. */
  lemma ActivationDealsPapers(w: World, a: string, u: Update, paperIds: seq<string>, turnIds: seq<string>)
    requires |paperIds| == |Players(w, a)| && |turnIds| == |Players(w, a)|
    requires StartsGame(w, a, u) && |Players(w, a)| > 0
    requires RhymingGame.Distinct(paperIds) && RhymingGame.Fresh(Turns(w, a), paperIds)
    ensures var l := Turns(UpdateActivity(w, a, u, paperIds, turnIds).value.0, a);
      |RhymingGame.Papers(l)| == |RhymingGame.Papers(Turns(w, a))| + |Players(w, a)|
  {
    var log := Turns(w, a);
    var extra := RhymingGame.StartRows(Players(w, a), paperIds, turnIds);
    var l := log + extra;
    assert Turns(UpdateActivity(w, a, u, paperIds, turnIds).value.0, a) == l;
    PapersAfterFresh(log, extra, paperIds);
  }

  /** Appending one row for each of some distinct fresh papers adds exactly
      those papers to the grouping. */
  lemma {:induction false} PapersAfterFresh(log: RhymingGame.Log, extra: RhymingGame.Log, paperIds: seq<string>)
    requires |extra| == |paperIds|
    requires forall i :: 0 <= i < |extra| ==> extra[i].paperId == paperIds[i]
    requires RhymingGame.Distinct(paperIds) && RhymingGame.Fresh(log, paperIds)
    ensures RhymingGame.Papers(log + extra) == RhymingGame.Papers(log) + paperIds
  {
    if |extra| > 0 {
      var n := |extra| - 1;
      FreshPrefix(log, extra, paperIds);
      PapersAfterFresh(log, extra[..n], paperIds[..n]);
      LastIdIsNew(log, paperIds);
      PapersStep(log, extra, paperIds);
    } else {
      assert log + extra == log;
    }
  }

  /** Dropping the last row and paper keeps what the induction asks. */
  lemma FreshPrefix(log: RhymingGame.Log, extra: RhymingGame.Log, paperIds: seq<string>)
    requires |extra| == |paperIds| > 0
    requires forall i :: 0 <= i < |extra| ==> extra[i].paperId == paperIds[i]
    requires RhymingGame.Distinct(paperIds) && RhymingGame.Fresh(log, paperIds)
    ensures var n := |extra| - 1;
      && (forall i :: 0 <= i < n ==> extra[..n][i].paperId == paperIds[..n][i])
      && RhymingGame.Distinct(paperIds[..n]) && RhymingGame.Fresh(log, paperIds[..n])
  {
  }

  /** The step of the induction: a row for a new paper adds that paper at
      the end of the grouping. */
  lemma PapersStep(log: RhymingGame.Log, extra: RhymingGame.Log, paperIds: seq<string>)
    requires |extra| == |paperIds| > 0
    requires extra[|extra| - 1].paperId == paperIds[|paperIds| - 1]
    requires RhymingGame.Papers(log + extra[..|extra| - 1]) == RhymingGame.Papers(log) + paperIds[..|paperIds| - 1]
    requires paperIds[|paperIds| - 1] !in RhymingGame.Papers(log) + paperIds[..|paperIds| - 1]
    ensures RhymingGame.Papers(log + extra) == RhymingGame.Papers(log) + paperIds
  {
    var n := |extra| - 1;
    SplitLast(log, extra);
    RhymingGame.PapersSnoc(log + extra[..n], extra[n]);
    SplitLast(RhymingGame.Papers(log), paperIds);
  }

  /** A non-empty sequence is its front followed by its last element. */
  lemma SplitLast<T>(a: seq<T>, s: seq<T>)
    requires |s| > 0
    ensures a + s == (a + s[..|s| - 1]) + [s[|s| - 1]]
  {
    assert s == s[..|s| - 1] + [s[|s| - 1]];
  }

  /** The last of some distinct fresh papers is neither grouped already nor
      among the ones before it. */
  lemma LastIdIsNew(log: RhymingGame.Log, paperIds: seq<string>)
    requires |paperIds| > 0
    requires RhymingGame.Distinct(paperIds) && RhymingGame.Fresh(log, paperIds)
    ensures paperIds[|paperIds| - 1] !in RhymingGame.Papers(log) + paperIds[..|paperIds| - 1]
  {
    var n := |paperIds| - 1;
    assert |RhymingGame.Rows(log, paperIds[n])| == 0;
  }

  // ---------------------------------------------------------------------
  // submitToActivity, submitRhyme and skipTurn
  // ---------------------------------------------------------------------

  /** What a successful submission answers. */
  datatype Submission = Submitted(nextParticipant: string) | Saved | Skipped(nextParticipant: string)

  /** The paper the participant would write on: the one offered by the
      freshly computed state, when it is their turn and the paper id is not
      empty (`currentPaper?.paperId` is falsy otherwise). */
  function OfferedPaper(w: World, a: string, participantId: string): (r: Result<string, string>)
    requires a in w.activities
    ensures r.Ok? ==> r.value != ""
    ensures r.Err? ==> r.error in {"Not your turn", "No paper assigned to this participant"}
  {
    var state := GetActivityState(w, a, participantId).value;
    if !state.isMyTurn then Err("Not your turn")
    else if state.currentPaper.None? || state.currentPaper.value.paperId == "" then
      Err("No paper assigned to this participant")
    else Ok(state.currentPaper.value.paperId)
  }

  /** On a rhyming chain, the offered paper is the first paper waiting for
      the participant, and the game then accepts a turn on it. */
  lemma OfferedPaperIsPlayable(w: World, a: string, participantId: string)
    requires a in w.activities && w.activities[a].kind == RhymingChain
    requires OfferedPaper(w, a, participantId).Ok?
    ensures var p := OfferedPaper(w, a, participantId).value;
      var order := RhymingGame.Ids(Players(w, a));
      participantId in order && RhymingGame.FirstHeld(order, Turns(w, a), participantId, p)
  {
    var game := RhymingGame.GetGameState(Players(w, a), Turns(w, a), participantId);
    assert game.Ok?;
  }

  /** The turn row a participant adds on a paper: numbered one past the
      paper's highest turn. */
  function NextRow(log: RhymingGame.Log, participantId: string, p: string, content: string,
                   isSkip: bool, turnId: string): RhymingGame.Turn
    requires |RhymingGame.Rows(log, p)| > 0
  {
    RhymingGame.Turn(turnId, participantId, RhymingGame.MaxTurnOf(log, p) + 1, p, content, isSkip)
  }

  /** A game turn on a paper the participant holds first, recorded in the
      activity's rows. */
  function PlayOn(w: World, a: string, participantId: string, p: string, content: string,
                  isSkip: bool, turnId: string): (r: (World, string))
    requires participantId in RhymingGame.Ids(Players(w, a))
    requires RhymingGame.FirstHeld(RhymingGame.Ids(Players(w, a)), Turns(w, a), participantId, p)
    ensures |RhymingGame.Rows(Turns(w, a), p)| > 0
    ensures r.0 == w.(turns := w.turns[a := Turns(w, a) + [NextRow(Turns(w, a), participantId, p, content, isSkip, turnId)]])
    ensures var order := RhymingGame.Ids(Players(w, a));
      r.1 == order[RhymingGame.NextIndex(RhymingGame.IndexOf(order, participantId), |order|)]
  {
    var played := RhymingGame.Play(Players(w, a), Turns(w, a), participantId, p, content, isSkip, turnId).value;
    (w.(turns := w.turns[a := played.log]), played.nextParticipant)
  }

  /** `submitRhyme`: the line goes on the offered paper. */
  function SubmitRhyme(w: World, a: string, participantId: string, content: string, turnId: string): (r: Result<(World, Submission), string>)
    requires a in w.activities && w.activities[a].kind == RhymingChain
    ensures r.Err? ==> r.error in {"Not your turn", "No paper assigned to this participant"}
    ensures r.Ok? <==> OfferedPaper(w, a, participantId).Ok?
    ensures r.Ok? ==>
      var p := OfferedPaper(w, a, participantId).value;
      && |RhymingGame.Rows(Turns(w, a), p)| > 0
      && r.value.0 == w.(turns := w.turns[a := Turns(w, a) + [NextRow(Turns(w, a), participantId, p, content, false, turnId)]])
      && r.value.1.Submitted?
  {
    match OfferedPaper(w, a, participantId)
    case Err(e) => Err(e)
    case Ok(p) =>
      OfferedPaperIsPlayable(w, a, participantId);
      var (w', next) := PlayOn(w, a, participantId, p, content, false, turnId);
      Ok((w', Submitted(next)))
  }

  /** `submitToActivity(activityId, participantId, content)`: refused for an
      unknown or inactive activity, a participant who is not enrolled, and
      a kind without submissions; a rhyming chain takes the line on the
      offered paper, an individual pad answers that it saved (the text goes
      to the document service). */
  function SubmitToActivity(w: World, a: string, participantId: string, content: string, turnId: string): (r: Result<(World, Submission), string>)
    ensures a !in w.activities ==> r == Err("Activity not found")
    ensures a in w.activities && w.activities[a].status != Active ==> r == Err("Activity is not active")
    ensures a in w.activities && w.activities[a].status == Active && !Enrolled(w.enrolments, a, participantId) ==>
      r == Err("Not a participant in this activity")
    ensures a in w.activities && w.activities[a].kind !in {RhymingChain, IndividualPad} ==> r.Err?
    ensures r.Ok? ==> a in w.activities && w.activities[a].status == Active && Enrolled(w.enrolments, a, participantId)
    ensures r.Ok? && w.activities[a].kind == IndividualPad ==> r.value == (w, Saved)
    ensures (a in w.activities && w.activities[a].status == Active && Enrolled(w.enrolments, a, participantId)
             && w.activities[a].kind == RhymingChain) ==> (r.Ok? <==> OfferedPaper(w, a, participantId).Ok?)
    ensures r.Ok? && w.activities[a].kind == RhymingChain ==>
      var p := OfferedPaper(w, a, participantId).value;
      && |RhymingGame.Rows(Turns(w, a), p)| > 0
      && r.value.0 == w.(turns := w.turns[a := Turns(w, a) + [NextRow(Turns(w, a), participantId, p, content, false, turnId)]])
      && r.value.1.Submitted?
    ensures r.Err? ==> r.error in {"Activity not found", "Activity is not active", "Not a participant in this activity",
                                   "Submission not supported for this activity type", "Not your turn",
                                   "No paper assigned to this participant"}
  {
    if a !in w.activities then Err("Activity not found")
    else if w.activities[a].status != Active then Err("Activity is not active")
    else if !Enrolled(w.enrolments, a, participantId) then Err("Not a participant in this activity")
    else match w.activities[a].kind
      case RhymingChain => SubmitRhyme(w, a, participantId, content, turnId)
      case IndividualPad => Ok((w, Saved))
      case _ => Err("Submission not supported for this activity type")
  }

  /** `skipTurn(activityId, participantId)`: only for rhyming chains; the
      skip goes on the offered paper. The status of the activity is not
      checked, and enrolment only through the game state. */
  function SkipTurn(w: World, a: string, participantId: string, turnId: string): (r: Result<(World, Submission), string>)
    ensures a !in w.activities ==> r == Err("Activity not found")
    ensures a in w.activities && w.activities[a].kind != RhymingChain ==>
      r == Err("Turn skipping only available for rhyming chain activities")
    ensures a in w.activities && w.activities[a].kind == RhymingChain ==>
      (r.Ok? <==> OfferedPaper(w, a, participantId).Ok?)
    ensures r.Ok? ==>
      var p := OfferedPaper(w, a, participantId).value;
      var log := Turns(w, a);
      && |RhymingGame.Rows(log, p)| > 0
      && r.value.0 == w.(turns := w.turns[a := log + [NextRow(log, participantId, p, "SKIP", true, turnId)]])
      && r.value.1.Skipped?
    ensures r.Err? ==> r.error in {"Activity not found", "Turn skipping only available for rhyming chain activities",
                                   "Not your turn", "No paper assigned to this participant"}
  {
    if a !in w.activities then Err("Activity not found")
    else if w.activities[a].kind != RhymingChain then Err("Turn skipping only available for rhyming chain activities")
    else match OfferedPaper(w, a, participantId)
      case Err(e) => Err(e)
      case Ok(p) =>
        OfferedPaperIsPlayable(w, a, participantId);
        var (w', next) := PlayOn(w, a, participantId, p, "SKIP", true, turnId);
        Ok((w', Skipped(next)))
  }

  /** A participant whose turn it is can skip whatever the status of the
      activity, 'setup' and 'completed' included, whereas a submission
      needs 'active'. */
  lemma SkipIgnoresStatus(w: World, a: string, participantId: string, turnId: string, status: Status)
    requires a in w.activities && w.activities[a].kind == RhymingChain
    requires OfferedPaper(w, a, participantId).Ok?
    ensures var w' := w.(activities := w.activities[a := w.activities[a].(status := status)]);
      SkipTurn(w', a, participantId, turnId).Ok?
  {
    var w' := w.(activities := w.activities[a := w.activities[a].(status := status)]);
    assert Players(w', a) == Players(w, a) && Turns(w', a) == Turns(w, a);
    assert OfferedPaper(w', a, participantId) == OfferedPaper(w, a, participantId);
  }
}

=== FILE: admin_sessions.dfy ===
/** Admin sign-in (src/services/admin.service.ts): a password check that
    hands out `admin_`-prefixed tokens, kept in an in-memory map with an
    absolute lifetime of 24 hours from creation. The map is a value here;
    each operation returns the new map with its answer. The configured
    ADMIN_PASSWORD, the 32 random bytes of the token and the clock are
    parameters. */
module AdminSessions {
  import opened Wrappers
  import Text
  import Crypto

  datatype AdminSession = AdminSession(createdAt: int, lastActivity: int)

  type Store = map<string, AdminSession>

  const Prefix: string := "admin_"

  /** 24 hours in milliseconds. */
  const Duration: int := 24 * 60 * 60 * 1000

  /** Past its lifetime: more than 24 hours since creation. */
  predicate Expired(s: AdminSession, now: int) {
    now - s.createdAt > Duration
  }

  /** The answer of `authenticateAdmin`. */
  datatype AuthResult = AuthResult(success: bool, sessionToken: Option<string>, error: Option<string>)

  /** `authenticateAdmin(password)`: an empty or wrong password fails and
      stores nothing; otherwise a fresh `admin_` token is stored, created
      and last active `now`. */
  function Authenticate(store: Store, password: string, adminPassword: string,
                        random: seq<Crypto.Byte>, now: int): (r: (Store, AuthResult))
    requires |random| == 32
    ensures !r.1.success <==> password == "" || password != adminPassword
    ensures !r.1.success ==> r == (store, AuthResult(false, None, Some("Invalid admin password")))
    ensures r.1.success ==>
      && r.1.sessionToken.Some?
      && Text.StartsWith(r.1.sessionToken.value, Prefix)
      && |r.1.sessionToken.value| == |Prefix| + 64
      && r.0 == store[r.1.sessionToken.value := AdminSession(now, now)]
  {
    if password == "" || password != adminPassword then
      (store, AuthResult(false, None, Some("Invalid admin password")))
    else
      var token := Prefix + Crypto.GenerateToken(random);
      assert token[..|Prefix|] == Prefix;
      (store[token := AdminSession(now, now)], AuthResult(true, Some(token), None))
  }

  /** `validateAdminSession(sessionToken)`: false for a token without the
      prefix or not in the map; an expired session is deleted and answers
      false; a valid one is marked active `now`. */
  function Validate(store: Store, token: string, now: int): (r: (Store, bool))
    ensures !Text.StartsWith(token, Prefix) || token !in store ==> r == (store, false)
    ensures r.1 <==> Text.StartsWith(token, Prefix) && token in store && !Expired(store[token], now)
    ensures Text.StartsWith(token, Prefix) && token in store && Expired(store[token], now) ==>
      r.0 == store - {token}
    ensures r.1 ==> r.0 == store[token := store[token].(lastActivity := now)]
  {
    if token == "" || !Text.StartsWith(token, Prefix) then (store, false)
    else if token !in store then (store, false)
    else if Expired(store[token], now) then (store - {token}, false)
    else (store[token := store[token].(lastActivity := now)], true)
  }

  /** A token handed out by a successful sign-in validates for the next 24
      hours, and never after: activity does not extend the lifetime. */
  lemma SignInLastsOneDay(store: Store, password: string, adminPassword: string,
                          random: seq<Crypto.Byte>, now: int, later: int)
    requires |random| == 32 && password != "" && password == adminPassword
    requires later >= now
    ensures var (s, res) := Authenticate(store, password, adminPassword, random, now);
      Validate(s, res.sessionToken.value, later).1 <==> later - now <= Duration
  {
  }

  /** However often a session is validated, it still expires 24 hours after
      its creation. */
  lemma ActivityDoesNotExtend(store: Store, token: string, t1: int, t2: int)
    requires token in store && t2 - store[token].createdAt > Duration
    ensures !Validate(Validate(store, token, t1).0, token, t2).1
  {
  }

  /** `updateAdminActivity(sessionToken)`: a validation that, when it
      succeeds, marks the session active `now` once more. */
  function UpdateActivity(store: Store, token: string, now: int): (r: (Store, bool))
    ensures r.1 <==> Validate(store, token, now).1
    ensures r.1 ==> token in r.0 && r.0[token].lastActivity == now && r.0[token].createdAt == store[token].createdAt
    ensures !r.1 ==> r.0 == Validate(store, token, now).0
  {
    var (s, ok) := Validate(store, token, now);
    if !ok then (s, false)
    else (s[token := s[token].(lastActivity := now)], true)
  }

  /** `logoutAdmin(sessionToken)`: true exactly when a non-empty token was
      in the map and is now removed. */
  function Logout(store: Store, token: string): (r: (Store, bool))
    ensures r.1 <==> token != "" && token in store
    ensures token != "" ==> r.0 == store - {token}
    ensures token == "" ==> r.0 == store
    ensures token != "" ==> token !in r.0
  {
    if token == "" then (store, false)
    else (store - {token}, token in store)
  }

  /** A second logout with the same token answers false. */
  lemma SecondLogoutFails(store: Store, token: string)
    ensures !Logout(Logout(store, token).0, token).1
  {
  }

  /** What `getAdminSessionInfo` answers. */
  datatype SessionInfo = Invalid | Valid(createdAt: int, lastActivity: int)

  /** `getAdminSessionInfo(sessionToken)`: the times of a session that
      validates (its last activity is then `now`). */
  function GetSessionInfo(store: Store, token: string, now: int): (r: (Store, SessionInfo))
    ensures r.1.Valid? <==> Validate(store, token, now).1
    ensures r.1.Valid? ==> r.1 == Valid(store[token].createdAt, now)
    ensures r.0 == Validate(store, token, now).0
  {
    var (s, ok) := Validate(store, token, now);
    if !ok then (s, Invalid)
    else (s, Valid(s[token].createdAt, s[token].lastActivity))
  }

  /** The tokens of the sessions past their lifetime. */
  function ExpiredTokens(store: Store, now: int): set<string> {
    set t | t in store && Expired(store[t], now)
  }

  /** `cleanupExpiredSessions()`: deletes exactly the expired sessions and
      answers how many there were. */
  function CleanupExpired(store: Store, now: int): (r: (Store, nat))
    ensures forall t :: t in r.0 <==> t in store && !Expired(store[t], now)
    ensures forall t :: t in r.0 ==> r.0[t] == store[t]
    ensures r.1 == |ExpiredTokens(store, now)|
    ensures r.1 + |r.0| == |store|
  {
    var kept := map t | t in store && !Expired(store[t], now) :: store[t];
    var gone := ExpiredTokens(store, now);
    assert store.Keys == kept.Keys + gone;
    assert kept.Keys !! gone;
    (kept, |gone|)
  }

  /** `getActiveSessionCount()`: the sweep runs first, so the count is the
      number of sessions within their lifetime. */
  function ActiveSessionCount(store: Store, now: int): (r: (Store, nat))
    ensures r.1 == |store| - |ExpiredTokens(store, now)|
    ensures r.1 == |r.0| && forall t :: t in r.0 ==> !Expired(r.0[t], now)
  {
    var (s, _) := CleanupExpired(store, now);
    (s, |s|)
  }

  /** A sweep does not change what validation answers for any token. */
  lemma CleanupKeepsValidity(store: Store, now: int, token: string)
    ensures Validate(CleanupExpired(store, now).0, token, now).1 == Validate(store, token, now).1
  {
  }
}

=== FILE: client_utils.dfy ===
/** The browser helpers of public/js/common.js: the countdown text, the word
    counter, and cookie writing and reading. `document.cookie` is not a
    variable here: `setCookie` returns the string it would assign, and
    `getCookie` takes the cookie header it would read. */
module ClientUtils {
  import opened Wrappers
  import opened Text

  // ---------------------------------------------------------------------
  // formatTimeRemaining
  // ---------------------------------------------------------------------

  /** JavaScript's `a % d` for a positive divisor: the remainder takes the
      sign of the dividend (Dafny's `%` never returns a negative value). */
  function JsRemainder(a: int, d: int): (r: int)
    requires d > 0
    ensures -d < r < d
    ensures a >= 0 ==> r == a % d
    ensures a < 0 ==> r <= 0 && r == -((-a) % d)
  {
    if a >= 0 then a % d else -((-a) % d)
  }

  /** `formatTimeRemaining(seconds)`: `Math.floor(seconds / 60)`, a colon,
      and `seconds % 60` padded to two characters with zeros. */
  function FormatTimeRemaining(seconds: int): (r: string)
    ensures ':' in r
  {
    var minutes := seconds / 60;
    var rest := JsRemainder(seconds, 60);
    assert (IntToString(minutes) + ":" + PadStart(IntToString(rest), 2, '0'))[|IntToString(minutes)|] == ':';
    IntToString(minutes) + ":" + PadStart(IntToString(rest), 2, '0')
  }

  /** Reads `m:ss` back into `m * 60 + ss`: two parts of decimal digits, the
      second exactly two digits below 60. */
  function ParseTime(t: string): Option<nat> {
    var parts := Split(t, ':');
    if |parts| != 2 || |parts[0]| == 0 || |parts[1]| != 2
       || !AllDigits(parts[0]) || !AllDigits(parts[1]) || ParseDigits(parts[1]) >= 60
    then None
    else
      Some(ParseDigits(parts[0]) * 60 + ParseDigits(parts[1]))
  }

  lemma LeadingDigitBound(s: string)
    requires |s| == 2 && AllDigits(s)
    ensures ParseDigits(s) == DigitValue(s[0]) * 10 + DigitValue(s[1])
    ensures ParseDigits(s) < 60 ==> DigitValue(s[0]) < 6
  {
    assert s[..1][..0] == [];
    assert ParseDigits(s[..1]) == DigitValue(s[0]);
    assert ParseDigits(s) == ParseDigits(s[..1]) * 10 + DigitValue(s[1]);
  }

  /** For a non-negative count the text reads back as the same count of
      seconds: minutes before the colon, two-digit seconds after it. */
  lemma FormatTimeRoundTrip(seconds: nat)
    ensures ParseTime(FormatTimeRemaining(seconds)) == Some(seconds)
  {
    var m := NatToString(seconds / 60);
    var ss := seconds % 60;
    var p := PadStart(NatToString(ss), 2, '0');
    assert FormatTimeRemaining(seconds) == m + [':'] + p;
    PaddedSeconds(ss);
    DigitsHaveNoColon(m);
    DigitsHaveNoColon(p);
    SplitAfterPiece(m, ':', p);
    SplitNoSep(p, ':');
    assert Split(m + [':'] + p, ':') == [m, p];
    ParseNatToString(seconds / 60);
  }

  /** The two-character seconds field reads back as the seconds. */
  lemma PaddedSeconds(ss: nat)
    requires ss < 60
    ensures AllDigits(PadStart(NatToString(ss), 2, '0'))
    ensures |PadStart(NatToString(ss), 2, '0')| == 2
    ensures ParseDigits(PadStart(NatToString(ss), 2, '0')) == ss
  {
    var p := PadStart(NatToString(ss), 2, '0');
    ParseNatToString(ss);
    if ss < 10 {
      assert p == ['0', DigitChar(ss)];
      LeadingDigitBound(p);
    } else {
      assert NatToString(ss) == NatToString(ss / 10) + [DigitChar(ss % 10)];
      assert p == NatToString(ss);
    }
  }

  lemma DigitsHaveNoColon(s: string)
    requires AllDigits(s)
    ensures ':' !in s
  {
  }

  /** A negative count keeps JavaScript's signs: one second before zero
      shows as `-1:-1`. */
  lemma FormatNegativeSecond()
    ensures FormatTimeRemaining(-1) == "-1:-1"
  {
    assert NatToString(1) == "1";
  }

  // ---------------------------------------------------------------------
  // countWords
  // ---------------------------------------------------------------------

  /** `countWords(text)`: 0 when the trimmed text is empty, otherwise the
      number of pieces of the trimmed text split on whitespace runs. */
  function CountWords(text: string): (n: nat)
    ensures |Trim(text)| == 0 <==> n == 0
  {
    var t := Trim(text);
    if |t| == 0 then 0
    else
      SplitOnRunsCountsWords(t, IsJsSpace);
      assert WordStarts(t, IsJsSpace, false) > 0 by {
        assert !IsJsSpace(t[0]);
      }
      |SplitOnRuns(t, IsJsSpace)|
  }

  /** The word count is the number of maximal runs of non-whitespace
      characters in the text. */
  lemma CountWordsCountsRuns(text: string)
    ensures CountWords(text) == WordStarts(text, IsJsSpace, false)
  {
    var t := Trim(text);
    TrimKeepsWordStarts(text, IsJsSpace);
    if |t| == 0 {
      assert WordStarts(t, IsJsSpace, false) == 0;
    } else {
      SplitOnRunsCountsWords(t, IsJsSpace);
    }
  }

  // ---------------------------------------------------------------------
  // setCookie / removeCookie
  // ---------------------------------------------------------------------

  /** An option entry of a plain object, in insertion order; `None` is an
      `undefined` value. Values are already in their string form. */
  type Options = seq<(string, Option<string>)>

  predicate DistinctKeys(opts: Options) {
    forall i, j :: 0 <= i < j < |opts| ==> opts[i].0 != opts[j].0
  }

  /** The defaults `{ path: '/', maxAge: 604800 }`. */
  const CookieDefaults: Options := [("path", Some("/")), ("maxAge", Some("604800"))]

  function KeyIndex(opts: Options, key: string): (k: int)
    ensures -1 <= k < |opts|
    ensures k >= 0 ==> opts[k].0 == key
    ensures k == -1 ==> forall i :: 0 <= i < |opts| ==> opts[i].0 != key
  {
    if |opts| == 0 then -1
    else
      var k := KeyIndex(opts[..|opts| - 1], key);
      if k >= 0 then k else if opts[|opts| - 1].0 == key then |opts| - 1 else -1
  }

  /** Assigning one property: an existing key keeps its place and takes
      the new value, a new key goes to the end. */
  function Assign(opts: Options, key: string, val: Option<string>): (r: Options)
    requires DistinctKeys(opts)
    ensures DistinctKeys(r)
    ensures KeyIndex(opts, key) >= 0 ==> |r| == |opts|
    ensures KeyIndex(opts, key) == -1 ==> |r| == |opts| + 1 && r[..|opts|] == opts && r[|opts|] == (key, val)
    ensures forall i :: 0 <= i < |opts| ==> r[i].0 == opts[i].0
    ensures forall i :: 0 <= i < |opts| && opts[i].0 != key ==> r[i] == opts[i]
  {
    var k := KeyIndex(opts, key);
    if k >= 0 then opts[k := (key, val)] else opts + [(key, val)]
  }

  /** `{ ...base, ...extra }` */
  function Spread(base: Options, extra: Options): (r: Options)
    requires DistinctKeys(base)
    ensures DistinctKeys(r)
    decreases |extra|
  {
    if |extra| == 0 then base
    else Spread(Assign(base, extra[0].0, extra[0].1), extra[1..])
  }

  /** The value a key ends up with after a spread: the last value `extra`
      gives it, otherwise the value it had in `base`. */
  function Lookup(opts: Options, key: string): Option<Option<string>> {
    if |opts| == 0 then None
    else if opts[|opts| - 1].0 == key then Some(opts[|opts| - 1].1)
    else Lookup(opts[..|opts| - 1], key)
  }

  lemma {:induction false} LookupAssign(opts: Options, key: string, val: Option<string>, q: string)
    requires DistinctKeys(opts)
    ensures Lookup(Assign(opts, key, val), q) == if q == key then Some(val) else Lookup(opts, q)
  {
    var r := Assign(opts, key, val);
    if KeyIndex(opts, key) >= 0 {
      LookupByIndex(r, q);
      LookupByIndex(opts, q);
    } else {
      assert r[..|r| - 1] == opts;
    }
  }

  /** With distinct keys, `Lookup` finds the entry with that key. */
  lemma {:induction false} LookupByIndex(opts: Options, q: string)
    requires DistinctKeys(opts)
    ensures forall i :: 0 <= i < |opts| && opts[i].0 == q ==> Lookup(opts, q) == Some(opts[i].1)
    ensures (forall i :: 0 <= i < |opts| ==> opts[i].0 != q) ==> Lookup(opts, q) == None
  {
    if |opts| > 0 {
      LookupByIndex(opts[..|opts| - 1], q);
    }
  }

  /** Explicit options override the defaults; keys they do not mention keep
      the default. */
  lemma {:induction false} SpreadOverrides(base: Options, extra: Options, q: string)
    requires DistinctKeys(base)
    ensures Lookup(Spread(base, extra), q)
         == if Lookup(extra, q).Some? then Lookup(extra, q) else Lookup(base, q)
    decreases |extra|
  {
    if |extra| > 0 {
      var b := Assign(base, extra[0].0, extra[0].1);
      SpreadOverrides(b, extra[1..], q);
      LookupAssign(base, extra[0].0, extra[0].1, q);
      LookupSplitFirst(extra, q);
    }
  }

  /** Looking up in a list is looking up in its tail, falling back to its
      first entry. */
  lemma {:induction false} LookupSplitFirst(opts: Options, q: string)
    requires |opts| > 0
    ensures Lookup(opts, q) == if Lookup(opts[1..], q).Some? then Lookup(opts[1..], q)
                               else if opts[0].0 == q then Some(opts[0].1) else None
  {
    if |opts| > 1 {
      LookupSplitFirst(opts[..|opts| - 1], q);
      assert opts[..|opts| - 1][1..] == opts[1..][..|opts| - 2];
    }
  }

  /** The `; key=val` suffix for every entry whose value is defined. */
  function Attributes(opts: Options): string {
    if |opts| == 0 then ""
    else
      (match opts[0].1 case Some(v) => "; " + opts[0].0 + "=" + v case None => "")
      + Attributes(opts[1..])
  }

  /** `setCookie(name, value, options)`: the cookie string assigned to
      `document.cookie`. */
  function SetCookie(name: string, value: string, options: Options): (r: string)
    ensures StartsWith(r, name + "=" + value)
  {
    name + "=" + value + Attributes(Spread(CookieDefaults, options))
  }

  /** Without options the cookie gets the default path and a seven-day
      lifetime; the first option overriding `maxAge` replaces the default
      in place. */
  lemma SetCookieDefaults(name: string, value: string)
    ensures SetCookie(name, value, []) == name + "=" + value + "; path=/; maxAge=604800"
  {
  }

  /** `removeCookie(name)`: an empty value with `maxAge` 0. */
  function RemoveCookie(name: string): (r: string)
    ensures r == name + "=; path=/; maxAge=0"
  {
    ExpiredAttributes();
    SetCookie(name, "", [("maxAge", Some("0"))])
  }

  /** The defaults with `maxAge` overridden by 0, written out. */
  lemma ExpiredAttributes()
    ensures Attributes(Spread(CookieDefaults, [("maxAge", Some("0"))])) == "; path=/; maxAge=0"
  {
    MaxAgeOverridden();
    var opts := [("path", Some("/")), ("maxAge", Some("0"))];
    assert opts[1..][1..] == [];
    assert Attributes(opts) == "; path=/; maxAge=0";
  }

  lemma MaxAgeOverridden()
    ensures Spread(CookieDefaults, [("maxAge", Some("0"))]) == [("path", Some("/")), ("maxAge", Some("0"))]
  {
    assert CookieDefaults[..1][..0] == [];
    assert KeyIndex(CookieDefaults[..1], "maxAge") == -1;
    assert KeyIndex(CookieDefaults, "maxAge") == 1;
  }

  // ---------------------------------------------------------------------
  // getCookie / isAuthenticated
  // ---------------------------------------------------------------------

  /** What `getCookie` returns: `null` when no cookie has the name,
      `undefined` when the matching cookie has no `=`, otherwise the text
      between the first and the second `=`. */
  datatype CookieValue = Null | Undefined | Value(v: string)

  /** `cookie.trim().split('=')` */
  function CookieParts(piece: string): (r: seq<string>)
    ensures |r| >= 1
  {
    Split(Trim(piece), '=')
  }

  /** The name part of one piece. */
  function CookieName(piece: string): string {
    CookieParts(piece)[0]
  }

  /** The loop of `getCookie` over the `;`-separated pieces. */
  function FindCookie(pieces: seq<string>, name: string): (r: CookieValue)
    ensures r == Null <==> forall i :: 0 <= i < |pieces| ==> CookieName(pieces[i]) != name
  {
    if |pieces| == 0 then Null
    else
      var kv := CookieParts(pieces[0]);
      if kv[0] == name then (if |kv| >= 2 then Value(kv[1]) else Undefined)
      else
        var r := FindCookie(pieces[1..], name);
        assert forall i :: 1 <= i < |pieces| ==> pieces[i] == pieces[1..][i - 1];
        r
  }

  /** `getCookie(name)` on the cookie header `jar`. */
  function GetCookie(jar: string, name: string): CookieValue {
    FindCookie(Split(jar, ';'), name)
  }

  /** `isAuthenticated()`: the session cookie is present at all (its value,
      even `undefined`, is not checked). */
  predicate IsAuthenticated(jar: string) {
    GetCookie(jar, "schreibmaschine_session") != Null
  }

  /** A cookie as it appears in the header: `name=value`. */
  predicate WellFormedCookie(c: (string, string)) {
    && |c.0| > 0 && !IsJsSpace(c.0[0])
    && (|c.1| > 0 ==> !IsJsSpace(c.1[|c.1| - 1]))
    && ';' !in c.0 && '=' !in c.0 && ';' !in c.1 && '=' !in c.1
  }

  /** Cookie `i` is the first one called `name`. */
  predicate FirstNamed(cookies: seq<(string, string)>, name: string, i: int) {
    0 <= i < |cookies| && cookies[i].0 == name && forall j :: 0 <= j < i ==> cookies[j].0 != name
  }

  /** The header the browser presents: cookies joined with `; `. */
  function CookieHeader(cookies: seq<(string, string)>): string {
    Join(seq(|cookies|, i requires 0 <= i < |cookies| => Piece(cookies[i], i == 0)), ';')
  }

  /** Reading a header built from well-formed cookies: the value of the first
      cookie with the name, and `null` when there is none. */
  lemma GetCookieFromHeader(cookies: seq<(string, string)>, name: string)
    requires |cookies| > 0
    requires forall i :: 0 <= i < |cookies| ==> WellFormedCookie(cookies[i])
    ensures forall i :: FirstNamed(cookies, name, i) ==> GetCookie(CookieHeader(cookies), name) == Value(cookies[i].1)
    ensures (forall i :: 0 <= i < |cookies| ==> cookies[i].0 != name)
      ==> GetCookie(CookieHeader(cookies), name) == Null
  {
    var pieces := seq(|cookies|, i requires 0 <= i < |cookies| => Piece(cookies[i], i == 0));
    forall i | 0 <= i < |pieces|
      ensures ';' !in pieces[i]
      ensures CookieParts(pieces[i]) == [cookies[i].0, cookies[i].1]
    {
      PieceReads(cookies[i], i == 0);
    }
    SplitJoin(pieces, ';');
    FindCookieReads(pieces, cookies, name);
  }

  /** Cookie `c` as written in the header; every cookie after the first is
      preceded by a space. */
  function Piece(c: (string, string), first: bool): string {
    (if first then "" else " ") + (c.0 + "=" + c.1)
  }

  lemma PieceReads(c: (string, string), first: bool)
    requires WellFormedCookie(c)
    ensures ';' !in Piece(c, first)
    ensures CookieParts(Piece(c, first)) == [c.0, c.1]
  {
    PieceTrim(c, first);
    CoreSplit(c);
    PieceHasNoSemicolon(c, first);
  }

  lemma PieceHasNoSemicolon(c: (string, string), first: bool)
    requires ';' !in c.0 && ';' !in c.1
    ensures ';' !in Piece(c, first)
  {
    var core := c.0 + "=" + c.1;
    assert ';' !in c.0 + "=";
    assert ';' !in core;
    assert ';' !in (if first then "" else " ");
  }

  lemma PieceTrim(c: (string, string), first: bool)
    requires WellFormedCookie(c)
    ensures Trim(Piece(c, first)) == c.0 + "=" + c.1
  {
    var core := c.0 + "=" + c.1;
    assert core[0] == c.0[0];
    assert core[|core| - 1] == if |c.1| > 0 then c.1[|c.1| - 1] else '=';
    TrimWhileNoop(core, IsJsSpace);
    if !first {
      TrimLeadingSpace(core);
    }
  }

  lemma CoreSplit(c: (string, string))
    requires WellFormedCookie(c)
    ensures Split(c.0 + "=" + c.1, '=') == [c.0, c.1]
  {
    SplitAfterPiece(c.0, '=', c.1);
    SplitNoSep(c.1, '=');
  }

  /** A space before a string whose first character is not whitespace is
      removed by trimming. */
  lemma TrimLeadingSpace(s: string)
    requires |s| > 0 && !IsJsSpace(s[0])
    ensures Trim(" " + s) == Trim(s)
  {
    var t := " " + s;
    assert t[1..] == s;
    assert DropWhile(t, IsJsSpace) == DropWhile(s, IsJsSpace);
  }

  lemma FindCookieReads(pieces: seq<string>, cookies: seq<(string, string)>, name: string)
    requires |pieces| == |cookies|
    requires forall i :: 0 <= i < |pieces| ==> CookieParts(pieces[i]) == [cookies[i].0, cookies[i].1]
    ensures forall i :: FirstNamed(cookies, name, i) ==> FindCookie(pieces, name) == Value(cookies[i].1)
    ensures (forall i :: 0 <= i < |cookies| ==> cookies[i].0 != name)
      ==> FindCookie(pieces, name) == Null
  {
    forall i | FirstNamed(cookies, name, i)
      ensures FindCookie(pieces, name) == Value(cookies[i].1)
    {
      FindCookieFinds(pieces, cookies, name, i);
    }
  }

  /** The loop stops at the first cookie with the name and returns its
      value. */
  lemma {:induction false} FindCookieFinds(pieces: seq<string>, cookies: seq<(string, string)>, name: string, i: nat)
    requires |pieces| == |cookies|
    requires PiecesRead(pieces, cookies)
    requires FirstNamed(cookies, name, i)
    ensures FindCookie(pieces, name) == Value(cookies[i].1)
  {
    if i == 0 {
      assert CookieParts(pieces[0]) == [cookies[0].0, cookies[0].1];
      FindCookieHead(pieces, cookies[0].0, cookies[0].1);
    } else {
      FindCookieStep(pieces, cookies, name);
      FirstNamedTail(cookies, name, i);
      FindCookieFinds(pieces[1..], cookies[1..], name, i - 1);
    }
  }

  /** Each piece reads as the cookie at the same position. */
  predicate PiecesRead(pieces: seq<string>, cookies: seq<(string, string)>)
    requires |pieces| == |cookies|
  {
    forall i :: 0 <= i < |pieces| ==> CookieParts(pieces[i]) == [cookies[i].0, cookies[i].1]
  }

  /** A first cookie with another name is passed over, and the rest of
      the pieces read as the rest of the cookies. */
  lemma FindCookieStep(pieces: seq<string>, cookies: seq<(string, string)>, name: string)
    requires |pieces| == |cookies| > 0 && PiecesRead(pieces, cookies)
    requires cookies[0].0 != name
    ensures FindCookie(pieces, name) == FindCookie(pieces[1..], name)
    ensures PiecesRead(pieces[1..], cookies[1..])
  {
    assert CookieParts(pieces[0]) == [cookies[0].0, cookies[0].1];
    FindCookieSkip(pieces, name);
    forall j | 0 <= j < |pieces[1..]|
      ensures CookieParts(pieces[1..][j]) == [cookies[1..][j].0, cookies[1..][j].1]
    {
      assert pieces[1..][j] == pieces[j + 1];
      assert cookies[1..][j] == cookies[j + 1];
    }
  }

  /** The first cookie named `name`, found past the first position, is
      the first so named in the rest. */
  lemma FirstNamedTail(cookies: seq<(string, string)>, name: string, i: nat)
    requires FirstNamed(cookies, name, i) && i > 0
    ensures FirstNamed(cookies[1..], name, i - 1)
  {
  }

  /** A first piece with the name answers the lookup. */
  lemma FindCookieHead(pieces: seq<string>, name: string, value: string)
    requires |pieces| > 0 && CookieParts(pieces[0]) == [name, value]
    ensures FindCookie(pieces, name) == Value(value)
  {
  }

  /** A first piece with another name is passed over. */
  lemma FindCookieSkip(pieces: seq<string>, name: string)
    requires |pieces| > 0 && CookieName(pieces[0]) != name
    ensures FindCookie(pieces, name) == FindCookie(pieces[1..], name)
  {
  }

  /** The header the browser builds after `loginAsParticipant` (only that
      cookie) authenticates the page. */
  lemma SessionCookieAuthenticates(token: string)
    requires WellFormedCookie(("schreibmaschine_session", token))
    ensures GetCookie(CookieHeader([("schreibmaschine_session", token)]), "schreibmaschine_session") == Value(token)
    ensures IsAuthenticated(CookieHeader([("schreibmaschine_session", token)]))
  {
    GetCookieFromHeader([("schreibmaschine_session", token)], "schreibmaschine_session");
  }
}

=== FILE: crypto.dfy ===
/** Identifier and token formats (src/utils/crypto.ts): short ids for group
    URLs, hexadecimal session tokens, and the UUID and short-id checks. The
    random bytes the service draws from `crypto.getRandomValues` are
    parameters here. */
module Crypto {
  import opened Wrappers
  import opened Text

  /** An element of a `Uint8Array`. */
  type Byte = b: int | 0 <= b < 256

  // ---------------------------------------------------------------------
  // Short ids
  // ---------------------------------------------------------------------

  /** `n` consecutive characters from `first` on. */
  function CharRange(first: char, n: nat): (r: string)
    requires first as int + n <= 0xD800
    ensures |r| == n
    ensures forall i :: 0 <= i < n ==> r[i] as int == first as int + i
  {
    seq(n, i requires 0 <= i < n => (first as int + i) as char)
  }

  /** The 62 characters a short id is drawn from: lower-case letters,
      upper-case letters, digits. */
  const ShortIdAlphabet: string := CharRange('a', 26) + CharRange('A', 26) + CharRange('0', 10)

  /** The alphabet holds exactly the ASCII letters and digits. */
  lemma AlphabetIsAsciiAlnum(c: char)
    ensures c in ShortIdAlphabet <==> IsAsciiAlnum(c)
  {
    if IsAsciiAlnum(c) {
      assert ShortIdAlphabet[AlphabetIndex(c)] == c;
    }
  }

  /** `isValidShortId`: `^[a-zA-Z0-9]{2,3}$`. */
  predicate IsValidShortId(s: string) {
    2 <= |s| <= 3 && forall i :: 0 <= i < |s| ==> IsAsciiAlnum(s[i])
  }

  /** The length `generateShortId` picks: 2 when its coin (`Math.random() >
      0.5`) comes up true, otherwise 3. */
  function ShortIdLength(coin: bool): (n: nat)
    ensures n == 2 || n == 3
  {
    if coin then 2 else 3
  }

  /** `generateShortId()`, given its coin and the random bytes it draws: one
      alphabet character per byte, chosen by the byte modulo 62. */
  function GenerateShortId(coin: bool, bytes: seq<Byte>): (r: string)
    requires |bytes| == ShortIdLength(coin)
    ensures |r| == |bytes|
    ensures forall i :: 0 <= i < |r| ==> r[i] == ShortIdAlphabet[bytes[i] % 62]
    ensures IsValidShortId(r)
  {
    var r := seq(|bytes|, i requires 0 <= i < |bytes| => ShortIdAlphabet[bytes[i] % 62]);
    forall i | 0 <= i < |r|
      ensures IsAsciiAlnum(r[i])
    {
      AlphabetIsAsciiAlnum(r[i]);
    }
    r
  }

  /** Every valid short id is produced by some coin and bytes: the
      generator reaches the whole format. */
  lemma ShortIdGeneratorIsOnto(s: string)
    requires IsValidShortId(s)
    ensures exists coin: bool, bytes: seq<Byte> ::
      |bytes| == ShortIdLength(coin) && GenerateShortId(coin, bytes) == s
  {
    var coin := |s| == 2;
    var bytes := seq(|s|, i requires 0 <= i < |s| => AlphabetIndex(s[i]));
    assert GenerateShortId(coin, bytes) == s;
  }

  /** The position of an ASCII letter or digit in the alphabet. */
  function AlphabetIndex(c: char): (k: Byte)
    requires IsAsciiAlnum(c)
    ensures k < 62 && ShortIdAlphabet[k] == c
  {
    if IsLowerAscii(c) then c as int - 'a' as int
    else if IsUpperAscii(c) then 26 + c as int - 'A' as int
    else 52 + c as int - '0' as int
  }

  // ---------------------------------------------------------------------
  // Hexadecimal tokens
  // ---------------------------------------------------------------------

  predicate IsLowerHex(c: char) {
    IsDigit(c) || ('a' <= c <= 'f')
  }

  /** `[0-9a-fA-F]`, the hex class under the `i` flag. */
  predicate IsHex(c: char) {
    IsLowerHex(c) || ('A' <= c <= 'F')
  }

  function HexDigit(d: nat): (c: char)
    requires d < 16
    ensures IsLowerHex(c)
  {
    if d < 10 then DigitChar(d) else ('a' as int + d - 10) as char
  }

  function HexValue(c: char): (d: nat)
    requires IsLowerHex(c)
    ensures d < 16 && HexDigit(d) == c
  {
    if IsDigit(c) then DigitValue(c) else c as int - 'a' as int + 10
  }

  /** `byte.toString(16)`: one digit below 16, two otherwise. */
  function ByteToRadix16(b: Byte): string {
    if b < 16 then [HexDigit(b)] else [HexDigit(b / 16), HexDigit(b % 16)]
  }

  /** `byte.toString(16).padStart(2, '0')`: always the two digits of the
      byte, high nibble first. */
  function ByteToHex(b: Byte): (r: string)
    ensures r == [HexDigit(b / 16), HexDigit(b % 16)]
  {
    PadStart(ByteToRadix16(b), 2, '0')
  }

  /** `Array.from(bytes, byteToHex).join('')` */
  function HexEncode(bytes: seq<Byte>): (r: string)
    ensures |r| == 2 * |bytes|
    ensures forall i :: 0 <= i < |r| ==> IsLowerHex(r[i])
  {
    if |bytes| == 0 then "" else ByteToHex(bytes[0]) + HexEncode(bytes[1..])
  }

  /** Reads pairs of lower-case hex digits back into bytes; fails on odd
      length or a character outside `[0-9a-f]`. */
  function HexDecode(s: string): (r: Option<seq<Byte>>)
    ensures r.Some? ==> 2 * |r.value| == |s|
    decreases |s|
  {
    if |s| == 0 then Some([])
    else if |s| == 1 || !IsLowerHex(s[0]) || !IsLowerHex(s[1]) then None
    else
      match HexDecode(s[2..])
      case None => None
      case Some(rest) => Some([HexValue(s[0]) * 16 + HexValue(s[1])] + rest)
  }

  /** Decoding the hex text of a byte string gives the bytes back. */
  lemma {:induction false} HexDecodeEncode(bytes: seq<Byte>)
    ensures HexDecode(HexEncode(bytes)) == Some(bytes)
  {
    if |bytes| > 0 {
      var s := HexEncode(bytes);
      HexEncodeStep(bytes);
      assert s[2..] == HexEncode(bytes[1..]);
      HexDecodeEncode(bytes[1..]);
      ByteDigitsRoundTrip(bytes[0]);
      assert [bytes[0]] + bytes[1..] == bytes;
    }
  }

  /** Reading back the two digits of a byte gives the byte. */
  lemma ByteDigitsRoundTrip(b: Byte)
    ensures HexValue(HexDigit(b / 16)) * 16 + HexValue(HexDigit(b % 16)) == b
  {
  }

  /** `generateSessionToken()` and `generateSecureToken()` (the two are the
      same code): 32 random bytes as 64 lower-case hex digits, from which
      the bytes can be read back. */
  function GenerateToken(bytes: seq<Byte>): (r: string)
    requires |bytes| == 32
    ensures |r| == 64
    ensures forall i :: 0 <= i < |r| ==> IsLowerHex(r[i])
    ensures HexDecode(r) == Some(bytes)
  {
    HexDecodeEncode(bytes);
    HexEncode(bytes)
  }

  // ---------------------------------------------------------------------
  // UUIDs
  // ---------------------------------------------------------------------

  /** Lengths of the five hyphen-separated hex groups of the string layout
      of RFC 4122 section 3. */
  const UuidGroups: seq<nat> := [8, 4, 4, 4, 12]

  predicate AllHex(s: string) {
    forall i :: 0 <= i < |s| ==> IsHex(s[i])
  }

  /** `isValidUUID`: the 8-4-4-4-12 pattern of hex digits in either case,
      read group by group. Version and variant nibbles are not checked. */
  predicate IsValidUUID(s: string) {
    var groups := Split(s, '-');
    && |groups| == 5
    && forall g :: 0 <= g < 5 ==> |groups[g]| == UuidGroups[g] && AllHex(groups[g])
  }

  predicate IsHyphenPosition(i: int) {
    i == 8 || i == 13 || i == 18 || i == 23
  }

  /** The same format read position by position: 36 characters, hyphens
      at 8, 13, 18 and 23, hex digits elsewhere. */
  predicate UuidLayout(s: string) {
    && |s| == 36
    && forall i :: 0 <= i < 36 ==> if IsHyphenPosition(i) then s[i] == '-' else IsHex(s[i])
  }

  function JoinUuid(groups: seq<string>): string
    requires |groups| == 5
  {
    (groups[0] + "-") + ((groups[1] + "-") + ((groups[2] + "-") + ((groups[3] + "-") + groups[4])))
  }

  /** Reading by groups and reading by positions agree. */
  lemma UuidLayoutEquivalence(s: string)
    ensures IsValidUUID(s) <==> UuidLayout(s)
  {
    if IsValidUUID(s) {
      var groups := Split(s, '-');
      JoinSplit(s, '-');
      assert Join(groups, '-') == JoinUuid(groups) by {
        JoinFive(groups);
      }
      forall i | 0 <= i < 36
        ensures if IsHyphenPosition(i) then s[i] == '-' else IsHex(s[i])
      {
        UuidCharAt(groups, i);
      }
    }
    if UuidLayout(s) {
      var groups := [s[0..8], s[9..13], s[14..18], s[19..23], s[24..36]];
      assert JoinUuid(groups) == s;
      JoinFive(groups);
      forall g | 0 <= g < 5
        ensures '-' !in groups[g] && AllHex(groups[g])
      {
        var off := [0, 9, 14, 19, 24][g];
        forall j | 0 <= j < |groups[g]|
          ensures groups[g][j] == s[off + j] && !IsHyphenPosition(off + j)
        {
        }
      }
      SplitJoin(groups, '-');
    }
  }

  lemma JoinFive(groups: seq<string>)
    requires |groups| == 5
    ensures Join(groups, '-') == JoinUuid(groups)
  {
    assert groups[4..] == [groups[4]];
    assert groups[3..][1..] == groups[4..];
    assert groups[2..][1..] == groups[3..];
    assert groups[1..][1..] == groups[2..];
    assert Join(groups[4..], '-') == groups[4];
    assert Join(groups[3..], '-') == (groups[3] + "-") + Join(groups[4..], '-');
    assert Join(groups[2..], '-') == (groups[2] + "-") + Join(groups[3..], '-');
    assert Join(groups[1..], '-') == (groups[1] + "-") + Join(groups[2..], '-');
    assert Join(groups, '-') == (groups[0] + "-") + Join(groups[1..], '-');
  }

  lemma UuidCharAt(groups: seq<string>, i: nat)
    requires |groups| == 5
    requires forall g :: 0 <= g < 5 ==> |groups[g]| == UuidGroups[g] && AllHex(groups[g])
    requires i < 36
    ensures if IsHyphenPosition(i) then JoinUuid(groups)[i] == '-' else IsHex(JoinUuid(groups)[i])
  {
    var s := JoinUuid(groups);
    if i < 8 { assert s[i] == groups[0][i]; }
    else if 8 < i < 13 { assert s[i] == groups[1][i - 9]; }
    else if 13 < i < 18 { assert s[i] == groups[2][i - 14]; }
    else if 18 < i < 23 { assert s[i] == groups[3][i - 19]; }
    else if 23 < i { assert s[i] == groups[4][i - 24]; }
  }

  /** The number of hyphens before position `i` of the UUID layout. */
  function HyphensBefore(i: int): nat {
    if i < 8 then 0 else if i < 13 then 1 else if i < 18 then 2 else if i < 23 then 3 else 4
  }

  /** 32 hex digits cut into the five groups of the UUID layout. */
  function HexGroups(h: string): (g: seq<string>)
    requires |h| == 32
    ensures |g| == 5
  {
    [h[0..8], h[8..12], h[12..16], h[16..20], h[20..32]]
  }

  /** The hex text of 16 bytes in the layout of RFC 4122 section 3: the 32
      digits in order, with the four hyphens inserted. */
  function FormatUuid(bytes: seq<Byte>): (r: string)
    requires |bytes| == 16
    ensures UuidLayout(r)
    ensures IsValidUUID(r)
    ensures forall i :: 0 <= i < 36 && !IsHyphenPosition(i) ==> r[i] == HexEncode(bytes)[i - HyphensBefore(i)]
  {
    var h := HexEncode(bytes);
    GroupsLayout(h);
    UuidLayoutEquivalence(JoinUuid(HexGroups(h)));
    JoinUuid(HexGroups(h))
  }

  /** Joining the groups of 32 hex digits gives the UUID layout, each digit
      shifted right by the hyphens before it. */
  lemma GroupsLayout(h: string)
    requires |h| == 32 && forall i :: 0 <= i < 32 ==> IsLowerHex(h[i])
    ensures var r := JoinUuid(HexGroups(h));
      && UuidLayout(r)
      && forall i :: 0 <= i < 36 && !IsHyphenPosition(i) ==> r[i] == h[i - HyphensBefore(i)]
  {
    var g := HexGroups(h);
    var r := JoinUuid(g);
    forall i | 0 <= i < 36
      ensures if IsHyphenPosition(i) then r[i] == '-' else r[i] == h[i - HyphensBefore(i)] && IsHex(r[i])
    {
      if i < 8 { assert r[i] == g[0][i]; }
      else if 8 < i < 13 { assert r[i] == g[1][i - 9]; }
      else if 13 < i < 18 { assert r[i] == g[2][i - 14]; }
      else if 18 < i < 23 { assert r[i] == g[3][i - 19]; }
      else if 23 < i { assert r[i] == g[4][i - 24]; }
    }
  }

  /** `crypto.randomUUID()` from 16 random bytes: a version-4 UUID, whose
      version nibble is 4 and whose variant bits are `10` (RFC 4122
      section 4.4). */
  function GenerateId(bytes: seq<Byte>): (r: string)
    requires |bytes| == 16
    ensures UuidLayout(r) && IsValidUUID(r)
    ensures r[14] == '4'
    ensures r[19] in "89ab"
  {
    var v := StampVersion(bytes);
    UuidNibbles(v);
    FormatUuid(v)
  }

  /** The random bytes with the version nibble of byte 6 set to 4 and the
      top two bits of byte 8 set to `10`; the other bytes are kept. */
  function StampVersion(bytes: seq<Byte>): (v: seq<Byte>)
    requires |bytes| == 16
    ensures |v| == 16
    ensures v[6] / 16 == 4 && v[6] % 16 == bytes[6] % 16
    ensures 8 <= v[8] / 16 < 12 && v[8] % 64 == bytes[8] % 64
    ensures forall i :: 0 <= i < 16 && i != 6 && i != 8 ==> v[i] == bytes[i]
  {
    bytes[..6] + [0x40 + bytes[6] % 16] + bytes[7..8] + [0x80 + bytes[8] % 64] + bytes[9..]
  }

  /** Characters 14 and 19 of the formatted UUID are the high nibbles of
      bytes 6 and 8. */
  lemma UuidNibbles(v: seq<Byte>)
    requires |v| == 16
    ensures FormatUuid(v)[14] == HexDigit(v[6] / 16)
    ensures FormatUuid(v)[19] == HexDigit(v[8] / 16)
  {
    HexEncodeAt(v, 6);
    HexEncodeAt(v, 8);
    assert HyphensBefore(14) == 2 && HyphensBefore(19) == 3;
  }

  /** Byte `k` occupies characters `2k` and `2k + 1` of the hex text, high
      nibble first. */
  lemma {:induction false} HexEncodeAt(bytes: seq<Byte>, k: nat)
    requires k < |bytes|
    ensures HexEncode(bytes)[2 * k] == HexDigit(bytes[k] / 16)
    ensures HexEncode(bytes)[2 * k + 1] == HexDigit(bytes[k] % 16)
  {
    HexEncodeStep(bytes);
    if k > 0 {
      HexEncodeAt(bytes[1..], k - 1);
      assert bytes[1..][k - 1] == bytes[k];
    }
  }

  /** The hex text of a non-empty byte string is the two digits of its
      first byte followed by the hex text of the rest. */
  lemma HexEncodeStep(bytes: seq<Byte>)
    requires |bytes| > 0
    ensures var r := HexEncode(bytes);
      && r[0] == HexDigit(bytes[0] / 16)
      && r[1] == HexDigit(bytes[0] % 16)
      && forall i :: 2 <= i < |r| ==> r[i] == HexEncode(bytes[1..])[i - 2]
  {
    var h := ByteToHex(bytes[0]);
    var t := HexEncode(bytes[1..]);
    assert HexEncode(bytes) == h + t;
    assert h[0] == HexDigit(bytes[0] / 16) && h[1] == HexDigit(bytes[0] % 16);
  }
}

=== FILE: documents.dfy ===
/** Writing documents (src/services/document.service.ts): auto-saving a
    participant's individual text, access and deletion rules, the
    version check that stands in for collaborative merging, the Markdown
    export, and HTML escaping. The `documents` table is a sequence of rows
    in insertion order; a new row's id is drawn by `generateShortId` from
    the random coin and bytes passed in. */
module Documents {
  import opened Wrappers
  import opened Membership
  import opened Tables
  import Crypto

  datatype DocumentType = Collaborative | Individual | RhymePaper

  /** One row of `documents`, reduced to the columns the service reads. */
  datatype Document = Document(
    id: string,
    groupId: string,
    participantId: Option<string>,
    activityId: Option<string>,
    kind: DocumentType,
    content: string,
    version: int)

  type Store = seq<Document>

  predicate UniqueIds(store: Store) {
    forall i, j :: 0 <= i < j < |store| ==> store[i].id != store[j].id
  }

  predicate HasId(store: Store, id: string) {
    exists i :: 0 <= i < |store| && store[i].id == id
  }

  /** `getDocumentById`: the row with that id. */
  function FindById(store: Store, id: string): (r: Option<Document>)
    ensures r.None? <==> !HasId(store, id)
    ensures r.Some? ==> r.value in store && r.value.id == id
  {
    if |store| == 0 then None
    else if store[0].id == id then Some(store[0])
    else
      var r := FindById(store[1..], id);
      assert forall i :: 1 <= i < |store| ==> store[i] == store[1..][i - 1];
      assert HasId(store[1..], id) ==> HasId(store, id) by {
        if HasId(store[1..], id) {
          var i :| 0 <= i < |store[1..]| && store[1..][i].id == id;
          assert store[i + 1].id == id;
        }
      }
      r
  }

  /** With unique ids, the row found is the one at the id's position. */
  lemma {:induction false} FindByIdAt(store: Store, k: nat)
    requires UniqueIds(store)
    requires k < |store|
    ensures FindById(store, store[k].id) == Some(store[k])
  {
    if k > 0 {
      FindByIdAt(store[1..], k - 1);
    }
  }

  // ---------------------------------------------------------------------
  // saveIndividualDocument
  // ---------------------------------------------------------------------

  /** The activity id as the queries see it: an empty id is falsy in
      JavaScript and selects `activity_id IS NULL`, and is stored as NULL. */
  function ActivityKey(activityId: Option<string>): (r: Option<string>)
    ensures r.Some? ==> r.value != ""
    ensures activityId.Some? && activityId.value != "" ==> r == activityId
  {
    match activityId
    case Some(a) => if a == "" then None else Some(a)
    case None => None
  }

  /** The individual document of `participant` in `group` for the
      activity key. */
  predicate IsIndividualFor(d: Document, participantId: string, groupId: string, key: Option<string>) {
    d.kind == Individual && d.participantId == Some(participantId) && d.groupId == groupId && d.activityId == key
  }

  /** Two documents belong to the same participant, group and activity. */
  predicate SameKey(a: Document, b: Document) {
    a.participantId == b.participantId && a.groupId == b.groupId && a.activityId == b.activityId
  }

  /** At most one individual document per participant, group and activity:
      the invariant auto-save keeps. */
  predicate OneIndividualPerKey(store: Store) {
    forall i, j :: 0 <= i < j < |store| && store[i].kind == Individual && store[j].kind == Individual ==>
      SameKey(store[i], store[j]) == false
  }

  /** The position of the first individual document for the key, or -1. */
  function FindIndividual(store: Store, participantId: string, groupId: string, key: Option<string>): (k: int)
    ensures -1 <= k < |store|
    ensures k >= 0 ==> IsIndividualFor(store[k], participantId, groupId, key)
    ensures k >= 0 ==> forall i :: 0 <= i < k ==> !IsIndividualFor(store[i], participantId, groupId, key)
    ensures k == -1 <==> forall i :: 0 <= i < |store| ==> !IsIndividualFor(store[i], participantId, groupId, key)
  {
    if |store| == 0 then -1
    else if IsIndividualFor(store[0], participantId, groupId, key) then 0
    else
      var k := FindIndividual(store[1..], participantId, groupId, key);
      assert forall i :: 1 <= i < |store| ==> store[i] == store[1..][i - 1];
      if k == -1 then -1 else k + 1
  }

  /** What SQLite reports when an INSERT repeats the primary key of
      `documents`. */
  const DuplicateIdError := "UNIQUE constraint failed: documents.id"

  /** `saveIndividualDocument(participantId, groupId, content, activityId)`:
      the existing individual document for the key gets the new content;
      without one, a new row with version 1 is inserted under the id
      `generateShortId()` draws from `coin` and `bytes`, and the insert
      fails when that id is already taken. Returns the new table and the
      saved document. */
  function SaveIndividualDocument(store: Store, participantId: string, groupId: string,
                                  content: string, activityId: Option<string>,
                                  coin: bool, bytes: seq<Crypto.Byte>): (r: Result<(Store, Document), string>)
    requires |bytes| == Crypto.ShortIdLength(coin)
    ensures r.Err? <==>
      FindIndividual(store, participantId, groupId, ActivityKey(activityId)) == -1
      && HasId(store, Crypto.GenerateShortId(coin, bytes))
    ensures r.Err? ==> r.error == DuplicateIdError
    ensures r.Ok? ==> IsIndividualFor(r.value.1, participantId, groupId, ActivityKey(activityId))
    ensures r.Ok? ==> r.value.1.content == content && r.value.1 in r.value.0
    ensures FindIndividual(store, participantId, groupId, ActivityKey(activityId)) >= 0 ==>
      var k := FindIndividual(store, participantId, groupId, ActivityKey(activityId));
      && r.Ok?
      && |r.value.0| == |store|
      && r.value.0[k] == store[k].(content := content) == r.value.1
      && (forall i :: 0 <= i < |store| && i != k ==> r.value.0[i] == store[i])
    ensures r.Ok? && FindIndividual(store, participantId, groupId, ActivityKey(activityId)) == -1 ==>
      && r.value.0 == store + [r.value.1]
      && r.value.1 == Document(Crypto.GenerateShortId(coin, bytes), groupId, Some(participantId),
                               ActivityKey(activityId), Individual, content, 1)
  {
    var key := ActivityKey(activityId);
    var k := FindIndividual(store, participantId, groupId, key);
    if k >= 0 then
      var d := store[k].(content := content);
      assert store[k := d][k] == d;
      Ok((store[k := d], d))
    else
      var id := Crypto.GenerateShortId(coin, bytes);
      if HasId(store, id) then Err(DuplicateIdError)
      else
        var d := Document(id, groupId, Some(participantId), key, Individual, content, 1);
        Ok((store + [d], d))
  }

  /** Auto-save keeps unique ids and at most one individual document per
      key, whether it succeeds or fails. */
  lemma SaveKeepsInvariants(store: Store, participantId: string, groupId: string,
                            content: string, activityId: Option<string>,
                            coin: bool, bytes: seq<Crypto.Byte>)
    requires |bytes| == Crypto.ShortIdLength(coin)
    requires UniqueIds(store) && OneIndividualPerKey(store)
    ensures var r := SaveIndividualDocument(store, participantId, groupId, content, activityId, coin, bytes);
      r.Ok? ==> UniqueIds(r.value.0) && OneIndividualPerKey(r.value.0)
  {
    var r := SaveIndividualDocument(store, participantId, groupId, content, activityId, coin, bytes);
    var k := FindIndividual(store, participantId, groupId, ActivityKey(activityId));
    if k == -1 && r.Ok? {
      var id := Crypto.GenerateShortId(coin, bytes);
      forall i | 0 <= i < |store|
        ensures store[i].id != id
      {
      }
    }
  }

  /** Two-character ids collide: a new document whose drawn id is already
      in the table is not saved. */
  lemma CollidingShortIdFails(other: Document, participantId: string, groupId: string, content: string)
    requires other.id == "aa" && other.kind != Individual
    ensures SaveIndividualDocument([other], participantId, groupId, content, None, true, [0, 0])
      == Err(DuplicateIdError)
  {
    assert Crypto.GenerateShortId(true, [0, 0]) == "aa" by {
      assert Crypto.ShortIdAlphabet[0] == 'a';
    }
    assert HasId([other], "aa") by {
      assert [other][0].id == "aa";
    }
  }

  /** Saving twice for the same key updates the same document: once the
      first save succeeds, the second cannot collide, appends nothing, and
      the document holds the latest content. */
  lemma SecondSaveUpdates(store: Store, participantId: string, groupId: string,
                          c1: string, c2: string, activityId: Option<string>,
                          coin1: bool, bytes1: seq<Crypto.Byte>, coin2: bool, bytes2: seq<Crypto.Byte>)
    requires |bytes1| == Crypto.ShortIdLength(coin1) && |bytes2| == Crypto.ShortIdLength(coin2)
    requires SaveIndividualDocument(store, participantId, groupId, c1, activityId, coin1, bytes1).Ok?
    ensures var (s1, d1) := SaveIndividualDocument(store, participantId, groupId, c1, activityId, coin1, bytes1).value;
      var r2 := SaveIndividualDocument(s1, participantId, groupId, c2, activityId, coin2, bytes2);
      r2.Ok? && |r2.value.0| == |s1| && r2.value.1.id == d1.id && r2.value.1.content == c2
  {
    var (s1, d1) := SaveIndividualDocument(store, participantId, groupId, c1, activityId, coin1, bytes1).value;
    var key := ActivityKey(activityId);
    var k0 := FindIndividual(store, participantId, groupId, key);
    var k1 := FindIndividual(s1, participantId, groupId, key);
    if k0 >= 0 {
      assert IsIndividualFor(s1[k0], participantId, groupId, key);
      assert k1 == k0;
    } else {
      assert IsIndividualFor(s1[|store|], participantId, groupId, key);
      assert k1 == |store|;
    }
  }

  // ---------------------------------------------------------------------
  // Access and deletion
  // ---------------------------------------------------------------------

  /** The owner reads an individual document, every group member any
      other one. */
  predicate MayRead(members: seq<Member>, d: Document, participantId: string) {
    if d.kind == Individual then d.participantId == Some(participantId)
    else IsMember(members, d.groupId, participantId)
  }

  /** `hasDocumentAccess(documentId, participantId)`: no access to a missing
      document; an individual document only for its owner; any other
      document for every member of its group. */
  function HasDocumentAccess(store: Store, members: seq<Member>, documentId: string, participantId: string): (r: bool)
    ensures !HasId(store, documentId) ==> !r
    ensures r <==> (HasId(store, documentId) && MayRead(members, FindById(store, documentId).value, participantId))
  {
    match FindById(store, documentId)
    case None => false
    case Some(d) =>
      if d.kind == Individual then d.participantId == Some(participantId)
      else IsMember(members, d.groupId, participantId)
  }

  /** Owners of an individual document need not be members of its group,
      and members of the group have no access to it unless they own it. */
  lemma IndividualAccessIsOwnerOnly(store: Store, members: seq<Member>, k: nat, participantId: string)
    requires UniqueIds(store) && k < |store|
    requires store[k].kind == Individual
    ensures HasDocumentAccess(store, members, store[k].id, participantId) <==> store[k].participantId == Some(participantId)
  {
    FindByIdAt(store, k);
  }

  /** The owner deletes an individual document, a teamer of the group any
      document of it. */
  predicate MayDelete(members: seq<Member>, d: Document, participantId: string) {
    (d.kind == Individual && d.participantId == Some(participantId)) || IsTeamer(members, d.groupId, participantId)
  }

  /** `canDeleteDocument(documentId, participantId)`: the owner of an
      individual document, or any teamer of the document's group. */
  function CanDeleteDocument(store: Store, members: seq<Member>, documentId: string, participantId: string): (r: bool)
    ensures !HasId(store, documentId) ==> !r
    ensures r <==> (HasId(store, documentId) && MayDelete(members, FindById(store, documentId).value, participantId))
  {
    match FindById(store, documentId)
    case None => false
    case Some(d) =>
      (d.kind == Individual && d.participantId == Some(participantId)) || IsTeamer(members, d.groupId, participantId)
  }

  /** A teamer who may delete a collaborative document may also read it. */
  lemma DeleterOfSharedDocumentHasAccess(store: Store, members: seq<Member>, documentId: string, participantId: string)
    requires CanDeleteDocument(store, members, documentId, participantId)
    requires FindById(store, documentId).value.kind != Individual
    ensures HasDocumentAccess(store, members, documentId, participantId)
  {
    var d := FindById(store, documentId).value;
    TeamerIsMember(members, d.groupId, participantId);
  }

  /** Removes every row with the id. */
  function RemoveId(store: Store, id: string): (r: Store)
    ensures !HasId(r, id)
    ensures forall d :: d in r <==> d in store && d.id != id
    ensures |r| <= |store|
  {
    if |store| == 0 then []
    else if store[0].id == id then RemoveId(store[1..], id)
    else [store[0]] + RemoveId(store[1..], id)
  }

  /** `deleteDocument(documentId)`: fails on a missing id, otherwise removes
      the row and keeps every other one. */
  function DeleteDocument(store: Store, documentId: string): (r: Result<Store, string>)
    ensures r.Err? <==> !HasId(store, documentId)
    ensures r.Err? ==> r.error == "Document not found"
    ensures r.Ok? ==> !HasId(r.value, documentId) && |r.value| < |store|
    ensures r.Ok? ==> forall d :: d in r.value <==> d in store && d.id != documentId
  {
    if FindById(store, documentId).None? then Err("Document not found")
    else
      var d := FindById(store, documentId).value;
      assert d in store && d !in RemoveId(store, documentId);
      RemoveShrinks(store, documentId);
      Ok(RemoveId(store, documentId))
  }

  lemma {:induction false} RemoveShrinks(store: Store, id: string)
    requires HasId(store, id)
    ensures |RemoveId(store, id)| < |store|
  {
    if store[0].id != id {
      var i :| 0 <= i < |store| && store[i].id == id;
      assert store[1..][i - 1].id == id;
      RemoveShrinks(store[1..], id);
    }
  }

  // ---------------------------------------------------------------------
  // applyCollaborativeOperations
  // ---------------------------------------------------------------------

  /** The answer of `applyCollaborativeOperations`. */
  datatype ApplyOutcome = ApplyOutcome(success: bool, newVersion: int)

  /** `applyCollaborativeOperations(documentId, participantId, operations,
      baseVersion)`: fails for a missing document; on a version mismatch
      reports failure with the current version and changes nothing;
      otherwise stores and reports the next version. The operations
      themselves only reach a serialised state column, which is left out. */
  function ApplyCollaborativeOperations(store: Store, documentId: string, baseVersion: int): (r: Result<(Store, ApplyOutcome), string>)
    requires UniqueIds(store)
    ensures r.Err? <==> !HasId(store, documentId)
    ensures r.Err? ==> r.error == "Document not found"
    ensures r.Ok? ==>
      var d := FindById(store, documentId).value;
      var (s, o) := r.value;
      && |s| == |store|
      && (o.success <==> d.version == baseVersion)
      && (!o.success ==> s == store && o.newVersion == d.version)
      && (o.success ==> o.newVersion == d.version + 1)
      && (o.success ==> FindById(s, documentId) == Some(d.(version := d.version + 1)))
      && (forall i :: 0 <= i < |store| && store[i].id != documentId ==> s[i] == store[i])
  {
    match FindById(store, documentId)
    case None => Err("Document not found")
    case Some(d) =>
      if d.version != baseVersion then Ok((store, ApplyOutcome(false, d.version)))
      else
        var k := IndexWhere(store, (x: Document) => x.id == documentId);
        var s := store[k := d.(version := d.version + 1)];
        FindByIdAt(store, k);
        assert UniqueIds(s);
        FindByIdAt(s, k);
        Ok((s, ApplyOutcome(true, d.version + 1)))
  }

  /** Two updates based on the same version: after the first succeeds, the
      second is refused and leaves the document as the first left it. */
  lemma SameBaseVersionConflicts(store: Store, documentId: string, baseVersion: int)
    requires UniqueIds(store)
    requires ApplyCollaborativeOperations(store, documentId, baseVersion).Ok?
    requires ApplyCollaborativeOperations(store, documentId, baseVersion).value.1.success
    ensures var s1 := ApplyCollaborativeOperations(store, documentId, baseVersion).value.0;
      UniqueIds(s1) &&
      var r2 := ApplyCollaborativeOperations(s1, documentId, baseVersion);
      r2.Ok? && !r2.value.1.success && r2.value.0 == s1
  {
    var s1 := ApplyCollaborativeOperations(store, documentId, baseVersion).value.0;
    var k := IndexWhere(store, (x: Document) => x.id == documentId);
    FindByIdAt(store, k);
    assert s1 == store[k := store[k].(version := store[k].version + 1)];
  }

  // ---------------------------------------------------------------------
  // Export
  // ---------------------------------------------------------------------

  /** The export formats a caller may name. */
  datatype ExportFormat = Markdown | Html | Json

  /** The `switch (format)` of `exportGroupDocuments`: the three formats,
      and the error for anything else. */
  function ParseExportFormat(format: string): (r: Result<ExportFormat, string>)
    ensures r.Err? <==> format !in {"markdown", "html", "json"}
    ensures r.Err? ==> r.error == "Unsupported export format"
    ensures r == Ok(Markdown) <==> format == "markdown"
  {
    if format == "markdown" then Ok(Markdown)
    else if format == "html" then Ok(Html)
    else if format == "json" then Ok(Json)
    else Err("Unsupported export format")
  }

  /** A document joined with its author's display name and its activity's
      name (both NULL when the join finds nothing). */
  datatype ExportRow = ExportRow(
    displayName: Option<string>,
    activityName: Option<string>,
    kind: DocumentType,
    content: string)

  /** A nullable value in a template literal: NULL prints as `null`. */
  function Interpolate(v: Option<string>): string {
    match v
    case Some(s) => s
    case None => "null"
  }

  const MarkdownHeader: string := "# Schreibgruppe Export\n\n"
  const SectionEnd: string := "---\n\n"

  /** The text closes with the rule that ends a section. */
  predicate EndsWithRule(r: string) {
    |r| >= |SectionEnd| && r[|r| - |SectionEnd|..] == SectionEnd
  }

  /** The section of one document: heading with author and (non-empty)
      activity name, a label in italics, the content, and a rule. */
  function MarkdownSection(row: ExportRow): (r: string)
    ensures EndsWithRule(r)
    ensures r[..3] == "## "
  {
    var activity := if row.activityName.Some? && row.activityName.value != "" then " - " + row.activityName.value else "";
    var tag := if row.kind == Individual then "Individueller Text" else "Kollaborativer Text";
    "## " + Interpolate(row.displayName) + activity + "\n\n"
      + "*" + tag + "*\n\n"
      + row.content + "\n\n"
      + SectionEnd
  }

  /** `exportAsMarkdown(documents)`, written as the loop's accumulation. */
  function ExportAsMarkdown(rows: seq<ExportRow>): (r: string)
    ensures |r| >= |MarkdownHeader| && r[..|MarkdownHeader|] == MarkdownHeader
  {
    if |rows| == 0 then MarkdownHeader
    else ExportAsMarkdown(rows[..|rows| - 1]) + MarkdownSection(rows[|rows| - 1])
  }

  /** The export is the header followed by one section per document, in
      order. */
  lemma {:induction false} MarkdownSections(rows: seq<ExportRow>)
    ensures ExportAsMarkdown(rows) == MarkdownHeader + Sections(rows)
  {
    if |rows| > 0 {
      var init, last := rows[..|rows| - 1], rows[|rows| - 1];
      assert init + [last] == rows;
      MarkdownSections(init);
      SectionsSnoc(init, last);
      assert ExportAsMarkdown(rows) == ExportAsMarkdown(init) + MarkdownSection(last);
    }
  }

  /** The sections of the documents, first to last. */
  function Sections(rows: seq<ExportRow>): string {
    if |rows| == 0 then "" else MarkdownSection(rows[0]) + Sections(rows[1..])
  }

  lemma {:induction false} SectionsSnoc(rows: seq<ExportRow>, row: ExportRow)
    ensures Sections(rows + [row]) == Sections(rows) + MarkdownSection(row)
  {
    if |rows| > 0 {
      assert (rows + [row])[1..] == rows[1..] + [row];
      SectionsSnoc(rows[1..], row);
    }
  }

  /** Every document's section ends with the rule, so a non-empty export
      ends with it too. */
  lemma MarkdownEndsWithRule(rows: seq<ExportRow>)
    requires |rows| > 0
    ensures EndsWithRule(ExportAsMarkdown(rows))
  {
    var init := ExportAsMarkdown(rows[..|rows| - 1]);
    var s := MarkdownSection(rows[|rows| - 1]);
    assert ExportAsMarkdown(rows) == init + s;
    RuleEndsAppend(init, s);
  }

  /** Text followed by text that ends with the rule ends with the rule. */
  lemma RuleEndsAppend(a: string, b: string)
    requires EndsWithRule(b)
    ensures EndsWithRule(a + b)
  {
    var n := |SectionEnd|;
    assert forall k :: |a| + |b| - n <= k < |a| + |b| ==> (a + b)[k] == b[k - |a|];
    assert (a + b)[|a| + |b| - n..] == b[|b| - n..];
  }

  // ---------------------------------------------------------------------
  // escapeHtml
  // ---------------------------------------------------------------------

  /** `text.replace(/c/g, rep)` for a single character `c`. */
  function ReplaceAll(s: string, c: char, rep: string): (r: string)
    ensures c !in rep ==> c !in r
  {
    if |s| == 0 then ""
    else (if s[0] == c then rep else [s[0]]) + ReplaceAll(s[1..], c, rep)
  }

  /** `escapeHtml(text)`: the five replacements in the order the service
      applies them, ampersand first. */
  function EscapeHtml(text: string): string {
    var a := ReplaceAll(text, '&', "&amp;");
    var b := ReplaceAll(a, '<', "&lt;");
    var c := ReplaceAll(b, '>', "&gt;");
    var d := ReplaceAll(c, '"', "&quot;");
    ReplaceAll(d, '\'', "&#x27;")
  }

  /** The entity of one character, or the character itself. */
  function EscapeChar(c: char): string {
    if c == '&' then "&amp;"
    else if c == '<' then "&lt;"
    else if c == '>' then "&gt;"
    else if c == '"' then "&quot;"
    else if c == '\'' then "&#x27;"
    else [c]
  }

  /** Each character escaped on its own. */
  function EscapeEach(s: string): (r: string)
    ensures '<' !in r && '>' !in r && '"' !in r && '\'' !in r
  {
    if |s| == 0 then "" else EscapeChar(s[0]) + EscapeEach(s[1..])
  }

  lemma {:induction false} ReplaceAllConcat(a: string, b: string, c: char, rep: string)
    ensures ReplaceAll(a + b, c, rep) == ReplaceAll(a, c, rep) + ReplaceAll(b, c, rep)
  {
    if |a| > 0 {
      assert (a + b)[1..] == a[1..] + b;
      ReplaceAllConcat(a[1..], b, c, rep);
    } else {
      assert a + b == b;
    }
  }

  /** Because the ampersand goes first and no entity contains a later
      target character, the chain of replacements escapes each character
      on its own. */
  lemma {:induction false} EscapeHtmlIsPerCharacter(s: string)
    ensures EscapeHtml(s) == EscapeEach(s)
  {
    if |s| > 0 {
      assert s == [s[0]] + s[1..];
      EscapeHtmlConcat([s[0]], s[1..]);
      EscapeHtmlIsPerCharacter(s[1..]);
      EscapeCharChain(s[0]);
    }
  }

  /** Escaping distributes over concatenation. */
  lemma EscapeHtmlConcat(x: string, y: string)
    ensures EscapeHtml(x + y) == EscapeHtml(x) + EscapeHtml(y)
  {
    ReplaceAllConcat(x, y, '&', "&amp;");
    var xa, ya := ReplaceAll(x, '&', "&amp;"), ReplaceAll(y, '&', "&amp;");
    ReplaceAllConcat(xa, ya, '<', "&lt;");
    var xb, yb := ReplaceAll(xa, '<', "&lt;"), ReplaceAll(ya, '<', "&lt;");
    ReplaceAllConcat(xb, yb, '>', "&gt;");
    var xc, yc := ReplaceAll(xb, '>', "&gt;"), ReplaceAll(yb, '>', "&gt;");
    ReplaceAllConcat(xc, yc, '"', "&quot;");
    var xd, yd := ReplaceAll(xc, '"', "&quot;"), ReplaceAll(yc, '"', "&quot;");
    ReplaceAllConcat(xd, yd, '\'', "&#x27;");
  }

  /** The chain applied to one character gives its entity. */
  lemma EscapeCharChain(c: char)
    ensures EscapeHtml([c]) == EscapeChar(c)
  {
    if c == '&' {
      EscapeAmpersand();
    } else if c == '<' {
      EscapeLess();
    } else if c == '>' {
      EscapeGreater();
    } else if c == '"' {
      EscapeQuote();
    } else if c == '\'' {
      EscapeApostrophe();
    } else {
      EscapePlain(c);
    }
  }

  lemma EscapeAmpersand()
    ensures EscapeHtml("&") == "&amp;"
  {
    var amp := "&amp;";
    ReplaceOne('&', '&', amp);
    AmpersandEntityUntouched();
  }

  /** None of the later targets occurs in the ampersand entity. */
  lemma AmpersandEntityUntouched()
    ensures ReplaceAll(ReplaceAll(ReplaceAll(ReplaceAll("&amp;", '<', "&lt;"), '>', "&gt;"), '"', "&quot;"), '\'', "&#x27;") == "&amp;"
  {
    var amp := "&amp;";
    assert '<' !in amp && '>' !in amp && '"' !in amp && '\'' !in amp;
    Untouched(amp, '<', "&lt;");
    Untouched(amp, '>', "&gt;");
    Untouched(amp, '"', "&quot;");
    Untouched(amp, '\'', "&#x27;");
  }

  lemma EscapeLess()
    ensures EscapeHtml("<") == "&lt;"
  {
    Untouched("<", '&', "&amp;");
    ReplaceOne('<', '<', "&lt;");
    Untouched("&lt;", '>', "&gt;");
    Untouched("&lt;", '"', "&quot;");
    Untouched("&lt;", '\'', "&#x27;");
  }

  lemma EscapeGreater()
    ensures EscapeHtml(">") == "&gt;"
  {
    Untouched(">", '&', "&amp;");
    Untouched(">", '<', "&lt;");
    ReplaceOne('>', '>', "&gt;");
    Untouched("&gt;", '"', "&quot;");
    Untouched("&gt;", '\'', "&#x27;");
  }

  lemma EscapeQuote()
    ensures EscapeHtml("\"") == "&quot;"
  {
    Untouched("\"", '&', "&amp;");
    Untouched("\"", '<', "&lt;");
    Untouched("\"", '>', "&gt;");
    ReplaceOne('"', '"', "&quot;");
    Untouched("&quot;", '\'', "&#x27;");
  }

  lemma EscapeApostrophe()
    ensures EscapeHtml("'") == "&#x27;"
  {
    Untouched("'", '&', "&amp;");
    Untouched("'", '<', "&lt;");
    Untouched("'", '>', "&gt;");
    Untouched("'", '"', "&quot;");
    ReplaceOne('\'', '\'', "&#x27;");
  }

  lemma EscapePlain(c: char)
    requires c !in "&<>\"'"
    ensures EscapeHtml([c]) == [c]
  {
    Untouched([c], '&', "&amp;");
    Untouched([c], '<', "&lt;");
    Untouched([c], '>', "&gt;");
    Untouched([c], '"', "&quot;");
    Untouched([c], '\'', "&#x27;");
  }

  /** One character that is the target becomes the replacement. */
  lemma ReplaceOne(c: char, target: char, rep: string)
    requires c == target
    ensures ReplaceAll([c], target, rep) == rep
  {
    assert [c][1..] == "";
  }

  /** A replacement whose target does not occur changes nothing. */
  lemma Untouched(s: string, target: char, rep: string)
    requires target !in s
    ensures ReplaceAll(s, target, rep) == s
  {
    ReplaceAllEntity(s, target, rep);
  }

  /** A replacement whose target does not occur changes nothing. */
  lemma {:induction false} ReplaceAllEntity(s: string, c: char, rep: string)
    requires c !in s
    ensures ReplaceAll(s, c, rep) == s
  {
    if |s| > 0 {
      ReplaceAllEntity(s[1..], c, rep);
      assert [s[0]] + s[1..] == s;
    }
  }

  /** Reads entities back, left to right. */
  function Unescape(s: string): string
    decreases |s|
  {
    if |s| == 0 then ""
    else if |s| >= 5 && s[..5] == "&amp;" then "&" + Unescape(s[5..])
    else if |s| >= 4 && s[..4] == "&lt;" then "<" + Unescape(s[4..])
    else if |s| >= 4 && s[..4] == "&gt;" then ">" + Unescape(s[4..])
    else if |s| >= 6 && s[..6] == "&quot;" then "\"" + Unescape(s[6..])
    else if |s| >= 6 && s[..6] == "&#x27;" then "'" + Unescape(s[6..])
    else [s[0]] + Unescape(s[1..])
  }

  /** Escaped text contains none of the four markup characters, and reading
      its entities back gives the original text. */
  lemma {:induction false} EscapeHtmlRoundTrip(s: string)
    ensures var e := EscapeHtml(s);
      '<' !in e && '>' !in e && '"' !in e && '\'' !in e
    ensures Unescape(EscapeHtml(s)) == s
  {
    EscapeHtmlIsPerCharacter(s);
    UnescapeEach(s);
  }

  lemma {:induction false} UnescapeEach(s: string)
    ensures Unescape(EscapeEach(s)) == s
  {
    if |s| > 0 {
      UnescapeEach(s[1..]);
      UnescapeStep(s[0], EscapeEach(s[1..]));
      assert [s[0]] + s[1..] == s;
    }
  }

  /** Unescaping reads one escaped character back and continues after it. */
  lemma UnescapeStep(c: char, t: string)
    ensures Unescape(EscapeChar(c) + t) == [c] + Unescape(t)
  {
    if c == '&' {
      UnescapeEntity("&amp;", t);
    } else if c == '<' {
      UnescapeEntity("&lt;", t);
    } else if c == '>' {
      UnescapeEntity("&gt;", t);
    } else if c == '"' {
      UnescapeEntity("&quot;", t);
    } else if c == '\'' {
      UnescapeEntity("&#x27;", t);
    } else {
      var e := [c] + t;
      assert e[0] == c && e[1..] == t;
    }
  }

  /** An entity at the front is read as its character. */
  lemma UnescapeEntity(h: string, t: string)
    requires h in {"&amp;", "&lt;", "&gt;", "&quot;", "&#x27;"}
    ensures Unescape(h + t) == EntityChar(h) + Unescape(t)
  {
    var e := h + t;
    assert e[..|h|] == h && e[|h|..] == t;
    assert e[1] == h[1];
  }

  /** The character an entity stands for. */
  function EntityChar(h: string): string {
    if h == "&amp;" then "&"
    else if h == "&lt;" then "<"
    else if h == "&gt;" then ">"
    else if h == "&quot;" then "\""
    else "'"
  }
}

=== FILE: env.dfy ===
/** Configuration defaults and the log-level filter (src/config/env.ts). The
    environment itself is not read: the defaults are constants and the
    configured level is a parameter. */
module Env {

  /** The four values of `DEV_LOG_LEVEL`. */
  datatype LogLevel = Debug | Info | Warn | Error

  /** The list `shouldLog` looks levels up in. */
  const Levels: seq<LogLevel> := [Debug, Info, Warn, Error]

  /** `levels.indexOf(x)`: the first position of `x`, or -1 when absent. */
  function IndexOf<T(==)>(xs: seq<T>, x: T): (k: int)
    ensures -1 <= k < |xs|
    ensures k == -1 <==> x !in xs
    ensures k >= 0 ==> xs[k] == x && x !in xs[..k]
  {
    if |xs| == 0 then -1
    else if xs[0] == x then 0
    else
      var k := IndexOf(xs[1..], x);
      if k == -1 then -1
      else
        assert xs[..k + 1] == [xs[0]] + xs[1..][..k];
        k + 1
  }

  /** `shouldLog(level)` under the configured level: a message is logged
      when its level comes no earlier in the list than the configured one. */
  predicate ShouldLog(configured: LogLevel, requested: LogLevel) {
    IndexOf(Levels, requested) >= IndexOf(Levels, configured)
  }

  /** The severity of a level, written out independently of the list. */
  function Severity(l: LogLevel): nat {
    match l
    case Debug => 0
    case Info => 1
    case Warn => 2
    case Error => 3
  }

  /** Logging is decided by severity: debug < info < warn < error. */
  lemma ShouldLogBySeverity(configured: LogLevel, requested: LogLevel)
    ensures ShouldLog(configured, requested) <==> Severity(requested) >= Severity(configured)
  {
    assert forall l: LogLevel :: IndexOf(Levels, l) == Severity(l) by {
      forall l: LogLevel
        ensures IndexOf(Levels, l) == Severity(l)
      {
        assert Levels[Severity(l)] == l;
        assert l !in Levels[..Severity(l)];
      }
    }
  }

  /** Errors are logged under every configured level. */
  lemma ErrorsAlwaysLogged(configured: LogLevel)
    ensures ShouldLog(configured, Error)
  {
    ShouldLogBySeverity(configured, Error);
  }

  /** Under `debug` every level is logged. */
  lemma DebugLogsEverything(requested: LogLevel)
    ensures ShouldLog(Debug, requested)
  {
    ShouldLogBySeverity(Debug, requested);
  }

  /** Raising the configured level never lets more messages through. */
  lemma ShouldLogMonotone(c1: LogLevel, c2: LogLevel, requested: LogLevel)
    requires Severity(c1) <= Severity(c2)
    requires ShouldLog(c2, requested)
    ensures ShouldLog(c1, requested)
  {
    ShouldLogBySeverity(c1, requested);
    ShouldLogBySeverity(c2, requested);
  }

  // ---------------------------------------------------------------------
  // Defaults of the real-time settings, in milliseconds
  // ---------------------------------------------------------------------

  /** `SSE_HEARTBEAT_INTERVAL`: 30 seconds. */
  const SseHeartbeatInterval: nat := 30000

  /** `ONLINE_STATUS_TIMEOUT`: one minute. */
  const OnlineStatusTimeout: nat := 60000

  /** `SESSION_MAX_AGE`: seven days. */
  const SessionMaxAge: nat := 7 * 24 * 60 * 60 * 1000

  /** `DEV_LOG_LEVEL` */
  const DefaultLogLevel: LogLevel := Info
}

=== FILE: membership.dfy ===
/** The `group_participants` table that several services consult: who is
    enrolled in which workshop group, and in which role. */
module Membership {
  import opened Wrappers

  datatype Role = Participant | Teamer

  /** One row of `group_participants`. */
  datatype Member = Member(groupId: string, participantId: string, role: Role)

  /** `SELECT 1 FROM group_participants WHERE workshop_group_id = ? AND
      participant_id = ?` finds a row. */
  predicate IsMember(members: seq<Member>, groupId: string, participantId: string) {
    exists i :: 0 <= i < |members| && members[i].groupId == groupId && members[i].participantId == participantId
  }

  /** The same query with `AND role = 'teamer'`. */
  predicate IsTeamer(members: seq<Member>, groupId: string, participantId: string) {
    exists i :: 0 <= i < |members| && members[i] == Member(groupId, participantId, Teamer)
  }

  /** Every teamer of a group is a member of it. */
  lemma TeamerIsMember(members: seq<Member>, groupId: string, participantId: string)
    requires IsTeamer(members, groupId, participantId)
    ensures IsMember(members, groupId, participantId)
  {
    var i :| 0 <= i < |members| && members[i] == Member(groupId, participantId, Teamer);
    assert members[i].groupId == groupId && members[i].participantId == participantId;
  }

  /** The role of the first row for the pair, if any. */
  function RoleOf(members: seq<Member>, groupId: string, participantId: string): (r: Option<Role>)
    ensures r.None? <==> !IsMember(members, groupId, participantId)
    ensures r.Some? ==> exists i :: 0 <= i < |members| && members[i] == Member(groupId, participantId, r.value)
  {
    if |members| == 0 then None
    else if members[0].groupId == groupId && members[0].participantId == participantId then
      Some(members[0].role)
    else
      var r := RoleOf(members[1..], groupId, participantId);
      assert forall i :: 1 <= i < |members| ==> members[i] == members[1..][i - 1];
      assert IsMember(members[1..], groupId, participantId) ==> IsMember(members, groupId, participantId) by {
        if IsMember(members[1..], groupId, participantId) {
          var i :| 0 <= i < |members[1..]| && members[1..][i].groupId == groupId && members[1..][i].participantId == participantId;
          assert members[i + 1] == members[1..][i];
        }
      }
      r
  }
}

=== FILE: pagination.dfy ===
/** The pagination block that the workshop and participant listings return
    (src/services/workshop.service.ts, src/services/participant.service.ts):
    an offset for `LIMIT ? OFFSET ?`, the number of pages, and whether a
    next or previous page exists. */
module Pagination {
  import opened Wrappers

  datatype Page = Page(
    page: int,
    limit: int,
    total: nat,
    offset: int,
    totalPages: Option<int>,
    hasNext: bool,
    hasPrev: bool)

  /** `Math.ceil(total / limit)`: the least whole number at least
      `total / limit`. A limit of 0 gives a non-finite number (Infinity, or
      NaN for no rows), which is `None`; a negative limit gives a whole
      number of 0 or less. */
  function TotalPages(total: nat, limit: int): (r: Option<int>)
    ensures r.Some? <==> limit != 0
    ensures limit > 0 ==> r.value >= 0 && r.value * limit >= total && (r.value - 1) * limit < total
    ensures limit < 0 ==> r.value <= 0 && r.value * limit <= total && (r.value - 1) * limit > total
  {
    if limit == 0 then None
    else if limit > 0 then
      var q := (total + limit - 1) / limit;
      assert q * limit <= total + limit - 1 < (q + 1) * limit;
      Some(q)
    else
      var q := total / -limit;
      assert q * -limit <= total < (q + 1) * -limit;
      Some(-q)
  }

  /** The pages are the least number of `limit`-sized pages covering
      `total` rows. */
  lemma TotalPagesIsLeast(total: nat, limit: int, n: nat)
    requires limit > 0
    requires n * limit >= total
    ensures TotalPages(total, limit).value <= n
  {
    var q := TotalPages(total, limit).value;
    if n < q {
      MulLe(n, q - 1, limit);
    }
  }

  /** Multiplying by a non-negative factor keeps the order. */
  lemma MulLe(a: int, b: int, c: int)
    requires a <= b && c >= 0
    ensures a * c <= b * c
  {
    assert b * c - a * c == (b - a) * c;
  }

  /** `findAll`'s pagination for page `page`, page size `limit` and `total`
      matching rows. */
  function Paginate(page: int, limit: int, total: nat): (r: Page)
    ensures r.offset == (page - 1) * limit
    ensures r.totalPages == TotalPages(total, limit)
    ensures r.hasNext <==> page * limit < total
    ensures r.hasPrev <==> page > 1
    ensures r.page == page && r.limit == limit && r.total == total
  {
    Page(page, limit, total, (page - 1) * limit, TotalPages(total, limit), page * limit < total, page > 1)
  }

  /** With a valid page and limit, a next page exists exactly when the page
      is not the last one. */
  lemma HasNextIffBeforeLastPage(page: int, limit: int, total: nat)
    requires page >= 1 && limit >= 1
    ensures var r := Paginate(page, limit, total);
      r.hasNext <==> page < r.totalPages.value
  {
    var n := TotalPages(total, limit).value;
    if page < n {
      MulLe(page, n - 1, limit);
    } else {
      MulLe(n, page, limit);
    }
  }

  /** The offset SQLite applies for `OFFSET (page - 1) * limit`: a
      negative offset counts as zero. */
  function Offset(page: int, limit: int): (o: nat)
    ensures (page - 1) * limit >= 0 ==> o == (page - 1) * limit
    ensures (page - 1) * limit < 0 ==> o == 0
  {
    if (page - 1) * limit < 0 then 0 else (page - 1) * limit
  }

  /** The rows `LIMIT limit OFFSET (page - 1) * limit` returns under
      SQLite: the rows from the offset on, at most `limit` of them, and all
      of them when the limit is negative. */
  function PageRows<T>(rows: seq<T>, page: int, limit: int): (r: seq<T>)
    ensures limit >= 0 ==> |r| <= limit
    ensures Offset(page, limit) >= |rows| ==> r == []
    ensures var o := Offset(page, limit);
      o < |rows| ==> r == rows[o..if limit >= 0 && o + limit < |rows| then o + limit else |rows|]
  {
    var o := Offset(page, limit);
    if o >= |rows| then [] else rows[o..if limit >= 0 && o + limit < |rows| then o + limit else |rows|]
  }

  /** A negative limit on the first page returns every row (`?limit=-1`). */
  lemma NegativeLimitReturnsAll<T>(rows: seq<T>, limit: int)
    requires limit < 0
    ensures PageRows(rows, 1, limit) == rows
    ensures Paginate(1, limit, |rows|).totalPages.value <= 0
  {
  }

  /** A limit of 0 returns no rows and no finite page count. */
  lemma ZeroLimitIsEmpty<T>(rows: seq<T>, page: int)
    ensures PageRows(rows, page, 0) == []
    ensures Paginate(page, 0, |rows|).totalPages.None?
    ensures Paginate(page, 0, |rows|).hasNext <==> |rows| > 0
  {
    assert page * 0 == 0;
  }

  /** With a positive limit, a page of 0 or less reads the first page's
      rows, since its negative offset counts as zero. */
  lemma PageBeforeFirstReadsFirst<T>(rows: seq<T>, page: int, limit: int)
    requires page <= 1 && limit >= 1
    ensures PageRows(rows, page, limit) == PageRows(rows, 1, limit)
  {
    MulLe(page - 1, 0, limit);
  }

  /** Every row appears on page `i / limit + 1`, which is one of the
      counted pages; a later page is empty and reports no successor. */
  lemma EveryRowHasAPage<T>(rows: seq<T>, limit: int, i: nat)
    requires limit >= 1 && i < |rows|
    ensures var p := i / limit + 1;
      && p <= TotalPages(|rows|, limit).value
      && rows[i] in PageRows(rows, p, limit)
  {
    var q := i / limit;
    DivBounds(i, limit);
    var n := TotalPages(|rows|, limit).value;
    if n <= q {
      MulLe(n, q, limit);
    }
    MulLe(0, q, limit);
    assert Offset(q + 1, limit) == q * limit;
    var r := PageRows(rows, q + 1, limit);
    assert r[i - q * limit] == rows[i];
  }

  /** The quotient's page starts at or before `i` and ends after it. */
  lemma DivBounds(i: nat, limit: int)
    requires limit >= 1
    ensures (i / limit) * limit <= i < (i / limit) * limit + limit
    ensures ((i / limit + 1) - 1) * limit == (i / limit) * limit
  {
  }

  /** A page past the last one holds no rows and has no next page. */
  lemma PastLastPageIsEmpty<T>(rows: seq<T>, page: int, limit: int)
    requires page >= 1 && limit >= 1
    requires page > TotalPages(|rows|, limit).value
    ensures PageRows(rows, page, limit) == []
    ensures !Paginate(page, limit, |rows|).hasNext
  {
    var n := TotalPages(|rows|, limit).value;
    MulLe(n, page - 1, limit);
    MulLe(page - 1, page, limit);
  }
}

=== FILE: participants.dfy ===
/** Participants (src/services/participant.service.ts): listing with
    pagination, lookup by UUID, update of the two names, deletion guarded
    by running groups, bulk creation that records a failure per input, and
    the case-insensitive display-name check. The `participants` table is a
    sequence of rows; ids of new rows are parameters. */
module Participants {
  import opened Wrappers
  import opened Tables
  import Text
  import Crypto
  import Pagination
  import Membership
  import Workshops

  datatype Participant = Participant(id: string, fullName: string, displayName: string)

  /** The fields of a creation request. */
  datatype NewParticipant = NewParticipant(fullName: string, displayName: string)

  type Table = seq<Participant>

  predicate HasId(ps: Table, id: string) {
    exists i :: 0 <= i < |ps| && ps[i].id == id
  }

  predicate UniqueIds(ps: Table) {
    forall i, j :: 0 <= i < j < |ps| ==> ps[i].id != ps[j].id
  }

  /** `findAll`: the matching rows (the LIKE search given as `matches`) in
      the table's order, cut to one page, with the pagination block over
      all matches. The route passes any integer page and limit: a negative
      limit lifts the bound, a negative offset counts as zero. */
  function FindAll(ps: Table, matches: Participant -> bool, page: int, limit: int): (r: (seq<Participant>, Pagination.Page))
    ensures limit >= 0 ==> |r.0| <= limit
    ensures limit < 0 && page == 1 ==> r.0 == Filter(ps, matches)
    ensures forall p :: p in r.0 ==> p in ps && matches(p)
    ensures r.1 == Pagination.Paginate(page, limit, |Filter(ps, matches)|)
  {
    var hits := Filter(ps, matches);
    var rows := Pagination.PageRows(hits, page, limit);
    assert forall p :: p in rows ==> p in hits;
    (rows, Pagination.Paginate(page, limit, |hits|))
  }

  /** `findById(id)`: nothing for a string that is not a UUID, otherwise
      the row with that id. */
  function FindById(ps: Table, id: string): (r: Option<Participant>)
    ensures !Crypto.IsValidUUID(id) ==> r.None?
    ensures Crypto.IsValidUUID(id) ==> (r.None? <==> !HasId(ps, id))
    ensures r.Some? ==> r.value in ps && r.value.id == id
  {
    if !Crypto.IsValidUUID(id) then None else FirstWhere(ps, (p: Participant) => p.id == id)
  }

  /** With unique ids, a participant with a UUID is found by it. */
  lemma FindByIdFindsRow(ps: Table, k: nat)
    requires UniqueIds(ps) && k < |ps|
    requires Crypto.IsValidUUID(ps[k].id)
    ensures FindById(ps, ps[k].id) == Some(ps[k])
  {
    var r := FindById(ps, ps[k].id).value;
    var i :| 0 <= i < |ps| && ps[i] == r;
    assert i == k;
  }

  // ---------------------------------------------------------------------
  // update and delete
  // ---------------------------------------------------------------------

  /** `update(id, data)`: nothing for an unknown id, the existing row when
      neither name is given, otherwise the given names set on that row. */
  function Update(ps: Table, id: string, fullName: Option<string>, displayName: Option<string>): (r: Option<(Table, Participant)>)
    requires UniqueIds(ps)
    ensures r.None? <==> FindById(ps, id).None?
    ensures r.Some? && fullName.None? && displayName.None? ==> r.value == (ps, FindById(ps, id).value)
    ensures r.Some? ==>
      var (t, p) := r.value;
      var old_ := FindById(ps, id).value;
      && |t| == |ps| && UniqueIds(t)
      && p in t && p.id == id
      && p.fullName == (if fullName.Some? then fullName.value else old_.fullName)
      && p.displayName == (if displayName.Some? then displayName.value else old_.displayName)
      && (forall i :: 0 <= i < |ps| && ps[i].id != id ==> t[i] == ps[i])
  {
    match FindById(ps, id)
    case None => None
    case Some(existing) =>
      if fullName.None? && displayName.None? then Some((ps, existing))
      else
        var k :| 0 <= k < |ps| && ps[k] == existing;
        var p := existing.(fullName := if fullName.Some? then fullName.value else existing.fullName,
                           displayName := if displayName.Some? then displayName.value else existing.displayName);
        var t := ps[k := p];
        assert t[k] == p;
        Some((t, p))
  }

  /** Whether the participant belongs to a group that is active or paused. */
  predicate InRunningGroup(members: seq<Membership.Member>, groups: seq<Workshops.WorkshopGroup>, id: string) {
    exists m, g :: m in members && g in groups && m.participantId == id && m.groupId == g.id && Workshops.Running(g)
  }

  /** `delete(id)`: `false` for an unknown participant, an error while the
      participant is in an active or paused group, otherwise the row
      removed and `true`. */
  function Delete(ps: Table, members: seq<Membership.Member>, groups: seq<Workshops.WorkshopGroup>, id: string): (r: Result<(Table, bool), string>)
    ensures FindById(ps, id).None? ==> r == Ok((ps, false))
    ensures r.Err? <==> FindById(ps, id).Some? && InRunningGroup(members, groups, id)
    ensures r.Err? ==> r.error == "Cannot delete participant who is in active groups"
    ensures r.Ok? && FindById(ps, id).Some? ==> r.value.1 && !HasId(r.value.0, id)
    ensures r.Ok? && FindById(ps, id).Some? ==> forall p :: p in r.value.0 <==> p in ps && p.id != id
  {
    if FindById(ps, id).None? then Ok((ps, false))
    else if InRunningGroup(members, groups, id) then
      Err("Cannot delete participant who is in active groups")
    else
      var t := Filter(ps, (p: Participant) => p.id != id);
      assert forall i :: 0 <= i < |t| ==> t[i] in t;
      Ok((t, true))
  }

  // ---------------------------------------------------------------------
  // createMany
  // ---------------------------------------------------------------------

  /** One entry of `createMany`'s error list. */
  datatype CreateError = CreateError(index: nat, error: string, data: NewParticipant)

  /** The participants created from the inputs whose insert did not throw,
      in input order; reference definition for `createMany`. */
  function Created(data: seq<NewParticipant>, ids: seq<string>, thrown: seq<Option<string>>): (r: seq<Participant>)
    requires |ids| == |data| == |thrown|
    ensures |r| <= |data|
  {
    if |data| == 0 then []
    else
      var n := |data| - 1;
      Created(data[..n], ids[..n], thrown[..n])
        + (if thrown[n].None? then [Participant(ids[n], data[n].fullName, data[n].displayName)] else [])
  }

  /** The error entries for the inputs whose insert threw, in input order. */
  function Errors(data: seq<NewParticipant>, thrown: seq<Option<string>>): (r: seq<CreateError>)
    requires |data| == |thrown|
    ensures |r| <= |data|
    ensures forall k :: 0 <= k < |r| ==>
      r[k].index < |data| && thrown[r[k].index] == Some(r[k].error) && r[k].data == data[r[k].index]
    ensures forall k, l :: 0 <= k < l < |r| ==> r[k].index < r[l].index
  {
    if |data| == 0 then []
    else
      var n := |data| - 1;
      var before := Errors(data[..n], thrown[..n]);
      assert forall j :: 0 <= j < n ==> data[..n][j] == data[j] && thrown[..n][j] == thrown[j];
      if thrown[n].Some? then
        var r := before + [CreateError(n, thrown[n].value, data[n])];
        assert forall k :: 0 <= k < |before| ==> r[k] == before[k];
        r
      else before
  }

  /** `createMany(participantsData)`: each input is created in turn; one
      whose insert throws (`thrown[i]` holds the message) goes to the error
      list with its index and data instead. */
  method CreateMany(ps: Table, data: seq<NewParticipant>, ids: seq<string>, thrown: seq<Option<string>>)
    returns (t: Table, created: seq<Participant>, errors: seq<CreateError>)
    requires |ids| == |data| == |thrown|
    ensures created == Created(data, ids, thrown) && t == ps + created
    ensures errors == Errors(data, thrown)
    ensures |created| + |errors| == |data|
  {
    t, created, errors := ps, [], [];
    var i := 0;
    while i < |data|
      invariant 0 <= i <= |data|
      invariant created == Created(data[..i], ids[..i], thrown[..i]) && t == ps + created
      invariant errors == Errors(data[..i], thrown[..i])
    {
      CreateStep(data, ids, thrown, i);
      if thrown[i].None? {
        var p := Participant(ids[i], data[i].fullName, data[i].displayName);
        created := created + [p];
        t := t + [p];
      } else {
        errors := errors + [CreateError(i, thrown[i].value, data[i])];
      }
      i := i + 1;
    }
    CreateDone(data, ids, thrown);
    EveryInputAccountedFor(data, ids, thrown);
  }

  /** All inputs processed: the prefixes are the whole input. */
  lemma CreateDone(data: seq<NewParticipant>, ids: seq<string>, thrown: seq<Option<string>>)
    requires |ids| == |data| == |thrown|
    ensures Created(data[..|data|], ids[..|data|], thrown[..|data|]) == Created(data, ids, thrown)
    ensures Errors(data[..|data|], thrown[..|data|]) == Errors(data, thrown)
  {
    WholeSlice(data);
    WholeSlice(ids);
    WholeSlice(thrown);
  }

  lemma WholeSlice<T>(s: seq<T>)
    ensures s[..|s|] == s
  {
  }

  /** One more input processed: the reference lists grow by its outcome. */
  lemma CreateStep(data: seq<NewParticipant>, ids: seq<string>, thrown: seq<Option<string>>, i: nat)
    requires |ids| == |data| == |thrown| && i < |data|
    ensures Created(data[..i + 1], ids[..i + 1], thrown[..i + 1]) == Created(data[..i], ids[..i], thrown[..i])
      + (if thrown[i].None? then [Participant(ids[i], data[i].fullName, data[i].displayName)] else [])
    ensures Errors(data[..i + 1], thrown[..i + 1]) == Errors(data[..i], thrown[..i])
      + (if thrown[i].Some? then [CreateError(i, thrown[i].value, data[i])] else [])
  {
    assert data[..i + 1][..i] == data[..i];
    assert ids[..i + 1][..i] == ids[..i];
    assert thrown[..i + 1][..i] == thrown[..i];
  }

  /** Every input whose insert threw is reported in the error list. */
  lemma {:induction false} EveryFailureReported(data: seq<NewParticipant>, thrown: seq<Option<string>>, j: nat)
    requires |data| == |thrown| && j < |data| && thrown[j].Some?
    ensures exists k :: 0 <= k < |Errors(data, thrown)| && Errors(data, thrown)[k].index == j
  {
    var n := |data| - 1;
    var before := Errors(data[..n], thrown[..n]);
    if j == n {
      assert Errors(data, thrown)[|before|].index == j;
    } else {
      EveryFailureReported(data[..n], thrown[..n], j);
      var k :| 0 <= k < |before| && before[k].index == j;
      assert Errors(data, thrown)[k] == before[k];
    }
  }

  /** Every input ends up either created or in the error list. */
  lemma {:induction false} EveryInputAccountedFor(data: seq<NewParticipant>, ids: seq<string>, thrown: seq<Option<string>>)
    requires |ids| == |data| == |thrown|
    ensures |Created(data, ids, thrown)| + |Errors(data, thrown)| == |data|
  {
    if |data| > 0 {
      var n := |data| - 1;
      EveryInputAccountedFor(data[..n], ids[..n], thrown[..n]);
    }
  }

  // ---------------------------------------------------------------------
  // displayNameExists
  // ---------------------------------------------------------------------

  /** SQLite's `LOWER`, which folds only ASCII letters. */
  function Lower(s: string): string {
    Text.LowerAsciiString(s)
  }

  /** `displayNameExists(displayName)`: some participant's display name
      equals the given one up to ASCII case. */
  function DisplayNameExists(ps: Table, displayName: string): (r: bool)
    ensures r <==> exists i :: 0 <= i < |ps| && Lower(ps[i].displayName) == Lower(displayName)
  {
    Count(ps, (p: Participant) => Lower(p.displayName) == Lower(displayName)) > 0
  }

  /** The check ignores case: a name and its lower-cased form give the
      same answer, and every stored name is found. */
  lemma DisplayNameExistsIgnoresCase(ps: Table, displayName: string, k: nat)
    requires k < |ps|
    ensures DisplayNameExists(ps, displayName) == DisplayNameExists(ps, Lower(displayName))
    ensures DisplayNameExists(ps, ps[k].displayName)
  {
    var l := Lower(displayName);
    assert Lower(l) == l by {
      forall i | 0 <= i < |l|
        ensures Lower(l)[i] == l[i]
      {
      }
    }
  }
}

=== FILE: rhyming_game.dfy ===
/** The "folded paper" rhyming game (src/services/rhyming-game.service.ts).
    Every enrolled participant starts one paper; a paper's history is the
    rows of `activity_turns` that carry its id, and whose turn it is follows
    from the highest turn number on the paper, taken modulo the number of
    players. The model covers one activity: its turn rows in insertion
    order (`Log`) and its enrolled players in enrolment order. Paper and
    turn ids are fresh values passed in. Nothing serialises the
    check-then-append of a turn, so the operations here are the sequential
    behaviour only. */
module RhymingGame {
  import opened Wrappers

  /** One row of `activity_turns` of the activity. */
  datatype Turn = Turn(
    id: string,
    participantId: string,
    turnNumber: int,
    paperId: string,
    content: string,
    isSkip: bool)

  /** The activity's turn rows, oldest first. */
  type Log = seq<Turn>

  /** An enrolled participant with the display name of its `participants`
      row. */
  datatype Player = Player(id: string, displayName: string)

  /** The turn order: the players' ids in enrolment order. */
  function Ids(players: seq<Player>): (r: seq<string>)
    ensures |r| == |players|
    ensures forall i :: 0 <= i < |r| ==> r[i] == players[i].id
  {
    seq(|players|, i requires 0 <= i < |players| => players[i].id)
  }

  predicate Distinct(s: seq<string>) {
    forall i, j :: 0 <= i < j < |s| ==> s[i] != s[j]
  }

  /** JavaScript's `Array.prototype.indexOf`: the first position of `x`, or
      -1. */
  function IndexOf(s: seq<string>, x: string): (r: int)
    ensures r == -1 <==> x !in s
    ensures r != -1 ==> 0 <= r < |s| && s[r] == x && forall j :: 0 <= j < r ==> s[j] != x
  {
    if |s| == 0 then -1
    else if s[0] == x then 0
    else
      var k := IndexOf(s[1..], x);
      assert forall j :: 1 <= j < |s| ==> s[j] == s[1..][j - 1];
      if k == -1 then -1 else k + 1
  }

  /** In a list without repeats, the position of an element is its index. */
  lemma IndexOfDistinct(s: seq<string>, i: int)
    requires Distinct(s) && 0 <= i < |s|
    ensures IndexOf(s, s[i]) == i
  {
  }

  // ---------------------------------------------------------------------
  // Papers and their rows
  // ---------------------------------------------------------------------

  /** The rows of one paper, oldest first: `WHERE paper_id = ?`. */
  function Rows(log: Log, p: string): (r: seq<Turn>)
    ensures |r| <= |log|
    ensures forall k :: 0 <= k < |r| ==> r[k].paperId == p
    ensures |r| == 0 <==> forall i :: 0 <= i < |log| ==> log[i].paperId != p
  {
    if |log| == 0 then []
    else
      var last := log[|log| - 1];
      var init := log[..|log| - 1];
      assert forall i :: 0 <= i < |init| ==> init[i] == log[i];
      Rows(init, p) + (if last.paperId == p then [last] else [])
  }

  /** A new row joins the rows of its paper and no other. */
  lemma RowsSnoc(log: Log, t: Turn, p: string)
    ensures Rows(log + [t], p) == Rows(log, p) + (if t.paperId == p then [t] else [])
  {
    assert (log + [t])[..|log|] == log;
  }

  /** The rows of a concatenation are the rows of each part. */
  lemma {:induction false} RowsAppend(log: Log, extra: Log, p: string)
    ensures Rows(log + extra, p) == Rows(log, p) + Rows(extra, p)
  {
    if |extra| > 0 {
      var init := extra[..|extra| - 1];
      var last := extra[|extra| - 1];
      assert extra == init + [last];
      assert log + extra == (log + init) + [last];
      RowsAppend(log, init, p);
      RowsSnoc(log + init, last, p);
      RowsSnoc(init, last, p);
    } else {
      assert log + extra == log;
    }
  }

  /** The paper ids in order of first appearance: the groups of
      `GROUP BY paper_id`. */
  function Papers(log: Log): (r: seq<string>)
    ensures Distinct(r)
    ensures forall p :: p in r <==> |Rows(log, p)| > 0
  {
    if |log| == 0 then []
    else
      var last := log[|log| - 1];
      var rest := Papers(log[..|log| - 1]);
      if last.paperId in rest then rest else rest + [last.paperId]
  }

  lemma PapersSnoc(log: Log, t: Turn)
    ensures Papers(log + [t]) == if t.paperId in Papers(log) then Papers(log) else Papers(log) + [t.paperId]
  {
    assert (log + [t])[..|log|] == log;
  }

  /** The highest turn number among some rows: `MAX(turn_number)`. */
  function MaxTurn(rows: seq<Turn>): (m: int)
    requires |rows| > 0
    ensures forall k :: 0 <= k < |rows| ==> rows[k].turnNumber <= m
    ensures exists k :: 0 <= k < |rows| && rows[k].turnNumber == m
  {
    if |rows| == 1 then rows[0].turnNumber
    else
      var init := rows[..|rows| - 1];
      var m := MaxTurn(init);
      assert forall k :: 0 <= k < |init| ==> init[k] == rows[k];
      var last := rows[|rows| - 1].turnNumber;
      if last > m then last else m
  }

  /** The highest turn number on a paper that has rows. */
  function MaxTurnOf(log: Log, p: string): int
    requires |Rows(log, p)| > 0
  {
    MaxTurn(Rows(log, p))
  }

  // ---------------------------------------------------------------------
  // Whose turn it is
  // ---------------------------------------------------------------------

  /** JavaScript's `%`, which truncates: the remainder takes the sign of the
      dividend. */
  function JsRem(a: int, n: int): (r: int)
    requires n > 0
    ensures -n < r < n
    ensures a >= 0 ==> r == a % n
  {
    if a >= 0 then a % n else -((-a) % n)
  }

  /** `participantOrder[(max_turn - 1) % totalParticipants]`: the holder of
      a paper whose highest turn is `maxTurn`, or nothing when the index is
      negative (JavaScript then reads `undefined`). */
  function Holder(order: seq<string>, maxTurn: int): (r: Option<string>)
    requires |order| > 0
    ensures maxTurn >= 1 ==> r == Some(order[(maxTurn - 1) % |order|])
    ensures r.Some? ==> r.value in order
  {
    var i := JsRem(maxTurn - 1, |order|);
    if i >= 0 then Some(order[i]) else None
  }

  /** The paper has rows and waits for `caller`. */
  predicate Holds(order: seq<string>, log: Log, p: string, caller: string) {
    && |order| > 0
    && |Rows(log, p)| > 0
    && Holder(order, MaxTurnOf(log, p)) == Some(caller)
  }

  /** `p` is the first paper, in the order the grouping yields them, that
      waits for `caller`. */
  predicate FirstHeld(order: seq<string>, log: Log, caller: string, p: string) {
    FirstAmong(order, log, caller, Papers(log), p)
  }

  /** `p` is the first of `papers` that waits for `caller`. */
  predicate FirstAmong(order: seq<string>, log: Log, caller: string, papers: seq<string>, p: string) {
    exists k :: 0 <= k < |papers| && papers[k] == p && Holds(order, log, p, caller)
      && forall j :: 0 <= j < k ==> !Holds(order, log, papers[j], caller)
  }

  /** None of `papers` waits for `caller`. */
  predicate NoneHeld(order: seq<string>, log: Log, caller: string, papers: seq<string>) {
    forall k :: 0 <= k < |papers| ==> !Holds(order, log, papers[k], caller)
  }

  /** Passing over a first paper that does not wait for `caller`. */
  lemma SkipFirst(order: seq<string>, log: Log, caller: string, papers: seq<string>, p: string)
    requires |papers| > 0 && !Holds(order, log, papers[0], caller)
    ensures FirstAmong(order, log, caller, papers[1..], p) ==> FirstAmong(order, log, caller, papers, p)
    ensures NoneHeld(order, log, caller, papers) <==> NoneHeld(order, log, caller, papers[1..])
  {
    if FirstAmong(order, log, caller, papers[1..], p) {
      var k :| 0 <= k < |papers[1..]| && papers[1..][k] == p && Holds(order, log, p, caller)
        && forall j :: 0 <= j < k ==> !Holds(order, log, papers[1..][j], caller);
      assert papers[k + 1] == p;
      forall j | 0 <= j < k + 1
        ensures !Holds(order, log, papers[j], caller)
      {
        if j > 0 {
          assert papers[j] == papers[1..][j - 1];
        }
      }
    }
    assert forall k :: 1 <= k < |papers| ==> papers[k] == papers[1..][k - 1];
  }

  /** At most one paper is the first one held. */
  lemma FirstHeldUnique(order: seq<string>, log: Log, caller: string, p: string, q: string)
    requires FirstHeld(order, log, caller, p) && FirstHeld(order, log, caller, q)
    ensures p == q
  {
    FirstAmongUnique(order, log, caller, Papers(log), p, q);
  }

  lemma FirstAmongUnique(order: seq<string>, log: Log, caller: string, papers: seq<string>, p: string, q: string)
    requires FirstAmong(order, log, caller, papers, p) && FirstAmong(order, log, caller, papers, q)
    ensures p == q
  {
    var k :| 0 <= k < |papers| && papers[k] == p && Holds(order, log, p, caller)
      && forall j :: 0 <= j < k ==> !Holds(order, log, papers[j], caller);
    var l :| 0 <= l < |papers| && papers[l] == q && Holds(order, log, q, caller)
      && forall j :: 0 <= j < l ==> !Holds(order, log, papers[j], caller);
    assert !(k < l) && !(l < k);
  }

  // ---------------------------------------------------------------------
  // getGameState
  // ---------------------------------------------------------------------

  /** The newest non-skip row among `rows` numbered `m`. */
  function LastWritten(rows: seq<Turn>, m: int): (r: Option<Turn>)
    ensures r.Some? ==> r.value in rows && r.value.turnNumber == m && !r.value.isSkip
    ensures r.None? <==> forall k :: 0 <= k < |rows| ==> rows[k].turnNumber != m || rows[k].isSkip
  {
    if |rows| == 0 then None
    else
      var last := rows[|rows| - 1];
      var init := rows[..|rows| - 1];
      assert forall k :: 0 <= k < |init| ==> init[k] == rows[k];
      if last.turnNumber == m && !last.isSkip then Some(last) else LastWritten(init, m)
  }

  /** The line shown to the next writer: the content of the paper's newest
      non-skip row numbered `m`, as `content || null`, so an empty line
      (the placeholder written by `initializeGame`) is absent too. */
  function PreviousLine(log: Log, p: string, m: int): Option<string> {
    match LastWritten(Rows(log, p), m)
    case None => None
    case Some(t) => if t.content == "" then None else Some(t.content)
  }

  /** The paper offered to a player whose turn it is. */
  datatype CurrentPaper = CurrentPaper(paperId: string, previousLine: Option<string>, turnNumber: int)

  /** A paper the player started, with its row count. */
  datatype MyPaper = MyPaper(paperId: string, isComplete: bool, totalTurns: nat)

  /** The answer of `getGameState`. */
  datatype GameState = GameState(
    isMyTurn: bool,
    currentPaper: Option<CurrentPaper>,
    waitingFor: Option<string>,
    myPapers: seq<MyPaper>)

  /** `participants.find(...)?.display_name`: the display name of the first
      player with the id. */
  function NameOf(players: seq<Player>, id: Option<string>): (r: Option<string>)
    ensures r.Some? ==> exists i :: 0 <= i < |players| && players[i].displayName == r.value
    ensures r.None? <==> id.None? || forall i :: 0 <= i < |players| ==> players[i].id != id.value
  {
    if id.None? || |players| == 0 then None
    else if players[0].id == id.value then Some(players[0].displayName)
    else
      assert forall i :: 1 <= i < |players| ==> players[i] == players[1..][i - 1];
      NameOf(players[1..], id)
  }

  /** The position of the first of `papers` that waits for `caller`, or
      `|papers|` when none does. */
  function HeldIndex(order: seq<string>, log: Log, caller: string, papers: seq<string>): (j: nat)
    ensures j <= |papers|
    ensures forall k :: 0 <= k < j ==> !Holds(order, log, papers[k], caller)
    ensures j < |papers| ==> Holds(order, log, papers[j], caller)
  {
    if |papers| == 0 then 0
    else if Holds(order, log, papers[0], caller) then 0
    else
      var j := HeldIndex(order, log, caller, papers[1..]);
      assert forall k :: 1 <= k <= j ==> papers[k] == papers[1..][k - 1];
      j + 1
  }

  /** The display name of the player a paper waits for, if one is found. */
  function HolderName(players: seq<Player>, log: Log, p: string): Option<string>
    requires |players| > 0 && |Rows(log, p)| > 0
  {
    NameOf(players, Holder(Ids(players), MaxTurnOf(log, p)))
  }

  /** Reading `papers[..j]` backwards: the name of the holder of the last
      paper whose holder has a name, or `init` when there is none. */
  function WaitingBefore(players: seq<Player>, log: Log, papers: seq<string>, j: nat, init: Option<string>): Option<string>
    requires |players| > 0 && j <= |papers|
    requires forall k :: 0 <= k < |papers| ==> |Rows(log, papers[k])| > 0
  {
    if j == 0 then init
    else
      var name := HolderName(players, log, papers[j - 1]);
      if name.Some? then name else WaitingBefore(players, log, papers, j - 1, init)
  }

  /** The backward reading agrees with a forward pass that first records
      the holder of `papers[0]`. */
  lemma {:induction false} WaitingShift(players: seq<Player>, log: Log, papers: seq<string>, j: nat, init: Option<string>)
    requires |players| > 0 && j < |papers|
    requires forall k :: 0 <= k < |papers| ==> |Rows(log, papers[k])| > 0
    ensures var name := HolderName(players, log, papers[0]);
      WaitingBefore(players, log, papers[1..], j, if name.Some? then name else init)
        == WaitingBefore(players, log, papers, j + 1, init)
  {
    if j > 0 {
      assert papers[1..][j - 1] == papers[j];
      WaitingShift(players, log, papers, j - 1, init);
    }
  }

  /** When the paper just before the first held one has been written at
      least once, `waitingFor` names the player that paper waits for: the
      first player whose id is at position `(max_turn - 1) % n`. */
  lemma WaitingForLastHolder(players: seq<Player>, log: Log, papers: seq<string>, j: nat, init: Option<string>)
    requires |players| > 0 && 0 < j <= |papers|
    requires forall k :: 0 <= k < |papers| ==> |Rows(log, papers[k])| > 0
    requires MaxTurnOf(log, papers[j - 1]) >= 1
    ensures var i := (MaxTurnOf(log, papers[j - 1]) - 1) % |players|;
      WaitingBefore(players, log, papers, j, init) == NameOf(players, Some(players[i].id))
      && WaitingBefore(players, log, papers, j, init).Some?
  {
    var i := (MaxTurnOf(log, papers[j - 1]) - 1) % |players|;
    assert Ids(players)[i] == players[i].id;
  }

  /** The loop over the grouped papers: it stops at the first paper that
      waits for `caller`, and on its way records the display name of the
      holder of each paper that waits for someone else. */
  function Scan(players: seq<Player>, log: Log, caller: string, papers: seq<string>,
                waitingFor: Option<string>): (r: (Option<CurrentPaper>, Option<string>))
    requires |players| > 0
    requires forall k :: 0 <= k < |papers| ==> |Rows(log, papers[k])| > 0
    ensures r.0.None? <==> NoneHeld(Ids(players), log, caller, papers)
    ensures r.0.Some? ==>
      && FirstAmong(Ids(players), log, caller, papers, r.0.value.paperId)
      && |Rows(log, r.0.value.paperId)| > 0
      && r.0.value.turnNumber == MaxTurnOf(log, r.0.value.paperId) + 1
      && r.0.value.previousLine == PreviousLine(log, r.0.value.paperId, MaxTurnOf(log, r.0.value.paperId))
    ensures r.1 == waitingFor || exists i :: 0 <= i < |players| && r.1 == Some(players[i].displayName)
    ensures r.1 == WaitingBefore(players, log, papers, HeldIndex(Ids(players), log, caller, papers), waitingFor)
  {
    if |papers| == 0 then (None, waitingFor)
    else
      var p := papers[0];
      var m := MaxTurnOf(log, p);
      var holder := Holder(Ids(players), m);
      if holder == Some(caller) then
        (Some(CurrentPaper(p, PreviousLine(log, p, m), m + 1)), waitingFor)
      else
        var name := NameOf(players, holder);
        assert forall k :: 1 <= k < |papers| ==> papers[k] == papers[1..][k - 1];
        var r := Scan(players, log, caller, papers[1..], if name.Some? then name else waitingFor);
        SkipFirst(Ids(players), log, caller, papers, if r.0.Some? then r.0.value.paperId else "");
        WaitingShift(players, log, papers, HeldIndex(Ids(players), log, caller, papers[1..]), waitingFor);
        r
  }

  /** Some row of the paper is its turn 1 written by the player. */
  predicate Started(log: Log, p: string, caller: string) {
    exists k :: 0 <= k < |Rows(log, p)| && Rows(log, p)[k].participantId == caller && Rows(log, p)[k].turnNumber == 1
  }

  /** The papers among `papers` that the player started, each with its row
      count and whether that reaches the number of players. */
  function MyPapers(log: Log, caller: string, n: nat, papers: seq<string>): (r: seq<MyPaper>)
    ensures forall k :: 0 <= k < |r| ==> Describes(log, caller, n, papers, r[k])
    ensures forall p :: p in papers && Started(log, p, caller) ==> Lists(r, p)
    ensures Distinct(papers) ==> forall i, j :: 0 <= i < j < |r| ==> r[i].paperId != r[j].paperId
  {
    if |papers| == 0 then []
    else
      var p := papers[0];
      var rest := MyPapers(log, caller, n, papers[1..]);
      MyPapersStep(log, caller, n, papers, rest);
      if Started(log, p, caller) then
        var count := |Rows(log, p)|;
        MyPapersDistinct(log, caller, n, papers, MyPaper(p, count >= n, count), rest);
        [MyPaper(p, count >= n, count)] + rest
      else
        MyPapersDistinct(log, caller, n, papers, MyPaper(p, false, 0), rest);
        rest
  }

  /** The step of `MyPapers`: what holds of the list for the later papers
      holds of the list for all of them. */
  lemma MyPapersStep(log: Log, caller: string, n: nat, papers: seq<string>, rest: seq<MyPaper>)
    requires |papers| > 0
    requires forall k :: 0 <= k < |rest| ==> Describes(log, caller, n, papers[1..], rest[k])
    requires forall p :: p in papers[1..] && Started(log, p, caller) ==> Lists(rest, p)
    ensures var p := papers[0];
      var count := |Rows(log, p)|;
      var r := if Started(log, p, caller) then [MyPaper(p, count >= n, count)] + rest else rest;
      && (forall k :: 0 <= k < |r| ==> Describes(log, caller, n, papers, r[k]))
      && (forall q :: q in papers && Started(log, q, caller) ==> Lists(r, q))
  {
    var p := papers[0];
    var count := |Rows(log, p)|;
    var x := MyPaper(p, count >= n, count);
    DescribesWider(log, caller, n, papers, rest);
    if Started(log, p, caller) {
      DescribesCons(log, caller, n, papers, x, rest);
      ListsWider(papers, x, rest, log, caller);
    } else {
      forall q | q in papers && Started(log, q, caller)
        ensures Lists(rest, q)
      {
        assert q in papers[1..];
      }
    }
  }

  /** Distinct papers give distinct entries: the head paper is not among
      the later ones the rest of the list describes. */
  lemma MyPapersDistinct(log: Log, caller: string, n: nat, papers: seq<string>, x: MyPaper, rest: seq<MyPaper>)
    requires |papers| > 0 && x.paperId == papers[0]
    requires forall k :: 0 <= k < |rest| ==> Describes(log, caller, n, papers[1..], rest[k])
    requires Distinct(papers[1..]) ==> forall i, j :: 0 <= i < j < |rest| ==> rest[i].paperId != rest[j].paperId
    ensures Distinct(papers) ==> forall i, j :: 0 <= i < j < |rest| ==> rest[i].paperId != rest[j].paperId
    ensures Distinct(papers) ==> forall i, j :: 0 <= i < j < |[x] + rest| ==> ([x] + rest)[i].paperId != ([x] + rest)[j].paperId
  {
    if Distinct(papers) {
      assert Distinct(papers[1..]) by {
        forall i, j | 0 <= i < j < |papers[1..]|
          ensures papers[1..][i] != papers[1..][j]
        {
          assert papers[1..][i] == papers[i + 1] && papers[1..][j] == papers[j + 1];
        }
      }
      forall k | 0 <= k < |rest|
        ensures rest[k].paperId != papers[0]
      {
        var m :| 0 <= m < |papers[1..]| && papers[1..][m] == rest[k].paperId;
        assert papers[m + 1] == rest[k].paperId;
      }
      var r := [x] + rest;
      forall i, j | 0 <= i < j < |r|
        ensures r[i].paperId != r[j].paperId
      {
        assert r[j] == rest[j - 1];
        if i > 0 {
          assert r[i] == rest[i - 1];
        }
      }
    }
  }

  lemma DescribesWider(log: Log, caller: string, n: nat, papers: seq<string>, rest: seq<MyPaper>)
    requires |papers| > 0
    requires forall k :: 0 <= k < |rest| ==> Describes(log, caller, n, papers[1..], rest[k])
    ensures forall k :: 0 <= k < |rest| ==> Describes(log, caller, n, papers, rest[k])
  {
    forall k | 0 <= k < |rest|
      ensures Describes(log, caller, n, papers, rest[k])
    {
      assert rest[k].paperId in papers[1..];
    }
  }

  lemma DescribesCons(log: Log, caller: string, n: nat, papers: seq<string>, x: MyPaper, rest: seq<MyPaper>)
    requires Describes(log, caller, n, papers, x)
    requires forall k :: 0 <= k < |rest| ==> Describes(log, caller, n, papers, rest[k])
    ensures forall k :: 0 <= k < |[x] + rest| ==> Describes(log, caller, n, papers, ([x] + rest)[k])
  {
    var r := [x] + rest;
    assert forall k :: 1 <= k < |r| ==> r[k] == rest[k - 1];
  }

  lemma ListsWider(papers: seq<string>, x: MyPaper, rest: seq<MyPaper>, log: Log, caller: string)
    requires |papers| > 0 && x.paperId == papers[0]
    requires forall p :: p in papers[1..] && Started(log, p, caller) ==> Lists(rest, p)
    ensures forall q :: q in papers && Started(log, q, caller) ==> Lists([x] + rest, q)
  {
    forall q | q in papers && Started(log, q, caller)
      ensures Lists([x] + rest, q)
    {
      ListsCons(x, rest, q);
      if q != papers[0] {
        assert q in papers[1..];
      }
    }
  }

  /** An entry of the list: a paper among `papers` that the player
      started, with its row count and whether that reaches `n`. */
  predicate Describes(log: Log, caller: string, n: nat, papers: seq<string>, e: MyPaper) {
    && e.paperId in papers
    && Started(log, e.paperId, caller)
    && e.totalTurns == |Rows(log, e.paperId)|
    && (e.isComplete <==> e.totalTurns >= n)
  }

  /** Some entry is about paper `p`. */
  predicate Lists(r: seq<MyPaper>, p: string) {
    exists k :: 0 <= k < |r| && r[k].paperId == p
  }

  lemma ListsCons(x: MyPaper, rest: seq<MyPaper>, p: string)
    ensures Lists([x] + rest, p) <==> x.paperId == p || Lists(rest, p)
  {
    var r := [x] + rest;
    if Lists(rest, p) {
      var k :| 0 <= k < |rest| && rest[k].paperId == p;
      assert r[k + 1] == rest[k];
    }
    if Lists(r, p) && x.paperId != p {
      var k :| 0 <= k < |r| && r[k].paperId == p;
      assert rest[k - 1] == r[k];
    }
    if x.paperId == p {
      assert r[0] == x;
    }
  }

  /** `getGameState(activityId, participantId)`. */
  function GetGameState(players: seq<Player>, log: Log, caller: string): (r: Result<GameState, string>)
    ensures r.Err? <==> caller !in Ids(players)
    ensures r.Err? ==> r.error == "Participant not found in activity"
    ensures r.Ok? ==> (r.value.isMyTurn <==> exists p :: p in Papers(log) && Holds(Ids(players), log, p, caller))
    ensures r.Ok? ==> (r.value.isMyTurn <==> r.value.currentPaper.Some?)
    ensures r.Ok? && r.value.currentPaper.Some? ==>
      var cp := r.value.currentPaper.value;
      && FirstHeld(Ids(players), log, caller, cp.paperId)
      && |Rows(log, cp.paperId)| > 0
      && cp.turnNumber == MaxTurnOf(log, cp.paperId) + 1
      && cp.previousLine == PreviousLine(log, cp.paperId, MaxTurnOf(log, cp.paperId))
    ensures r.Ok? ==> forall k :: 0 <= k < |r.value.myPapers| ==>
      var mp := r.value.myPapers[k];
      && Started(log, mp.paperId, caller)
      && mp.totalTurns == |Rows(log, mp.paperId)|
      && (mp.isComplete <==> mp.totalTurns >= |players|)
    ensures r.Ok? ==> forall p :: p in Papers(log) && Started(log, p, caller) ==> Lists(r.value.myPapers, p)
    ensures r.Ok? ==> forall i, j :: 0 <= i < j < |r.value.myPapers| ==> r.value.myPapers[i].paperId != r.value.myPapers[j].paperId
    ensures r.Ok? ==>
      r.value.waitingFor == WaitingBefore(players, log, Papers(log), HeldIndex(Ids(players), log, caller, Papers(log)), None)
  {
    var order := Ids(players);
    if IndexOf(order, caller) == -1 then Err("Participant not found in activity")
    else
      var papers := Papers(log);
      var (current, waitingFor) := Scan(players, log, caller, papers, None);
      var mine := MyPapers(log, caller, |players|, papers);
      assert Distinct(papers);
      Ok(GameState(current.Some?, current, waitingFor, mine))
  }

  /** `(currentIndex + 1) % participantOrder.length` for an index in range:
      the next position, wrapping to the front after the last. */
  function NextIndex(i: int, n: int): (r: int)
    requires 0 <= i < n
    ensures r == if i + 1 < n then i + 1 else 0
  {
    (i + 1) % n
  }

  // ---------------------------------------------------------------------
  // submitLine and skipTurn
  // ---------------------------------------------------------------------

  /** What `submitLine` and `skipTurn` answer: the extended log and who
      plays next. */
  datatype Played = Played(log: Log, nextParticipant: string)

  /** The shared body of `submitLine` and `skipTurn`: re-derive the game
      state, refuse unless `paperId` is the paper offered to the caller,
      append one row numbered one past the paper's highest turn, and name
      the player after the caller in the turn order. */
  function Play(players: seq<Player>, log: Log, caller: string, paperId: string,
                content: string, isSkip: bool, turnId: string): (r: Result<Played, string>)
    ensures r.Ok? <==> caller in Ids(players) && FirstHeld(Ids(players), log, caller, paperId)
    ensures r.Err? ==> r.error == if caller !in Ids(players) then "Participant not found in activity"
                                 else "Not your turn for this paper"
    ensures r.Ok? ==>
      && |Rows(log, paperId)| > 0
      && r.value.log == log + [Turn(turnId, caller, MaxTurnOf(log, paperId) + 1, paperId, content, isSkip)]
    ensures r.Ok? ==>
      var order := Ids(players);
      var i := IndexOf(order, caller);
      && 0 <= i < |order| && order[i] == caller
      && r.value.nextParticipant == order[NextIndex(i, |order|)]
  {
    var state := GetGameState(players, log, caller);
    if state.Err? then Err(state.error)
    else
      var cp := state.value.currentPaper;
      OfferedIsFirstHeld(players, log, caller, paperId);
      if cp.None? || cp.value.paperId != paperId then Err("Not your turn for this paper")
      else
        var n := cp.value.turnNumber;
        assert n == MaxTurnOf(log, paperId) + 1;
        var order := Ids(players);
        var i := IndexOf(order, caller);
        Ok(Played(log + [Turn(turnId, caller, n, paperId, content, isSkip)], order[NextIndex(i, |order|)]))
  }

  /** The paper `getGameState` offers is the first paper held. */
  lemma OfferedIsFirstHeld(players: seq<Player>, log: Log, caller: string, paperId: string)
    requires caller in Ids(players)
    ensures var cp := GetGameState(players, log, caller).value.currentPaper;
      cp.Some? && cp.value.paperId == paperId <==> FirstHeld(Ids(players), log, caller, paperId)
  {
    var cp := GetGameState(players, log, caller).value.currentPaper;
    if FirstHeld(Ids(players), log, caller, paperId) {
      var papers := Papers(log);
      var k :| 0 <= k < |papers| && papers[k] == paperId && Holds(Ids(players), log, paperId, caller);
      assert cp.Some?;
      FirstHeldUnique(Ids(players), log, caller, paperId, cp.value.paperId);
    }
  }

  /** `submitLine(activityId, participantId, paperId, content)`: accepted
      only for the paper offered to the caller, it appends the caller's line
      as the paper's next turn. */
  function SubmitLine(players: seq<Player>, log: Log, caller: string, paperId: string,
                      content: string, turnId: string): (r: Result<Played, string>)
    ensures r.Ok? <==> caller in Ids(players) && FirstHeld(Ids(players), log, caller, paperId)
    ensures r.Err? ==> r.error in {"Participant not found in activity", "Not your turn for this paper"}
    ensures r.Ok? ==>
      && |Rows(log, paperId)| > 0
      && r.value.log == log + [Turn(turnId, caller, MaxTurnOf(log, paperId) + 1, paperId, content, false)]
    ensures r.Ok? ==>
      var order := Ids(players);
      r.value.nextParticipant == order[NextIndex(IndexOf(order, caller), |order|)]
  {
    Play(players, log, caller, paperId, content, false, turnId)
  }

  /** `skipTurn(activityId, participantId, paperId)`: the same check, then a
      row with content 'SKIP' marked as a skip. */
  function SkipTurn(players: seq<Player>, log: Log, caller: string, paperId: string,
                    turnId: string): (r: Result<Played, string>)
    ensures r.Ok? <==> caller in Ids(players) && FirstHeld(Ids(players), log, caller, paperId)
    ensures r.Err? ==> r.error in {"Participant not found in activity", "Not your turn for this paper"}
    ensures r.Ok? ==>
      && |Rows(log, paperId)| > 0
      && r.value.log == log + [Turn(turnId, caller, MaxTurnOf(log, paperId) + 1, paperId, "SKIP", true)]
    ensures r.Ok? ==>
      var order := Ids(players);
      r.value.nextParticipant == order[NextIndex(IndexOf(order, caller), |order|)]
  {
    Play(players, log, caller, paperId, "SKIP", true, turnId)
  }

  // ---------------------------------------------------------------------
  // initializeGame
  // ---------------------------------------------------------------------

  /** A paper and the player who starts it. */
  datatype StartedPaper = StartedPaper(paperId: string, startingParticipant: string)

  /** What `initializeGame` answers, with the extended log. */
  datatype Init = Init(log: Log, papers: seq<StartedPaper>, turnOrder: seq<string>)

  /** The placeholder rows: for each player, turn 1 of its own paper with
      empty content. */
  function StartRows(players: seq<Player>, paperIds: seq<string>, turnIds: seq<string>): (r: Log)
    requires |paperIds| == |players| && |turnIds| == |players|
    ensures |r| == |players|
  {
    seq(|players|, i requires 0 <= i < |players| => Turn(turnIds[i], players[i].id, 1, paperIds[i], "", false))
  }

  /** `initializeGame(activityId)`: fails when nobody is enrolled; otherwise
      one paper per player, each opened by a turn-1 row of its starter. */
  function InitializeGame(players: seq<Player>, log: Log, paperIds: seq<string>, turnIds: seq<string>): (r: Result<Init, string>)
    requires |paperIds| == |players| && |turnIds| == |players|
    ensures r.Err? <==> |players| == 0
    ensures r.Err? ==> r.error == "No participants found for this activity"
    ensures r.Ok? ==>
      && r.value.turnOrder == Ids(players)
      && |r.value.papers| == |players|
      && (forall i :: 0 <= i < |players| ==> r.value.papers[i] == StartedPaper(paperIds[i], players[i].id))
    ensures r.Ok? ==>
      && |r.value.log| == |log| + |players|
      && r.value.log[..|log|] == log
      && forall i :: 0 <= i < |players| ==>
           r.value.log[|log| + i] == Turn(turnIds[i], players[i].id, 1, paperIds[i], "", false)
  {
    if |players| == 0 then Err("No participants found for this activity")
    else
      var papers := seq(|players|, i requires 0 <= i < |players| => StartedPaper(paperIds[i], players[i].id));
      Ok(Init(log + StartRows(players, paperIds, turnIds), papers, Ids(players)))
  }

  /** The fresh papers have no rows yet. */
  predicate Fresh(log: Log, paperIds: seq<string>) {
    forall i :: 0 <= i < |paperIds| ==> |Rows(log, paperIds[i])| == 0
  }

  /** Among rows with distinct paper ids, each paper's rows are its one
      row. */
  lemma {:induction false} RowsOfDistinct(rows: Log, i: int)
    requires forall a, b :: 0 <= a < b < |rows| ==> rows[a].paperId != rows[b].paperId
    requires 0 <= i < |rows|
    ensures Rows(rows, rows[i].paperId) == [rows[i]]
  {
    var init := rows[..|rows| - 1];
    var last := rows[|rows| - 1];
    assert rows == init + [last];
    RowsSnoc(init, last, rows[i].paperId);
    if i < |rows| - 1 {
      RowsOfDistinct(init, i);
      assert init[i] == rows[i];
    } else {
      assert forall k :: 0 <= k < |init| ==> init[k].paperId != last.paperId;
    }
  }

  /** Right after initialisation, each new paper consists of its starter's
      placeholder row, and, since its highest turn is 1, it waits for the
      first player in the turn order, not for its starter. */
  lemma InitHoldsAtFirst(players: seq<Player>, log: Log, paperIds: seq<string>, turnIds: seq<string>, i: int)
    requires |paperIds| == |players| && |turnIds| == |players|
    requires Distinct(paperIds) && Fresh(log, paperIds)
    requires 0 <= i < |players|
    ensures var l := InitializeGame(players, log, paperIds, turnIds).value.log;
      && Rows(l, paperIds[i]) == [Turn(turnIds[i], players[i].id, 1, paperIds[i], "", false)]
      && MaxTurnOf(l, paperIds[i]) == 1
      && Holder(Ids(players), MaxTurnOf(l, paperIds[i])) == Some(players[0].id)
  {
    var extra := StartRows(players, paperIds, turnIds);
    var l := log + extra;
    RowsAppend(log, extra, paperIds[i]);
    assert forall a, b :: 0 <= a < b < |extra| ==> extra[a].paperId != extra[b].paperId;
    RowsOfDistinct(extra, i);
    assert MaxTurnOf(l, paperIds[i]) == 1;
    assert 0 % |Ids(players)| == 0;
  }

  /** Right after a game starts on an activity with no rows, it is exactly
      the first player in the turn order whose turn it is, on every paper. */
  lemma FirstPlayerStarts(players: seq<Player>, paperIds: seq<string>, turnIds: seq<string>, caller: string)
    requires |paperIds| == |players| && |turnIds| == |players| && |players| > 0
    requires Distinct(paperIds)
    requires caller in Ids(players)
    ensures var l := InitializeGame(players, [], paperIds, turnIds).value.log;
      GetGameState(players, l, caller).value.isMyTurn <==> caller == players[0].id
  {
    var l := InitializeGame(players, [], paperIds, turnIds).value.log;
    var rows := StartRows(players, paperIds, turnIds);
    var order := Ids(players);
    assert l == rows;
    forall p | p in Papers(rows) && Holds(order, rows, p, caller)
      ensures caller == players[0].id
    {
      StartRowsHolder(players, paperIds, turnIds, p);
    }
    if caller == players[0].id {
      assert rows[0].paperId == paperIds[0];
      StartRowsHolder(players, paperIds, turnIds, paperIds[0]);
      assert Holds(order, rows, paperIds[0], caller);
    }
  }

  /** Every paper among the placeholder rows waits for the first player. */
  lemma StartRowsHolder(players: seq<Player>, paperIds: seq<string>, turnIds: seq<string>, p: string)
    requires |paperIds| == |players| && |turnIds| == |players| && |players| > 0
    requires Distinct(paperIds)
    requires |Rows(StartRows(players, paperIds, turnIds), p)| > 0
    ensures Holder(Ids(players), MaxTurnOf(StartRows(players, paperIds, turnIds), p)) == Some(players[0].id)
  {
    var rows := StartRows(players, paperIds, turnIds);
    var i :| 0 <= i < |rows| && rows[i].paperId == p;
    assert forall a, b :: 0 <= a < b < |rows| ==> rows[a].paperId != rows[b].paperId;
    RowsOfDistinct(rows, i);
    assert MaxTurnOf(rows, p) == 1;
    assert 0 % |Ids(players)| == 0;
  }

  // ---------------------------------------------------------------------
  // Turn numbers stay contiguous
  // ---------------------------------------------------------------------

  /** Every paper's rows are numbered 1, 2, 3, ... in the order they were
      written. */
  ghost predicate Contiguous(log: Log) {
    forall p, j :: 0 <= j < |Rows(log, p)| ==> Rows(log, p)[j].turnNumber == j + 1
  }

  /** With contiguous numbering, a paper's highest turn is its row count. */
  lemma ContiguousMax(log: Log, p: string)
    requires Contiguous(log) && |Rows(log, p)| > 0
    ensures MaxTurnOf(log, p) == |Rows(log, p)|
  {
    var rows := Rows(log, p);
    assert rows[|rows| - 1].turnNumber == |rows|;
  }

  /** Starting a game with fresh paper ids keeps the numbering contiguous. */
  lemma InitKeepsContiguous(players: seq<Player>, log: Log, paperIds: seq<string>, turnIds: seq<string>)
    requires |paperIds| == |players| && |turnIds| == |players| && |players| > 0
    requires Distinct(paperIds) && Fresh(log, paperIds)
    requires Contiguous(log)
    ensures Contiguous(InitializeGame(players, log, paperIds, turnIds).value.log)
  {
    var extra := StartRows(players, paperIds, turnIds);
    var l := log + extra;
    forall p, j | 0 <= j < |Rows(l, p)|
      ensures Rows(l, p)[j].turnNumber == j + 1
    {
      RowsAppend(log, extra, p);
      if i :| 0 <= i < |paperIds| && paperIds[i] == p {
        RowsOfDistinct(extra, i);
      } else {
        assert |Rows(extra, p)| == 0;
      }
    }
  }

  /** A submitted or skipped turn keeps the numbering contiguous: the new
      row is numbered one past the paper's row count. */
  lemma PlayKeepsContiguous(players: seq<Player>, log: Log, caller: string, paperId: string,
                            content: string, isSkip: bool, turnId: string)
    requires Contiguous(log)
    requires Play(players, log, caller, paperId, content, isSkip, turnId).Ok?
    ensures Contiguous(Play(players, log, caller, paperId, content, isSkip, turnId).value.log)
  {
    var l := Play(players, log, caller, paperId, content, isSkip, turnId).value.log;
    var t := l[|log|];
    assert l == log + [t];
    ContiguousMax(log, paperId);
    SnocKeepsContiguous(log, t);
  }

  /** A row numbered one past its paper's row count keeps the numbering
      contiguous. */
  lemma SnocKeepsContiguous(log: Log, t: Turn)
    requires Contiguous(log)
    requires t.turnNumber == |Rows(log, t.paperId)| + 1
    ensures Contiguous(log + [t])
  {
    var l := log + [t];
    forall p, j | 0 <= j < |Rows(l, p)|
      ensures Rows(l, p)[j].turnNumber == j + 1
    {
      RowsSnoc(log, t, p);
    }
  }

  lemma {:induction false} MulAtLeast(n: int, d: int)
    requires n > 0 && d >= 1
    ensures n * d >= n
  {
    if d > 1 {
      MulAtLeast(n, d - 1);
      assert n * d == n * (d - 1) + n;
    }
  }

  /** The remainder is the one `r` in range with `x = n * q + r`. */
  lemma ModUnique(x: int, n: int, q: int, r: int)
    requires n > 0 && 0 <= r < n && x == n * q + r
    ensures x % n == r
  {
    var d := x / n - q;
    assert x == n * (x / n) + x % n;
    assert n * d == r - x % n;
    if d >= 1 {
      MulAtLeast(n, d);
    }
    assert d == 0;
  }

  /** `(a + 1) mod n` is the position after `a mod n`. */
  lemma ModNext(a: int, n: int)
    requires a >= 0 && n > 0
    ensures (a + 1) % n == NextIndex(a % n, n)
  {
    var q := a / n;
    var r := a % n;
    assert a == n * q + r;
    if r + 1 < n {
      ModUnique(a + 1, n, q, r + 1);
    } else {
      ModUnique(a + 1, n, q + 1, 0);
    }
  }

  /** After a successful turn the paper waits for the player the answer
      names as next, as long as the numbering was contiguous and no player
      is enrolled twice; every other paper keeps its rows. */
  lemma PlayPassesPaper(players: seq<Player>, log: Log, caller: string, paperId: string,
                        content: string, isSkip: bool, turnId: string)
    requires Contiguous(log) && Distinct(Ids(players))
    requires Play(players, log, caller, paperId, content, isSkip, turnId).Ok?
    ensures var r := Play(players, log, caller, paperId, content, isSkip, turnId).value;
      && |Rows(r.log, paperId)| == |Rows(log, paperId)| + 1
      && Holder(Ids(players), MaxTurnOf(r.log, paperId)) == Some(r.nextParticipant)
      && forall q :: q != paperId ==> Rows(r.log, q) == Rows(log, q)
  {
    var r := Play(players, log, caller, paperId, content, isSkip, turnId).value;
    var order := Ids(players);
    var n := |order|;
    var t := r.log[|log|];
    assert r.log == log + [t];
    forall q | q != paperId
      ensures Rows(r.log, q) == Rows(log, q)
    {
      RowsSnoc(log, t, q);
    }
    RowsSnoc(log, t, paperId);
    ContiguousMax(log, paperId);
    var m := MaxTurnOf(log, paperId);
    PlayKeepsContiguous(players, log, caller, paperId, content, isSkip, turnId);
    ContiguousMax(r.log, paperId);
    assert MaxTurnOf(r.log, paperId) == m + 1;
    assert Holds(order, log, paperId, caller) by {
      var papers := Papers(log);
      var k :| 0 <= k < |papers| && papers[k] == paperId && Holds(order, log, paperId, caller);
    }
    HolderAdvances(order, m, caller);
  }

  /** One more turn moves a paper from its holder to the holder's successor
      in a turn order without repeats. */
  lemma HolderAdvances(order: seq<string>, m: int, caller: string)
    requires Distinct(order) && |order| > 0 && m >= 1
    requires Holder(order, m) == Some(caller)
    ensures Holder(order, m + 1) == Some(order[NextIndex(IndexOf(order, caller), |order|)])
  {
    var n := |order|;
    var i := (m - 1) % n;
    assert order[i] == caller;
    IndexOfDistinct(order, i);
    ModNext(m - 1, n);
  }

  // ---------------------------------------------------------------------
  // isGameComplete
  // ---------------------------------------------------------------------

  /** The papers among `papers` with at least `n` rows: `HAVING COUNT(*) >= ?`. */
  function CompletedAmong(log: Log, n: nat, papers: seq<string>): (r: seq<string>)
    ensures |r| <= |papers|
  {
    if |papers| == 0 then []
    else
      (if |Rows(log, papers[0])| >= n then [papers[0]] else []) + CompletedAmong(log, n, papers[1..])
  }

  /** Filtering keeps the whole list exactly when every paper passes. */
  lemma {:induction false} CompletedAmongAll(log: Log, n: nat, papers: seq<string>)
    ensures |CompletedAmong(log, n, papers)| == |papers| <==> forall k :: 0 <= k < |papers| ==> |Rows(log, papers[k])| >= n
  {
    if |papers| > 0 {
      CompletedAmongAll(log, n, papers[1..]);
      assert forall k :: 1 <= k < |papers| ==> papers[k] == papers[1..][k - 1];
    }
  }

  /** `isGameComplete(activityId)`: the number of papers with at least as
      many rows as players equals the number of papers. */
  function IsGameComplete(players: seq<Player>, log: Log): (r: bool)
    ensures r <==> forall p :: p in Papers(log) ==> |Rows(log, p)| >= |players|
    ensures Papers(log) == [] ==> r
  {
    var papers := Papers(log);
    CompletedAmongAll(log, |players|, papers);
    |CompletedAmong(log, |players|, papers)| == |papers|
  }

  /** A submit on a paper that already has a row per player is accepted
      when it is the caller's turn: completion does not close a paper. */
  lemma CompletePaperStillOpen(players: seq<Player>, log: Log, caller: string, paperId: string,
                               content: string, turnId: string)
    requires caller in Ids(players) && FirstHeld(Ids(players), log, caller, paperId)
    requires |Rows(log, paperId)| >= |players|
    ensures SubmitLine(players, log, caller, paperId, content, turnId).Ok?
  {
  }

  // ---------------------------------------------------------------------
  // getCompletedPapers
  // ---------------------------------------------------------------------

  /** One line of a paper as shown to teamers. */
  datatype Line = Line(participantName: string, content: string, turnNumber: int, isSkip: bool)

  datatype PaperView = PaperView(paperId: string, lines: seq<Line>)

  predicate SortedByTurn(rows: seq<Turn>) {
    forall i, j :: 0 <= i < j < |rows| ==> rows[i].turnNumber <= rows[j].turnNumber
  }

  /** Inserts a row before the first one numbered no lower. */
  function InsertByTurn(t: Turn, rows: seq<Turn>): (r: seq<Turn>)
    ensures multiset(r) == multiset(rows) + multiset{t}
    ensures |r| == |rows| + 1 && (r[0] == t || (|rows| > 0 && r[0] == rows[0]))
  {
    if |rows| == 0 || t.turnNumber <= rows[0].turnNumber then [t] + rows
    else
      assert rows == [rows[0]] + rows[1..];
      [rows[0]] + InsertByTurn(t, rows[1..])
  }

  /** Inserting into sorted rows keeps them sorted. */
  lemma {:induction false} InsertKeepsSorted(t: Turn, rows: seq<Turn>)
    requires SortedByTurn(rows)
    ensures SortedByTurn(InsertByTurn(t, rows))
  {
    if |rows| > 0 && t.turnNumber > rows[0].turnNumber {
      var rest := InsertByTurn(t, rows[1..]);
      var r := [rows[0]] + rest;
      assert SortedByTurn(rows[1..]) by {
        assert forall i :: 0 <= i < |rows[1..]| ==> rows[1..][i] == rows[i + 1];
      }
      InsertKeepsSorted(t, rows[1..]);
      assert rows[0].turnNumber <= rest[0].turnNumber by {
        if |rows| > 1 {
          assert rows[1..][0] == rows[1];
        }
      }
      forall i, j | 0 <= i < j < |r|
        ensures r[i].turnNumber <= r[j].turnNumber
      {
        assert r[j] == rest[j - 1];
        if i > 0 {
          assert r[i] == rest[i - 1];
        } else if j > 1 {
          assert rest[0].turnNumber <= rest[j - 1].turnNumber;
        }
      }
    } else {
      var r := [t] + rows;
      assert forall i :: 1 <= i < |r| ==> r[i] == rows[i - 1];
    }
  }

  /** `ORDER BY turn_number`, as an insertion sort. */
  function SortByTurn(rows: seq<Turn>): (r: seq<Turn>)
    ensures multiset(r) == multiset(rows)
    ensures SortedByTurn(r)
  {
    if |rows| == 0 then []
    else
      assert rows == [rows[0]] + rows[1..];
      InsertKeepsSorted(rows[0], SortByTurn(rows[1..]));
      InsertByTurn(rows[0], SortByTurn(rows[1..]))
  }

  /** Rows already in order are left as they are. */
  lemma {:induction false} SortedIsFixed(rows: seq<Turn>)
    requires SortedByTurn(rows)
    ensures SortByTurn(rows) == rows
  {
    if |rows| > 0 {
      SortedIsFixed(rows[1..]);
      assert rows == [rows[0]] + rows[1..];
    }
  }

  /** `p.display_name || 'Unknown'` over a LEFT JOIN on `participants`. */
  function NameShown(people: seq<Player>, participantId: string): string {
    var name := NameOf(people, Some(participantId));
    if Truthy(name) then name.value else "Unknown"
  }

  function Lines(people: seq<Player>, rows: seq<Turn>): (r: seq<Line>)
    ensures |r| == |rows|
    ensures forall i :: 0 <= i < |r| ==> r[i].turnNumber == rows[i].turnNumber
  {
    seq(|rows|, i requires 0 <= i < |rows| =>
      Line(NameShown(people, rows[i].participantId), rows[i].content, rows[i].turnNumber, rows[i].isSkip))
  }

  /** `getCompletedPapers(activityId)`: every paper (complete or not), each
      with its rows in turn-number order; `people` is the `participants`
      table. */
  function GetCompletedPapers(people: seq<Player>, log: Log): (r: seq<PaperView>)
    ensures |r| == |Papers(log)|
    ensures forall k :: 0 <= k < |r| ==>
      && r[k].paperId == Papers(log)[k]
      && |r[k].lines| == |Rows(log, r[k].paperId)|
      && forall i, j :: 0 <= i < j < |r[k].lines| ==> r[k].lines[i].turnNumber <= r[k].lines[j].turnNumber
    ensures forall k :: 0 <= k < |r| ==> multiset(r[k].lines) == multiset(Lines(people, Rows(log, r[k].paperId)))
  {
    var papers := Papers(log);
    var r := seq(|papers|, k requires 0 <= k < |papers| => PaperView(papers[k], Lines(people, SortByTurn(Rows(log, papers[k])))));
    forall k | 0 <= k < |r|
      ensures multiset(r[k].lines) == multiset(Lines(people, Rows(log, r[k].paperId)))
    {
      LinesOfSorted(people, Rows(log, papers[k]));
    }
    assert forall k :: 0 <= k < |r| ==> |r[k].lines| == |Rows(log, r[k].paperId)| by {
      forall k | 0 <= k < |r|
        ensures |r[k].lines| == |Rows(log, r[k].paperId)|
      {
        var sorted := SortByTurn(Rows(log, papers[k]));
        assert |multiset(sorted)| == |multiset(Rows(log, papers[k]))|;
      }
    }
    r
  }

  /** Showing rows as lines commutes with concatenation. */
  lemma LinesAppend(people: seq<Player>, a: seq<Turn>, b: seq<Turn>)
    ensures Lines(people, a + b) == Lines(people, a) + Lines(people, b)
  {
    assert forall i :: 0 <= i < |a| ==> (a + b)[i] == a[i];
    assert forall i :: |a| <= i < |a| + |b| ==> (a + b)[i] == b[i - |a|];
  }

  /** Inserting a row shows the same lines as putting it first. */
  lemma {:induction false} LinesOfInsert(people: seq<Player>, t: Turn, rows: seq<Turn>)
    ensures multiset(Lines(people, InsertByTurn(t, rows))) == multiset(Lines(people, [t] + rows))
  {
    if |rows| > 0 && t.turnNumber > rows[0].turnNumber {
      var rest := InsertByTurn(t, rows[1..]);
      LinesOfInsert(people, t, rows[1..]);
      LinesAppend(people, [rows[0]], rest);
      LinesAppend(people, [t], rows[1..]);
      LinesAppend(people, [t], rows);
      LinesAppend(people, [rows[0]], rows[1..]);
      assert rows == [rows[0]] + rows[1..];
    }
  }

  /** Sorting by turn number shows the same lines, in another order. */
  lemma {:induction false} LinesOfSorted(people: seq<Player>, rows: seq<Turn>)
    ensures multiset(Lines(people, SortByTurn(rows))) == multiset(Lines(people, rows))
  {
    if |rows| > 0 {
      var s := SortByTurn(rows[1..]);
      LinesOfSorted(people, rows[1..]);
      LinesOfInsert(people, rows[0], s);
      LinesAppend(people, [rows[0]], s);
      LinesAppend(people, [rows[0]], rows[1..]);
      assert rows == [rows[0]] + rows[1..];
    }
  }

  /** With contiguous numbering, a paper's lines are its rows in the order
      they were written, numbered 1 to the row count. */
  lemma CompletedPapersInWritingOrder(people: seq<Player>, log: Log, k: int)
    requires Contiguous(log) && 0 <= k < |Papers(log)|
    ensures var v := GetCompletedPapers(people, log)[k];
      && v.lines == Lines(people, Rows(log, v.paperId))
      && forall j :: 0 <= j < |v.lines| ==> v.lines[j].turnNumber == j + 1
  {
    var rows := Rows(log, Papers(log)[k]);
    assert SortedByTurn(rows);
    SortedIsFixed(rows);
  }
}

=== FILE: session_middleware.dfy ===
/** The per-request authentication chain (src/middleware/session.ts): the
    `session_token` cookie is turned into a request context by a heartbeat
    followed by a session lookup; the `requireAuth` and `requireTeamer`
    guards; the device fingerprint; and the login and logout routes.
    Handlers answer with a status code and a body; the cookie the login
    sets is returned as a value. */
module SessionMiddleware {
  import opened Wrappers
  import Text
  import Crypto
  import Membership
  import Participants
  import Workshops
  import Sessions

  /** What `sessionMiddleware` derives for a request. */
  datatype Context = Context(
    participant: Option<Participants.Participant>,
    group: Option<Workshops.WorkshopGroup>,
    sessionToken: Option<string>,
    isAuthenticated: bool)

  const Anonymous := Context(None, None, None, false)

  /** The state the chain works on: the session table with the participant
      and group tables it joins. */
  datatype World = World(
    sessions: Sessions.Table,
    participants: Participants.Table,
    groups: seq<Workshops.WorkshopGroup>,
    members: seq<Membership.Member>)

  /** `sessionMiddleware`'s derive step: no token, a token the heartbeat
      does not find, or a session lookup that comes back empty all give the
      anonymous context; otherwise the participant and group of the
      session. The heartbeat's update of `last_seen` is kept in every case
      it runs. */
  function Derive(w: World, cookieToken: Option<string>, now: int, timeout: int): (r: (World, Context))
    ensures !Truthy(cookieToken) ==> r == (w, Anonymous)
    ensures r.1.isAuthenticated <==> (
      && Truthy(cookieToken)
      && Sessions.HasToken(w.sessions, cookieToken.value)
      && Sessions.GetSessionInfo(r.0.sessions, w.participants, w.groups, cookieToken.value, now, timeout).Some?)
    ensures r.1.isAuthenticated ==> r.1.participant.Some? && r.1.group.Some? && r.1.sessionToken == cookieToken
    ensures !r.1.isAuthenticated ==> r.1 == Anonymous
    ensures r.0.participants == w.participants && r.0.groups == w.groups && r.0.members == w.members
    ensures |r.0.sessions| == |w.sessions|
  {
    if !Truthy(cookieToken) then (w, Anonymous)
    else
      var token := cookieToken.value;
      var (t, active) := Sessions.Heartbeat(w.sessions, token, now);
      var w' := w.(sessions := t);
      if !active then (w', Anonymous)
      else
        match Sessions.GetSessionInfo(t, w.participants, w.groups, token, now, timeout)
        case None => (w', Anonymous)
        case Some(info) => (w', Context(Some(info.participant), Some(info.group), Some(token), true))
  }

  /** The heartbeat runs before the lookup, so a stale session that the
      sweep has not removed yet is revived: with a positive timeout, a
      request is authenticated exactly when its token belongs to some
      session row that joins a participant and a group, however old. */
  lemma AuthenticatedIffSessionRowJoins(w: World, token: string, now: int, timeout: int)
    requires token != "" && timeout > 0
    ensures Derive(w, Some(token), now, timeout).1.isAuthenticated <==>
      exists i :: 0 <= i < |w.sessions| && w.sessions[i].token == token && Sessions.Joins(w.sessions[i], w.participants, w.groups)
  {
    var (t, active) := Sessions.Heartbeat(w.sessions, token, now);
    if exists i :: 0 <= i < |w.sessions| && w.sessions[i].token == token && Sessions.Joins(w.sessions[i], w.participants, w.groups) {
      var i :| 0 <= i < |w.sessions| && w.sessions[i].token == token && Sessions.Joins(w.sessions[i], w.participants, w.groups);
      assert t[i] == w.sessions[i].(lastSeen := now);
      assert Sessions.Joins(t[i], w.participants, w.groups);
    } else {
      forall i | 0 <= i < |t|
        ensures !(t[i].token == token && Sessions.IsLive(t[i], now, timeout) && Sessions.Joins(t[i], w.participants, w.groups))
      {
        assert t[i].token == w.sessions[i].token && t[i].participantId == w.sessions[i].participantId;
        assert t[i].groupId == w.sessions[i].groupId;
      }
    }
  }

  // ---------------------------------------------------------------------
  // Guards
  // ---------------------------------------------------------------------

  /** What a `beforeHandle` guard decides. */
  datatype Verdict = Pass | Reject(status: int, error: string)

  /** `requireAuth`. */
  function RequireAuth(ctx: Context): (r: Verdict)
    ensures r.Reject? <==> !ctx.isAuthenticated
    ensures r.Reject? ==> r == Reject(401, "Authentication required")
  {
    if !ctx.isAuthenticated then Reject(401, "Authentication required") else Pass
  }

  /** `requireTeamer`: 401 without a participant or group, 403 unless the
      participant's role in the group is teamer. */
  function RequireTeamer(ctx: Context, members: seq<Membership.Member>): (r: Verdict)
    ensures ctx.participant.None? || ctx.group.None? ==> r == Reject(401, "Authentication required")
    ensures ctx.participant.Some? && ctx.group.Some? ==>
      (r.Pass? <==> Membership.IsTeamer(members, ctx.group.value.id, ctx.participant.value.id)
                    && Sessions.GetParticipantRole(members, ctx.participant.value.id, ctx.group.value.id) == Some(Membership.Teamer))
    ensures r.Reject? && ctx.participant.Some? && ctx.group.Some? ==> r == Reject(403, "Teamer access required")
  {
    if ctx.participant.None? || ctx.group.None? then Reject(401, "Authentication required")
    else
      var role := Sessions.GetParticipantRole(members, ctx.participant.value.id, ctx.group.value.id);
      if role != Some(Membership.Teamer) then Reject(403, "Teamer access required")
      else Pass
  }

  /** An anonymous request is stopped by both guards with 401. */
  lemma AnonymousStoppedByBothGuards(ctx: Context, members: seq<Membership.Member>)
    requires ctx == Anonymous
    ensures RequireAuth(ctx).status == 401 && RequireTeamer(ctx, members).status == 401
  {
  }

  /** A derived context passes the teamer guard only for a teamer
      enrolment, and never without passing `requireAuth`. */
  lemma TeamerGuardImpliesAuth(w: World, cookieToken: Option<string>, now: int, timeout: int)
    ensures var ctx := Derive(w, cookieToken, now, timeout).1;
      RequireTeamer(ctx, w.members).Pass? ==> (
        && RequireAuth(ctx).Pass?
        && Membership.IsMember(w.members, ctx.group.value.id, ctx.participant.value.id))
  {
    var ctx := Derive(w, cookieToken, now, timeout).1;
    if RequireTeamer(ctx, w.members).Pass? {
      Membership.TeamerIsMember(w.members, ctx.group.value.id, ctx.participant.value.id);
    }
  }

  // ---------------------------------------------------------------------
  // Device fingerprint
  // ---------------------------------------------------------------------

  /** `getDeviceInfo(headers)`: the user agent (or `unknown`) cut to 100
      characters, a dash, and the accept-language header cut to 20. */
  function GetDeviceInfo(userAgent: Option<string>, acceptLanguage: Option<string>): (r: string)
    ensures |r| <= 121
    ensures Truthy(userAgent) ==> Text.StartsWith(r, Text.Take(userAgent.value, 100))
    ensures !Truthy(userAgent) ==> Text.StartsWith(r, "unknown-")
    ensures !Truthy(acceptLanguage) ==> Text.EndsWith(r, "-")
    ensures Truthy(acceptLanguage) ==> Text.EndsWith(r, "-" + Text.Take(acceptLanguage.value, 20))
  {
    var ua := if Truthy(userAgent) then userAgent.value else "unknown";
    var al := if Truthy(acceptLanguage) then acceptLanguage.value else "";
    Text.Take(ua, 100) + "-" + Text.Take(al, 20)
  }

  /** Headers within the limits are kept whole: the user agent is the part
      before the dash at its length and the language is the rest. */
  lemma DeviceInfoKeepsShortHeaders(userAgent: string, acceptLanguage: string)
    requires userAgent != "" && |userAgent| <= 100 && |acceptLanguage| <= 20
    ensures var r := GetDeviceInfo(Some(userAgent), Some(acceptLanguage));
      && |r| == |userAgent| + 1 + |acceptLanguage|
      && r[..|userAgent|] == userAgent
      && r[|userAgent|] == '-'
      && r[|userAgent| + 1..] == acceptLanguage
  {
  }

  /** Longer headers are cut, never dropped: the fingerprint starts with
      the first 100 characters of the user agent. */
  lemma DeviceInfoCutsLongAgent(userAgent: string, acceptLanguage: Option<string>)
    requires |userAgent| > 100
    ensures var r := GetDeviceInfo(Some(userAgent), acceptLanguage);
      r[..100] == userAgent[..100] && r[100] == '-'
  {
  }

  // ---------------------------------------------------------------------
  // loginParticipant and logoutParticipant
  // ---------------------------------------------------------------------

  /** The answer of `loginParticipant`, and the session cookie it set. */
  datatype LoginResult = LoginResult(success: bool, isMultiDevice: bool, error: Option<string>, cookie: Option<string>)

  /** `loginParticipant(participantId, workshopGroupId, cookie, headers)`:
      refuses a participant not enrolled in the group; otherwise logs in
      with the device fingerprint and sets the session cookie. A database
      failure (`dbFails`) is reported as a failed login with nothing
      stored. */
  function LoginParticipant(w: World, participantId: string, groupId: string,
                            userAgent: Option<string>, acceptLanguage: Option<string>,
                            rowId: string, random: seq<Crypto.Byte>, now: int, dbFails: bool): (r: (World, LoginResult))
    requires |random| == 32
    ensures !Sessions.IsParticipantAuthorized(w.members, participantId, groupId) ==>
      r == (w, LoginResult(false, false, Some("Participant not authorized for this group"), None))
    ensures r.1.success <==> Sessions.IsParticipantAuthorized(w.members, participantId, groupId) && !dbFails
    ensures !r.1.success ==> r.0 == w && r.1.cookie.None? && !r.1.isMultiDevice && r.1.error.Some?
    ensures r.1.success ==>
      var (t, login) := Sessions.LoginToGroup(w.sessions, participantId, groupId,
                                              Some(GetDeviceInfo(userAgent, acceptLanguage)), rowId, random, now);
      && r.0 == w.(sessions := t)
      && r.1 == LoginResult(true, login.isMultiDevice, None, Some(login.sessionToken))
  {
    if !Sessions.IsParticipantAuthorized(w.members, participantId, groupId) then
      (w, LoginResult(false, false, Some("Participant not authorized for this group"), None))
    else if dbFails then
      (w, LoginResult(false, false, Some("Login failed"), None))
    else
      var deviceInfo := GetDeviceInfo(userAgent, acceptLanguage);
      var (t, login) := Sessions.LoginToGroup(w.sessions, participantId, groupId, Some(deviceInfo), rowId, random, now);
      (w.(sessions := t), LoginResult(true, login.isMultiDevice, None, Some(login.sessionToken)))
  }

  /** A successful login is followed by authenticated requests: the cookie
      it sets derives the participant and group it logged into. */
  lemma LoginThenAuthenticated(w: World, participantId: string, groupId: string,
                               userAgent: Option<string>, acceptLanguage: Option<string>,
                               rowId: string, random: seq<Crypto.Byte>, now: int, timeout: int)
    requires |random| == 32 && timeout > 0
    requires Sessions.IsParticipantAuthorized(w.members, participantId, groupId)
    requires Sessions.IsParticipantRow(w.participants, participantId)
    requires exists g :: g in w.groups && g.id == groupId
    ensures var (w', res) := LoginParticipant(w, participantId, groupId, userAgent, acceptLanguage, rowId, random, now, false);
      && res.cookie.Some?
      && Derive(w', res.cookie, now, timeout).1.isAuthenticated
  {
    var (w', res) := LoginParticipant(w, participantId, groupId, userAgent, acceptLanguage, rowId, random, now, false);
    var token := res.cookie.value;
    assert token == Crypto.GenerateToken(random);
    var k :| 0 <= k < |w.participants| && w.participants[k].id == participantId;
    assert w.participants[k] in w.participants;
    var s := w'.sessions[|w.sessions|];
    assert s.token == token && Sessions.Joins(s, w'.participants, w'.groups);
    assert Sessions.HasToken(w'.sessions, token);
    AuthenticatedIffSessionRowJoins(w', token, now, timeout);
  }

  /** `logoutParticipant(sessionToken, cookie)`: removes the sessions with
      the token and clears the cookie; a database failure answers `false`
      and leaves the table alone. The second component is whether the
      cookie was cleared. */
  function LogoutParticipant(w: World, token: string, dbFails: bool): (r: (World, bool, bool))
    ensures dbFails ==> r == (w, false, false)
    ensures !dbFails ==> r.2 && (r.1 <==> Sessions.HasToken(w.sessions, token)) && !Sessions.HasToken(r.0.sessions, token)
    ensures r.0.participants == w.participants && r.0.groups == w.groups && r.0.members == w.members
  {
    if dbFails then (w, false, false)
    else
      var (t, removed) := Sessions.Logout(w.sessions, token);
      (w.(sessions := t), removed, true)
  }

  // ---------------------------------------------------------------------
  // Routes
  // ---------------------------------------------------------------------

  /** A JSON answer with its status code. */
  datatype Response =
    | Error(status: int, error: Option<string>)
    | LoggedIn(isMultiDevice: bool, message: string)
    | LoggedOut(success: bool, message: string)
    | Status(authenticated: bool, participant: Option<Participants.Participant>, group: Option<Workshops.WorkshopGroup>)

  /** The status code of an answer; the success answers are 200. */
  function StatusCode(r: Response): int {
    if r.Error? then r.status else 200
  }

  /** `POST /api/login`: 400 on a missing id, 401 when the login fails. */
  function LoginRoute(w: World, participantId: Option<string>, groupId: Option<string>,
                      userAgent: Option<string>, acceptLanguage: Option<string>,
                      rowId: string, random: seq<Crypto.Byte>, now: int, dbFails: bool): (r: (World, Response, Option<string>))
    requires |random| == 32
    ensures !Truthy(participantId) || !Truthy(groupId) ==>
      r == (w, Error(400, Some("Missing participantId or workshopGroupId")), None)
    ensures Truthy(participantId) && Truthy(groupId) ==>
      (StatusCode(r.1) == 200 <==> Sessions.IsParticipantAuthorized(w.members, participantId.value, groupId.value) && !dbFails)
    ensures StatusCode(r.1) != 200 ==> r.0 == w && r.2.None?
    ensures r.1.LoggedIn? ==>
      r.1.message == (if r.1.isMultiDevice then "Logged in successfully (multi-device detected)" else "Logged in successfully")
  {
    if !Truthy(participantId) || !Truthy(groupId) then
      (w, Error(400, Some("Missing participantId or workshopGroupId")), None)
    else
      var (w', res) := LoginParticipant(w, participantId.value, groupId.value, userAgent, acceptLanguage, rowId, random, now, dbFails);
      if !res.success then (w', Error(401, res.error), None)
      else
        (w', LoggedIn(res.isMultiDevice,
                      if res.isMultiDevice then "Logged in successfully (multi-device detected)" else "Logged in successfully"),
         res.cookie)
  }

  /** A participant not enrolled in the group is refused with 401 and no
      session is created. */
  lemma UnenrolledLoginRefused(w: World, participantId: string, groupId: string,
                               userAgent: Option<string>, acceptLanguage: Option<string>,
                               rowId: string, random: seq<Crypto.Byte>, now: int, dbFails: bool)
    requires |random| == 32 && participantId != "" && groupId != ""
    requires !Membership.IsMember(w.members, groupId, participantId)
    ensures var (w', resp, cookie) := LoginRoute(w, Some(participantId), Some(groupId), userAgent, acceptLanguage, rowId, random, now, dbFails);
      && resp == Error(401, Some("Participant not authorized for this group"))
      && w'.sessions == w.sessions && cookie.None?
  {
  }

  /** `POST /api/logout`: 400 when the request has no session, otherwise
      the outcome of the logout. */
  function LogoutRoute(w: World, ctx: Context, dbFails: bool): (r: (World, Response))
    ensures ctx.sessionToken.None? || ctx.sessionToken == Some("") ==> r == (w, Error(400, Some("No active session")))
    ensures r.1.LoggedOut? ==> r.1.message == (if r.1.success then "Logged out successfully" else "Logout failed")
    ensures r.1.LoggedOut? && r.1.success ==> !Sessions.HasToken(r.0.sessions, ctx.sessionToken.value)
  {
    if !Truthy(ctx.sessionToken) then (w, Error(400, Some("No active session")))
    else
      var (w', ok, _) := LogoutParticipant(w, ctx.sessionToken.value, dbFails);
      (w', LoggedOut(ok, if ok then "Logged out successfully" else "Logout failed"))
  }

  /** An anonymous request cannot log out: the derived context carries no
      token. */
  lemma AnonymousLogoutRejected(w: World, cookieToken: Option<string>, now: int, timeout: int, dbFails: bool)
    requires !Derive(w, cookieToken, now, timeout).1.isAuthenticated
    ensures var (w', ctx) := Derive(w, cookieToken, now, timeout);
      StatusCode(LogoutRoute(w', ctx, dbFails).1) == 400
  {
  }

  /** `GET /api/session`: the derived participant and group, or just
      `authenticated: false`. */
  function SessionStatus(ctx: Context): (r: Response)
    ensures r.Status? && (r.authenticated <==> ctx.isAuthenticated)
    ensures !ctx.isAuthenticated ==> r.participant.None? && r.group.None?
    ensures ctx.isAuthenticated ==> r.participant == ctx.participant && r.group == ctx.group
  {
    if !ctx.isAuthenticated then Status(false, None, None)
    else Status(true, ctx.participant, ctx.group)
  }
}

=== FILE: sessions.dfy ===
/** Presence (src/services/session.service.ts): the `online_sessions` table
    with login, heartbeat, logout, the per-group online list, the session
    lookup that authenticates a request, and the sweep of expired sessions.
    Times are integers (milliseconds); `now` and the configured
    ONLINE_STATUS_TIMEOUT are parameters, and a session is live when its
    `last_seen` lies strictly after `now - timeout`. */
module Sessions {
  import opened Wrappers
  import opened Tables
  import Crypto
  import Membership
  import Participants
  import Workshops

  /** One row of `online_sessions`. */
  datatype Session = Session(
    id: string,
    groupId: string,
    participantId: string,
    token: string,
    deviceInfo: Option<string>,
    lastSeen: int,
    createdAt: int)

  type Table = seq<Session>

  /** Live at `now`: seen after the cutoff `now - timeout`. */
  predicate IsLive(s: Session, now: int, timeout: int) {
    s.lastSeen > now - timeout
  }

  /** Swept at `now`: seen before the cutoff. */
  predicate IsExpired(s: Session, now: int, timeout: int) {
    s.lastSeen < now - timeout
  }

  predicate HasToken(sessions: Table, token: string) {
    exists i :: 0 <= i < |sessions| && sessions[i].token == token
  }

  // ---------------------------------------------------------------------
  // loginToGroup, updateSessionActivity, logoutFromGroup
  // ---------------------------------------------------------------------

  /** The answer of `loginToGroup`. */
  datatype Login = Login(sessionToken: string, isMultiDevice: bool)

  /** `loginToGroup(participantId, workshopGroupId, deviceInfo)`: a new
      session with a fresh token (from 32 random bytes) seen and created
      `now`, and whether the participant already had a session in the
      group, however old. An empty device description is stored as NULL. */
  function LoginToGroup(sessions: Table, participantId: string, groupId: string, deviceInfo: Option<string>,
                        rowId: string, random: seq<Crypto.Byte>, now: int): (r: (Table, Login))
    requires |random| == 32
    ensures |r.0| == |sessions| + 1
    ensures var s := r.0[|sessions|];
      && r.0 == sessions + [s]
      && s.participantId == participantId && s.groupId == groupId
      && s.lastSeen == now && s.createdAt == now
      && s.token == r.1.sessionToken == Crypto.GenerateToken(random)
      && s.deviceInfo == (if deviceInfo == Some("") then None else deviceInfo)
    ensures r.1.isMultiDevice <==> exists i :: 0 <= i < |sessions| && sessions[i].participantId == participantId && sessions[i].groupId == groupId
  {
    var token := Crypto.GenerateToken(random);
    var existing := FirstWhere(sessions, (s: Session) => s.participantId == participantId && s.groupId == groupId);
    var s := Session(rowId, groupId, participantId, token,
                     if deviceInfo == Some("") then None else deviceInfo, now, now);
    (sessions + [s], Login(token, existing.Some?))
  }

  /** `updateSessionActivity(sessionToken)`: every session with the token
      is seen `now`; true when there was one. */
  function Heartbeat(sessions: Table, token: string, now: int): (r: (Table, bool))
    ensures r.1 <==> HasToken(sessions, token)
    ensures |r.0| == |sessions|
    ensures forall i :: 0 <= i < |sessions| ==>
      r.0[i] == if sessions[i].token == token then sessions[i].(lastSeen := now) else sessions[i]
  {
    var t := seq(|sessions|, i requires 0 <= i < |sessions| =>
      if sessions[i].token == token then sessions[i].(lastSeen := now) else sessions[i]);
    (t, Count(sessions, (s: Session) => s.token == token) > 0)
  }

  /** `logoutFromGroup(sessionToken)`: removes the sessions with the token;
      true when one was removed. */
  function Logout(sessions: Table, token: string): (r: (Table, bool))
    ensures r.1 <==> HasToken(sessions, token)
    ensures !HasToken(r.0, token)
    ensures forall s :: s in r.0 <==> s in sessions && s.token != token
  {
    var t := Filter(sessions, (s: Session) => s.token != token);
    assert forall i :: 0 <= i < |t| ==> t[i] in t;
    (t, Count(sessions, (s: Session) => s.token == token) > 0)
  }

  /** Logging out twice: the second time finds nothing to remove. */
  lemma SecondLogoutFails(sessions: Table, token: string)
    ensures !Logout(Logout(sessions, token).0, token).1
  {
  }

  /** A heartbeat keeps a session live for the next `timeout` milliseconds,
      however stale it was. */
  lemma HeartbeatRevives(sessions: Table, token: string, now: int, timeout: int, later: int, i: nat)
    requires i < |sessions| && sessions[i].token == token
    requires now <= later < now + timeout
    ensures IsLive(Heartbeat(sessions, token, now).0[i], later, timeout)
  {
  }

  // ---------------------------------------------------------------------
  // cleanupExpiredSessions
  // ---------------------------------------------------------------------

  /** `cleanupExpiredSessions()`: removes exactly the sessions seen before
      the cutoff and returns how many. */
  function CleanupExpired(sessions: Table, now: int, timeout: int): (r: (Table, nat))
    ensures forall s :: s in r.0 <==> s in sessions && !IsExpired(s, now, timeout)
    ensures r.1 == Count(sessions, (s: Session) => IsExpired(s, now, timeout))
    ensures r.1 == |sessions| - |r.0|
  {
    var t := Filter(sessions, (s: Session) => !IsExpired(s, now, timeout));
    FilterCount(sessions, (s: Session) => IsExpired(s, now, timeout), (s: Session) => !IsExpired(s, now, timeout));
    (t, Count(sessions, (s: Session) => IsExpired(s, now, timeout)))
  }

  /** The sweep keeps every live session, and a session seen exactly at the
      cutoff is neither live nor swept. */
  lemma SweepKeepsLive(sessions: Table, now: int, timeout: int, s: Session)
    requires s in sessions
    ensures IsLive(s, now, timeout) ==> s in CleanupExpired(sessions, now, timeout).0
    ensures s.lastSeen == now - timeout ==> !IsLive(s, now, timeout) && s in CleanupExpired(sessions, now, timeout).0
  {
  }

  // ---------------------------------------------------------------------
  // getSessionInfo and isParticipantAuthorized
  // ---------------------------------------------------------------------

  /** The participant and group a session token stands for. */
  datatype SessionInfo = SessionInfo(participant: Participants.Participant, group: Workshops.WorkshopGroup)

  /** The session row joins a participant row and a group row. */
  predicate Joins(s: Session, ps: Participants.Table, groups: seq<Workshops.WorkshopGroup>) {
    (exists p :: p in ps && p.id == s.participantId) && (exists g :: g in groups && g.id == s.groupId)
  }

  /** The session carries the token, is live and belongs to the
      participant and group of `info`. */
  predicate Authenticates(s: Session, token: string, now: int, timeout: int, info: SessionInfo) {
    s.token == token && IsLive(s, now, timeout) && s.participantId == info.participant.id && s.groupId == info.group.id
  }

  /** `getSessionInfo(sessionToken)`: the participant and group of a live
      session with the token, or nothing for an unknown token or a stale
      session. */
  function GetSessionInfo(sessions: Table, ps: Participants.Table, groups: seq<Workshops.WorkshopGroup>,
                          token: string, now: int, timeout: int): (r: Option<SessionInfo>)
    ensures r.None? <==> forall i :: 0 <= i < |sessions| ==>
      !(sessions[i].token == token && IsLive(sessions[i], now, timeout) && Joins(sessions[i], ps, groups))
    ensures r.Some? ==> exists i :: 0 <= i < |sessions| && Authenticates(sessions[i], token, now, timeout, r.value)
    ensures r.Some? ==> r.value.participant in ps && r.value.group in groups
  {
    match FirstWhere(sessions, (s: Session) => s.token == token && IsLive(s, now, timeout) && Joins(s, ps, groups))
    case None => None
    case Some(s) =>
      var p := FirstWhere(ps, (p: Participants.Participant) => p.id == s.participantId).value;
      var g := FirstWhere(groups, (g: Workshops.WorkshopGroup) => g.id == s.groupId).value;
      Some(SessionInfo(p, g))
  }

  /** `isParticipantAuthorized(participantId, workshopGroupId)`: the
      participant is enrolled in the group. */
  function IsParticipantAuthorized(members: seq<Membership.Member>, participantId: string, groupId: string): (r: bool)
    ensures r <==> exists i :: 0 <= i < |members| && members[i].participantId == participantId && members[i].groupId == groupId
  {
    Membership.RoleOf(members, groupId, participantId).Some?
  }

  /** `getParticipantRole(participantId, workshopGroupId)`: the role of
      the enrolment row, or nothing when the participant is not enrolled. */
  function GetParticipantRole(members: seq<Membership.Member>, participantId: string, groupId: string): (r: Option<Membership.Role>)
    ensures r.None? <==> !IsParticipantAuthorized(members, participantId, groupId)
    ensures r.Some? ==> exists i :: 0 <= i < |members| && members[i] == Membership.Member(groupId, participantId, r.value)
  {
    Membership.RoleOf(members, groupId, participantId)
  }

  /** Right after login, the new token is recognised until the session goes
      stale. */
  lemma LoginIsRecognised(sessions: Table, ps: Participants.Table, groups: seq<Workshops.WorkshopGroup>,
                          participantId: string, groupId: string, deviceInfo: Option<string>,
                          rowId: string, random: seq<Crypto.Byte>, now: int, timeout: int)
    requires |random| == 32 && timeout > 0
    requires exists p :: p in ps && p.id == participantId
    requires exists g :: g in groups && g.id == groupId
    ensures var (t, login) := LoginToGroup(sessions, participantId, groupId, deviceInfo, rowId, random, now);
      GetSessionInfo(t, ps, groups, login.sessionToken, now, timeout).Some?
  {
    var (t, login) := LoginToGroup(sessions, participantId, groupId, deviceInfo, rowId, random, now);
    assert t[|sessions|].token == login.sessionToken && IsLive(t[|sessions|], now, timeout) && Joins(t[|sessions|], ps, groups);
  }

  // ---------------------------------------------------------------------
  // getOnlineParticipants
  // ---------------------------------------------------------------------

  /** One entry of the online list. */
  datatype OnlineEntry = OnlineEntry(participant: Participants.Participant, lastSeen: int, deviceCount: nat)

  /** The live sessions of a group. */
  function LiveIn(sessions: Table, groupId: string, now: int, timeout: int): (r: Table)
    ensures forall s :: s in r <==> s in sessions && s.groupId == groupId && IsLive(s, now, timeout)
  {
    Filter(sessions, (s: Session) => s.groupId == groupId && IsLive(s, now, timeout))
  }

  /** The participant owns one of the sessions. */
  predicate Owns(live: Table, participantId: string) {
    exists i :: 0 <= i < |live| && live[i].participantId == participantId
  }

  /** The participants that own some of the sessions, each once. */
  function OwnerIds(live: Table): (r: seq<string>)
    ensures forall i :: 0 <= i < |live| ==> live[i].participantId in r
    ensures forall x :: x in r ==> Owns(live, x)
    ensures forall i, j :: 0 <= i < j < |r| ==> r[i] != r[j]
  {
    if |live| == 0 then []
    else
      var rest := OwnerIds(live[1..]);
      assert forall i :: 1 <= i < |live| ==> live[i] == live[1..][i - 1];
      assert forall x :: x in rest ==> Owns(live, x) by {
        forall x | x in rest
          ensures Owns(live, x)
        {
          var i :| 0 <= i < |live[1..]| && live[1..][i].participantId == x;
          assert live[i + 1].participantId == x;
        }
      }
      if live[0].participantId in rest then rest else [live[0].participantId] + rest
  }

  /** `MAX(os.last_seen)` over one participant's sessions. */
  function LatestSeen(live: Table, participantId: string): (r: int)
    requires Owns(live, participantId)
    ensures forall i :: 0 <= i < |live| && live[i].participantId == participantId ==> live[i].lastSeen <= r
    ensures exists i :: 0 <= i < |live| && live[i].participantId == participantId && live[i].lastSeen == r
  {
    assert forall i :: 1 <= i < |live| ==> live[i] == live[1..][i - 1];
    if live[0].participantId != participantId then
      var i :| 0 <= i < |live| && live[i].participantId == participantId;
      assert live[1..][i - 1].participantId == participantId;
      LatestSeen(live[1..], participantId)
    else if Owns(live[1..], participantId) then
      var m := LatestSeen(live[1..], participantId);
      if live[0].lastSeen >= m then live[0].lastSeen else m
    else live[0].lastSeen
  }

  /** The entry's count and time aggregate the participant's sessions. */
  predicate Aggregates(e: OnlineEntry, live: Table)
    requires Owns(live, e.participant.id)
  {
    e.deviceCount == Count(live, (s: Session) => s.participantId == e.participant.id)
    && e.lastSeen == LatestSeen(live, e.participant.id)
  }

  /** Some participant row has the id. */
  predicate IsParticipantRow(ps: Participants.Table, id: string) {
    exists k :: 0 <= k < |ps| && ps[k].id == id
  }

  predicate Distinct(ids: seq<string>) {
    forall i, j :: 0 <= i < j < |ids| ==> ids[i] != ids[j]
  }

  /** The grouped rows: one per owner that joins a participant row. */
  function Grouped(ids: seq<string>, live: Table, ps: Participants.Table): (r: seq<OnlineEntry>)
    requires forall x :: x in ids ==> Owns(live, x)
    ensures forall e :: e in r ==> e.participant.id in ids && e.participant in ps
    ensures forall e :: e in r ==> Owns(live, e.participant.id) && Aggregates(e, live)
    ensures forall x :: x in ids && IsParticipantRow(ps, x) ==> exists e :: e in r && e.participant.id == x
    ensures Distinct(ids) ==> DistinctParticipants(r)
  {
    if |ids| == 0 then []
    else
      assert forall x :: x in ids[1..] ==> x in ids;
      assert ids[0] in ids;
      var rest := Grouped(ids[1..], live, ps);
      assert Distinct(ids) ==> ids[0] !in ids[1..] && Distinct(ids[1..]) by {
        if Distinct(ids) {
          forall k | 0 <= k < |ids[1..]|
            ensures ids[1..][k] != ids[0]
          {
            assert ids[1..][k] == ids[k + 1];
          }
        }
      }
      match FirstWhere(ps, (p: Participants.Participant) => p.id == ids[0])
      case None =>
        assert !IsParticipantRow(ps, ids[0]);
        rest
      case Some(p) =>
        var e := OnlineEntry(p, LatestSeen(live, ids[0]), Count(live, (s: Session) => s.participantId == ids[0]));
        [e] + rest
  }

  /** No participant has two entries. */
  predicate DistinctParticipants(es: seq<OnlineEntry>) {
    forall i, j :: 0 <= i < j < |es| ==> es[i].participant.id != es[j].participant.id
  }

  predicate SortedByLastSeenDesc(es: seq<OnlineEntry>) {
    forall i, j :: 0 <= i < j < |es| ==> es[i].lastSeen >= es[j].lastSeen
  }

  /** No entry was seen after `t`. */
  predicate SeenBy(es: seq<OnlineEntry>, t: int) {
    forall i :: 0 <= i < |es| ==> es[i].lastSeen <= t
  }

  /** No entry belongs to the participant. */
  predicate Avoids(es: seq<OnlineEntry>, participantId: string) {
    forall i :: 0 <= i < |es| ==> es[i].participant.id != participantId
  }

  /** Inserts an entry before the first one seen no later than it. */
  function Insert(e: OnlineEntry, es: seq<OnlineEntry>): (r: seq<OnlineEntry>)
    ensures multiset(r) == multiset(es) + multiset{e}
  {
    if |es| == 0 || e.lastSeen >= es[0].lastSeen then [e] + es
    else
      assert es == [es[0]] + es[1..];
      [es[0]] + Insert(e, es[1..])
  }

  /** Inserting keeps a bound on the times and a participant's absence. */
  lemma {:induction false} InsertKeepsBounds(e: OnlineEntry, es: seq<OnlineEntry>, t: int, participantId: string)
    ensures SeenBy(es, t) && e.lastSeen <= t ==> SeenBy(Insert(e, es), t)
    ensures Avoids(es, participantId) && e.participant.id != participantId ==> Avoids(Insert(e, es), participantId)
  {
    if |es| > 0 && e.lastSeen < es[0].lastSeen {
      InsertKeepsBounds(e, es[1..], t, participantId);
      var rest := Insert(e, es[1..]);
      var r := [es[0]] + rest;
      assert forall i :: 1 <= i < |es| ==> es[i] == es[1..][i - 1];
      assert forall i :: 1 <= i < |r| ==> r[i] == rest[i - 1];
    } else {
      var r := [e] + es;
      assert forall i :: 1 <= i < |r| ==> r[i] == es[i - 1];
    }
  }

  /** Inserting into a sorted list keeps it sorted, and keeps it free of
      duplicate participants when the new one is absent. */
  lemma {:induction false} InsertKeepsOrder(e: OnlineEntry, es: seq<OnlineEntry>)
    requires SortedByLastSeenDesc(es)
    ensures SortedByLastSeenDesc(Insert(e, es))
    ensures DistinctParticipants(es) && Avoids(es, e.participant.id) ==> DistinctParticipants(Insert(e, es))
  {
    if |es| > 0 && e.lastSeen < es[0].lastSeen {
      var h := es[0];
      var tail := es[1..];
      assert forall i :: 0 <= i < |tail| ==> tail[i] == es[i + 1];
      InsertKeepsOrder(e, tail);
      InsertKeepsBounds(e, tail, h.lastSeen, h.participant.id);
      var rest := Insert(e, tail);
      var r := [h] + rest;
      assert forall i :: 1 <= i < |r| ==> r[i] == rest[i - 1];
      assert SeenBy(tail, h.lastSeen);
    } else {
      var r := [e] + es;
      assert forall i :: 1 <= i < |r| ==> r[i] == es[i - 1];
    }
  }

  /** `ORDER BY last_seen DESC`, as an insertion sort (ties keep the
      grouped order). */
  function SortByLastSeen(es: seq<OnlineEntry>): (r: seq<OnlineEntry>)
    ensures multiset(r) == multiset(es)
  {
    if |es| == 0 then []
    else
      assert es == [es[0]] + es[1..];
      Insert(es[0], SortByLastSeen(es[1..]))
  }

  /** The sorted list is sorted, and one entry per participant stays one. */
  lemma {:induction false} SortIsOrdered(es: seq<OnlineEntry>)
    ensures SortedByLastSeenDesc(SortByLastSeen(es))
    ensures DistinctParticipants(es) ==> DistinctParticipants(SortByLastSeen(es))
  {
    if |es| > 0 {
      var tail := es[1..];
      assert forall i :: 0 <= i < |tail| ==> tail[i] == es[i + 1];
      SortIsOrdered(tail);
      var rest := SortByLastSeen(tail);
      if DistinctParticipants(es) {
        assert Avoids(tail, es[0].participant.id);
        SameElements(rest, tail);
        assert Avoids(rest, es[0].participant.id) by {
          forall i | 0 <= i < |rest|
            ensures rest[i].participant.id != es[0].participant.id
          {
            assert rest[i] in tail;
          }
        }
      }
      InsertKeepsOrder(es[0], rest);
    }
  }

  /** Sequences with the same multiset have the same elements. */
  lemma SameElements(a: seq<OnlineEntry>, b: seq<OnlineEntry>)
    requires multiset(a) == multiset(b)
    ensures forall e :: e in a <==> e in b
  {
    forall e
      ensures e in a <==> e in b
    {
      assert e in a <==> e in multiset(a);
      assert e in b <==> e in multiset(b);
    }
  }

  /** `getOnlineParticipants(workshopGroupId)`: one entry per participant
      with a live session in the group, with the number of such sessions
      and the latest of their `last_seen`, latest first. */
  function GetOnlineParticipants(sessions: Table, ps: Participants.Table, groupId: string, now: int, timeout: int): (r: seq<OnlineEntry>)
    ensures SortedByLastSeenDesc(r) && DistinctParticipants(r)
    ensures forall e :: e in r ==> e.participant in ps && Owns(LiveIn(sessions, groupId, now, timeout), e.participant.id)
    ensures forall e :: e in r ==> Aggregates(e, LiveIn(sessions, groupId, now, timeout))
  {
    var live := LiveIn(sessions, groupId, now, timeout);
    var grouped := Grouped(OwnerIds(live), live, ps);
    var r := SortByLastSeen(grouped);
    SortIsOrdered(grouped);
    SameElements(r, grouped);
    r
  }

  /** Every participant with a live session in the group, and a participant
      row, is on the online list. */
  lemma OnlineListCoversLiveSessions(sessions: Table, ps: Participants.Table, groupId: string, now: int, timeout: int, s: Session)
    requires s in sessions && s.groupId == groupId && IsLive(s, now, timeout)
    requires IsParticipantRow(ps, s.participantId)
    ensures exists e :: e in GetOnlineParticipants(sessions, ps, groupId, now, timeout) && e.participant.id == s.participantId
  {
    var live := LiveIn(sessions, groupId, now, timeout);
    var grouped := Grouped(OwnerIds(live), live, ps);
    SameElements(SortByLastSeen(grouped), grouped);
    var i :| 0 <= i < |live| && live[i] == s;
    assert s.participantId in OwnerIds(live);
  }

  /** Every device counted is a live session: an entry's count is at least
      one, and a session that has gone stale no longer counts. */
  lemma OnlineCountsLiveDevices(sessions: Table, ps: Participants.Table, groupId: string, now: int, timeout: int, e: OnlineEntry)
    requires e in GetOnlineParticipants(sessions, ps, groupId, now, timeout)
    ensures e.deviceCount >= 1
    ensures e.lastSeen > now - timeout
  {
    var live := LiveIn(sessions, groupId, now, timeout);
    var i :| 0 <= i < |live| && live[i].participantId == e.participant.id && live[i].lastSeen == e.lastSeen;
    assert live[i] in live;
  }
}

=== FILE: slugify.dfy ===
/** URL slugs (src/utils/slugify.ts): turning names into `[a-z0-9_]` slugs,
    checking the slug pattern, short slugs, making a slug unique against a
    list of taken ones, and turning a slug back into words. */
module Slugify {
  import opened Text

  // ---------------------------------------------------------------------
  // slugify
  // ---------------------------------------------------------------------

  /** The German and accented letters the service rewrites after lower-casing
      (upper-case forms never reach this point); any other character is
      kept. */
  function Transliterate(c: char): (r: string)
    ensures IsLowerAlnum(c) || c == '_' ==> r == [c]
    ensures forall i :: 0 <= i < |r| ==> r[i] == c || IsLowerAscii(r[i])
  {
    if c == '\U{00E4}' then "ae"
    else if c == '\U{00F6}' then "oe"
    else if c == '\U{00FC}' then "ue"
    else if c == '\U{00DF}' then "ss"
    else if '\U{00E0}' <= c <= '\U{00E3}' then "a"
    else if '\U{00E8}' <= c <= '\U{00EB}' then "e"
    else if '\U{00EC}' <= c <= '\U{00EF}' then "i"
    else if '\U{00F2}' <= c <= '\U{00F5}' then "o"
    else if '\U{00F9}' <= c <= '\U{00FB}' then "u"
    else [c]
  }

  /** `toLowerCase()` followed by the chain of letter replacements. Each
      replacement maps one non-ASCII character to ASCII text, so the chain
      acts character by character. */
  function Fold(s: string): string {
    if |s| == 0 then "" else Transliterate(LowerChar(s[0])) + Fold(s[1..])
  }

  predicate IsSeparator(c: char) {
    !IsLowerAlnum(c)
  }

  predicate IsUnderscore(c: char) {
    c == '_'
  }

  /** No two underscores in a row. */
  predicate NoDoubleUnderscore(s: string) {
    forall i :: 0 <= i < |s| - 1 ==> !DoubleAt(s, i)
  }

  /** Positions `i` and `i + 1` both hold an underscore. */
  predicate DoubleAt(s: string, i: nat)
    requires i < |s| - 1
  {
    s[i] == '_' && s[i + 1] == '_'
  }

  /** Every character is in `[a-z0-9_]`. */
  predicate SlugAlphabet(s: string) {
    forall i :: 0 <= i < |s| ==> IsLowerAlnum(s[i]) || s[i] == '_'
  }

  /** The shape every output of `Slugify` has. */
  predicate SlugShaped(s: string) {
    && SlugAlphabet(s)
    && NoDoubleUnderscore(s)
    && (|s| > 0 ==> s[0] != '_' && s[|s| - 1] != '_')
  }

  /** `.replace(/[^a-z0-9]+/g, '_')`: every maximal run of characters
      outside `[a-z0-9]` becomes one underscore. */
  function CollapseSeparators(s: string): (r: string)
    ensures SlugAlphabet(r) && NoDoubleUnderscore(r)
    ensures |r| > 0 && r[0] == '_' ==> |s| > 0 && IsSeparator(s[0])
    decreases |s|
  {
    if |s| == 0 then ""
    else if IsLowerAlnum(s[0]) then
      var t := CollapseSeparators(s[1..]);
      ConsKeepsShape(s[0], t);
      [s[0]] + t
    else
      var t := CollapseSeparators(DropWhile(s, IsSeparator));
      ConsKeepsShape('_', t);
      "_" + t
  }

  /** Putting a letter, a digit, or an underscore not followed by another
      in front keeps the slug alphabet and the absence of double
      underscores. */
  lemma ConsKeepsShape(c: char, t: string)
    requires IsLowerAlnum(c) || c == '_'
    requires SlugAlphabet(t) && NoDoubleUnderscore(t)
    requires c == '_' && |t| > 0 ==> t[0] != '_'
    ensures SlugAlphabet([c] + t) && NoDoubleUnderscore([c] + t)
  {
    var u := [c] + t;
    forall i | 0 <= i < |u| - 1
      ensures !DoubleAt(u, i)
    {
      if i > 0 {
        assert u[i] == t[i - 1] && u[i + 1] == t[i];
        assert !DoubleAt(t, i - 1);
      }
    }
  }

  /** A substring of a string in the slug alphabet without double
      underscores keeps both properties. */
  lemma SubstringKeepsShape(s: string, k: nat, n: nat)
    requires k + n <= |s|
    requires SlugAlphabet(s) && NoDoubleUnderscore(s)
    ensures SlugAlphabet(s[k..k + n]) && NoDoubleUnderscore(s[k..k + n])
  {
    var t := s[k..k + n];
    assert forall i :: 0 <= i < |t| ==> t[i] == s[k + i];
    forall i | 0 <= i < |t| - 1
      ensures !DoubleAt(t, i)
    {
      assert t[i] == s[k + i] && t[i + 1] == s[k + i + 1];
      assert !DoubleAt(s, k + i);
    }
  }

  /** `slugify(text)`: fold letters, collapse separator runs to `_`, strip
      leading and trailing underscores. The result contains only
      `[a-z0-9_]`, never `__`, and neither starts nor ends with `_`. */
  function Slugify(text: string): (r: string)
    ensures SlugShaped(r)
  {
    var c := CollapseSeparators(Fold(text));
    TrimmedIsSlug(c);
    TrimWhile(c, IsUnderscore)
  }

  /** Stripping the underscores from both ends of a string in the slug
      alphabet without double underscores leaves a slug-shaped string. */
  lemma TrimmedIsSlug(c: string)
    requires SlugAlphabet(c) && NoDoubleUnderscore(c)
    ensures SlugShaped(TrimWhile(c, IsUnderscore))
  {
    PieceIsSlug(c, LeadCount(c, IsUnderscore), TrimWhile(c, IsUnderscore));
  }

  /** A piece of such a string that neither starts nor ends with an
      underscore is slug-shaped. */
  lemma PieceIsSlug(c: string, k: nat, r: string)
    requires SlugAlphabet(c) && NoDoubleUnderscore(c)
    requires k + |r| <= |c| && r == c[k..k + |r|]
    requires |r| > 0 ==> !IsUnderscore(r[0]) && !IsUnderscore(r[|r| - 1])
    ensures SlugShaped(r)
  {
    SubstringKeepsShape(c, k, |r|);
  }

  lemma {:induction false} FoldIdentity(s: string)
    requires SlugAlphabet(s)
    ensures Fold(s) == s
  {
    if |s| > 0 {
      FoldIdentity(s[1..]);
      assert [s[0]] + s[1..] == s;
    }
  }

  lemma {:induction false} CollapseIdentity(s: string)
    requires SlugAlphabet(s) && NoDoubleUnderscore(s)
    ensures CollapseSeparators(s) == s
    decreases |s|
  {
    if |s| > 0 {
      TailKeepsShape(s);
      CollapseIdentity(s[1..]);
      assert s[0] == '_' && |s| > 1 ==> IsLowerAlnum(s[1]) by {
        if s[0] == '_' && |s| > 1 {
          assert !DoubleAt(s, 0);
        }
      }
      CollapseStep(s);
      assert [s[0]] + s[1..] == s;
    }
  }

  /** Dropping the first character keeps the slug alphabet and the absence
      of double underscores. */
  lemma TailKeepsShape(s: string)
    requires |s| > 0 && SlugAlphabet(s) && NoDoubleUnderscore(s)
    ensures SlugAlphabet(s[1..]) && NoDoubleUnderscore(s[1..])
  {
    SubstringKeepsShape(s, 1, |s| - 1);
    assert s[1..] == s[1..1 + (|s| - 1)];
  }

  /** When the string starts with a letter or digit, or with an
      underscore followed by a letter or digit, collapsing handles its
      first character on its own. */
  lemma CollapseStep(s: string)
    requires |s| > 0 && (IsLowerAlnum(s[0]) || s[0] == '_')
    requires s[0] == '_' && |s| > 1 ==> IsLowerAlnum(s[1])
    ensures CollapseSeparators(s) == [s[0]] + CollapseSeparators(s[1..])
  {
    if !IsLowerAlnum(s[0]) {
      assert DropWhile(s[1..], IsSeparator) == s[1..];
      assert DropWhile(s, IsSeparator) == s[1..];
    }
  }

  /** Slugify is the identity on slug-shaped text. */
  lemma SlugifyFixesSlugs(s: string)
    requires SlugShaped(s)
    ensures Slugify(s) == s
  {
    FoldIdentity(s);
    CollapseIdentity(s);
    TrimWhileNoop(s, IsUnderscore);
  }

  /** Slugify is idempotent. */
  lemma SlugifyIdempotent(text: string)
    ensures Slugify(Slugify(text)) == Slugify(text)
  {
    SlugifyFixesSlugs(Slugify(text));
  }

  // ---------------------------------------------------------------------
  // isValidSlug
  // ---------------------------------------------------------------------

  /** A recogniser for `^[a-z0-9]+(?:_[a-z0-9]+)*$`. */
  predicate MatchesSlugPattern(s: string)
    decreases |s|, 1
  {
    |s| > 0 && IsLowerAlnum(s[0]) && MatchesSlugTail(s[1..])
  }

  /** The rest of a slug after a character of `[a-z0-9]`: either nothing,
      another such character, or `_` starting a new non-empty word. */
  predicate MatchesSlugTail(t: string)
    decreases |t|, 0
  {
    || |t| == 0
    || (IsLowerAlnum(t[0]) && MatchesSlugTail(t[1..]))
    || (t[0] == '_' && MatchesSlugPattern(t[1..]))
  }

  /** `isValidSlug(slug)`: matches the slug pattern and has 1 to 100
      characters. */
  predicate IsValidSlug(s: string) {
    MatchesSlugPattern(s) && |s| > 0 && |s| <= 100
  }

  predicate TailShaped(t: string) {
    && SlugAlphabet(t)
    && NoDoubleUnderscore(t)
    && (|t| > 0 ==> t[|t| - 1] != '_')
  }

  lemma {:induction false} TailEquivalence(t: string)
    ensures MatchesSlugTail(t) <==> TailShaped(t)
    decreases |t|
  {
    if |t| > 0 {
      if IsLowerAlnum(t[0]) {
        TailEquivalence(t[1..]);
        if TailShaped(t[1..]) {
          assert TailShaped(t) by {
            forall i | 0 <= i < |t| - 1
              ensures !DoubleAt(t, i)
            {
              if i > 0 {
                assert t[i] == t[1..][i - 1] && t[i + 1] == t[1..][i];
                assert !DoubleAt(t[1..], i - 1);
              }
            }
          }
        }
        if TailShaped(t) {
          SubstringKeepsShape(t, 1, |t| - 1);
          assert t[1..] == t[1..1 + (|t| - 1)];
        }
      } else if t[0] == '_' {
        if |t| >= 2 {
          TailEquivalence(t[2..]);
          assert t[1..][1..] == t[2..];
          if TailShaped(t) {
            SubstringKeepsShape(t, 2, |t| - 2);
            assert t[2..] == t[2..2 + (|t| - 2)];
          }
          assert TailShaped(t) ==> !DoubleAt(t, 0);
          if IsLowerAlnum(t[1]) && TailShaped(t[2..]) {
            assert TailShaped(t) by {
              forall i | 0 <= i < |t| - 1
                ensures !DoubleAt(t, i)
              {
                if i > 1 {
                  assert t[i] == t[2..][i - 2] && t[i + 1] == t[2..][i - 1];
                  assert !DoubleAt(t[2..], i - 2);
                }
              }
            }
          }
        }
      }
    }
  }

  /** The slug pattern accepts exactly the non-empty slug-shaped strings. */
  lemma SlugPatternEquivalence(s: string)
    ensures MatchesSlugPattern(s) <==> |s| > 0 && SlugShaped(s)
  {
    if |s| > 0 {
      TailEquivalence(s[1..]);
      if SlugShaped(s) {
        SubstringKeepsShape(s, 1, |s| - 1);
        assert s[1..] == s[1..1 + (|s| - 1)];
      }
      if IsLowerAlnum(s[0]) && TailShaped(s[1..]) {
        assert SlugShaped(s) by {
          forall i | 0 <= i < |s| - 1
            ensures !DoubleAt(s, i)
          {
            if i > 0 {
              assert s[i] == s[1..][i - 1] && s[i + 1] == s[1..][i];
              assert !DoubleAt(s[1..], i - 1);
            }
          }
        }
      }
    }
  }

  /** A non-empty slugify output of at most 100 characters is a valid slug. */
  lemma SlugifyIsValid(text: string)
    requires 0 < |Slugify(text)| <= 100
    ensures IsValidSlug(Slugify(text))
  {
    SlugPatternEquivalence(Slugify(text));
  }

  // ---------------------------------------------------------------------
  // createShortSlug
  // ---------------------------------------------------------------------

  /** Keeps the characters a predicate accepts, in order. */
  function Filter(s: string, keep: char -> bool): (r: string)
    ensures |r| <= |s|
    ensures forall i :: 0 <= i < |r| ==> keep(r[i])
  {
    if |s| == 0 then ""
    else if keep(s[0]) then [s[0]] + Filter(s[1..], keep)
    else Filter(s[1..], keep)
  }

  predicate IsShortSlugChar(c: char) {
    IsLowerAlnum(c) || IsJsSpace(c)
  }

  /** `.filter(word => word.length > 0)` */
  function NonEmptyWords(ws: seq<string>): (r: seq<string>)
    ensures forall i :: 0 <= i < |r| ==> |r[i]| > 0
    ensures forall i :: 0 <= i < |r| ==> r[i] in ws
  {
    if |ws| == 0 then []
    else if |ws[0]| > 0 then [ws[0]] + NonEmptyWords(ws[1..])
    else NonEmptyWords(ws[1..])
  }

  /** The words of `createShortSlug`: lower-case, drop everything outside
      `[a-z0-9\s]`, split on whitespace runs, drop empty pieces. */
  function ShortSlugWords(text: string): (ws: seq<string>)
    ensures forall i :: 0 <= i < |ws| ==> |ws[i]| > 0
    ensures forall i, j :: 0 <= i < |ws| && 0 <= j < |ws[i]| ==> IsLowerAlnum(ws[i][j])
  {
    var cleaned := Filter(seq(|text|, i requires 0 <= i < |text| => LowerChar(text[i])), IsShortSlugChar);
    var pieces := SplitOnRuns(cleaned, IsJsSpace);
    SplitOnRunsKeeps(cleaned, IsJsSpace, IsShortSlugChar);
    NonEmptyWords(pieces)
  }

  /** The loop that appends the first letter of each further word while
      the short slug is shorter than 6 characters. */
  function AppendInitials(acc: string, words: seq<string>): (r: string)
    requires forall i :: 0 <= i < |words| ==> |words[i]| > 0
    ensures |acc| <= 6 ==> |r| == if |acc| + |words| < 6 then |acc| + |words| else 6
    ensures |acc| > 6 ==> r == acc
    ensures r[..|acc|] == acc
    ensures forall i :: |acc| <= i < |r| ==> r[i] == words[i - |acc|][0]
    decreases |words|
  {
    if |words| == 0 || |acc| >= 6 then acc
    else AppendInitials(acc + [words[0][0]], words[1..])
  }

  function Min(a: int, b: int): int {
    if a <= b then a else b
  }

  /** The short slug of a non-empty word list: the first two letters of
      the first word followed by the initials of the following words, at
      most 6 characters in all. */
  function ShortSlugOf(ws: seq<string>): (r: string)
    requires |ws| > 0
    requires forall i :: 0 <= i < |ws| ==> |ws[i]| > 0
    ensures |r| == Min(6, Min(2, |ws[0]|) + |ws| - 1)
    ensures r[..Min(2, |ws[0]|)] == ws[0][..Min(2, |ws[0]|)]
    ensures forall i :: Min(2, |ws[0]|) <= i < |r| ==> r[i] == ws[i - Min(2, |ws[0]|) + 1][0]
  {
    var head := Min(2, |ws[0]|);
    var r := AppendInitials(ws[0][..head], ws[1..]);
    assert forall i :: head <= i < |r| ==> r[i] == ws[1..][i - head][0];
    r
  }

  /** `createShortSlug(text)`: `slug` when the text has no words, otherwise
      the short slug of its words; either way 1 to 6 characters of
      `[a-z0-9]`. */
  function CreateShortSlug(text: string): (r: string)
    ensures |ShortSlugWords(text)| == 0 ==> r == "slug"
    ensures |ShortSlugWords(text)| > 0 ==> r == ShortSlugOf(ShortSlugWords(text))
    ensures 1 <= |r| <= 6
    ensures forall i :: 0 <= i < |r| ==> IsLowerAlnum(r[i])
  {
    var ws := ShortSlugWords(text);
    if |ws| == 0 then "slug"
    else
      var r := ShortSlugOf(ws);
      ShortSlugAlphabet(ws);
      r
  }

  lemma ShortSlugAlphabet(ws: seq<string>)
    requires |ws| > 0
    requires forall i :: 0 <= i < |ws| ==> |ws[i]| > 0
    requires forall i, j :: 0 <= i < |ws| && 0 <= j < |ws[i]| ==> IsLowerAlnum(ws[i][j])
    ensures forall i :: 0 <= i < |ShortSlugOf(ws)| ==> IsLowerAlnum(ShortSlugOf(ws)[i])
  {
    var r := ShortSlugOf(ws);
    var head := Min(2, |ws[0]|);
    forall i | 0 <= i < |r|
      ensures IsLowerAlnum(r[i])
    {
      if i < head {
        assert r[i] == r[..head][i] == ws[0][i];
      } else {
        assert r[i] == ws[i - head + 1][0];
      }
    }
  }

  // ---------------------------------------------------------------------
  // makeUniqueSlug
  // ---------------------------------------------------------------------

  /** The `k`-th alternative `${baseSlug}_${counter}`. */
  function Candidate(base: string, k: nat): string {
    base + "_" + NatToString(k)
  }

  lemma CandidateInjective(base: string, j: nat, k: nat)
    requires Candidate(base, j) == Candidate(base, k)
    ensures j == k
  {
    var n := |base| + 1;
    assert NatToString(j) == Candidate(base, j)[n..];
    assert NatToString(k) == Candidate(base, k)[n..];
    NatToStringInjective(j, k);
  }

  function Tried(base: string, k: nat): set<string> {
    set j | 1 <= j < k :: Candidate(base, j)
  }

  /** The loop of `makeUniqueSlug` from counter `k` on: the first counter
      whose candidate is not taken. */
  function FirstFreeSuffix(base: string, existing: seq<string>, k: nat): (r: nat)
    requires k >= 1
    requires forall j :: 1 <= j < k ==> Candidate(base, j) in existing
    ensures r >= k && Candidate(base, r) !in existing
    ensures forall j :: 1 <= j < r ==> Candidate(base, j) in existing
    decreases (set s | s in existing) - Tried(base, k)
  {
    if Candidate(base, k) !in existing then k
    else
      var taken := set s | s in existing;
      assert Candidate(base, k) !in Tried(base, k) by {
        if Candidate(base, k) in Tried(base, k) {
          var j :| 1 <= j < k && Candidate(base, j) == Candidate(base, k);
          CandidateInjective(base, j, k);
        }
      }
      assert Tried(base, k + 1) == Tried(base, k) + {Candidate(base, k)};
      assert Candidate(base, k) in taken - Tried(base, k);
      FirstFreeSuffix(base, existing, k + 1)
  }

  /** `makeUniqueSlug(baseSlug, existingSlugs)`: the base itself when it is
      free, otherwise `base_k` for the least `k >= 1` that is free. The
      result is never among the existing slugs. */
  function MakeUniqueSlug(base: string, existing: seq<string>): (r: string)
    ensures r !in existing
    ensures base !in existing ==> r == base
    ensures base in existing ==>
      exists k :: k >= 1 && r == Candidate(base, k)
        && forall j :: 1 <= j < k ==> Candidate(base, j) in existing
  {
    if base !in existing then base
    else
      var k := FirstFreeSuffix(base, existing, 1);
      Candidate(base, k)
  }

  // ---------------------------------------------------------------------
  // slugToText
  // ---------------------------------------------------------------------

  function CapitalizeAll(ws: seq<string>): (r: seq<string>)
    ensures |r| == |ws|
    ensures forall i :: 0 <= i < |ws| ==> r[i] == CapitalizeFirst(ws[i])
  {
    if |ws| == 0 then [] else [CapitalizeFirst(ws[0])] + CapitalizeAll(ws[1..])
  }

  /** `slugToText(slug)`: one word per `_`-separated part, joined with
      spaces, with only each word's first character upper-cased. */
  function SlugToText(slug: string): (r: string)
    ensures ' ' !in slug ==>
      var parts := Split(slug, '_');
      var words := Split(r, ' ');
      && |words| == |parts|
      && forall i :: 0 <= i < |parts| ==>
           && (|parts[i]| == 0 ==> words[i] == "")
           && (|parts[i]| > 0 ==>
                 StartsWith(words[i], UpperFirst(parts[i][0])) && words[i][|UpperFirst(parts[i][0])|..] == parts[i][1..])
  {
    var ws := CapitalizeAll(Split(slug, '_'));
    if ' ' !in slug then
      SlugToTextWords(slug);
      Join(ws, ' ')
    else
      Join(ws, ' ')
  }

  /** Without spaces in the slug, splitting the text on spaces gives back
      the capitalised parts. */
  lemma SlugToTextWords(slug: string)
    requires ' ' !in slug
    ensures Split(Join(CapitalizeAll(Split(slug, '_')), ' '), ' ') == CapitalizeAll(Split(slug, '_'))
  {
    var parts := Split(slug, '_');
    var ws := CapitalizeAll(parts);
    forall i | 0 <= i < |ws|
      ensures ' ' !in ws[i]
    {
      assert forall j :: 0 <= j < |parts[i]| ==> parts[i][j] in slug by {
        JoinSplit(slug, '_');
        PieceInJoin(parts, '_', i);
      }
      forall j | 0 <= j < |ws[i]|
        ensures ws[i][j] != ' '
      {
        var head := UpperFirst(parts[i][0]);
        if j < |head| {
          assert parts[i][0] in slug;
          assert ws[i][j] == head[j];
        } else {
          assert ws[i][j] == ws[i][|head|..][j - |head|] == parts[i][1..][j - |head|];
        }
      }
    }
    SplitJoin(ws, ' ');
  }

  /** Every character of a piece occurs in the join. */
  lemma {:induction false} PieceInJoin(parts: seq<string>, sep: char, i: nat)
    requires i < |parts|
    ensures forall j :: 0 <= j < |parts[i]| ==> parts[i][j] in Join(parts, sep)
  {
    if |parts| > 1 {
      var rest := Join(parts[1..], sep);
      assert Join(parts, sep) == parts[0] + [sep] + rest;
      if i > 0 {
        PieceInJoin(parts[1..], sep, i - 1);
        forall j | 0 <= j < |parts[i]|
          ensures parts[i][j] in Join(parts, sep)
        {
          var w := Join(parts, sep);
          assert parts[i][j] in rest;
          var m :| 0 <= m < |rest| && rest[m] == parts[i][j];
          assert w[|parts[0]| + 1 + m] == rest[m];
        }
      } else {
        forall j | 0 <= j < |parts[0]|
          ensures parts[0][j] in Join(parts, sep)
        {
          assert Join(parts, sep)[j] == parts[0][j];
        }
      }
    }
  }
}

=== FILE: sse_manager.dfy ===
/** The event-stream registry of the group room (src/routes/sse.ts,
    `SSEManager`): for each workshop group, the open streams with the
    participant and the time of the last successful send. The JavaScript
    `Map` is an association list in insertion order with unique keys, each
    group's `Set` a sequence in insertion order. A stream controller is an
    opaque number; whether a send on it throws is given by an oracle set of
    failing controllers, and the clock is the parameter `now`. */
module SseManager {
  import opened Wrappers
  import opened Tables
  import SessionMiddleware
  import Env

  type Controller = nat

  /** One tracked stream. */
  datatype Connection = Connection(controller: Controller, participantId: string, groupId: string, lastHeartbeat: int)

  /** One entry of the `activeConnections` map. */
  datatype Group = Group(id: string, conns: seq<Connection>)

  type Registry = seq<Group>

  // ---------------------------------------------------------------------
  // The map operations
  // ---------------------------------------------------------------------

  /** The group ids in insertion order. */
  function Ids(reg: Registry): (r: seq<string>)
    ensures |r| == |reg| && forall i :: 0 <= i < |reg| ==> r[i] == reg[i].id
  {
    seq(|reg|, i requires 0 <= i < |reg| => reg[i].id)
  }

  /** The key at position `i`. */
  function IdAt(reg: Registry, i: nat): string
    requires i < |reg|
  {
    reg[i].id
  }

  /** A map has each key once. */
  predicate UniqueIds(reg: Registry) {
    forall i, j :: 0 <= i < j < |reg| ==> IdAt(reg, i) != IdAt(reg, j)
  }

  /** `activeConnections.has(groupId)`. */
  predicate Has(reg: Registry, g: string) {
    exists i :: 0 <= i < |reg| && reg[i].id == g
  }

  /** The entries after the first of a map form a map without the first
      key. */
  lemma TailOfMap(reg: Registry)
    requires |reg| > 0
    ensures forall x :: Has(reg[1..], x) ==> Has(reg, x)
    ensures UniqueIds(reg) ==> UniqueIds(reg[1..]) && !Has(reg[1..], reg[0].id)
  {
    forall x | Has(reg[1..], x)
      ensures Has(reg, x)
    {
      var i :| 0 <= i < |reg[1..]| && reg[1..][i].id == x;
      assert reg[i + 1].id == x;
    }
    if UniqueIds(reg) {
      forall i | 0 <= i < |reg[1..]|
        ensures reg[1..][i].id != reg[0].id
      {
        assert reg[1..][i] == reg[i + 1];
        assert IdAt(reg, 0) != IdAt(reg, i + 1);
      }
      forall a, b | 0 <= a < b < |reg[1..]|
        ensures IdAt(reg[1..], a) != IdAt(reg[1..], b)
      {
        assert reg[1..][a] == reg[a + 1] && reg[1..][b] == reg[b + 1];
        assert IdAt(reg, a + 1) != IdAt(reg, b + 1);
      }
    }
  }

  /** `activeConnections.get(groupId)`. */
  function Lookup(reg: Registry, g: string): (r: Option<seq<Connection>>)
    ensures r.None? <==> !Has(reg, g)
  {
    if |reg| == 0 then None
    else if reg[0].id == g then Some(reg[0].conns)
    else
      TailOfMap(reg);
      assert Has(reg, g) ==> Has(reg[1..], g) by {
        if Has(reg, g) {
          var i :| 0 <= i < |reg| && reg[i].id == g;
          assert reg[1..][i - 1].id == g;
        }
      }
      Lookup(reg[1..], g)
  }

  /** `activeConnections.set(groupId, conns)`: replaces the entry in place
      or appends a new one. */
  function Put(reg: Registry, g: string, cs: seq<Connection>): (r: Registry)
    ensures Lookup(r, g) == Some(cs)
    ensures forall h :: h != g ==> Lookup(r, h) == Lookup(reg, h)
    ensures forall i :: 0 <= i < |r| ==> r[i].id == g || Has(reg, r[i].id)
    ensures UniqueIds(reg) ==> UniqueIds(r)
  {
    if |reg| == 0 then [Group(g, cs)]
    else if reg[0].id == g then
      var r := [Group(g, cs)] + reg[1..];
      assert r[1..] == reg[1..];
      assert forall i :: 1 <= i < |r| ==> r[i] == reg[i];
      assert UniqueIds(reg) ==> UniqueIds(r) by {
        if UniqueIds(reg) {
          forall a, b | 0 <= a < b < |r|
            ensures IdAt(r, a) != IdAt(r, b)
          {
            assert IdAt(r, a) == IdAt(reg, a) && IdAt(r, b) == IdAt(reg, b);
          }
        }
      }
      r
    else
      var rest := Put(reg[1..], g, cs);
      var r := [reg[0]] + rest;
      assert r[1..] == rest;
      assert forall i :: 1 <= i < |r| ==> r[i] == rest[i - 1];
      TailOfMap(reg);
      assert UniqueIds(reg) ==> UniqueIds(r) by {
        if UniqueIds(reg) {
          forall a, b | 0 <= a < b < |r|
            ensures IdAt(r, a) != IdAt(r, b)
          {
            if a == 0 {
              assert rest[b - 1].id == g || Has(reg[1..], rest[b - 1].id);
            } else {
              assert IdAt(rest, a - 1) != IdAt(rest, b - 1);
            }
          }
        }
      }
      r
  }

  /** `activeConnections.delete(groupId)`. */
  function Drop(reg: Registry, g: string): (r: Registry)
    requires UniqueIds(reg)
    ensures Lookup(r, g).None?
    ensures forall h :: h != g ==> Lookup(r, h) == Lookup(reg, h)
    ensures forall i :: 0 <= i < |r| ==> Has(reg, r[i].id)
    ensures UniqueIds(r)
  {
    if |reg| == 0 then []
    else if (TailOfMap(reg); reg[0].id == g) then
      assert forall i :: 0 <= i < |reg[1..]| ==> reg[1..][i] == reg[i + 1];
      reg[1..]
    else
      var rest := Drop(reg[1..], g);
      var r := [reg[0]] + rest;
      assert r[1..] == rest;
      assert forall i :: 1 <= i < |r| ==> r[i] == rest[i - 1];
      assert UniqueIds(r) by {
        forall a, b | 0 <= a < b < |r|
          ensures IdAt(r, a) != IdAt(r, b)
        {
          if a == 0 {
            assert Has(reg[1..], rest[b - 1].id);
          } else {
            assert IdAt(rest, a - 1) != IdAt(rest, b - 1);
          }
        }
      }
      r
  }

  // ---------------------------------------------------------------------
  // addConnection and removeConnection
  // ---------------------------------------------------------------------

  /** `addConnection(workshopGroupId, participantId, controller)`: the
      group's set is created on demand and gains one connection, last
      heard from `now`. */
  function AddConnection(reg: Registry, g: string, participantId: string, c: Controller, now: int): (r: Registry)
    ensures Lookup(r, g) == Some((if Lookup(reg, g).Some? then Lookup(reg, g).value else []) + [Connection(c, participantId, g, now)])
    ensures forall h :: h != g ==> Lookup(r, h) == Lookup(reg, h)
    ensures UniqueIds(reg) ==> UniqueIds(r)
  {
    var existing := if Lookup(reg, g).Some? then Lookup(reg, g).value else [];
    Put(reg, g, existing + [Connection(c, participantId, g, now)])
  }

  /** Removes the first connection with the controller (`break` after the
      first match). */
  function RemoveFirst(cs: seq<Connection>, c: Controller): (r: seq<Connection>)
    ensures |r| >= |cs| - 1
  {
    if |cs| == 0 then []
    else if cs[0].controller == c then cs[1..]
    else [cs[0]] + RemoveFirst(cs[1..], c)
  }

  /** No connection in `cs` has the controller. */
  predicate NoneWith(cs: seq<Connection>, c: Controller) {
    forall i :: 0 <= i < |cs| ==> cs[i].controller != c
  }

  /** The index of the first connection with the controller, or -1. */
  function FirstWith(cs: seq<Connection>, c: Controller): (k: int)
    ensures -1 <= k < |cs|
    ensures k == -1 <==> NoneWith(cs, c)
    ensures k >= 0 ==> cs[k].controller == c && NoneWith(cs[..k], c)
  {
    if |cs| == 0 then -1
    else if cs[0].controller == c then 0
    else
      var k := FirstWith(cs[1..], c);
      assert forall i :: 1 <= i < |cs| ==> cs[i] == cs[1..][i - 1];
      if k == -1 then -1
      else
        assert cs[..k + 1] == [cs[0]] + cs[1..][..k];
        k + 1
  }

  /** At most one connection leaves: the first with the controller, if
      any. */
  lemma RemoveFirstRemovesOne(cs: seq<Connection>, c: Controller)
    ensures var k := FirstWith(cs, c);
      RemoveFirst(cs, c) == if k == -1 then cs else cs[..k] + cs[k + 1..]
  {
    if FirstWith(cs, c) == -1 {
      RemoveFirstAbsent(cs, c);
    } else {
      RemoveFirstPresent(cs, c);
    }
  }

  lemma {:induction false} RemoveFirstAbsent(cs: seq<Connection>, c: Controller)
    requires NoneWith(cs, c)
    ensures RemoveFirst(cs, c) == cs
  {
    if |cs| > 0 {
      assert cs[0].controller != c;
      assert NoneWith(cs[1..], c) by {
        assert forall i :: 0 <= i < |cs| - 1 ==> cs[1..][i] == cs[i + 1];
      }
      RemoveFirstAbsent(cs[1..], c);
      assert [cs[0]] + cs[1..] == cs;
    }
  }

  lemma {:induction false} RemoveFirstPresent(cs: seq<Connection>, c: Controller)
    requires FirstWith(cs, c) >= 0
    ensures var k := FirstWith(cs, c);
      RemoveFirst(cs, c) == cs[..k] + cs[k + 1..]
  {
    if cs[0].controller == c {
      assert cs[..0] + cs[1..] == cs[1..];
    } else {
      var t := cs[1..];
      var k := FirstWith(t, c);
      FirstWithStep(cs, c);
      RemoveFirstPresent(t, c);
      RemoveFirstStep(cs, c);
      assert [cs[0]] + t == cs;
      ConsWithout(cs[0], t, k);
    }
  }

  /** Past a first connection with another controller, the first match is
      one further on. */
  lemma FirstWithStep(cs: seq<Connection>, c: Controller)
    requires FirstWith(cs, c) >= 0 && cs[0].controller != c
    ensures FirstWith(cs[1..], c) >= 0 && FirstWith(cs, c) == FirstWith(cs[1..], c) + 1
  {
  }

  /** A first connection with another controller is kept in front. */
  lemma RemoveFirstStep(cs: seq<Connection>, c: Controller)
    requires |cs| > 0 && cs[0].controller != c
    ensures RemoveFirst(cs, c) == [cs[0]] + RemoveFirst(cs[1..], c)
  {
  }

  /** Removing the element at `k` commutes with putting `x` in front. */
  lemma ConsWithout<T>(x: T, t: seq<T>, k: nat)
    requires k < |t|
    ensures [x] + (t[..k] + t[k + 1..]) == ([x] + t)[..k + 1] + ([x] + t)[k + 2..]
  {
    assert ([x] + t)[..k + 1] == [x] + t[..k];
    assert ([x] + t)[k + 2..] == t[k + 1..];
  }

  /** Whether the group is left with the connections `cs` or, once empty,
      deleted. */
  function Settled(cs: seq<Connection>): Option<seq<Connection>> {
    if |cs| == 0 then None else Some(cs)
  }

  /** A registry entry for the group's connections, or none once the set
      is empty. */
  function Place(reg: Registry, g: string, cs: seq<Connection>): (r: Registry)
    requires UniqueIds(reg)
    ensures Lookup(r, g) == Settled(cs)
    ensures forall h :: h != g ==> Lookup(r, h) == Lookup(reg, h)
    ensures UniqueIds(r)
  {
    if |cs| == 0 then Drop(reg, g) else Put(reg, g, cs)
  }

  /** `removeConnection(workshopGroupId, controller)`: nothing for an
      unknown group; otherwise the first connection with the controller
      leaves, and a group left empty is deleted. */
  function RemoveConnection(reg: Registry, g: string, c: Controller): (r: Registry)
    requires UniqueIds(reg)
    ensures Lookup(reg, g).None? ==> r == reg
    ensures Lookup(reg, g).Some? ==> Lookup(r, g) == Settled(RemoveFirst(Lookup(reg, g).value, c))
    ensures forall h :: h != g ==> Lookup(r, h) == Lookup(reg, h)
    ensures UniqueIds(r)
  {
    match Lookup(reg, g)
    case None => reg
    case Some(cs) => Place(reg, g, RemoveFirst(cs, c))
  }

  /** No group entry is ever empty. */
  predicate NonEmptyGroups(reg: Registry) {
    forall i :: 0 <= i < |reg| ==> |reg[i].conns| > 0
  }

  /** Looking a group up finds a non-empty set in a registry without empty
      entries. */
  lemma {:induction false} LookupNonEmpty(reg: Registry, g: string)
    requires NonEmptyGroups(reg) && Lookup(reg, g).Some?
    ensures |Lookup(reg, g).value| > 0
  {
    if reg[0].id != g {
      assert NonEmptyGroups(reg[1..]) by {
        forall i | 0 <= i < |reg[1..]|
          ensures |reg[1..][i].conns| > 0
        {
          assert reg[1..][i] == reg[i + 1];
        }
      }
      LookupNonEmpty(reg[1..], g);
    }
  }

  /** Adding and removing connections never leaves an empty group entry
      behind. */
  lemma MaintainsNonEmptyGroups(reg: Registry, g: string, participantId: string, c: Controller, now: int)
    requires UniqueIds(reg) && NonEmptyGroups(reg)
    ensures NonEmptyGroups(AddConnection(reg, g, participantId, c, now))
    ensures NonEmptyGroups(RemoveConnection(reg, g, c))
  {
    forall r, h | (r == AddConnection(reg, g, participantId, c, now) || r == RemoveConnection(reg, g, c)) && Lookup(r, h).Some?
      ensures |Lookup(r, h).value| > 0
    {
      if h != g {
        LookupNonEmpty(reg, h);
      }
    }
    EntriesAreLookups(AddConnection(reg, g, participantId, c, now));
    EntriesAreLookups(RemoveConnection(reg, g, c));
  }

  /** In a map, every entry is what looking up its key finds. */
  lemma EntriesAreLookups(reg: Registry)
    requires UniqueIds(reg)
    ensures forall i :: 0 <= i < |reg| ==> Lookup(reg, reg[i].id) == Some(reg[i].conns)
  {
    forall i | 0 <= i < |reg|
      ensures Lookup(reg, reg[i].id) == Some(reg[i].conns)
    {
      LookupAt(reg, i);
    }
  }

  lemma {:induction false} LookupAt(reg: Registry, i: nat)
    requires UniqueIds(reg) && i < |reg|
    ensures Lookup(reg, reg[i].id) == Some(reg[i].conns)
  {
    if i > 0 {
      assert reg[1..][i - 1] == reg[i];
      TailOfMap(reg);
      assert IdAt(reg, 0) != IdAt(reg, i);
      LookupAt(reg[1..], i - 1);
    }
  }

  // ---------------------------------------------------------------------
  // Removing a list of controllers
  // ---------------------------------------------------------------------

  /** The controllers of the connections, in order. */
  function Controllers(cs: seq<Connection>): (r: seq<Controller>)
    ensures |r| == |cs| && forall i :: 0 <= i < |cs| ==> r[i] == cs[i].controller
  {
    if |cs| == 0 then [] else [cs[0].controller] + Controllers(cs[1..])
  }

  /** `removeConnection` on the set alone, once per listed controller. */
  function RemoveEach(cs: seq<Connection>, deads: seq<Controller>): (r: seq<Connection>)
    decreases |deads|
  {
    if |deads| == 0 then cs else RemoveEach(RemoveFirst(cs, deads[0]), deads[1..])
  }

  /** The loop `for (c of dead) removeConnection(workshopGroupId, c)`. */
  function RemoveAll(reg: Registry, g: string, deads: seq<Controller>): (r: Registry)
    requires UniqueIds(reg)
    ensures UniqueIds(r)
    decreases |deads|
  {
    if |deads| == 0 then reg else RemoveAll(RemoveConnection(reg, g, deads[0]), g, deads[1..])
  }

  /** Removing listed controllers one by one from the registry is removing
      them from the group's set, deleting the group once it is empty; no
      other group is touched. */
  lemma {:induction false} RemoveAllSettles(reg: Registry, g: string, deads: seq<Controller>)
    requires UniqueIds(reg) && Lookup(reg, g).Some? && |deads| > 0
    ensures Lookup(RemoveAll(reg, g, deads), g) == Settled(RemoveEach(Lookup(reg, g).value, deads))
    ensures forall h :: h != g ==> Lookup(RemoveAll(reg, g, deads), h) == Lookup(reg, h)
    decreases |deads|
  {
    var cs := Lookup(reg, g).value;
    var reg1 := RemoveConnection(reg, g, deads[0]);
    var cs1 := RemoveFirst(cs, deads[0]);
    assert Lookup(reg1, g) == Settled(cs1);
    assert RemoveAll(reg, g, deads) == RemoveAll(reg1, g, deads[1..]);
    assert RemoveEach(cs, deads) == RemoveEach(cs1, deads[1..]);
    if |deads| == 1 {
    } else if |cs1| == 0 {
      RemoveAllOfAbsent(reg1, g, deads[1..]);
      RemoveEachOfEmpty(deads[1..]);
    } else {
      RemoveAllSettles(reg1, g, deads[1..]);
    }
  }

  /** Removing from an absent group changes nothing. */
  lemma {:induction false} RemoveAllOfAbsent(reg: Registry, g: string, deads: seq<Controller>)
    requires UniqueIds(reg) && Lookup(reg, g).None?
    ensures RemoveAll(reg, g, deads) == reg
    decreases |deads|
  {
    if |deads| > 0 {
      RemoveAllOfAbsent(reg, g, deads[1..]);
    }
  }

  lemma {:induction false} RemoveEachOfEmpty(deads: seq<Controller>)
    ensures RemoveEach([], deads) == []
    decreases |deads|
  {
    if |deads| > 0 {
      RemoveEachOfEmpty(deads[1..]);
    }
  }

  /** Whether `p` gives the same answer for connections that share a
      controller: true of "its send fails", which depends on the controller
      alone, and of anything when the controllers are distinct. */
  predicate DeterminedByController(cs: seq<Connection>, p: Connection -> bool) {
    forall i, j :: 0 <= i < |cs| && 0 <= j < |cs| && cs[i].controller == cs[j].controller ==> p(cs[i]) == p(cs[j])
  }

  /** Collecting the controllers of the connections satisfying `p` and then
      removing them one by one leaves exactly the other connections. */
  lemma {:induction false} RemoveCollected(cs: seq<Connection>, p: Connection -> bool, q: Connection -> bool)
    requires forall x :: q(x) == !p(x)
    requires DeterminedByController(cs, p)
    ensures RemoveEach(cs, Controllers(Filter(cs, p))) == Filter(cs, q)
  {
    if |cs| > 0 {
      var tail := cs[1..];
      assert DeterminedByController(tail, p) by {
        forall i, j | 0 <= i < |tail| && 0 <= j < |tail| && tail[i].controller == tail[j].controller
          ensures p(tail[i]) == p(tail[j])
        {
          assert tail[i] == cs[i + 1] && tail[j] == cs[j + 1];
        }
      }
      RemoveCollected(tail, p, q);
      var deads := Controllers(Filter(tail, p));
      if p(cs[0]) {
        assert Filter(cs, p) == [cs[0]] + Filter(tail, p);
        assert Controllers(Filter(cs, p)) == [cs[0].controller] + deads;
        assert RemoveFirst(cs, cs[0].controller) == tail;
      } else {
        assert Filter(cs, p) == Filter(tail, p);
        assert cs[0].controller !in deads by {
          forall k | 0 <= k < |deads|
            ensures deads[k] != cs[0].controller
          {
            var x := Filter(tail, p)[k];
            assert x in Filter(tail, p);
            assert x in tail && p(x);
            var j :| 0 <= j < |tail| && tail[j] == x;
            assert cs[j + 1] == x;
          }
        }
        RemoveEachSkips(cs[0], tail, deads);
        assert cs == [cs[0]] + tail;
      }
    }
  }

  /** A connection whose controller is not listed stays in front. */
  lemma {:induction false} RemoveEachSkips(x: Connection, t: seq<Connection>, deads: seq<Controller>)
    requires x.controller !in deads
    ensures RemoveEach([x] + t, deads) == [x] + RemoveEach(t, deads)
    decreases |deads|
  {
    if |deads| > 0 {
      assert ([x] + t)[1..] == t;
      assert RemoveFirst([x] + t, deads[0]) == [x] + RemoveFirst(t, deads[0]);
      RemoveEachSkips(x, RemoveFirst(t, deads[0]), deads[1..]);
    }
  }

  /** Keeping every connection keeps the sequence. */
  lemma {:induction false} FilterAll(cs: seq<Connection>, q: Connection -> bool)
    requires forall i :: 0 <= i < |cs| ==> q(cs[i])
    ensures Filter(cs, q) == cs
  {
    if |cs| > 0 {
      assert forall i :: 0 <= i < |cs[1..]| ==> q(cs[1..][i]) by {
        forall i | 0 <= i < |cs[1..]|
          ensures q(cs[1..][i])
        {
          assert cs[1..][i] == cs[i + 1];
        }
      }
      FilterAll(cs[1..], q);
      assert cs == [cs[0]] + cs[1..];
    }
  }

  // ---------------------------------------------------------------------
  // broadcastToGroup
  // ---------------------------------------------------------------------

  /** The send loop: a connection whose send succeeds is last heard from
      `now`; a failing one is left as it was. */
  function Refresh(cs: seq<Connection>, failing: set<Controller>, now: int): (r: seq<Connection>)
    ensures |r| == |cs|
    ensures forall i :: 0 <= i < |cs| ==>
      r[i] == if cs[i].controller in failing then cs[i] else cs[i].(lastHeartbeat := now)
  {
    if |cs| == 0 then []
    else
      var x := if cs[0].controller in failing then cs[0] else cs[0].(lastHeartbeat := now);
      [x] + Refresh(cs[1..], failing, now)
  }

  /** The result of a broadcast: the registry and the one payload every
      connection of the group was sent, if the group exists. */
  datatype Broadcast = Broadcast(reg: Registry, payload: Option<string>, attempted: seq<Controller>)

  /** A connection whose send fails. */
  function SendFails(failing: set<Controller>): (p: Connection -> bool)
    ensures forall x :: p(x) <==> x.controller in failing
  {
    (x: Connection) => x.controller in failing
  }

  function SendSucceeds(failing: set<Controller>): (p: Connection -> bool)
    ensures forall x :: p(x) <==> x.controller !in failing
  {
    (x: Connection) => x.controller !in failing
  }

  /** The frame `data: <event JSON>\n\n`; the JSON text is a parameter. */
  function Frame(eventJson: string): string {
    "data: " + eventJson + "\n\n"
  }

  /** `broadcastToGroup(workshopGroupId, event)`: nothing for an unknown
      group; otherwise the event is framed once and sent to every
      connection in turn, and the connections whose send failed are then
      removed one by one. */
  function BroadcastToGroup(reg: Registry, g: string, eventJson: string, failing: set<Controller>, now: int): (r: Broadcast)
    requires UniqueIds(reg)
    ensures Lookup(reg, g).None? ==> r == Broadcast(reg, None, [])
    ensures Lookup(reg, g).Some? ==> r.payload == Some(Frame(eventJson)) && r.attempted == Controllers(Lookup(reg, g).value)
    ensures UniqueIds(r.reg)
  {
    match Lookup(reg, g)
    case None => Broadcast(reg, None, [])
    case Some(cs) =>
      var sent := Refresh(cs, failing, now);
      var deads := Controllers(Filter(sent, SendFails(failing)));
      Broadcast(RemoveAll(Put(reg, g, sent), g, deads), Some(Frame(eventJson)), Controllers(cs))
  }

  /** After a broadcast, the group holds exactly its connections whose send
      succeeded, each last heard from `now`, and is deleted when none did;
      nothing else changes. */
  lemma BroadcastKeepsWorking(reg: Registry, g: string, eventJson: string, failing: set<Controller>, now: int)
    requires UniqueIds(reg) && NonEmptyGroups(reg) && Lookup(reg, g).Some?
    ensures var cs := Lookup(reg, g).value;
      var r := BroadcastToGroup(reg, g, eventJson, failing, now).reg;
      && Lookup(r, g) == Settled(Filter(Refresh(cs, failing, now), SendSucceeds(failing)))
      && forall h :: h != g ==> Lookup(r, h) == Lookup(reg, h)
  {
    var cs := Lookup(reg, g).value;
    LookupNonEmpty(reg, g);
    var sent := Refresh(cs, failing, now);
    var isDead := SendFails(failing);
    var isLive := SendSucceeds(failing);
    var deads := Controllers(Filter(sent, isDead));
    var reg1 := Put(reg, g, sent);
    RemoveCollected(sent, isDead, isLive);
    if |deads| == 0 {
      assert Filter(sent, isDead) == [];
      forall i | 0 <= i < |sent|
        ensures isLive(sent[i])
      {
        assert sent[i] in sent;
        assert sent[i] !in Filter(sent, isDead);
      }
      FilterAll(sent, isLive);
    } else {
      RemoveAllSettles(reg1, g, deads);
    }
  }

  /** A connection whose send fails is gone after the broadcast, and one
      whose send succeeds is still there. */
  lemma BroadcastRemovesExactlyFailed(reg: Registry, g: string, eventJson: string, failing: set<Controller>, now: int, k: nat)
    requires UniqueIds(reg) && NonEmptyGroups(reg) && Lookup(reg, g).Some?
    requires k < |Lookup(reg, g).value|
    ensures var x := Lookup(reg, g).value[k];
      var after := Lookup(BroadcastToGroup(reg, g, eventJson, failing, now).reg, g);
      && (x.controller in failing ==> after.None? || forall y :: y in after.value ==> y.controller != x.controller)
      && (x.controller !in failing ==> after.Some? && x.(lastHeartbeat := now) in after.value)
  {
    var cs := Lookup(reg, g).value;
    var after := Lookup(BroadcastToGroup(reg, g, eventJson, failing, now).reg, g);
    BroadcastKeepsWorking(reg, g, eventJson, failing, now);
    assert after == Settled(Filter(Refresh(cs, failing, now), SendSucceeds(failing)));
    SurvivorsOfSend(cs, failing, now, k);
  }

  /** Of one group's connections, the `k`-th survives the send loop,
      refreshed, exactly when its send succeeds. */
  lemma SurvivorsOfSend(cs: seq<Connection>, failing: set<Controller>, now: int, k: nat)
    requires k < |cs|
    ensures var after := Settled(Filter(Refresh(cs, failing, now), SendSucceeds(failing)));
      && (cs[k].controller in failing ==> after.None? || forall y :: y in after.value ==> y.controller != cs[k].controller)
      && (cs[k].controller !in failing ==> after.Some? && cs[k].(lastHeartbeat := now) in after.value)
  {
    var sent := Refresh(cs, failing, now);
    var kept := Filter(sent, SendSucceeds(failing));
    if cs[k].controller !in failing {
      assert sent[k] == cs[k].(lastHeartbeat := now);
      assert sent[k] in sent;
      assert sent[k] in kept;
    }
  }

  // ---------------------------------------------------------------------
  // sendHeartbeat and cleanupStaleConnections
  // ---------------------------------------------------------------------

  /** Every connection of the registry, group by group in map order. */
  function AllConnections(reg: Registry): (r: seq<Connection>)
    ensures forall i, x :: 0 <= i < |reg| && x in reg[i].conns ==> x in r
  {
    if |reg| == 0 then []
    else
      assert forall i :: 1 <= i < |reg| ==> reg[i] == reg[1..][i - 1];
      reg[0].conns + AllConnections(reg[1..])
  }

  /** `sendHeartbeat()`: a send to every connection of every group, in map
      order; a failed send is ignored and nothing is refreshed or removed,
      so the registry comes back unchanged. */
  function SendHeartbeat(reg: Registry, failing: set<Controller>): (r: (Registry, seq<(string, Controller)>))
    ensures r.0 == reg
    ensures |r.1| == |AllConnections(reg)|
    ensures forall i :: 0 <= i < |r.1| ==> r.1[i].1 == AllConnections(reg)[i].controller
  {
    (reg, HeartbeatSends(reg))
  }

  /** The (group, controller) pairs the heartbeat writes to. */
  function HeartbeatSends(reg: Registry): (r: seq<(string, Controller)>)
    ensures |r| == |AllConnections(reg)|
    ensures forall i :: 0 <= i < |r| ==> r[i].1 == AllConnections(reg)[i].controller
  {
    if |reg| == 0 then []
    else
      var here := seq(|reg[0].conns|, i requires 0 <= i < |reg[0].conns| => (reg[0].id, reg[0].conns[i].controller));
      here + HeartbeatSends(reg[1..])
  }

  /** A stale connection: last heard from before the threshold. */
  function IsStale(threshold: int): (p: Connection -> bool)
    ensures forall x :: p(x) <==> x.lastHeartbeat < threshold
  {
    (x: Connection) => x.lastHeartbeat < threshold
  }

  function IsFresh(threshold: int): (p: Connection -> bool)
    ensures forall x :: p(x) <==> x.lastHeartbeat >= threshold
  {
    (x: Connection) => x.lastHeartbeat >= threshold
  }

  /** The sweep of the groups listed in `ids`, in order: each group's stale
      controllers are collected, then removed one by one. */
  function CleanupGroups(reg: Registry, ids: seq<string>, threshold: int): (r: Registry)
    requires UniqueIds(reg)
    ensures UniqueIds(r)
    decreases |ids|
  {
    if |ids| == 0 then reg
    else CleanupGroups(SweepGroup(reg, ids[0], threshold), ids[1..], threshold)
  }

  /** `cleanupStaleConnections()`: the sweep of every group with the
      threshold `now - timeout`. */
  function CleanupStaleConnections(reg: Registry, now: int, timeout: int): (r: Registry)
    requires UniqueIds(reg)
    ensures UniqueIds(r)
  {
    CleanupGroups(reg, Ids(reg), now - timeout)
  }

  /** Within a group, each controller belongs to one connection. */
  predicate DistinctControllers(cs: seq<Connection>) {
    forall i, j :: 0 <= i < j < |cs| ==> cs[i].controller != cs[j].controller
  }

  predicate Distinct(ids: seq<string>) {
    forall i, j :: 0 <= i < j < |ids| ==> ids[i] != ids[j]
  }

  /** What the sweep leaves of one group's connections. */
  function Swept(cs: seq<Connection>, threshold: int): Option<seq<Connection>> {
    Settled(Filter(cs, IsFresh(threshold)))
  }

  /** The sweep of one group: its stale controllers collected, then
      removed one by one. */
  function SweepGroup(reg: Registry, g: string, threshold: int): (r: Registry)
    requires UniqueIds(reg)
    ensures UniqueIds(r)
  {
    match Lookup(reg, g)
    case None => reg
    case Some(cs) => RemoveAll(reg, g, Controllers(Filter(cs, IsStale(threshold))))
  }

  /** Sweeping one group leaves it with exactly its fresh connections
      (deleted if none) and the other groups alone. */
  lemma SweepGroupKeepsFresh(reg: Registry, g: string, threshold: int)
    requires UniqueIds(reg) && Lookup(reg, g).Some? && |Lookup(reg, g).value| > 0
    requires DistinctControllers(Lookup(reg, g).value)
    ensures Lookup(SweepGroup(reg, g, threshold), g) == Swept(Lookup(reg, g).value, threshold)
    ensures forall h :: h != g ==> Lookup(SweepGroup(reg, g, threshold), h) == Lookup(reg, h)
  {
    var cs := Lookup(reg, g).value;
    var deads := Controllers(Filter(cs, IsStale(threshold)));
    RemoveCollected(cs, IsStale(threshold), IsFresh(threshold));
    if |deads| == 0 {
      assert Filter(cs, IsStale(threshold)) == [];
      forall i | 0 <= i < |cs|
        ensures IsFresh(threshold)(cs[i])
      {
        assert cs[i] in cs;
        assert cs[i] !in Filter(cs, IsStale(threshold));
      }
      FilterAll(cs, IsFresh(threshold));
    } else {
      RemoveAllSettles(reg, g, deads);
    }
  }

  /** The listed groups are distinct, present, non-empty, and have
      distinct controllers: what sweeping them one by one needs. Stated
      group by group, in the order the sweep takes them. */
  predicate Sweepable(reg: Registry, ids: seq<string>)
    decreases |ids|
  {
    || |ids| == 0
    || (&& ids[0] !in ids[1..]
        && Lookup(reg, ids[0]).Some?
        && |Lookup(reg, ids[0]).value| > 0
        && DistinctControllers(Lookup(reg, ids[0]).value)
        && Sweepable(reg, ids[1..]))
  }

  /** Whether groups are sweepable depends only on what looking them up
      finds. */
  lemma {:induction false} SweepableFrame(a: Registry, b: Registry, ids: seq<string>)
    requires Sweepable(a, ids)
    requires forall x :: x in ids ==> Lookup(b, x) == Lookup(a, x)
    ensures Sweepable(b, ids)
    decreases |ids|
  {
    if |ids| > 0 {
      assert forall x :: x in ids[1..] ==> x in ids;
      SweepableFrame(a, b, ids[1..]);
      assert Lookup(b, ids[0]) == Lookup(a, ids[0]);
    }
  }

  /** The sweep of the listed groups leaves each of them with exactly its
      fresh connections (deleted if none), and the other groups alone. */
  lemma {:induction false} CleanupGroupsSweeps(reg: Registry, ids: seq<string>, threshold: int, h: string)
    requires UniqueIds(reg) && Sweepable(reg, ids)
    ensures h in ids ==>
      Lookup(reg, h).Some? && Lookup(CleanupGroups(reg, ids, threshold), h) == Swept(Lookup(reg, h).value, threshold)
    ensures h !in ids ==> Lookup(CleanupGroups(reg, ids, threshold), h) == Lookup(reg, h)
    decreases |ids|
  {
    if |ids| > 0 {
      var g := ids[0];
      var reg1 := SweepGroup(reg, g, threshold);
      assert CleanupGroups(reg, ids, threshold) == CleanupGroups(reg1, ids[1..], threshold);
      SweepFirst(reg, ids, threshold);
      CleanupGroupsSweeps(reg1, ids[1..], threshold, h);
      assert h in ids <==> h == g || h in ids[1..] by {
        assert ids == [g] + ids[1..];
      }
    }
  }

  /** Sweeping the first listed group leaves the rest sweepable. */
  lemma SweepFirst(reg: Registry, ids: seq<string>, threshold: int)
    requires UniqueIds(reg) && |ids| > 0 && Sweepable(reg, ids)
    ensures Lookup(SweepGroup(reg, ids[0], threshold), ids[0]) == Swept(Lookup(reg, ids[0]).value, threshold)
    ensures forall h :: h != ids[0] ==> Lookup(SweepGroup(reg, ids[0], threshold), h) == Lookup(reg, h)
    ensures Sweepable(SweepGroup(reg, ids[0], threshold), ids[1..])
  {
    SweepGroupKeepsFresh(reg, ids[0], threshold);
    assert forall x :: x in ids[1..] ==> x != ids[0];
    SweepableFrame(reg, SweepGroup(reg, ids[0], threshold), ids[1..]);
  }

  /** The keys of a map are exactly the groups that looking up finds. */
  lemma {:induction false} IdsAreKeys(reg: Registry, h: string)
    ensures h in Ids(reg) <==> Lookup(reg, h).Some?
  {
    if Lookup(reg, h).Some? {
      var i :| 0 <= i < |reg| && reg[i].id == h;
      assert Ids(reg)[i] == h;
    }
  }

  /** Every key of a registry without empty entries and with distinct
      controllers per group meets what the sweep lemma asks. */
  lemma {:induction false} KeysAreSweepable(reg: Registry)
    requires UniqueIds(reg) && NonEmptyGroups(reg)
    requires forall i :: 0 <= i < |reg| ==> DistinctControllers(reg[i].conns)
    ensures Sweepable(reg, Ids(reg))
  {
    if |reg| > 0 {
      var tail := reg[1..];
      TailOfMap(reg);
      assert forall i :: 0 <= i < |tail| ==> tail[i] == reg[i + 1];
      KeysAreSweepable(tail);
      var ids := Ids(reg);
      assert ids[1..] == Ids(tail);
      forall x | x in Ids(tail)
        ensures Lookup(reg, x) == Lookup(tail, x)
      {
        IdsAreKeys(tail, x);
      }
      SweepableFrame(tail, reg, Ids(tail));
      IdsAreKeys(tail, reg[0].id);
    }
  }

  /** `cleanupStaleConnections` removes exactly the connections last heard
      from before `now - timeout`, deletes the groups left empty, and keeps
      every other connection as it was. */
  lemma CleanupRemovesExactlyStale(reg: Registry, now: int, timeout: int, h: string)
    requires UniqueIds(reg) && NonEmptyGroups(reg)
    requires forall i :: 0 <= i < |reg| ==> DistinctControllers(reg[i].conns)
    ensures Lookup(reg, h).None? ==> Lookup(CleanupStaleConnections(reg, now, timeout), h).None?
    ensures Lookup(reg, h).Some? ==>
      Lookup(CleanupStaleConnections(reg, now, timeout), h) == Swept(Lookup(reg, h).value, now - timeout)
  {
    KeysAreSweepable(reg);
    IdsAreKeys(reg, h);
    SweepAllKeys(reg, now, timeout, h);
  }

  /** The sweep of every key, read through `cleanupStaleConnections`. */
  lemma SweepAllKeys(reg: Registry, now: int, timeout: int, h: string)
    requires UniqueIds(reg) && Sweepable(reg, Ids(reg))
    ensures h in Ids(reg) ==>
      Lookup(reg, h).Some? && Lookup(CleanupStaleConnections(reg, now, timeout), h) == Swept(Lookup(reg, h).value, now - timeout)
    ensures h !in Ids(reg) ==> Lookup(CleanupStaleConnections(reg, now, timeout), h) == Lookup(reg, h)
  {
    var ids, t := Ids(reg), now - timeout;
    assert CleanupStaleConnections(reg, now, timeout) == CleanupGroups(reg, ids, t);
    CleanupGroupsSweeps(reg, ids, t, h);
  }

  /** The scheduled sweep runs with the `ONLINE_STATUS_TIMEOUT` default as
      its timeout. Only broadcasts refresh a connection's `lastHeartbeat`;
      heartbeats do not, so a connection last reached by a broadcast longer
      ago than the timeout is dropped, with every connection sharing its
      controller, however many heartbeats reached it since. */
  lemma HeartbeatsDoNotKeepAlive(reg: Registry, failing: set<Controller>, now: int, i: nat, x: Connection)
    requires UniqueIds(reg) && NonEmptyGroups(reg)
    requires forall i :: 0 <= i < |reg| ==> DistinctControllers(reg[i].conns)
    requires i < |reg| && x in reg[i].conns
    requires x.lastHeartbeat < now - Env.OnlineStatusTimeout
    ensures var after := CleanupStaleConnections(SendHeartbeat(reg, failing).0, now, Env.OnlineStatusTimeout);
      Lookup(after, reg[i].id).Some? ==> forall y :: y in Lookup(after, reg[i].id).value ==> y.controller != x.controller
  {
    var g, cs, t := reg[i].id, reg[i].conns, now - Env.OnlineStatusTimeout;
    LookupAt(reg, i);
    CleanupRemovesExactlyStale(reg, now, Env.OnlineStatusTimeout, g);
    var after := CleanupStaleConnections(reg, now, Env.OnlineStatusTimeout);
    assert Lookup(after, g) == Settled(Filter(cs, IsFresh(t)));
    forall y | y in Filter(cs, IsFresh(t))
      ensures y.controller != x.controller
    {
      assert y in cs && y.lastHeartbeat >= t;
      var a, b :| 0 <= a < |cs| && 0 <= b < |cs| && cs[a] == x && cs[b] == y;
      assert a != b;
    }
  }

  // ---------------------------------------------------------------------
  // getStats
  // ---------------------------------------------------------------------

  /** The number of connections over all groups. */
  function Size(reg: Registry): (n: nat)
    ensures n == |AllConnections(reg)|
  {
    if |reg| == 0 then 0 else |reg[0].conns| + Size(reg[1..])
  }

  lemma {:induction false} SizeSnoc(reg: Registry, i: nat)
    requires i < |reg|
    ensures Size(reg[..i + 1]) == Size(reg[..i]) + |reg[i].conns|
  {
    assert reg[..i + 1] == reg[..i] + [reg[i]];
    SizeAppend(reg[..i], reg[i]);
  }

  lemma {:induction false} SizeAppend(a: Registry, g: Group)
    ensures Size(a + [g]) == Size(a) + |g.conns|
  {
    if |a| == 0 {
      assert (a + [g])[1..] == [];
    } else {
      assert (a + [g])[1..] == a[1..] + [g];
      SizeAppend(a[1..], g);
    }
  }

  /** `getStats()`: the per-group counts and their total. */
  method GetStats(reg: Registry) returns (total: nat, counts: map<string, nat>)
    requires UniqueIds(reg)
    ensures total == |AllConnections(reg)|
    ensures forall g :: g in counts <==> Lookup(reg, g).Some?
    ensures forall g :: g in counts ==> counts[g] == |Lookup(reg, g).value|
  {
    total, counts := 0, map[];
    var i := 0;
    while i < |reg|
      invariant 0 <= i <= |reg|
      invariant total == Size(reg[..i])
      invariant forall g :: g in counts <==> exists k :: 0 <= k < i && reg[k].id == g
      invariant forall k :: 0 <= k < i ==> counts[reg[k].id] == |reg[k].conns|
    {
      SizeSnoc(reg, i);
      forall k | 0 <= k < i
        ensures reg[k].id != reg[i].id
      {
        assert IdAt(reg, k) != IdAt(reg, i);
      }
      total := total + |reg[i].conns|;
      counts := counts[reg[i].id := |reg[i].conns|];
      i := i + 1;
    }
    assert reg[..i] == reg;
    EntriesAreLookups(reg);
    forall g | g in counts
      ensures counts[g] == |Lookup(reg, g).value|
    {
      var k :| 0 <= k < |reg| && reg[k].id == g;
    }
  }

  /** The total of the statistics is the number of sends a heartbeat
      makes. */
  lemma StatsCountHeartbeatSends(reg: Registry, failing: set<Controller>)
    ensures Size(reg) == |SendHeartbeat(reg, failing).1|
  {
  }

  // ---------------------------------------------------------------------
  // The stream route
  // ---------------------------------------------------------------------

  datatype StreamAnswer = Denied(status: int, error: string) | Opened

  /** `GET /api/groups/:groupId/events`: 401 without an authenticated
      participant and group, 403 for another group than the session's;
      otherwise the stream's controller joins the group. */
  function OpenStream(reg: Registry, ctx: SessionMiddleware.Context, groupId: string, c: Controller, now: int): (r: (Registry, StreamAnswer))
    ensures !ctx.isAuthenticated || ctx.participant.None? || ctx.group.None? ==>
      r == (reg, Denied(401, "Authentication required"))
    ensures r.1.Opened? <==> ctx.isAuthenticated && ctx.participant.Some? && ctx.group.Some? && ctx.group.value.id == groupId
    ensures r.1.Denied? ==> r.0 == reg
    ensures r.1.Opened? ==> r.0 == AddConnection(reg, groupId, ctx.participant.value.id, c, now)
  {
    if !ctx.isAuthenticated || ctx.participant.None? || ctx.group.None? then (reg, Denied(401, "Authentication required"))
    else if ctx.group.value.id != groupId then (reg, Denied(403, "Access denied to this group"))
    else (AddConnection(reg, groupId, ctx.participant.value.id, c, now), Opened)
  }

  /** A request whose session belongs to another group is refused with 403
      and leaves the registry alone. */
  lemma OtherGroupForbidden(w: SessionMiddleware.World, cookieToken: Option<string>, now: int, timeout: int,
                            reg: Registry, groupId: string, c: Controller)
    requires var ctx := Derive(w, cookieToken, now, timeout);
      ctx.isAuthenticated && ctx.group.value.id != groupId
    ensures OpenStream(reg, Derive(w, cookieToken, now, timeout), groupId, c, now) == (reg, Denied(403, "Access denied to this group"))
  {
  }

  function Derive(w: SessionMiddleware.World, cookieToken: Option<string>, now: int, timeout: int): SessionMiddleware.Context {
    SessionMiddleware.Derive(w, cookieToken, now, timeout).1
  }

  /** `POST /api/admin/groups/:groupId/broadcast`: 400 without an event
      type, otherwise a broadcast to the group. */
  function AdminBroadcast(reg: Registry, groupId: string, eventType: Option<string>, eventJson: string,
                          failing: set<Controller>, now: int): (r: (Registry, Option<string>))
    requires UniqueIds(reg)
    ensures eventType.None? || eventType == Some("") ==> r == (reg, Some("Event type is required"))
    ensures eventType.Some? && eventType.value != "" ==> r == (BroadcastToGroup(reg, groupId, eventJson, failing, now).reg, None)
  {
    if eventType.None? || eventType == Some("") then (reg, Some("Event type is required"))
    else (BroadcastToGroup(reg, groupId, eventJson, failing, now).reg, None)
  }

  /** An admin broadcast with a type reaches the group like any broadcast:
      a connection stays, refreshed, exactly when its send succeeds, and
      other groups keep their connections. */
  lemma AdminBroadcastDelivers(reg: Registry, groupId: string, eventType: Option<string>, eventJson: string,
                               failing: set<Controller>, now: int, k: nat)
    requires UniqueIds(reg) && NonEmptyGroups(reg)
    requires eventType.Some? && eventType.value != ""
    requires Lookup(reg, groupId).Some? && k < |Lookup(reg, groupId).value|
    ensures var r := AdminBroadcast(reg, groupId, eventType, eventJson, failing, now);
      var x := Lookup(reg, groupId).value[k];
      var after := Lookup(r.0, groupId);
      && r.1.None?
      && (x.controller in failing ==> after.None? || forall y :: y in after.value ==> y.controller != x.controller)
      && (x.controller !in failing ==> after.Some? && x.(lastHeartbeat := now) in after.value)
      && forall h :: h != groupId ==> Lookup(r.0, h) == Lookup(reg, h)
  {
    BroadcastRemovesExactlyFailed(reg, groupId, eventJson, failing, now, k);
    BroadcastKeepsWorking(reg, groupId, eventJson, failing, now);
  }

  /** A broadcast to a group without connections still succeeds and
      changes nothing. */
  lemma AdminBroadcastToIdleGroup(reg: Registry, groupId: string, eventType: Option<string>, eventJson: string,
                                  failing: set<Controller>, now: int)
    requires UniqueIds(reg) && Lookup(reg, groupId).None?
    ensures var r := AdminBroadcast(reg, groupId, eventType, eventJson, failing, now);
      r.0 == reg && (r.1.None? <==> eventType.Some? && eventType.value != "")
  {
  }
}

=== FILE: sse_service.dfy ===
/** The second event fan-out (src/services/sse.service.ts, `SSEService`):
    a map from workshop group to the set of its open writable streams, and
    the text serialiser for the event-stream format of section 9.2.5 of the
    WHATWG HTML Living Standard ("Parsing an event stream"). A stream is an
    opaque number; whether taking a writer on it throws is given by an
    oracle set. The event's non-string data reaches the serialiser as its
    `JSON.stringify` text. */
module SseService {
  import opened Wrappers
  import Text

  // ---------------------------------------------------------------------
  // Events and their serialisation
  // ---------------------------------------------------------------------

  /** The `data` of an event: a string, or any other value given by its
      JSON text and its JavaScript truthiness. */
  datatype Data = Str(s: string) | Value(json: string, truthy: bool)

  /** `SSEEvent`: optional id, type and data. */
  datatype Event = Event(id: Option<string>, kind: Option<string>, data: Option<Data>)

  /** `if (event.data)`: an empty string and a falsy value carry no data. */
  predicate HasData(e: Event) {
    e.data.Some? &&
    match e.data.value
    case Str(s) => s != ""
    case Value(_, truthy) => truthy
  }

  /** The text sent for the data: the string itself or its JSON. */
  function DataString(d: Data): string {
    match d
    case Str(s) => s
    case Value(json, _) => json
  }

  /** One `data: ` line per segment, each ended by a line feed. */
  function DataLines(segs: seq<string>): string {
    if |segs| == 0 then "" else "data: " + segs[0] + "\n" + DataLines(segs[1..])
  }

  /** `formatSSEMessage(event)`: an `id:` line when the id is truthy, an
      `event:` line when the type is truthy, the data lines when there is
      data, then the empty line that ends the event. */
  function FormatMessage(e: Event): (r: string)
    ensures Text.StartsWith(r, "id: ") <==> Truthy(e.id)
    ensures Text.EndsWith(r, "\n")
  {
    var idPart := if Truthy(e.id) then "id: " + e.id.value + "\n" else "";
    var eventPart := if Truthy(e.kind) then "event: " + e.kind.value + "\n" else "";
    var dataPart := if HasData(e) then DataLines(Text.Split(DataString(e.data.value), '\n')) else "";
    var r := idPart + eventPart + dataPart + "\n";
    assert r[|r| - 1] == '\n';
    assert !Truthy(e.id) ==> r[0] != 'i' by {
      if !Truthy(e.id) {
        if eventPart != "" {
          assert r[0] == eventPart[0] == 'e';
        } else if dataPart != "" {
          assert r[0] == dataPart[0] == 'd';
        } else {
          assert r == "\n";
        }
      }
    }
    r
  }

  // ---------------------------------------------------------------------
  // The same message as a list of lines
  // ---------------------------------------------------------------------

  /** `data: ` followed by each segment. */
  function DataFieldLines(segs: seq<string>): (r: seq<string>)
    ensures |r| == |segs|
    ensures forall i :: 0 <= i < |segs| ==> r[i] == "data: " + segs[i]
  {
    if |segs| == 0 then [] else ["data: " + segs[0]] + DataFieldLines(segs[1..])
  }

  /** The field lines of an event, without their line ends: an independent
      description of what the serialiser writes. */
  function FieldLines(e: Event): seq<string> {
    IdLines(e) + EventLines(e) + DataFieldLines(Segments(e))
  }

  function IdLines(e: Event): seq<string> {
    if Truthy(e.id) then ["id: " + e.id.value] else []
  }

  function EventLines(e: Event): seq<string> {
    if Truthy(e.kind) then ["event: " + e.kind.value] else []
  }

  /** The line-feed-separated segments of the data, none without data. */
  function Segments(e: Event): seq<string> {
    if HasData(e) then Text.Split(DataString(e.data.value), '\n') else []
  }

  /** Lines written one after the other, each ended by a line feed. */
  function LinesText(ls: seq<string>): string {
    if |ls| == 0 then "" else ls[0] + "\n" + LinesText(ls[1..])
  }

  lemma {:induction false} LinesTextAppend(a: seq<string>, b: seq<string>)
    ensures LinesText(a + b) == LinesText(a) + LinesText(b)
  {
    if |a| > 0 {
      assert (a + b)[1..] == a[1..] + b;
      LinesTextAppend(a[1..], b);
    } else {
      assert a + b == b;
    }
  }

  lemma {:induction false} DataLinesAreLines(segs: seq<string>)
    ensures DataLines(segs) == LinesText(DataFieldLines(segs))
  {
    if |segs| > 0 {
      DataLinesAreLines(segs[1..]);
    }
  }

  /** Lines followed by one empty line are the join, with line feeds, of
      the lines, the empty line and the empty rest after the last line
      feed. */
  lemma {:induction false} LinesTextIsJoin(ls: seq<string>)
    ensures LinesText(ls) + "\n" == Text.Join(ls + ["", ""], '\n')
  {
    if |ls| == 0 {
      assert ls + ["", ""] == ["", ""];
    } else {
      LinesTextIsJoin(ls[1..]);
      assert (ls + ["", ""])[1..] == ls[1..] + ["", ""];
    }
  }

  /** The serialised message is its field lines, each ended by a line feed,
      and one more line feed. */
  lemma FormatIsLines(e: Event)
    ensures FormatMessage(e) == LinesText(FieldLines(e)) + "\n"
  {
    var a, b, c := IdLines(e), EventLines(e), DataFieldLines(Segments(e));
    DataLinesAreLines(Segments(e));
    LinesTextAppend(a, b);
    LinesTextAppend(a + b, c);
    OptionalLine("id: ", e.id);
    OptionalLine("event: ", e.kind);
  }

  /** An optional field line written as text. */
  lemma OptionalLine(prefix: string, v: Option<string>)
    ensures LinesText(if Truthy(v) then [prefix + v.value] else [])
      == if Truthy(v) then prefix + v.value + "\n" else ""
  {
    if Truthy(v) {
      assert [prefix + v.value][1..] == [];
    }
  }

  /** No line break inside the id and type, and no NUL in the id: what the
      reader below needs to get the fields back. */
  predicate Plain(e: Event) {
    (e.id.Some? ==> '\n' !in e.id.value && '\0' !in e.id.value)
    && (e.kind.Some? ==> '\n' !in e.kind.value)
  }

  /** Split at line feeds, the message is its field lines, one empty line
      ending the event and the empty rest after the final line feed; no
      field line is empty, so the event ends with exactly one blank line. */
  lemma MessageLines(e: Event)
    requires Plain(e)
    ensures Text.Split(FormatMessage(e), '\n') == FieldLines(e) + ["", ""]
    ensures forall i :: 0 <= i < |FieldLines(e)| ==> FieldLines(e)[i] != ""
  {
    FormatIsLines(e);
    LinesTextIsJoin(FieldLines(e));
    NoBreakInLines(e);
    Text.SplitJoin(FieldLines(e) + ["", ""], '\n');
  }

  lemma NoBreakInLines(e: Event)
    requires Plain(e)
    ensures var ls := FieldLines(e) + ["", ""];
      forall i :: 0 <= i < |ls| ==> '\n' !in ls[i]
    ensures forall i :: 0 <= i < |FieldLines(e)| ==> FieldLines(e)[i] != ""
  {
    var ls := FieldLines(e) + ["", ""];
    forall i | 0 <= i < |ls|
      ensures '\n' !in ls[i]
    {
      if i < |FieldLines(e)| {
        NoBreakInFieldLine(e, i);
      }
    }
    forall i | 0 <= i < |FieldLines(e)|
      ensures FieldLines(e)[i] != ""
    {
      NoBreakInFieldLine(e, i);
    }
  }

  lemma NoBreakInFieldLine(e: Event, i: nat)
    requires Plain(e) && i < |FieldLines(e)|
    ensures '\n' !in FieldLines(e)[i] && FieldLines(e)[i] != ""
  {
    var before := |IdLines(e)| + |EventLines(e)|;
    if i >= before {
      var segs := Segments(e);
      assert FieldLines(e)[i] == "data: " + segs[i - before];
      assert '\n' !in segs[i - before];
    }
  }

  /** No carriage return in the id, the type or the data text. */
  predicate NoCarriageReturn(e: Event) {
    (e.id.Some? ==> '\r' !in e.id.value)
    && (e.kind.Some? ==> '\r' !in e.kind.value)
    && (HasData(e) ==> '\r' !in DataString(e.data.value))
  }

  /** Without a carriage return in its parts, the message has none. */
  lemma NoCarriageReturnInMessage(e: Event)
    requires NoCarriageReturn(e)
    ensures '\r' !in FormatMessage(e)
  {
    FormatIsLines(e);
    var ls := FieldLines(e);
    if HasData(e) {
      SplitLacks(DataString(e.data.value), '\n', '\r');
    }
    forall i | 0 <= i < |ls|
      ensures '\r' !in ls[i]
    {
      var before := |IdLines(e)| + |EventLines(e)|;
      if i >= before {
        assert ls[i] == "data: " + Segments(e)[i - before];
      }
    }
    LinesTextLacks(ls, '\r');
  }

  /** A character absent from a string is absent from its pieces. */
  lemma {:induction false} SplitLacks(s: string, sep: char, c: char)
    requires c !in s
    ensures forall i :: 0 <= i < |Text.Split(s, sep)| ==> c !in Text.Split(s, sep)[i]
  {
    if |s| > 0 {
      assert c !in s[1..] by {
        assert forall k :: 0 <= k < |s[1..]| ==> s[1..][k] == s[k + 1];
      }
      SplitLacks(s[1..], sep, c);
      assert s[0] != c;
    }
  }

  /** A character other than the line feed, absent from every line, is
      absent from the lines written out. */
  lemma {:induction false} LinesTextLacks(ls: seq<string>, c: char)
    requires c != '\n'
    requires forall i :: 0 <= i < |ls| ==> c !in ls[i]
    ensures c !in LinesText(ls)
  {
    if |ls| > 0 {
      assert forall i :: 0 <= i < |ls[1..]| ==> ls[1..][i] == ls[i + 1];
      LinesTextLacks(ls[1..], c);
    }
  }

  // ---------------------------------------------------------------------
  // Reading a message back (section 9.2.5 of the WHATWG HTML Living
  // Standard)
  // ---------------------------------------------------------------------

  /** The stream cut into lines: a line ends at a carriage return followed
      by a line feed, at a lone line feed, or at a lone carriage return.
      The last piece is what follows the last line end. */
  function StreamLines(s: string): (r: seq<string>)
    ensures |r| >= 1
    decreases |s|
  {
    if |s| == 0 then [""]
    else if s[0] == '\r' && |s| >= 2 && s[1] == '\n' then [""] + StreamLines(s[2..])
    else if s[0] == '\r' || s[0] == '\n' then [""] + StreamLines(s[1..])
    else
      var rest := StreamLines(s[1..]);
      [[s[0]] + rest[0]] + rest[1..]
  }

  /** Without carriage returns, the lines are the pieces between line
      feeds. */
  lemma {:induction false} StreamLinesAtLineFeeds(s: string)
    requires '\r' !in s
    ensures StreamLines(s) == Text.Split(s, '\n')
  {
    if |s| > 0 {
      assert '\r' !in s[1..] by {
        assert forall k :: 0 <= k < |s[1..]| ==> s[1..][k] == s[k + 1];
      }
      StreamLinesAtLineFeeds(s[1..]);
      assert s[0] != '\r';
    }
  }

  /** The buffers of the reader: last event id, event type, data lines. */
  datatype Received = Received(id: Option<string>, kind: Option<string>, data: seq<string>)

  const Fresh := Received(None, None, [])

  /** The length of the field name: everything before the first colon. */
  function ColonAt(line: string): (k: nat)
    ensures k <= |line|
    ensures forall i :: 0 <= i < k ==> line[i] != ':'
    ensures k < |line| ==> line[k] == ':'
  {
    if |line| == 0 || line[0] == ':' then 0 else 1 + ColonAt(line[1..])
  }

  /** The field name and value of a line: the value is what follows the
      first colon with one leading space removed, or empty without a
      colon. */
  function Field(line: string): (string, string) {
    var k := ColonAt(line);
    if k == |line| then (line, "")
    else
      var v := line[k + 1..];
      (line[..k], if |v| > 0 && v[0] == ' ' then v[1..] else v)
  }

  /** Processing one field; an id containing NUL and unknown fields are
      ignored. */
  function Absorb(acc: Received, line: string): Received {
    var (name, value) := Field(line);
    if name == "id" then (if '\0' in value then acc else acc.(id := Some(value)))
    else if name == "event" then acc.(kind := Some(value))
    else if name == "data" then acc.(data := acc.data + [value])
    else acc
  }

  /** The lines of one event, up to the blank line that dispatches it. */
  function Read(lines: seq<string>, acc: Received): Received {
    if |lines| == 0 || |lines[0]| == 0 then acc else Read(lines[1..], Absorb(acc, lines[0]))
  }

  /** The event a blank line dispatches: its type and its data. */
  datatype Dispatched = Dispatched(kind: string, data: string)

  /** Dispatching the buffers: nothing when no data line was read;
      otherwise the type, `message` when none or empty was given, and the
      data lines joined with line feeds. */
  function Dispatch(got: Received): (r: Option<Dispatched>)
    ensures r.Some? <==> |got.data| > 0
    ensures r.Some? ==> r.value.kind != ""
    ensures r.Some? && got.kind.Some? && got.kind.value != "" ==> r.value.kind == got.kind.value
  {
    if |got.data| == 0 then None
    else
      var kind := if got.kind.Some? && got.kind.value != "" then got.kind.value else "message";
      Some(Dispatched(kind, Text.Join(got.data, '\n')))
  }

  /** Field lines of the given name and value read back as such. */
  lemma FieldOf(name: string, value: string, line: string)
    requires ':' !in name && line == name + ": " + value
    ensures Field(line) == (name, value)
  {
    var k := ColonAt(line);
    assert line[|name|] == ':';
    assert forall i :: 0 <= i < |name| ==> line[i] == name[i];
    assert k == |name|;
    assert line[..k] == name;
    assert line[k + 1..] == " " + value;
  }

  /** An id line sets the last event id. */
  lemma AbsorbId(acc: Received, v: string)
    requires '\0' !in v
    ensures Absorb(acc, "id: " + v) == acc.(id := Some(v))
  {
    FieldOf("id", v, "id: " + v);
  }

  /** An event line sets the event type. */
  lemma AbsorbEvent(acc: Received, v: string)
    ensures Absorb(acc, "event: " + v) == acc.(kind := Some(v))
  {
    FieldOf("event", v, "event: " + v);
  }

  /** A data line adds its value to the data buffer. */
  lemma AbsorbData(acc: Received, v: string)
    ensures Absorb(acc, "data: " + v) == acc.(data := acc.data + [v])
  {
    FieldOf("data", v, "data: " + v);
  }

  /** A non-blank line is absorbed and reading goes on. */
  lemma ReadOn(line: string, rest: seq<string>, acc: Received)
    requires line != ""
    ensures Read([line] + rest, acc) == Read(rest, Absorb(acc, line))
  {
    assert ([line] + rest)[1..] == rest;
  }

  /** Reading data lines appends their values. */
  lemma {:induction false} ReadDataLines(segs: seq<string>, acc: Received, rest: seq<string>)
    ensures Read(DataFieldLines(segs) + rest, acc) == Read(rest, acc.(data := acc.data + segs))
  {
    if |segs| == 0 {
      NoDataLines(acc, rest);
    } else {
      var next := acc.(data := acc.data + [segs[0]]);
      ReadDataStep(segs, acc, rest);
      ReadDataLines(segs[1..], next, rest);
      AppendFirst(acc, segs);
    }
  }

  lemma NoDataLines(acc: Received, rest: seq<string>)
    ensures Read(DataFieldLines([]) + rest, acc) == Read(rest, acc.(data := acc.data + []))
  {
    assert DataFieldLines([]) + rest == rest;
    assert acc.data + [] == acc.data;
  }

  lemma AppendFirst(acc: Received, segs: seq<string>)
    requires |segs| > 0
    ensures var next := acc.(data := acc.data + [segs[0]]);
      next.(data := next.data + segs[1..]) == acc.(data := acc.data + segs)
  {
    assert (acc.data + [segs[0]]) + segs[1..] == acc.data + segs;
  }

  /** The first data line read: its value joins the data buffer. */
  lemma ReadDataStep(segs: seq<string>, acc: Received, rest: seq<string>)
    requires |segs| > 0
    ensures Read(DataFieldLines(segs) + rest, acc)
      == Read(DataFieldLines(segs[1..]) + rest, acc.(data := acc.data + [segs[0]]))
  {
    var line := "data: " + segs[0];
    assert DataFieldLines(segs) + rest == [line] + (DataFieldLines(segs[1..]) + rest) by {
      assert DataFieldLines(segs) == [line] + DataFieldLines(segs[1..]);
    }
    ReadOn(line, DataFieldLines(segs[1..]) + rest, acc);
    AbsorbData(acc, segs[0]);
  }

  /** The message's lines grouped as the reader takes them. */
  lemma MessageParts(e: Event)
    requires Plain(e)
    ensures Text.Split(FormatMessage(e), '\n') ==
      IdLines(e) + (EventLines(e) + (DataFieldLines(Segments(e)) + ["", ""]))
  {
    MessageLines(e);
    var a, b, c := IdLines(e), EventLines(e), DataFieldLines(Segments(e));
    assert FieldLines(e) == a + b + c;
    Text.Assoc(a + b, c, ["", ""]);
    Text.Assoc(a, b, c + ["", ""]);
  }

  /** Read at line feeds, the serialised event fills the buffers with its
      truthy id, its truthy type and the lines of its data text. */
  lemma ReadBuffers(e: Event)
    requires Plain(e)
    ensures var got := Read(Text.Split(FormatMessage(e), '\n'), Fresh);
      && got.id == (if Truthy(e.id) then e.id else None)
      && got.kind == (if Truthy(e.kind) then e.kind else None)
      && (|got.data| > 0 <==> HasData(e))
      && (HasData(e) ==> Text.Join(got.data, '\n') == DataString(e.data.value))
  {
    MessageParts(e);
    var tail := DataFieldLines(Segments(e)) + ["", ""];
    var afterId := if Truthy(e.id) then Fresh.(id := e.id) else Fresh;
    var afterEvent := if Truthy(e.kind) then afterId.(kind := e.kind) else afterId;
    if Truthy(e.id) {
      AbsorbId(Fresh, e.id.value);
      ReadOn("id: " + e.id.value, EventLines(e) + tail, Fresh);
    } else {
      assert IdLines(e) + (EventLines(e) + tail) == EventLines(e) + tail;
    }
    assert Read(IdLines(e) + (EventLines(e) + tail), Fresh) == Read(EventLines(e) + tail, afterId);
    if Truthy(e.kind) {
      AbsorbEvent(afterId, e.kind.value);
      ReadOn("event: " + e.kind.value, tail, afterId);
    } else {
      assert EventLines(e) + tail == tail;
    }
    assert Read(EventLines(e) + tail, afterId) == Read(tail, afterEvent);
    ReadDataLines(Segments(e), afterEvent, ["", ""]);
    assert afterEvent.data + Segments(e) == Segments(e);
    if HasData(e) {
      Text.JoinSplit(DataString(e.data.value), '\n');
    }
  }

  /** A reader that receives a serialised event without carriage returns
      keeps its truthy id as the last event id and dispatches exactly when
      the event has data: an event of its truthy type, or `message`, whose
      data is exactly the data text. */
  lemma ReadBack(e: Event)
    requires Plain(e) && NoCarriageReturn(e)
    ensures var got := Read(StreamLines(FormatMessage(e)), Fresh);
      && got.id == (if Truthy(e.id) then e.id else None)
      && (Dispatch(got).Some? <==> HasData(e))
      && (HasData(e) ==>
            Dispatch(got) == Some(Dispatched(if Truthy(e.kind) then e.kind.value else "message", DataString(e.data.value))))
  {
    NoCarriageReturnInMessage(e);
    StreamLinesAtLineFeeds(FormatMessage(e));
    ReadBuffers(e);
  }

  /** A carriage return in a string's data cuts it short: the serialiser
      splits the data at line feeds only, so `a`, a carriage return and
      `b` go out on one `data:` line; the reader ends that line at the
      carriage return, dispatches `a` alone, and ignores `b` as a field it
      does not know. */
  lemma CarriageReturnCutsData(a: string, b: string)
    requires '\r' !in a && '\n' !in a
    requires '\r' !in b && '\n' !in b && ':' !in b && b != ""
    requires b != "id" && b != "event" && b != "data"
    ensures var e := Event(None, None, Some(Str(a + "\r" + b)));
      && Plain(e) && HasData(e)
      && Dispatch(Read(StreamLines(FormatMessage(e)), Fresh)) == Some(Dispatched("message", a))
      && a != DataString(e.data.value)
  {
    var d := a + "\r" + b;
    var e := Event(None, None, Some(Str(d)));
    CutMessage(a, b);
    CutLines(a, b);
    var got := Fresh.(data := [a]);
    ReadOn("data: " + a, [b] + ["", ""], Fresh);
    AbsorbData(Fresh, a);
    ReadOn(b, ["", ""], got);
    UnknownField(got, b);
    assert Read(["", ""], got) == got;
    assert |d| > |a|;
  }

  /** The message of the example: one `data:` line holding the carriage
      return, and the blank line. */
  lemma CutMessage(a: string, b: string)
    requires '\n' !in a && '\n' !in b
    ensures FormatMessage(Event(None, None, Some(Str(a + "\r" + b)))) == ("data: " + a) + ("\r" + b + "\n\n")
  {
    var d := a + "\r" + b;
    var e := Event(None, None, Some(Str(d)));
    assert '\n' !in d;
    Text.SplitNoSep(d, '\n');
    assert Segments(e) == [d];
    assert DataLines([d]) == "data: " + d + "\n";
  }

  /** The lines of the example message. */
  lemma CutLines(a: string, b: string)
    requires '\r' !in a && '\n' !in a
    requires '\r' !in b && '\n' !in b && b != ""
    ensures StreamLines(("data: " + a) + ("\r" + b + "\n\n")) == [("data: " + a)] + ([b] + ["", ""])
  {
    var first := "data: " + a;
    var rest := "\r" + b + "\n\n";
    assert '\r' !in first && '\n' !in first;
    LinesAfterCarriageReturn(b);
    StreamLinesWord(first, rest);
    assert first + "" == first;
    assert ([""] + ([b] + ["", ""]))[1..] == [b] + ["", ""];
  }

  /** A carriage return before a word and two line feeds: an empty line,
      the word, and the blank line. */
  lemma LinesAfterCarriageReturn(b: string)
    requires '\r' !in b && '\n' !in b && b != ""
    ensures StreamLines("\r" + b + "\n\n") == [""] + ([b] + ["", ""])
  {
    var s := "\r" + b + "\n\n";
    assert s[1] == b[0];
    assert s[1..] == b + "\n\n";
    assert StreamLines("\n\n") == ["", "", ""] by {
      assert "\n\n"[1..] == "\n";
      assert "\n"[1..] == "";
    }
    StreamLinesWord(b, "\n\n");
    assert b + "" == b;
  }

  /** A line without a colon that is not `id`, `event` or `data` names no
      field the reader knows. */
  lemma UnknownField(acc: Received, b: string)
    requires ':' !in b && b != "id" && b != "event" && b != "data"
    ensures Absorb(acc, b) == acc
  {
    assert ColonAt(b) == |b|;
  }

  /** A word without line ends joins the first line. */
  lemma {:induction false} StreamLinesWord(w: string, s: string)
    requires '\r' !in w && '\n' !in w
    ensures StreamLines(w + s) == [w + StreamLines(s)[0]] + StreamLines(s)[1..]
  {
    if |w| > 0 {
      assert '\r' !in w[1..] && '\n' !in w[1..] by {
        assert forall k :: 0 <= k < |w[1..]| ==> w[1..][k] == w[k + 1];
      }
      StreamLinesWord(w[1..], s);
      StreamLinesCons(w[0], w[1..] + s);
      assert [w[0]] + (w[1..] + s) == w + s;
      assert [w[0]] + (w[1..] + StreamLines(s)[0]) == w + StreamLines(s)[0];
    } else {
      var r := StreamLines(s);
      assert w + s == s;
      assert w + r[0] == r[0];
      assert [r[0]] + r[1..] == r;
    }
  }

  /** A character that ends no line joins the first line. */
  lemma StreamLinesCons(c: char, s: string)
    requires c != '\r' && c != '\n'
    ensures StreamLines([c] + s) == [[c] + StreamLines(s)[0]] + StreamLines(s)[1..]
  {
    assert ([c] + s)[1..] == s;
  }


  // ---------------------------------------------------------------------
  // The connection map
  // ---------------------------------------------------------------------

  type Stream = nat

  /** `connections`: group id to its set of streams. */
  type Streams = map<string, set<Stream>>

  /** No group is kept with an empty set. */
  predicate NonEmptyGroups(reg: Streams) {
    forall g :: g in reg ==> reg[g] != {}
  }

  /** `addConnection(groupId, stream)`: the set is created on demand. */
  function AddConnection(reg: Streams, g: string, s: Stream): (r: Streams)
    ensures g in r && s in r[g]
    ensures r[g] == (if g in reg then reg[g] else {}) + {s}
    ensures forall h :: h != g ==> (h in r <==> h in reg) && (h in r ==> r[h] == reg[h])
    ensures NonEmptyGroups(reg) ==> NonEmptyGroups(r)
  {
    reg[g := (if g in reg then reg[g] else {}) + {s}]
  }

  /** The group's entry set to `ss`, or deleted when `ss` is empty. */
  function Place(reg: Streams, g: string, ss: set<Stream>): (r: Streams)
    ensures g in r <==> ss != {}
    ensures g in r ==> r[g] == ss
    ensures forall h :: h != g ==> (h in r <==> h in reg) && (h in r ==> r[h] == reg[h])
  {
    if ss == {} then reg - {g} else reg[g := ss]
  }

  /** `removeConnection(groupId, stream)`: nothing for an unknown group;
      otherwise the stream leaves and an emptied group is deleted. */
  function RemoveConnection(reg: Streams, g: string, s: Stream): (r: Streams)
    ensures g !in reg ==> r == reg
    ensures g in reg ==> (g in r <==> reg[g] - {s} != {}) && (g in r ==> r[g] == reg[g] - {s})
    ensures forall h :: h != g ==> (h in r <==> h in reg) && (h in r ==> r[h] == reg[h])
    ensures NonEmptyGroups(reg) ==> NonEmptyGroups(r)
  {
    if g !in reg then reg else Place(reg, g, reg[g] - {s})
  }

  /** Removing a stream just added gives back the map it was added to. */
  lemma RemoveUndoesAdd(reg: Streams, g: string, s: Stream)
    requires NonEmptyGroups(reg) && (g in reg ==> s !in reg[g])
    ensures RemoveConnection(AddConnection(reg, g, s), g, s) == reg
  {
    var r := RemoveConnection(AddConnection(reg, g, s), g, s);
    if g in reg {
      assert reg[g] + {s} - {s} == reg[g];
    }
    assert r.Keys == reg.Keys;
  }

  /** `getConnectionCount(groupId)`: the size of the set, 0 for an unknown
      group. */
  function ConnectionCount(reg: Streams, g: string): (n: nat)
    ensures n == 0 <==> g !in reg || reg[g] == {}
  {
    if g in reg then |reg[g]| else 0
  }

  /** A new stream counts once more, a removed one once less. */
  lemma CountFollowsAddAndRemove(reg: Streams, g: string, s: Stream)
    requires g in reg ==> s !in reg[g]
    ensures ConnectionCount(AddConnection(reg, g, s), g) == ConnectionCount(reg, g) + 1
    ensures ConnectionCount(RemoveConnection(AddConnection(reg, g, s), g, s), g) == ConnectionCount(reg, g)
  {
    var added := AddConnection(reg, g, s);
    if g in reg {
      assert added[g] - {s} == reg[g];
    } else {
      assert added[g] - {s} == {};
    }
  }

  /** `getActiveGroups()`: the groups of the map. */
  function ActiveGroups(reg: Streams): (r: set<string>)
    ensures NonEmptyGroups(reg) ==> forall g :: g in r <==> ConnectionCount(reg, g) > 0
  {
    reg.Keys
  }

  // ---------------------------------------------------------------------
  // Broadcast, heartbeat and cleanup
  // ---------------------------------------------------------------------

  /** The map after the listed groups have each lost their `dead` streams,
      a group being deleted when that empties it. A group none of whose
      streams is dead is left as it is. */
  function PruneGroups(reg: Streams, groups: set<string>, dead: set<Stream>): Streams {
    map g | g in reg && (g !in groups || reg[g] * dead == {} || reg[g] - dead != {}) ::
      if g in groups then reg[g] - dead else reg[g]
  }

  /** The state part-way through a broadcast to `g`, once the streams in
      `gone` have been removed. */
  function Partial(reg: Streams, g: string, gone: set<Stream>): Streams
    requires g in reg
  {
    if gone == {} then reg else Place(reg, g, reg[g] - gone)
  }

  /** `broadcastToGroup(groupId, event)`: nothing for an unknown group;
      otherwise the event is serialised once, every stream of the group is
      written to, and each stream whose writer throws is removed with
      `removeConnection` during the loop. */
  method BroadcastToGroup(reg: Streams, g: string, e: Event, failing: set<Stream>)
    returns (r: Streams, payload: Option<string>, written: set<Stream>)
    ensures g !in reg ==> r == reg && payload == None && written == {}
    ensures g in reg ==> payload == Some(FormatMessage(e)) && written == reg[g]
    ensures r == PruneGroups(reg, {g}, failing)
    ensures NonEmptyGroups(reg) ==> NonEmptyGroups(r)
  {
    if g !in reg {
      return reg, None, {};
    }
    payload := Some(FormatMessage(e));
    r, written := reg, {};
    var pending := reg[g];
    while pending != {}
      invariant pending <= reg[g] && written == reg[g] - pending
      invariant r == Partial(reg, g, written * failing)
      decreases |pending|
    {
      var s :| s in pending;
      BroadcastStep(reg, g, written, failing, s);
      if s in failing {
        r := RemoveConnection(r, g, s);
      }
      WriteOne(reg[g], pending, written, s);
      written, pending := written + {s}, pending - {s};
    }
    assert written == reg[g];
    PartialIsPrune(reg, g, failing);
    PruneKeepsNonEmpty(reg, {g}, failing);
  }

  /** One stream moves from pending to written: the two still split the
      group, and fewer are pending. */
  lemma WriteOne<T>(all: set<T>, pending: set<T>, written: set<T>, s: T)
    requires s in pending && pending <= all && written == all - pending
    ensures pending - {s} <= all && written + {s} == all - (pending - {s})
    ensures |pending - {s}| < |pending|
  {
  }

  /** Pruning never leaves an empty group behind that was not empty. */
  lemma PruneKeepsNonEmpty(reg: Streams, groups: set<string>, dead: set<Stream>)
    ensures NonEmptyGroups(reg) ==> NonEmptyGroups(PruneGroups(reg, groups, dead))
  {
    var r := PruneGroups(reg, groups, dead);
    if NonEmptyGroups(reg) {
      forall g | g in r
        ensures r[g] != {}
      {
        if g in groups && reg[g] * dead == {} {
          var x :| x in reg[g];
          assert x !in reg[g] * dead;
          assert x in r[g];
        }
      }
    }
  }

  /** Setting an entry and then placing it again is placing it once. */
  lemma PlaceOverwrites(reg: Streams, g: string, x: set<Stream>, y: set<Stream>)
    ensures Place(reg[g := x], g, y) == Place(reg, g, y)
  {
    var lhs := Place(reg[g := x], g, y);
    var rhs := Place(reg, g, y);
    assert lhs.Keys == rhs.Keys;
    forall h | h in lhs
      ensures lhs[h] == rhs[h]
    {
    }
  }

  /** One write of the broadcast loop: a failing stream is removed, a
      working one changes nothing. */
  lemma BroadcastStep(reg: Streams, g: string, written: set<Stream>, failing: set<Stream>, s: Stream)
    requires g in reg && s in reg[g] && s !in written
    ensures (if s in failing then RemoveConnection(Partial(reg, g, written * failing), g, s)
             else Partial(reg, g, written * failing)) == Partial(reg, g, (written + {s}) * failing)
  {
    if s in failing {
      PartialStep(reg, g, written * failing, s);
      assert written * failing + {s} == (written + {s}) * failing;
    } else {
      assert (written + {s}) * failing == written * failing;
    }
  }

  lemma PartialStep(reg: Streams, g: string, gone: set<Stream>, s: Stream)
    requires g in reg && s in reg[g] - gone
    ensures RemoveConnection(Partial(reg, g, gone), g, s) == Partial(reg, g, gone + {s})
  {
    assert reg[g] - gone - {s} == reg[g] - (gone + {s});
    if gone == {} {
      assert gone + {s} == {s};
    } else {
      var x := reg[g] - gone;
      assert s in x;
      assert Partial(reg, g, gone) == reg[g := x];
      assert RemoveConnection(reg[g := x], g, s) == Place(reg[g := x], g, x - {s});
      PlaceOverwrites(reg, g, x, x - {s});
    }
  }

  lemma PartialIsPrune(reg: Streams, g: string, failing: set<Stream>)
    requires g in reg
    ensures Partial(reg, g, reg[g] * failing) == PruneGroups(reg, {g}, failing)
  {
    var lhs := Partial(reg, g, reg[g] * failing);
    var rhs := PruneGroups(reg, {g}, failing);
    assert reg[g] - reg[g] * failing == reg[g] - failing;
    if reg[g] * failing == {} {
      assert reg[g] - failing == reg[g];
    }
    assert lhs.Keys == rhs.Keys;
    forall h | h in lhs
      ensures lhs[h] == rhs[h]
    {
    }
  }

  /** `sendToParticipant(groupId, participantId, event)`: a broadcast to
      the whole group; the participant is not used. */
  method SendToParticipant(reg: Streams, g: string, participantId: string, e: Event, failing: set<Stream>)
    returns (r: Streams, payload: Option<string>, written: set<Stream>)
    ensures g in reg ==> payload == Some(FormatMessage(e)) && written == reg[g]
    ensures r == PruneGroups(reg, {g}, failing)
  {
    r, payload, written := BroadcastToGroup(reg, g, e, failing);
  }

  /** The heartbeat event, carrying the JSON of `{ timestamp }`. */
  function HeartbeatEvent(timestampJson: string): Event {
    Event(None, Some("heartbeat"), Some(Value(timestampJson, true)))
  }

  /** `sendHeartbeat()`: a broadcast of the heartbeat event to every group,
      so each group loses its failing streams (on a map without empty
      groups, what `cleanup` leaves: HeartbeatIsCleanup). */
  method SendHeartbeat(reg: Streams, timestampJson: string, failing: set<Stream>) returns (r: Streams)
    ensures r == PruneGroups(reg, reg.Keys, failing)
  {
    r := reg;
    var todo, done := reg.Keys, {};
    while todo != {}
      invariant todo + done == reg.Keys && todo !! done
      invariant r == PruneGroups(reg, done, failing)
      decreases |todo|
    {
      var g :| g in todo;
      var payload, written;
      r, payload, written := BroadcastToGroup(r, g, HeartbeatEvent(timestampJson), failing);
      PruneStep(reg, done, g, failing);
      MoveOne(todo, done, g);
      todo, done := todo - {g}, done + {g};
    }
  }

  /** Moving one group from the to-do set to the done set keeps their
      union and disjointness, and shrinks the to-do set. */
  lemma MoveOne<T>(todo: set<T>, done: set<T>, g: T)
    requires g in todo && todo !! done
    ensures (todo - {g}) + (done + {g}) == todo + done
    ensures (todo - {g}) !! (done + {g})
    ensures |todo - {g}| < |todo|
  {
  }

  lemma PruneStep(reg: Streams, done: set<string>, g: string, dead: set<Stream>)
    requires g in reg && g !in done
    ensures PruneGroups(PruneGroups(reg, done, dead), {g}, dead) == PruneGroups(reg, done + {g}, dead)
  {
    var lhs := PruneGroups(PruneGroups(reg, done, dead), {g}, dead);
    var rhs := PruneGroups(reg, done + {g}, dead);
    assert lhs.Keys == rhs.Keys;
    forall h | h in lhs
      ensures lhs[h] == rhs[h]
    {
    }
  }

  /** `cleanup()`: each group keeps its working streams (those whose writer
      can be taken) and is deleted when none is left. */
  function Cleanup(reg: Streams, broken: set<Stream>): (r: Streams)
    ensures forall g :: g in r <==> g in reg && reg[g] - broken != {}
    ensures forall g :: g in r ==> r[g] == reg[g] - broken
    ensures NonEmptyGroups(r)
  {
    map g | g in reg && reg[g] - broken != {} :: reg[g] - broken
  }

  /** On a map without empty groups, a heartbeat over streams failing as
      `failing` leaves what a cleanup with those streams broken leaves. */
  lemma HeartbeatIsCleanup(reg: Streams, failing: set<Stream>)
    requires NonEmptyGroups(reg)
    ensures PruneGroups(reg, reg.Keys, failing) == Cleanup(reg, failing)
  {
    var lhs := PruneGroups(reg, reg.Keys, failing);
    var rhs := Cleanup(reg, failing);
    assert lhs.Keys == rhs.Keys;
  }

  /** A second cleanup with the same broken streams changes nothing. */
  lemma CleanupIdempotent(reg: Streams, broken: set<Stream>)
    ensures Cleanup(Cleanup(reg, broken), broken) == Cleanup(reg, broken)
  {
    var once := Cleanup(reg, broken);
    var twice := Cleanup(once, broken);
    forall g | g in once
      ensures g in twice && twice[g] == once[g]
    {
      assert once[g] - broken == once[g];
    }
    assert once.Keys == twice.Keys;
  }

  /** After a cleanup, a broadcast over the same broken streams finds none
      to remove. */
  lemma BroadcastAfterCleanupKeepsAll(reg: Streams, g: string, broken: set<Stream>)
    ensures PruneGroups(Cleanup(reg, broken), {g}, broken) == Cleanup(reg, broken)
  {
    var c := Cleanup(reg, broken);
    var p := PruneGroups(c, {g}, broken);
    if g in c {
      assert c[g] * broken == {};
      assert c[g] - broken == c[g];
    }
    assert p.Keys == c.Keys;
  }
}

=== FILE: tables.dfy ===
/** Database tables as sequences of rows: the single-row lookup
    (`SELECT … WHERE … LIMIT 1`) and the filtering (`SELECT … WHERE …`,
    `DELETE … WHERE NOT …`) that the services' queries reduce to. */
module Tables {
  import opened Wrappers

  /** The first row satisfying `p`. */
  function FirstWhere<T(==)>(rows: seq<T>, p: T -> bool): (r: Option<T>)
    ensures r.None? <==> forall i :: 0 <= i < |rows| ==> !p(rows[i])
    ensures r.Some? ==> r.value in rows && p(r.value)
    ensures r.Some? ==> exists i :: 0 <= i < |rows| && rows[i] == r.value && forall j :: 0 <= j < i ==> !p(rows[j])
  {
    if |rows| == 0 then None
    else if p(rows[0]) then Some(rows[0])
    else
      var r := FirstWhere(rows[1..], p);
      assert forall i :: 1 <= i < |rows| ==> rows[i] == rows[1..][i - 1];
      if r.Some? then
        var i :| 0 <= i < |rows[1..]| && rows[1..][i] == r.value && forall j :: 0 <= j < i ==> !p(rows[1..][j]);
        assert rows[i + 1] == r.value;
        r
      else r
  }

  /** The position of the first row satisfying `p`, when there is one. */
  function IndexWhere<T>(rows: seq<T>, p: T -> bool): (k: nat)
    requires exists i :: 0 <= i < |rows| && p(rows[i])
    ensures k < |rows| && p(rows[k])
    ensures forall j :: 0 <= j < k ==> !p(rows[j])
  {
    if p(rows[0]) then 0
    else
      var i :| 0 <= i < |rows| && p(rows[i]);
      assert p(rows[1..][i - 1]);
      var k := IndexWhere(rows[1..], p);
      assert forall j :: 1 <= j <= k ==> rows[j] == rows[1..][j - 1];
      1 + k
  }

  /** The rows satisfying `p`, in order. */
  function Filter<T(==,!new)>(rows: seq<T>, p: T -> bool): (r: seq<T>)
    ensures forall x {:trigger x in r} :: x in r <==> x in rows && p(x)
    ensures |r| <= |rows|
  {
    if |rows| == 0 then []
    else if p(rows[0]) then [rows[0]] + Filter(rows[1..], p)
    else Filter(rows[1..], p)
  }

  /** The number of rows satisfying `p`: `SELECT COUNT(*) … WHERE …`. */
  function Count<T>(rows: seq<T>, p: T -> bool): (n: nat)
    ensures n <= |rows|
    ensures n == 0 <==> forall i :: 0 <= i < |rows| ==> !p(rows[i])
  {
    if |rows| == 0 then 0
    else
      assert forall i :: 1 <= i < |rows| ==> rows[i] == rows[1..][i - 1];
      (if p(rows[0]) then 1 else 0) + Count(rows[1..], p)
  }

  /** Filtering keeps exactly the counted rows; filtering on the negation
      (`DELETE … WHERE p`) keeps the others. */
  lemma {:induction false} FilterCount<T(!new)>(rows: seq<T>, p: T -> bool, q: T -> bool)
    requires forall x :: q(x) == !p(x)
    ensures |Filter(rows, p)| == Count(rows, p)
    ensures |Filter(rows, q)| == |rows| - Count(rows, p)
  {
    if |rows| > 0 {
      FilterCount(rows[1..], p, q);
    }
  }
}

=== FILE: template_filters.dfy ===
/** The pure filters the template service registers
    (src/services/template.service.ts): `truncate`, `capitalize`,
    `activityStatus` and `participantCount`. */
module TemplateFilters {
  import opened Text

  /** `truncate(text, length)`: unchanged when empty or short enough,
      otherwise the first `length` characters and an ellipsis of three dots.
      `substring` treats a negative length as 0. */
  function Truncate(text: string, length: int): (r: string)
    ensures |text| == 0 || |text| <= length ==> r == text
    ensures |text| > 0 && |text| > length ==>
      var keep := if length < 0 then 0 else length;
      && |r| == keep + 3
      && StartsWith(text, r[..keep])
      && EndsWith(r, "...")
  {
    if |text| == 0 || |text| <= length then text
    else text[..if length < 0 then 0 else length] + "..."
  }

  /** A truncated text never has more than `length + 3` characters (for a
      non-negative `length`), and what precedes the dots is the text's
      start. */
  lemma TruncateBound(text: string, length: nat)
    ensures |Truncate(text, length)| <= length + 3
    ensures |Truncate(text, length)| <= |text| || |Truncate(text, length)| == length + 3
  {
  }

  /** `capitalize(text)`: the empty string unchanged, otherwise the first
      character upper-cased and the rest untouched. */
  function Capitalize(text: string): (r: string)
    ensures |text| == 0 ==> r == text
    ensures |text| > 0 ==> StartsWith(r, UpperFirst(text[0])) && r[|UpperFirst(text[0])|..] == text[1..]
    ensures |r| == if |text| > 0 && text[0] == '\U{00DF}' then |text| + 1 else |text|
  {
    if |text| == 0 then text else CapitalizeFirst(text)
  }

  /** Capitalising twice changes nothing more. */
  lemma CapitalizeIdempotent(text: string)
    ensures Capitalize(Capitalize(text)) == Capitalize(text)
  {
    if |text| > 0 {
      var once := Capitalize(text);
      var head := UpperFirst(text[0]);
      assert once[0] == head[0];
      UpperCharIdempotent(text[0]);
      assert UpperFirst(once[0]) == [once[0]];
      assert once == [once[0]] + once[1..];
    }
  }

  /** `activityStatus(status)`: the German label of the four known statuses,
      anything else passed through. */
  function ActivityStatusLabel(status: string): (r: string)
    ensures status == "setup" ==> r == "Vorbereitung"
    ensures status == "active" ==> r == "Aktiv"
    ensures status == "paused" ==> r == "Pausiert"
    ensures status == "completed" ==> r == "Abgeschlossen"
    ensures status !in {"setup", "active", "paused", "completed"} ==> r == status
  {
    if status == "setup" then "Vorbereitung"
    else if status == "active" then "Aktiv"
    else if status == "paused" then "Pausiert"
    else if status == "completed" then "Abgeschlossen"
    else status
  }

  /** The four labels are distinct, so the label of a known status
      identifies it. */
  lemma ActivityStatusLabelInjective(a: string, b: string)
    requires a in {"setup", "active", "paused", "completed"}
    requires b in {"setup", "active", "paused", "completed"}
    requires ActivityStatusLabel(a) == ActivityStatusLabel(b)
    ensures a == b
  {
  }

  /** `participantCount(count)` */
  function ParticipantCount(count: int): (r: string)
    ensures EndsWith(r, " Teilnehmer")
    ensures r[..|r| - |" Teilnehmer"|] == IntToString(count)
  {
    if count == 1 then "1 Teilnehmer" else IntToString(count) + " Teilnehmer"
  }
}

=== FILE: text.dfy ===
/** String operations of JavaScript that the services rely on, stated once
    over `string` (a sequence of `char`): decimal conversion, `padStart`,
    `split` on one character or on runs of whitespace, `join`, `trim` and
    the regex-based trimming of a repeated character. */
module Text {

  // ---------------------------------------------------------------------
  // Character classes
  // ---------------------------------------------------------------------

  predicate IsDigit(c: char) {
    '0' <= c <= '9'
  }

  predicate IsLowerAscii(c: char) {
    'a' <= c <= 'z'
  }

  predicate IsUpperAscii(c: char) {
    'A' <= c <= 'Z'
  }

  /** `[a-zA-Z0-9]` */
  predicate IsAsciiAlnum(c: char) {
    IsDigit(c) || IsLowerAscii(c) || IsUpperAscii(c)
  }

  /** `[a-z0-9]`, the character class of slugs */
  predicate IsLowerAlnum(c: char) {
    IsDigit(c) || IsLowerAscii(c)
  }

  /** The class `\s` of JavaScript regular expressions: the WhiteSpace and
      LineTerminator code points of ECMAScript. `String.prototype.trim`
      removes exactly these. */
  predicate IsJsSpace(c: char) {
    || c == '\t' || c == '\n' || c == '\U{000B}' || c == '\U{000C}' || c == '\r'
    || c == ' ' || c == '\U{00A0}' || c == '\U{1680}'
    || ('\U{2000}' <= c <= '\U{200A}')
    || c == '\U{2028}' || c == '\U{2029}' || c == '\U{202F}' || c == '\U{205F}'
    || c == '\U{3000}' || c == '\U{FEFF}'
  }

  /** ASCII upper-case letters to lower case; every other character unchanged. */
  function LowerAscii(c: char): (r: char)
    ensures IsUpperAscii(c) ==> IsLowerAscii(r)
    ensures !IsUpperAscii(c) ==> r == c
  {
    if IsUpperAscii(c) then (c as int + 32) as char else c
  }

  /** ASCII lower-case letters to upper case; every other character unchanged. */
  function UpperAscii(c: char): (r: char)
    ensures IsLowerAscii(c) ==> IsUpperAscii(r) && LowerAscii(r) == c
    ensures !IsLowerAscii(c) ==> r == c
  {
    if IsLowerAscii(c) then (c as int - 32) as char else c
  }

  /** `toLowerCase` of one character, for ASCII, the Latin-1 letters
      U+00C0..U+00DE (except the multiplication sign U+00D7), which map to
      the letter 32 code points above, and the capital Y with diaeresis
      U+0178, whose small letter is the Latin-1 U+00FF. */
  function LowerChar(c: char): (r: char)
    ensures IsUpperAscii(c) ==> r == LowerAscii(c)
    ensures IsLowerAlnum(c) || c == '_' ==> r == c
  {
    if IsUpperAscii(c) then LowerAscii(c)
    else if '\U{00C0}' <= c <= '\U{00DE}' && c != '\U{00D7}' then (c as int + 32) as char
    else if c == '\U{0178}' then '\U{00FF}'
    else c
  }

  /** The single-character `toUpperCase` mapping, for ASCII, the Latin-1
      letters U+00E0..U+00FE (except the division sign U+00F7), which map
      to the letter 32 code points below, and the two Latin-1 letters whose
      capitals lie outside Latin-1: U+00FF to U+0178 and the micro sign
      U+00B5 to the Greek capital mu U+039C. The sharp s has no
      single-character capital and is kept here; UpperFirst expands it. */
  function UpperChar(c: char): (r: char)
    ensures IsLowerAscii(c) ==> r == UpperAscii(c)
    ensures c as int < 0x80 && !IsLowerAscii(c) ==> r == c
    ensures c as int >= 0x80 ==> r as int >= 0x80
    ensures r == '\U{00DF}' <==> c == '\U{00DF}'
  {
    if IsLowerAscii(c) then UpperAscii(c)
    else if '\U{00E0}' <= c <= '\U{00FE}' && c != '\U{00F7}' then (c as int - 32) as char
    else if c == '\U{00FF}' then '\U{0178}'
    else if c == '\U{00B5}' then '\U{039C}'
    else c
  }

  /** `toUpperCase` of a one-character string: `SS` for the sharp s
      U+00DF, otherwise the single upper-case character. */
  function UpperFirst(c: char): (r: string)
    ensures 1 <= |r| <= 2
    ensures |r| == 2 <==> c == '\U{00DF}'
  {
    if c == '\U{00DF}' then "SS" else [UpperChar(c)]
  }

  /** Upper-casing an upper-case character changes nothing. */
  lemma UpperCharIdempotent(c: char)
    ensures UpperChar(UpperChar(c)) == UpperChar(c)
  {
  }

  /** On the modelled letters the two case mappings undo each other:
      lowering an upper-cased character gives it back, and upper-casing a
      lowered one gives it back, whenever the mapping changed it. The
      micro sign is the exception: its capital is the Greek capital mu,
      whose small letter is the Greek mu U+03BC, not the micro sign. */
  lemma CaseRoundTrip(c: char)
    ensures UpperChar(c) != c && c != '\U{00B5}' ==> LowerChar(UpperChar(c)) == c
    ensures LowerChar(c) != c ==> UpperChar(LowerChar(c)) == c
  {
  }

  /** `s.charAt(0).toUpperCase() + s.slice(1)`: the first character is
      replaced by its upper case, one character or, for the sharp s, two;
      the rest is kept. */
  function CapitalizeFirst(s: string): (r: string)
    ensures |s| == 0 ==> r == ""
    ensures |s| > 0 ==> StartsWith(r, UpperFirst(s[0])) && r[|UpperFirst(s[0])|..] == s[1..]
    ensures |r| == if |s| > 0 && s[0] == '\U{00DF}' then |s| + 1 else |s|
  {
    if |s| == 0 then s else UpperFirst(s[0]) + s[1..]
  }

  /** `s.toLowerCase()` restricted to ASCII, which is also what SQLite's
      `LOWER()` does. */
  function LowerAsciiString(s: string): (r: string)
    ensures |r| == |s|
    ensures forall i :: 0 <= i < |s| ==> r[i] == LowerAscii(s[i])
  {
    seq(|s|, i requires 0 <= i < |s| => LowerAscii(s[i]))
  }

  // ---------------------------------------------------------------------
  // Decimal numbers
  // ---------------------------------------------------------------------

  function DigitChar(d: nat): (c: char)
    requires d < 10
    ensures IsDigit(c)
  {
    ('0' as int + d) as char
  }

  function DigitValue(c: char): (d: nat)
    requires IsDigit(c)
    ensures d < 10 && DigitChar(d) == c
  {
    c as int - '0' as int
  }

  /** `String(n)` for a non-negative integer: decimal digits without
      leading zeros. */
  function NatToString(n: nat): (s: string)
    ensures |s| > 0
    ensures forall i :: 0 <= i < |s| ==> IsDigit(s[i])
    ensures |s| > 1 ==> s[0] != '0'
    decreases n
  {
    if n < 10 then [DigitChar(n)] else NatToString(n / 10) + [DigitChar(n % 10)]
  }

  predicate AllDigits(s: string) {
    forall i :: 0 <= i < |s| ==> IsDigit(s[i])
  }

  /** The value of a string of decimal digits, most significant first. */
  function ParseDigits(s: string): nat
    requires AllDigits(s)
  {
    if |s| == 0 then 0 else ParseDigits(s[..|s| - 1]) * 10 + DigitValue(s[|s| - 1])
  }

  /** Reading back the decimal text of `n` gives `n`. */
  lemma {:induction false} ParseNatToString(n: nat)
    ensures ParseDigits(NatToString(n)) == n
    decreases n
  {
    var s := NatToString(n);
    if n < 10 {
      assert s[..0] == [];
    } else {
      ParseNatToString(n / 10);
      assert s[..|s| - 1] == NatToString(n / 10);
    }
  }

  /** Distinct numbers have distinct decimal texts. */
  lemma NatToStringInjective(a: nat, b: nat)
    requires NatToString(a) == NatToString(b)
    ensures a == b
  {
    ParseNatToString(a);
    ParseNatToString(b);
  }

  /** `String(i)` for any integer. */
  function IntToString(i: int): (s: string)
    ensures |s| > 0
    ensures i >= 0 <==> s[0] != '-'
  {
    if i < 0 then "-" + NatToString(-i) else NatToString(i)
  }

  /** `s.padStart(width, c)` with a one-character pad. */
  function PadStart(s: string, width: nat, c: char): (r: string)
    ensures |s| >= width ==> r == s
    ensures |s| < width ==> |r| == width && r[width - |s|..] == s
    ensures forall i :: 0 <= i < |r| - |s| ==> r[i] == c
  {
    if |s| >= width then s else seq(width - |s|, _ => c) + s
  }

  // ---------------------------------------------------------------------
  // Prefixes and suffixes
  // ---------------------------------------------------------------------

  /** Concatenation regrouped; the steps a proof names when the solver
      would otherwise search for them. */
  lemma Assoc<T>(a: seq<T>, b: seq<T>, c: seq<T>)
    ensures (a + b) + c == a + (b + c)
  {
  }

  predicate StartsWith(s: string, prefix: string) {
    |prefix| <= |s| && s[..|prefix|] == prefix
  }

  predicate EndsWith(s: string, suffix: string) {
    |suffix| <= |s| && s[|s| - |suffix|..] == suffix
  }

  /** `s.slice(0, n)`: the first `n` characters, or all of a shorter
      string. */
  function Take(s: string, n: nat): (r: string)
    ensures |r| <= n && StartsWith(s, r)
    ensures |s| <= n ==> r == s
    ensures |s| >= n ==> |r| == n
  {
    if |s| <= n then s else s[..n]
  }

  /** Drops the longest prefix whose characters all satisfy `p`. */
  function DropWhile(s: string, p: char -> bool): (r: string)
    ensures |r| <= |s| && r == s[|s| - |r|..]
    ensures forall i :: 0 <= i < |s| - |r| ==> p(s[i])
    ensures |r| > 0 ==> !p(r[0])
    ensures |s| > 0 && p(s[0]) ==> |r| < |s|
  {
    if |s| == 0 || !p(s[0]) then s
    else
      var t := DropWhile(s[1..], p);
      assert s[1..][|s| - 1 - |t|..] == s[|s| - |t|..];
      assert forall i :: 1 <= i < |s| - |t| ==> s[i] == s[1..][i - 1];
      t
  }

  /** Drops the longest suffix whose characters all satisfy `p`. */
  function DropLastWhile(s: string, p: char -> bool): (r: string)
    ensures |r| <= |s| && r == s[..|r|]
    ensures forall i :: |r| <= i < |s| ==> p(s[i])
    ensures |r| > 0 ==> !p(r[|r| - 1])
  {
    if |s| == 0 || !p(s[|s| - 1]) then s else DropLastWhile(s[..|s| - 1], p)
  }

  /** The number of leading characters `DropWhile` removes. */
  function LeadCount(s: string, p: char -> bool): (n: nat)
    ensures n <= |s|
    ensures forall i :: 0 <= i < n ==> p(s[i])
    ensures n < |s| ==> !p(s[n])
  {
    |s| - |DropWhile(s, p)|
  }

  /** Both ends stripped: `trim()` for `p == IsJsSpace`, and the regex
      replace `/^c+|c+$/g` by the empty string for `p == (x => x == c)`.
      The result is the piece of `s` starting after its leading run, and
      everything after it satisfies `p`. */
  function TrimWhile(s: string, p: char -> bool): (r: string)
    ensures |r| > 0 ==> !p(r[0]) && !p(r[|r| - 1])
    ensures LeadCount(s, p) + |r| <= |s|
    ensures r == s[LeadCount(s, p)..LeadCount(s, p) + |r|]
    ensures forall i :: LeadCount(s, p) + |r| <= i < |s| ==> p(s[i])
  {
    var a := DropWhile(s, p);
    var r := DropLastWhile(a, p);
    InnerPiece(s, |s| - |a|, r, p);
    r
  }

  /** A prefix of a suffix of `s` is a slice of `s`, and what follows the
      prefix within the suffix follows it within `s`. */
  lemma InnerPiece(s: string, k: nat, r: string, p: char -> bool)
    requires k <= |s| && |r| <= |s| - k && r == s[k..][..|r|]
    requires forall i :: |r| <= i < |s| - k ==> p(s[k..][i])
    ensures r == s[k..k + |r|]
    ensures forall i :: k + |r| <= i < |s| ==> p(s[i])
  {
    forall i | k + |r| <= i < |s|
      ensures p(s[i])
    {
      assert s[i] == s[k..][i - k];
    }
  }

  /** Trimming is the identity on a string whose ends do not satisfy `p`. */
  lemma TrimWhileNoop(s: string, p: char -> bool)
    requires |s| == 0 || (!p(s[0]) && !p(s[|s| - 1]))
    ensures TrimWhile(s, p) == s
  {
  }

  /** `s.trim()` */
  function Trim(s: string): string {
    TrimWhile(s, IsJsSpace)
  }

  // ---------------------------------------------------------------------
  // split and join
  // ---------------------------------------------------------------------

  /** `s.split(sep)` with a one-character separator: the pieces between
      consecutive occurrences of `sep`, always at least one. */
  function Split(s: string, sep: char): (parts: seq<string>)
    ensures |parts| >= 1
    ensures forall i :: 0 <= i < |parts| ==> sep !in parts[i]
  {
    if |s| == 0 then [""]
    else
      var rest := Split(s[1..], sep);
      if s[0] == sep then [""] + rest else [[s[0]] + rest[0]] + rest[1..]
  }

  /** `parts.join(sep)` with a one-character separator. */
  function Join(parts: seq<string>, sep: char): string {
    if |parts| == 0 then ""
    else if |parts| == 1 then parts[0]
    else parts[0] + [sep] + Join(parts[1..], sep)
  }

  /** Joining the pieces of a split with the same separator gives back the
      original string. */
  lemma {:induction false} JoinSplit(s: string, sep: char)
    ensures Join(Split(s, sep), sep) == s
  {
    if |s| > 0 {
      var rest := Split(s[1..], sep);
      JoinSplit(s[1..], sep);
      if s[0] == sep {
        assert Split(s, sep) == [""] + rest;
        assert s == [sep] + s[1..];
      } else {
        assert Split(s, sep) == [[s[0]] + rest[0]] + rest[1..];
        if |rest| == 1 {
          assert s == [s[0]] + s[1..];
        } else {
          assert Join(rest, sep) == rest[0] + [sep] + Join(rest[1..], sep);
          assert s == [s[0]] + s[1..];
        }
      }
    }
  }

  /** A string without the separator splits into itself. */
  lemma {:induction false} SplitNoSep(s: string, sep: char)
    requires sep !in s
    ensures Split(s, sep) == [s]
  {
    if |s| > 0 {
      SplitNoSep(s[1..], sep);
      assert [s[0]] + s[1..] == s;
    }
  }

  /** Splitting `a + sep + b`, where `a` has no separator, yields `a`
      followed by the pieces of `b`. */
  lemma {:induction false} SplitAfterPiece(a: string, sep: char, b: string)
    requires sep !in a
    ensures Split(a + [sep] + b, sep) == [a] + Split(b, sep)
  {
    if |a| == 0 {
      assert a + [sep] + b == [sep] + b;
      assert ([sep] + b)[1..] == b;
    } else {
      SplitAfterPiece(a[1..], sep, b);
      assert (a + [sep] + b)[1..] == a[1..] + [sep] + b;
      assert [a[0]] + a[1..] == a;
    }
  }

  /** Splitting a join of separator-free pieces gives back the pieces. */
  lemma {:induction false} SplitJoin(parts: seq<string>, sep: char)
    requires |parts| >= 1
    requires forall i :: 0 <= i < |parts| ==> sep !in parts[i]
    ensures Split(Join(parts, sep), sep) == parts
  {
    if |parts| == 1 {
      SplitNoSep(parts[0], sep);
    } else {
      SplitJoin(parts[1..], sep);
      SplitAfterPiece(parts[0], sep, Join(parts[1..], sep));
      assert [parts[0]] + parts[1..] == parts;
    }
  }

  /** `s.split(/p+/)` for a character class `p`: the pieces between maximal
      runs of characters satisfying `p`. A leading run yields an empty first
      piece and a trailing run an empty last piece, as in JavaScript. */
  function SplitOnRuns(s: string, p: char -> bool): (parts: seq<string>)
    ensures |parts| >= 1
    ensures forall i, j :: 0 <= i < |parts| && 0 <= j < |parts[i]| ==> !p(parts[i][j])
    decreases |s|
  {
    if |s| == 0 then [""]
    else if p(s[0]) then [""] + SplitOnRuns(DropWhile(s, p), p)
    else
      var rest := SplitOnRuns(s[1..], p);
      [[s[0]] + rest[0]] + rest[1..]
  }

  /** Every character of every piece is a character of `s`, so a property
      of all of `s`'s characters holds of the pieces' characters. */
  lemma {:induction false} SplitOnRunsKeeps(s: string, p: char -> bool, q: char -> bool)
    requires forall i :: 0 <= i < |s| ==> q(s[i])
    ensures forall i, j :: 0 <= i < |SplitOnRuns(s, p)| && 0 <= j < |SplitOnRuns(s, p)[i]| ==> q(SplitOnRuns(s, p)[i][j])
    decreases |s|
  {
    if |s| > 0 {
      if p(s[0]) {
        SplitOnRunsKeeps(DropWhile(s, p), p, q);
      } else {
        SplitOnRunsKeeps(s[1..], p, q);
      }
    }
  }

  /** A word-counting automaton: the number of positions where a maximal run
      of characters outside `p` starts. `inWord` says whether the character
      before `s` was such a character. */
  function WordStarts(s: string, p: char -> bool, inWord: bool): nat {
    if |s| == 0 then 0
    else if p(s[0]) then WordStarts(s[1..], p, false)
    else (if inWord then 0 else 1) + WordStarts(s[1..], p, true)
  }

  /** A run of separator characters contributes no word starts. */
  lemma {:induction false} WordStartsSkipRun(s: string, p: char -> bool, inWord: bool)
    requires |s| > 0 && p(s[0])
    ensures WordStarts(s, p, inWord) == WordStarts(DropWhile(s, p), p, false)
    decreases |s|
  {
    if |s[1..]| > 0 && p(s[1]) {
      WordStartsSkipRun(s[1..], p, false);
    }
  }

  /** The number of pieces of `SplitOnRuns` counted by word starts. */
  predicate PiecesCounted(s: string, p: char -> bool) {
    |SplitOnRuns(s, p)| == WordStarts(s, p, true) + 1 + (if |s| > 0 && p(s[|s| - 1]) then 1 else 0)
  }

  lemma {:induction false} SplitOnRunsCount(s: string, p: char -> bool)
    ensures PiecesCounted(s, p)
    decreases |s|
  {
    if |s| > 0 {
      if p(s[0]) {
        SplitOnRunsCount(DropWhile(s, p), p);
        CountAfterRun(s, p);
      } else {
        SplitOnRunsCount(s[1..], p);
        CountAfterChar(s, p);
      }
    }
  }

  /** A leading run of separators closes an empty piece. */
  lemma CountAfterRun(s: string, p: char -> bool)
    requires |s| > 0 && p(s[0]) && PiecesCounted(DropWhile(s, p), p)
    ensures PiecesCounted(s, p)
  {
    var d := DropWhile(s, p);
    WordStartsSkipRun(s, p, true);
    if |d| > 0 {
      assert d[|d| - 1] == s[|s| - 1];
    }
  }

  /** A leading word character joins the first piece. */
  lemma CountAfterChar(s: string, p: char -> bool)
    requires |s| > 0 && !p(s[0]) && PiecesCounted(s[1..], p)
    ensures PiecesCounted(s, p)
  {
    if |s| > 1 {
      assert s[1..][|s| - 2] == s[|s| - 1];
    }
  }

  /** For a non-empty string that starts and ends outside `p`, the pieces
      of `split(/p+/)` are exactly its maximal runs. */
  lemma SplitOnRunsCountsWords(s: string, p: char -> bool)
    requires |s| > 0 && !p(s[0]) && !p(s[|s| - 1])
    ensures |SplitOnRuns(s, p)| == WordStarts(s, p, false)
  {
    SplitOnRunsCount(s, p);
  }

  /** A leading run of separators contributes no word starts. */
  lemma {:induction false} WordStartsLeading(s: string, k: nat, p: char -> bool)
    requires k <= |s|
    requires forall i :: 0 <= i < k ==> p(s[i])
    ensures WordStarts(s, p, false) == WordStarts(s[k..], p, false)
  {
    if k > 0 {
      WordStartsLeading(s[1..], k - 1, p);
      assert s[1..][k - 1..] == s[k..];
    }
  }

  /** A trailing run of separators contributes no word starts. */
  lemma {:induction false} WordStartsTrailing(s: string, n: nat, p: char -> bool, inWord: bool)
    requires n <= |s|
    requires forall i :: n <= i < |s| ==> p(s[i])
    ensures WordStarts(s, p, inWord) == WordStarts(s[..n], p, inWord)
    decreases |s|
  {
    if |s| > 0 {
      if n == 0 {
        WordStartsTrailing(s[1..], 0, p, false);
      } else {
        WordStartsTrailing(s[1..], n - 1, p, !p(s[0]));
        assert s[..n][1..] == s[1..][..n - 1];
      }
    }
  }

  /** Trimming separators from both ends keeps the number of words. */
  lemma TrimKeepsWordStarts(s: string, p: char -> bool)
    ensures WordStarts(s, p, false) == WordStarts(TrimWhile(s, p), p, false)
  {
    var k := LeadCount(s, p);
    var t := TrimWhile(s, p);
    WordStartsLeading(s, k, p);
    WordStartsTrailing(s[k..], |t|, p, false);
    assert s[k..][..|t|] == t;
  }
}

=== FILE: url_routing.dfy ===
/** Group URLs (src/services/url.service.ts): classifying a request path as
    a short URL (`/gruppe-<short id>`) or a semantic URL
    (`/<workshop slug>/<group slug>`), generating a group's URLs, and
    deciding the redirect to the lobby (`.../vorraum`). The database lookups
    behind a classified path are reduced to the predicate the semantic
    query filters on. */
module UrlRouting {
  import opened Wrappers
  import opened Text
  import Slugify
  import Crypto

  predicate IsSlash(c: char) {
    c == '/'
  }

  /** `path.replace(/^\/+|\/+$/g, '')` */
  function CleanPath(path: string): (r: string)
    ensures |r| > 0 ==> r[0] != '/' && r[|r| - 1] != '/'
  {
    TrimWhile(path, IsSlash)
  }

  /** `cleanPath.split('/')` */
  function Segments(path: string): (r: seq<string>)
    ensures |r| >= 1
  {
    Split(CleanPath(path), '/')
  }

  const ShortPrefix: string := "gruppe-"

  /** How `resolveUrl` reads a path before it queries the database. */
  datatype PathForm =
    | ShortForm(shortId: string)
    | SemanticForm(workshopSlug: string, groupSlug: string)
    | NoForm

  /** The classification in `resolveUrl`: a single segment `gruppe-X` with a
      valid short id X is a short URL; otherwise at least two segments whose
      first two are valid slugs form a semantic URL (later segments are
      ignored); anything else resolves to nothing. */
  function ClassifyPath(path: string): (r: PathForm)
    ensures r.ShortForm? <==>
      var s := Segments(path);
      |s| == 1 && StartsWith(s[0], ShortPrefix) && Crypto.IsValidShortId(s[0][|ShortPrefix|..])
    ensures r.ShortForm? ==> Segments(path) == [ShortPrefix + r.shortId]
    ensures r.SemanticForm? ==>
      var s := Segments(path);
      && |s| >= 2 && s[0] == r.workshopSlug && s[1] == r.groupSlug
      && Slugify.IsValidSlug(r.workshopSlug) && Slugify.IsValidSlug(r.groupSlug)
    ensures r.NoForm? ==>
      var s := Segments(path);
      !(|s| >= 2 && Slugify.IsValidSlug(s[0]) && Slugify.IsValidSlug(s[1]))
  {
    var s := Segments(path);
    if |s| == 1 && StartsWith(s[0], ShortPrefix) && Crypto.IsValidShortId(s[0][|ShortPrefix|..]) then
      assert s[0] == ShortPrefix + s[0][|ShortPrefix|..];
      ShortForm(s[0][|ShortPrefix|..])
    else if |s| >= 2 && |s[0]| > 0 && |s[1]| > 0 && Slugify.IsValidSlug(s[0]) && Slugify.IsValidSlug(s[1]) then
      SemanticForm(s[0], s[1])
    else
      NoForm
  }

  // ---------------------------------------------------------------------
  // generateUrls
  // ---------------------------------------------------------------------

  /** The URL variants of one workshop group. */
  datatype GroupUrl = GroupUrl(
    workshopSlug: string,
    groupSlug: string,
    shortId: string,
    fullSemanticUrl: string,
    shortUrl: string,
    lobbyUrl: string)

  /** `slug_override || writingGroup.slug`: an empty override counts as
      unset. */
  function EffectiveGroupSlug(slugOverride: Option<string>, writingGroupSlug: string): (r: string)
    ensures slugOverride.Some? && slugOverride.value != "" ==> r == slugOverride.value
    ensures slugOverride.None? || slugOverride == Some("") ==> r == writingGroupSlug
  {
    match slugOverride
    case Some(o) => if o != "" then o else writingGroupSlug
    case None => writingGroupSlug
  }

  /** `generateUrls(workshop, writingGroup, workshopGroup)` */
  function GenerateUrls(workshopSlug: string, writingGroupSlug: string,
                        slugOverride: Option<string>, shortId: string): (u: GroupUrl)
    ensures u.groupSlug == EffectiveGroupSlug(slugOverride, writingGroupSlug)
    ensures u.fullSemanticUrl == "/" + workshopSlug + "/" + u.groupSlug
    ensures u.shortUrl == "/" + ShortPrefix + shortId
    ensures u.lobbyUrl == u.fullSemanticUrl + "/vorraum"
  {
    var g := EffectiveGroupSlug(slugOverride, writingGroupSlug);
    var full := "/" + workshopSlug + "/" + g;
    GroupUrl(workshopSlug, g, shortId, full, "/" + ShortPrefix + shortId, full + "/vorraum")
  }

  /** The filter of the semantic query: the workshop slug matches, and the
      group slug equals the override, or the override is NULL and the group
      slug equals the writing group's slug. */
  predicate SemanticQueryMatches(workshopSlug: string, writingGroupSlug: string,
                                 slugOverride: Option<string>,
                                 requestedWorkshop: string, requestedGroup: string) {
    && workshopSlug == requestedWorkshop
    && (slugOverride == Some(requestedGroup)
        || (slugOverride.None? && writingGroupSlug == requestedGroup))
  }

  // ---------------------------------------------------------------------
  // shouldRedirectToLobby
  // ---------------------------------------------------------------------

  /** `shouldRedirectToLobby(path, isAuthenticated)`: the lobby URL an
      unauthenticated visitor of a two-segment path is sent to, or nothing. */
  function ShouldRedirectToLobby(path: string, isAuthenticated: bool): (r: Option<string>)
    ensures isAuthenticated ==> r.None?
    ensures EndsWith(CleanPath(path), "/vorraum") ==> r.None?
    ensures r.Some? <==>
      var s := Segments(path);
      && !isAuthenticated && !EndsWith(CleanPath(path), "/vorraum")
      && |s| == 2 && |s[0]| > 0 && |s[1]| > 0
    ensures r.Some? ==> r.value == "/" + Segments(path)[0] + "/" + Segments(path)[1] + "/vorraum"
  {
    if isAuthenticated then None
    else
      var clean := CleanPath(path);
      if EndsWith(clean, "/vorraum") then None
      else
        var s := Split(clean, '/');
        if |s| == 1 && StartsWith(s[0], ShortPrefix) then None
        else if |s| == 2 && |s[0]| > 0 && |s[1]| > 0 then Some("/" + s[0] + "/" + s[1] + "/vorraum")
        else None
  }

  // ---------------------------------------------------------------------
  // Round trips between generated URLs and their reading
  // ---------------------------------------------------------------------

  /** A slug that can sit in a path segment. */
  predicate SegmentSafe(s: string) {
    |s| > 0 && '/' !in s
  }

  lemma ValidSlugIsSegmentSafe(s: string)
    requires Slugify.IsValidSlug(s)
    ensures SegmentSafe(s)
  {
    Slugify.SlugPatternEquivalence(s);
    assert forall i :: 0 <= i < |s| ==> s[i] != '/';
  }

  /** The segments of `/a/b/.../z` are `a, b, ..., z`. */
  lemma SegmentsOfJoined(parts: seq<string>)
    requires |parts| >= 1
    requires forall i :: 0 <= i < |parts| ==> SegmentSafe(parts[i])
    ensures Segments("/" + Join(parts, '/')) == parts
  {
    var body := Join(parts, '/');
    JoinFirstLast(parts);
    assert CleanPath("/" + body) == body by {
      var t := "/" + body;
      assert t[1..] == body;
      assert DropWhile(t, IsSlash) == DropWhile(body, IsSlash);
      TrimWhileNoop(body, IsSlash);
    }
    SplitJoin(parts, '/');
  }

  /** The first and last characters of a join of non-empty pieces are those
      of the first and last piece. */
  lemma {:induction false} JoinFirstLast(parts: seq<string>)
    requires |parts| >= 1
    requires forall i :: 0 <= i < |parts| ==> |parts[i]| > 0
    ensures |Join(parts, '/')| > 0
    ensures Join(parts, '/')[0] == parts[0][0]
    ensures Join(parts, '/')[|Join(parts, '/')| - 1] == parts[|parts| - 1][|parts[|parts| - 1]| - 1]
  {
    if |parts| > 1 {
      JoinFirstLast(parts[1..]);
    }
  }

  lemma JoinTwo(a: string, b: string)
    ensures "/" + Join([a, b], '/') == "/" + a + "/" + b
  {
    assert [a, b][1..] == [b];
  }

  lemma JoinThree(a: string, b: string, c: string)
    ensures "/" + Join([a, b, c], '/') == "/" + a + "/" + b + "/" + c
  {
    assert [a, b, c][1..] == [b, c];
    assert [b, c][1..] == [c];
    assert Join([b, c], '/') == b + "/" + c;
    assert Join([a, b, c], '/') == a + "/" + (b + "/" + c);
    assert a + "/" + (b + "/" + c) == a + "/" + b + "/" + c;
  }

  /** A path of at least two segments, the first two valid slugs, reads as
      the semantic form of those two. */
  lemma ClassifySemantic(parts: seq<string>)
    requires |parts| >= 2
    requires forall i :: 0 <= i < |parts| ==> SegmentSafe(parts[i])
    requires Slugify.IsValidSlug(parts[0]) && Slugify.IsValidSlug(parts[1])
    ensures ClassifyPath("/" + Join(parts, '/')) == SemanticForm(parts[0], parts[1])
  {
    SegmentsOfJoined(parts);
  }

  /** The generated semantic URL reads back as the semantic form of the two
      slugs it was built from. */
  lemma SemanticUrlClassifies(workshopSlug: string, writingGroupSlug: string,
                              slugOverride: Option<string>, shortId: string)
    requires Slugify.IsValidSlug(workshopSlug)
    requires Slugify.IsValidSlug(EffectiveGroupSlug(slugOverride, writingGroupSlug))
    ensures var u := GenerateUrls(workshopSlug, writingGroupSlug, slugOverride, shortId);
      ClassifyPath(u.fullSemanticUrl) == SemanticForm(workshopSlug, u.groupSlug)
  {
    var g := EffectiveGroupSlug(slugOverride, writingGroupSlug);
    ValidSlugIsSegmentSafe(workshopSlug);
    ValidSlugIsSegmentSafe(g);
    JoinTwo(workshopSlug, g);
    ClassifySemantic([workshopSlug, g]);
  }

  /** The lobby URL reads as the same semantic form: its third segment is
      ignored. */
  lemma LobbyUrlClassifies(workshopSlug: string, writingGroupSlug: string,
                           slugOverride: Option<string>, shortId: string)
    requires Slugify.IsValidSlug(workshopSlug)
    requires Slugify.IsValidSlug(EffectiveGroupSlug(slugOverride, writingGroupSlug))
    ensures var u := GenerateUrls(workshopSlug, writingGroupSlug, slugOverride, shortId);
      ClassifyPath(u.lobbyUrl) == SemanticForm(workshopSlug, u.groupSlug)
  {
    var g := EffectiveGroupSlug(slugOverride, writingGroupSlug);
    ValidSlugIsSegmentSafe(workshopSlug);
    ValidSlugIsSegmentSafe(g);
    JoinThree(workshopSlug, g, "vorraum");
    var u := GenerateUrls(workshopSlug, writingGroupSlug, slugOverride, shortId);
    assert u.lobbyUrl == "/" + Join([workshopSlug, g, "vorraum"], '/');
    ClassifySemantic([workshopSlug, g, "vorraum"]);
  }

  /** The short URL reads back as the short form of the same id. */
  lemma ShortUrlClassifies(workshopSlug: string, writingGroupSlug: string,
                           slugOverride: Option<string>, shortId: string)
    requires Crypto.IsValidShortId(shortId)
    ensures ClassifyPath(GenerateUrls(workshopSlug, writingGroupSlug, slugOverride, shortId).shortUrl)
         == ShortForm(shortId)
  {
    ShortUrlSegments(shortId);
    var seg := ShortPrefix + shortId;
    assert seg[|ShortPrefix|..] == shortId;
    assert StartsWith(seg, ShortPrefix);
  }

  lemma ShortUrlSegments(shortId: string)
    requires Crypto.IsValidShortId(shortId)
    ensures Segments("/" + ShortPrefix + shortId) == [ShortPrefix + shortId]
  {
    var seg := ShortPrefix + shortId;
    assert '/' !in seg by {
      assert forall i :: 0 <= i < |seg| ==> seg[i] in ShortPrefix || seg[i] in shortId;
    }
    assert Join([seg], '/') == seg;
    assert "/" + ShortPrefix + shortId == "/" + seg;
    SegmentsOfJoined([seg]);
  }

  /** An unauthenticated request for a group's semantic URL is sent to that
      group's lobby URL, and a request for the lobby URL itself is not
      redirected. A group slug `vorraum` is the exception: its semantic URL
      already looks like a lobby URL (see `VorraumGroupIsNotRedirected`). */
  lemma SemanticUrlRedirectsToLobby(workshopSlug: string, groupSlug: string)
    requires SegmentSafe(workshopSlug) && SegmentSafe(groupSlug) && groupSlug != "vorraum"
    ensures var u := GenerateUrls(workshopSlug, groupSlug, None, "");
      && ShouldRedirectToLobby(u.fullSemanticUrl, false) == Some(u.lobbyUrl)
      && ShouldRedirectToLobby(u.lobbyUrl, false) == None
  {
    var u := GenerateUrls(workshopSlug, groupSlug, None, "");
    JoinTwo(workshopSlug, groupSlug);
    SegmentsOfJoined([workshopSlug, groupSlug]);
    var clean := CleanPath(u.fullSemanticUrl);
    assert !EndsWith(clean, "/vorraum") by {
      SegmentCleanPath(u.fullSemanticUrl);
      if EndsWith(clean, "/vorraum") {
        NoSlashEnding(workshopSlug, groupSlug);
      }
    }
    LobbyNotRedirected(workshopSlug, groupSlug);
  }

  /** The clean path of a joined path is the join itself. */
  lemma SegmentCleanPath(path: string)
    ensures CleanPath(path) == Join(Segments(path), '/')
  {
    JoinSplit(CleanPath(path), '/');
  }

  /** `a/b` with slash-free `a` and `b` ends in `/vorraum` only when `b` is
      `vorraum`. */
  lemma NoSlashEnding(a: string, b: string)
    requires SegmentSafe(a) && SegmentSafe(b) && b != "vorraum"
    ensures !EndsWith(Join([a, b], '/'), "/vorraum")
  {
    var j := Join([a, b], '/');
    assert [a, b][1..] == [b];
    assert Join([b], '/') == b;
    assert j == a + "/" + b;
    if |j| >= 8 {
      var k := |j| - 8;
      if |b| >= 8 {
        assert j[k] == b[k - |a| - 1];
      } else if |b| == 7 {
        assert j[k..][1..] == j[k + 1..] == b;
      } else {
        assert j[k] == a[k];
      }
    }
  }

  /** A request for the lobby URL is not redirected. */
  lemma LobbyNotRedirected(workshopSlug: string, groupSlug: string)
    requires SegmentSafe(workshopSlug) && SegmentSafe(groupSlug)
    ensures ShouldRedirectToLobby(GenerateUrls(workshopSlug, groupSlug, None, "").lobbyUrl, false) == None
  {
    var front := workshopSlug + "/" + groupSlug;
    var body := front + "/vorraum";
    assert body[0] == workshopSlug[0];
    assert body[|body| - 1] == 'm';
    LeadingSlashClean(body);
    Assoc("/", workshopSlug, "/");
    Assoc("/", workshopSlug + "/", groupSlug);
    Assoc("/", front, "/vorraum");
    AppendEndsWith(front, "/vorraum");
  }

  lemma AppendEndsWith(s: string, suffix: string)
    ensures EndsWith(s + suffix, suffix)
  {
    assert (s + suffix)[|s|..] == suffix;
  }

  /** The semantic URL of a group whose slug is `vorraum` is taken for a
      lobby URL and not redirected. */
  lemma VorraumGroupIsNotRedirected()
    ensures ShouldRedirectToLobby(GenerateUrls("kurs", "vorraum", None, "").fullSemanticUrl, false) == None
  {
    var body := "kurs/vorraum";
    LeadingSlashClean(body);
    assert GenerateUrls("kurs", "vorraum", None, "").fullSemanticUrl == "/" + body;
    assert body[|body| - 8..] == "/vorraum";
  }

  lemma LeadingSlashClean(body: string)
    requires |body| > 0 && body[0] != '/' && body[|body| - 1] != '/'
    ensures CleanPath("/" + body) == body
  {
    var t := "/" + body;
    assert t[1..] == body;
    assert DropWhile(t, IsSlash) == DropWhile(body, IsSlash);
    TrimWhileNoop(body, IsSlash);
  }

  /** With the override NULL or a non-empty slug, the group slug in the
      generated URLs is one the semantic query finds the group by. */
  lemma GeneratedSlugIsFound(workshopSlug: string, writingGroupSlug: string, slugOverride: Option<string>)
    requires slugOverride != Some("")
    ensures SemanticQueryMatches(workshopSlug, writingGroupSlug, slugOverride,
      workshopSlug, GenerateUrls(workshopSlug, writingGroupSlug, slugOverride, "").groupSlug)
  {
  }

  /** An empty override is treated as unset by `generateUrls` but as set by
      the query, so the generated URL of such a group finds nothing. */
  lemma EmptyOverrideIsNotFound(workshopSlug: string, writingGroupSlug: string)
    requires writingGroupSlug != ""
    ensures !SemanticQueryMatches(workshopSlug, writingGroupSlug, Some(""),
      workshopSlug, GenerateUrls(workshopSlug, writingGroupSlug, Some(""), "").groupSlug)
  {
  }
}

=== FILE: workshops.dfy ===
/** Workshops (src/services/workshop.service.ts): listing with pagination,
    lookup by id and by slug, creation and update under the rule that no
    two workshops share a slug, deletion guarded by running groups, and the
    slug availability check. The `workshops` table is a sequence of rows. */
module Workshops {
  import opened Wrappers
  import Slugify
  import Crypto
  import Pagination
  import opened Tables

  datatype WorkshopStatus = Planning | Active | Closed

  datatype Workshop = Workshop(
    id: string,
    name: string,
    description: Option<string>,
    slug: string,
    status: WorkshopStatus)

  /** The status of a workshop group, as far as deletion cares. */
  datatype GroupStatus = GroupSetup | GroupActive | GroupPaused | GroupClosed

  /** One row of `workshop_groups`, reduced to its id, workshop and
      status. */
  datatype WorkshopGroup = WorkshopGroup(id: string, workshopId: string, status: GroupStatus)

  type Table = seq<Workshop>

  predicate HasId(ws: Table, id: string) {
    exists i :: 0 <= i < |ws| && ws[i].id == id
  }

  predicate UniqueIds(ws: Table) {
    forall i, j :: 0 <= i < j < |ws| ==> ws[i].id != ws[j].id
  }

  /** No two workshops share a slug: the invariant creation and update
      keep. */
  predicate UniqueSlugs(ws: Table) {
    forall i, j :: 0 <= i < j < |ws| ==> ws[i].slug != ws[j].slug
  }

  /** `SELECT slug FROM workshops`, optionally `WHERE id != ?`. */
  function SlugsExcept(ws: Table, excluded: Option<string>): (r: seq<string>)
    ensures forall s :: s in r <==> exists i :: 0 <= i < |ws| && ws[i].slug == s && Some(ws[i].id) != excluded
  {
    if |ws| == 0 then []
    else
      var rest := SlugsExcept(ws[1..], excluded);
      assert forall i :: 1 <= i < |ws| ==> ws[i] == ws[1..][i - 1];
      assert forall s :: s in rest ==> exists i :: 0 <= i < |ws| && ws[i].slug == s && Some(ws[i].id) != excluded by {
        forall s | s in rest
          ensures exists i :: 0 <= i < |ws| && ws[i].slug == s && Some(ws[i].id) != excluded
        {
          var i :| 0 <= i < |ws[1..]| && ws[1..][i].slug == s && Some(ws[1..][i].id) != excluded;
          assert ws[i + 1] == ws[1..][i];
        }
      }
      if Some(ws[0].id) != excluded then [ws[0].slug] + rest else rest
  }

  /** `findById(id)`: nothing for a string that is not a UUID, otherwise
      the row with that id. */
  function FindById(ws: Table, id: string): (r: Option<Workshop>)
    ensures !Crypto.IsValidUUID(id) ==> r.None?
    ensures Crypto.IsValidUUID(id) ==> (r.None? <==> !HasId(ws, id))
    ensures r.Some? ==> r.value in ws && r.value.id == id
  {
    if !Crypto.IsValidUUID(id) then None else FirstWhere(ws, (w: Workshop) => w.id == id)
  }

  /** `findBySlug(slug)`: nothing for an invalid slug, otherwise the row
      with that slug. */
  function FindBySlug(ws: Table, slug: string): (r: Option<Workshop>)
    ensures !Slugify.IsValidSlug(slug) ==> r.None?
    ensures Slugify.IsValidSlug(slug) ==> (r.None? <==> forall i :: 0 <= i < |ws| ==> ws[i].slug != slug)
    ensures r.Some? ==> r.value in ws && r.value.slug == slug
  {
    if !Slugify.IsValidSlug(slug) then None else FirstWhere(ws, (w: Workshop) => w.slug == slug)
  }

  /** With unique slugs, the workshop found by its valid slug is that
      workshop. */
  lemma FindBySlugFindsOwner(ws: Table, k: nat)
    requires UniqueSlugs(ws) && k < |ws|
    requires Slugify.IsValidSlug(ws[k].slug)
    ensures FindBySlug(ws, ws[k].slug) == Some(ws[k])
  {
    var r := FindBySlug(ws, ws[k].slug);
    var i :| 0 <= i < |ws| && ws[i] == r.value;
    assert i == k;
  }

  /** `findAll`: the rows matching the search (a LIKE filter, given as
      `matches`), in the requested order (given by the table's order),
      cut to one page, and the pagination block over all matching rows. */
  function FindAll(ws: Table, matches: Workshop -> bool, page: int, limit: int): (r: (seq<Workshop>, Pagination.Page))
    requires page >= 1 && limit >= 1
    ensures |r.0| <= limit
    ensures forall w :: w in r.0 ==> w in ws && matches(w)
    ensures r.1 == Pagination.Paginate(page, limit, |Filter(ws, matches)|)
  {
    var hits := Filter(ws, matches);
    var rows := Pagination.PageRows(hits, page, limit);
    assert forall w :: w in rows ==> w in hits;
    (rows, Pagination.Paginate(page, limit, |hits|))
  }

  // ---------------------------------------------------------------------
  // create
  // ---------------------------------------------------------------------

  /** `create(data)`: the slug is `data.slug`, or the slug of the name when
      none (or an empty one) is given, made unique against every existing
      slug; the description is stored as NULL when empty; the status is
      'planning'. The id is the UUID generated from `random`. */
  function Create(ws: Table, name: string, description: Option<string>, slug: Option<string>,
                  random: seq<Crypto.Byte>): (r: (Table, Workshop))
    requires |random| == 16 && !HasId(ws, Crypto.GenerateId(random))
    ensures r.0 == ws + [r.1]
    ensures r.1.id == Crypto.GenerateId(random) && Crypto.IsValidUUID(r.1.id)
    ensures r.1.name == name && r.1.status == Planning
    ensures r.1.description == (if description == Some("") then None else description)
    ensures forall w :: w in ws ==> w.slug != r.1.slug
    ensures r.1.slug == Slugify.MakeUniqueSlug(RequestedSlug(name, slug), SlugsExcept(ws, None))
  {
    var base := RequestedSlug(name, slug);
    var unique := Slugify.MakeUniqueSlug(base, SlugsExcept(ws, None));
    var w := Workshop(Crypto.GenerateId(random), name,
                      if description == Some("") then None else description,
                      unique, Planning);
    (ws + [w], w)
  }

  /** `data.slug || slugify(data.name)`. */
  function RequestedSlug(name: string, slug: Option<string>): (r: string)
    ensures slug.Some? && slug.value != "" ==> r == slug.value
    ensures slug.None? || slug == Some("") ==> r == Slugify.Slugify(name)
  {
    if slug.Some? && slug.value != "" then slug.value else Slugify.Slugify(name)
  }

  /** Creating a workshop keeps ids and slugs unique, and the new workshop
      is found by its id. */
  lemma CreateKeepsInvariants(ws: Table, name: string, description: Option<string>, slug: Option<string>,
                              random: seq<Crypto.Byte>)
    requires |random| == 16 && !HasId(ws, Crypto.GenerateId(random))
    requires UniqueIds(ws) && UniqueSlugs(ws)
    ensures var (t, w) := Create(ws, name, description, slug, random);
      UniqueIds(t) && UniqueSlugs(t) && FindById(t, w.id) == Some(w)
  {
    var (t, w) := Create(ws, name, description, slug, random);
    SnocKeepsUnique(ws, w);
    IdFindsRow(t, |ws|);
  }

  /** Appending a row with a new id and a new slug keeps both unique. */
  lemma SnocKeepsUnique(ws: Table, w: Workshop)
    requires UniqueIds(ws) && UniqueSlugs(ws)
    requires !HasId(ws, w.id) && forall v :: v in ws ==> v.slug != w.slug
    ensures UniqueIds(ws + [w]) && UniqueSlugs(ws + [w])
  {
    var t := ws + [w];
    assert forall i :: 0 <= i < |ws| ==> t[i] == ws[i] && ws[i] in ws;
  }

  /** With unique ids, the row found by a row's id is that row. */
  lemma IdFindsRow(ws: Table, k: nat)
    requires UniqueIds(ws) && k < |ws| && Crypto.IsValidUUID(ws[k].id)
    ensures FindById(ws, ws[k].id) == Some(ws[k])
  {
    var f := FindById(ws, ws[k].id).value;
    var i :| 0 <= i < |ws| && ws[i] == f;
    assert i == k;
  }

  /** A slug reported available is taken over unchanged by a creation that
      asks for it. */
  lemma AvailableSlugIsKept(ws: Table, name: string, description: Option<string>, slug: string,
                            random: seq<Crypto.Byte>)
    requires |random| == 16 && !HasId(ws, Crypto.GenerateId(random))
    requires IsSlugAvailable(ws, slug, None)
    ensures Create(ws, name, description, Some(slug), random).1.slug == slug
  {
  }

  // ---------------------------------------------------------------------
  // update
  // ---------------------------------------------------------------------

  /** The optional fields of an update request. */
  datatype WorkshopUpdate = WorkshopUpdate(
    name: Option<string>,
    description: Option<string>,
    slug: Option<string>,
    status: Option<WorkshopStatus>)

  function OrElse<T>(v: Option<T>, d: T): T {
    if v.Some? then v.value else d
  }

  /** `update(id, data)`: nothing for an unknown id; the existing row when
      no field is given; otherwise every given field set, with a given slug
      made unique against the other workshops' slugs, and the row read
      back. */
  function Update(ws: Table, id: string, data: WorkshopUpdate): (r: Option<(Table, Workshop)>)
    requires UniqueIds(ws)
    ensures r.None? <==> FindById(ws, id).None?
    ensures r.Some? && data == WorkshopUpdate(None, None, None, None) ==> r.value == (ws, FindById(ws, id).value)
    ensures r.Some? ==>
      var (t, w) := r.value;
      var old_ := FindById(ws, id).value;
      && |t| == |ws|
      && w in t && w.id == id
      && w.name == OrElse(data.name, old_.name)
      && w.status == OrElse(data.status, old_.status)
      && (data.description.Some? ==> w.description == data.description)
      && (data.description.None? ==> w.description == old_.description)
      && (data.slug.Some? ==> w.slug == Slugify.MakeUniqueSlug(data.slug.value, SlugsExcept(ws, Some(id))))
      && (data.slug.None? ==> w.slug == old_.slug)
      && (forall i :: 0 <= i < |ws| && ws[i].id != id ==> t[i] == ws[i])
  {
    match FindById(ws, id)
    case None => None
    case Some(existing) =>
      if data == WorkshopUpdate(None, None, None, None) then Some((ws, existing))
      else
        var k := IndexWhere(ws, (x: Workshop) => x.id == id);
        var w := Workshop(
          id,
          OrElse(data.name, existing.name),
          if data.description.Some? then data.description else existing.description,
          if data.slug.Some? then Slugify.MakeUniqueSlug(data.slug.value, SlugsExcept(ws, Some(id))) else existing.slug,
          OrElse(data.status, existing.status));
        assert existing == ws[k] by {
          var j :| 0 <= j < |ws| && ws[j] == existing;
        }
        var t := ws[k := w];
        assert t[k] == w;
        Some((t, w))
  }

  /** An update keeps ids and slugs unique. */
  lemma UpdateKeepsInvariants(ws: Table, id: string, data: WorkshopUpdate)
    requires UniqueIds(ws) && UniqueSlugs(ws)
    requires Update(ws, id, data).Some?
    ensures UniqueIds(Update(ws, id, data).value.0) && UniqueSlugs(Update(ws, id, data).value.0)
  {
    var (t, w) := Update(ws, id, data).value;
    if data != WorkshopUpdate(None, None, None, None) {
      var k := IndexWhere(ws, (x: Workshop) => x.id == id);
      assert t == ws[k := w];
      forall i | 0 <= i < |ws| && i != k
        ensures ws[i].slug != w.slug
      {
        if data.slug.Some? {
          assert ws[i].slug in SlugsExcept(ws, Some(id));
        }
      }
      ReplaceKeepsUnique(ws, k, w);
    }
  }

  /** Replacing a row by one with the same id and a slug no other row has
      keeps ids and slugs unique. */
  lemma ReplaceKeepsUnique(ws: Table, k: nat, w: Workshop)
    requires UniqueIds(ws) && UniqueSlugs(ws) && k < |ws| && w.id == ws[k].id
    requires forall i :: 0 <= i < |ws| && i != k ==> ws[i].slug != w.slug
    ensures UniqueIds(ws[k := w]) && UniqueSlugs(ws[k := w])
  {
  }

  // ---------------------------------------------------------------------
  // delete and isSlugAvailable
  // ---------------------------------------------------------------------

  /** A group that blocks deletion of its workshop. */
  predicate Running(g: WorkshopGroup) {
    g.status == GroupActive || g.status == GroupPaused
  }

  /** `delete(id)`: `false` for an unknown id, an error while one of the
      workshop's groups is active or paused, otherwise the row removed and
      `true`. */
  function Delete(ws: Table, groups: seq<WorkshopGroup>, id: string): (r: Result<(Table, bool), string>)
    ensures FindById(ws, id).None? ==> r == Ok((ws, false))
    ensures r.Err? <==> FindById(ws, id).Some? && exists g :: g in groups && g.workshopId == id && Running(g)
    ensures r.Err? ==> r.error == "Cannot delete workshop with active groups"
    ensures r.Ok? && FindById(ws, id).Some? ==> r.value.1 && !HasId(r.value.0, id)
    ensures r.Ok? && FindById(ws, id).Some? ==> forall w :: w in r.value.0 <==> w in ws && w.id != id
  {
    if FindById(ws, id).None? then Ok((ws, false))
    else if exists g :: g in groups && g.workshopId == id && Running(g) then
      Err("Cannot delete workshop with active groups")
    else
      var t := Filter(ws, (w: Workshop) => w.id != id);
      assert forall i :: 0 <= i < |t| ==> t[i] in t;
      Ok((t, true))
  }

  /** `isSlugAvailable(slug, excludeId)`: false for an invalid slug,
      otherwise whether no workshop (other than `excludeId`, when a
      non-empty one is given) has the slug. */
  function IsSlugAvailable(ws: Table, slug: string, excludeId: Option<string>): (r: bool)
    ensures r ==> Slugify.IsValidSlug(slug)
    ensures Slugify.IsValidSlug(slug) ==>
      (r <==> forall i :: 0 <= i < |ws| ==> ws[i].slug != slug || (excludeId.Some? && excludeId.value != "" && ws[i].id == excludeId.value))
  {
    var excluded := if excludeId == Some("") then None else excludeId;
    Slugify.IsValidSlug(slug) && slug !in SlugsExcept(ws, excluded)
  }

  /** Availability and lookup agree: a valid slug is available (with no
      exclusion) exactly when no workshop is found under it. */
  lemma AvailableIffNotFound(ws: Table, slug: string)
    requires Slugify.IsValidSlug(slug)
    ensures IsSlugAvailable(ws, slug, None) <==> FindBySlug(ws, slug).None?
  {
  }
}

=== FILE: wrappers.dfy ===
/** Failure-carrying datatypes shared by every module of the model.
    The services signal errors by throwing or by returning `null`; the
    model returns `Err(...)` or `None` instead. */
module Wrappers {

  /** A value that may be absent, standing for a nullable return. */
  datatype Option<+T> = None | Some(value: T) {
    predicate IsFailure() {
      None?
    }

    function PropagateFailure<U>(): Option<U>
      requires None?
    {
      None
    }

    function Extract(): T
      requires Some?
    {
      value
    }
  }

  /** An optional JavaScript string is truthy when it is present and not
      empty. */
  predicate Truthy(s: Option<string>) {
    s.Some? && s.value != ""
  }

  /** Either a value or the error a service would have thrown. */
  datatype Result<+T, +E> = Ok(value: T) | Err(error: E) {
    predicate IsFailure() {
      Err?
    }

    function PropagateFailure<U>(): Result<U, E>
      requires Err?
    {
      Err(error)
    }

    function Extract(): T
      requires Ok?
    {
      value
    }
  }
}
